=== FILE: README.md ===
# Container and ownership primitives, modelled in Dafny

This project models six independent, single-threaded C++ components and proves
properties of the models.

- **Splay-tree bimap** (`bimap/src`). A set of (left key, right key) pairs in
  which neither column repeats a key. Every pair is one compound node that is
  linked into two intrusive splay trees, one keyed by the left key and one
  keyed by the right key.
  - Each tree hangs below a sentinel (`fake`). The two sentinels point at each
    other through `right`.
  - Files: `element_base.dfy` (node links), `rotations.dfy` (`zig`, `zig_zig`,
    `zig_zag` as pointer rewrites), `intrusive_map.dfy` (one splay tree),
    `iterator.dfy` (the side-flipping iterator), `bimap.dfy` (the two-tree
    façade), `moves.dfy` (moving and swapping whole bimaps).
  - Records live in one arena per side, indexed by integer ids. The ghost
    state is the tree the pointers lay out. The bimap's abstract contents are
    `Rows()`, its pairs in left-key order.
  - Moves and swaps of whole bimaps hand records from one bimap to another,
    so `moves.dfy` keeps all the records they touch in one arena.
- **Reference-counted owning/observing pointers**, in two drafts:
  - `shared_ptr.dfy` (`shared_ptr/src/shared-ptr.h`): blocks start at 1/1, and
    the owners hold one implicit weak reference;
  - `shared_ptr_draft.dfy` (`shared_ptr/shared_ptr.hpp`): blocks start at 0/0,
    and `weak_count` counts only observers.

  Both keep a ledger: the counters are what the live handles dictate. The
  two counting rules are proved to describe the same lifetimes.
- **Block deque** (`deque.dfy`, `deque/deque.hpp`): an array of 8-slot blocks
  with `start`/`finish` slot indices and a ghost element sequence. Covers push,
  pop, indexing, `Expand`, shifting insert and erase, and the iterator steps.
- **Circular intrusive list** (`intrusive_list.dfy`,
  `intrusive-list/intrusive-list.h`): `prev`/`next` links of all nodes in one
  object, ghost lists per sentinel. Covers unlink, `link_before`, transfer,
  push/pop, insert, erase and splice.
- **Optional** (`optional.dfy`, `optional/optional.h`): engaged/empty storage,
  the assignment and swap case analyses, and the comparison operators, under
  which empty sorts below every engaged value.
- **Growable NUL-terminated string**:
  - `string.dfy` (`string/string.cpp` and `include/string.hpp`): capacity
    doubling and halving, `find`/`rfind` through `strstr`, and equality
    through `strcmp`;
  - `string_draft.dfy` (`src/string.cpp`): the earlier version without a
    terminator.

Keys of the bimap and optional values in comparisons are `int` ordered by `<`.
Allocation of a bimap compound node is the counter `next`, since every id from
`next` on is unused. Where the source can throw, the model returns an explicit
outcome: `At`, `Option`, `Lookup`, or a `bool`.

## Model

| member | source | states |
|---|---|---|
| `ElementBase.Bases.Get` | bimap/src/element_base.h:145-151 | the key returned is one the arena stores |
| `ElementBase.Bases.Reset` | bimap/src/element_base.h:132-134 | only `left` of the record is cleared; `right`, `parent` and the keys are unchanged |
| `ElementBase.Bases.LinkChild` | bimap/src/element_base.h:65-74 | exactly the chosen child slot becomes `child`, and a non-null child's parent becomes the record |
| `ElementBase.Bases.RelinkParent` | bimap/src/element_base.h:45-53 | the parent's slot that held the record now holds `other`; no parent means no change |
| `ElementBase.Bases.RelinkParents` | bimap/src/element_base.h:55-63 | the non-null children's parents become the record; nothing else changes |
| `ElementBase.Bases.Swap` | bimap/src/element_base.h:35-43 | any two records exchange tree positions: each parent slot that held one now holds the other, the two exchange their own links, and each claims its children and the record its `right` names (`SwappedLinks`) |
| `ElementBase.SwapIntoEmpty` | bimap/src/element_base.h:20-22 | with a partner whose links are null and that nothing points to, as in the move constructor, the swap is a plain move: the partner takes the record's links and position (`MoveLinks`) |
| `ElementBase.Bases.Replace` | bimap/src/element_base.h:76-90 | `to` takes over parent, left and right; the parent's slot and both children now point at `to`; the old record's fields are untouched (`ReplacedLinks`) |
| `ElementBase.ReplacedFrame` | bimap/src/element_base.h:76-90 | record by record, the only links `replace` changes are those of `to`, of the parent and of the two children |
| `ElementBase.ReplacedHung` | bimap/src/element_base.h:76-90 | `replace` on an element of a map lays out the same tree with `to` in place of the element, still hung below the sentinel |
| `ElementBase.ReplaceLayout` | bimap/src/element_base.h:76-90 | `replace` on any element of a map's tree lays out the same tree with `to` in place of the element, below the same sentinel, and changes only the links of `to`, of the parent and of the two children |
| `ElementBase.Bases.TreeMin` | bimap/src/element_base.h:92-100 | null for a null subtree, otherwise the first node of the subtree in order |
| `ElementBase.Bases.TreeMax` | bimap/src/element_base.h:102-110 | null for a null subtree, otherwise the last node of the subtree in order |
| `ElementBase.Bases.Next` | bimap/src/element_base.h:112-120 | the in-order successor: the element after `node` in the walk, or the sentinel after the last element |
| `ElementBase.Bases.Prev` | bimap/src/element_base.h:122-130 | the in-order predecessor of an element or of the sentinel, null before the first element |
| `ElementBase.SuccessorBelow` | bimap/src/element_base.h:113-115 | with a right subtree, the successor is that subtree's first node |
| `ElementBase.SuccessorAbove` | bimap/src/element_base.h:116-119 | without one, the successor is the parent of the first ancestor that is not a right child |
| `ElementBase.PredecessorBelow` | bimap/src/element_base.h:123-125 | with a left subtree, the predecessor is that subtree's last node |
| `ElementBase.PredecessorAbove` | bimap/src/element_base.h:126-129 | without one, the predecessor is the parent of the first ancestor that is not a left child |
| `ElementBase.WalkDistinct` | bimap/src/element_base.h:112-130 | the positions an iterator visits (elements in order, then the sentinel) never repeat |
| `Rotations.RotatedTree` | bimap/src/intrusive_map.h:16-36 | a rotation keeps the set of nodes and their in-order sequence |
| `Rotations.Rewired` | bimap/src/intrusive_map.h:16-140 | replacing a subtree by one with the same nodes in the same order keeps the whole tree's in-order sequence |
| `Rotations.ZigOnce` | bimap/src/intrusive_map.h:16-36 | the writes of `zig` below a parentless parent are exactly one rotation lifting `child` |
| `Rotations.ZigZigLeftTwice` | bimap/src/intrusive_map.h:41-63 | the writes of `zig_zig` on two left links are the parent's rotation, then the child's |
| `Rotations.ZigZigRightTwice` | bimap/src/intrusive_map.h:64-87 | the same for two right links |
| `Rotations.ZigZagLeftTwice` | bimap/src/intrusive_map.h:93-115 | the writes of `zig_zag` on a right child of a left child are the child's rotation, twice |
| `Rotations.ZigZagRightTwice` | bimap/src/intrusive_map.h:116-139 | the same for a left child of a right child |
| `Rotations.ZigStep` | bimap/src/intrusive_map.h:16-36 | `zig` on a child of the root lifts it to the root and keeps the in-order sequence |
| `Rotations.ZigZigLeftStep` | bimap/src/intrusive_map.h:38-88 | `zig_zig` lifts `child` above parent and grandparent and keeps the in-order sequence |
| `Rotations.ZigZagLeftStep` | bimap/src/intrusive_map.h:90-140 | `zig_zag` lifts `child` above parent and grandparent and keeps the in-order sequence |
| `Rotations.SplayStep` | bimap/src/intrusive_map.h:142-156 | `zig` is chosen with no grandparent, `zig_zig` for same-direction links and `zig_zag` otherwise, and each choice applies |
| `IntrusiveMaps.IntrusiveMap.constructor` | bimap/src/intrusive_map.h:195-196 | an empty tree below a sentinel with null links; the keys stay as they were |
| `IntrusiveMaps.IntrusiveMap.Zig` | bimap/src/intrusive_map.h:16-36 | the link maps after `zig` are `ZigLinks` of those before; keys unchanged |
| `IntrusiveMaps.IntrusiveMap.ZigZig` | bimap/src/intrusive_map.h:38-88 | the link maps after `zig_zig` are `ZigZigLinks` of those before |
| `IntrusiveMaps.IntrusiveMap.ZigZag` | bimap/src/intrusive_map.h:90-140 | the link maps after `zig_zag` are `ZigZagLinks` of those before |
| `IntrusiveMaps.IntrusiveMap.SplayFrom` | bimap/src/intrusive_map.h:142-156 | the loop ends with `child` as the parentless root of a tree with the same in-order sequence, and returns `child` |
| `IntrusiveMaps.IntrusiveMap.Splay` | bimap/src/intrusive_map.h:177-183 | `node` becomes the root hung as `fake.left`; elements, keys and records outside the tree are unchanged |
| `IntrusiveMaps.IntrusiveMap.Merge` | bimap/src/intrusive_map.h:158-175 | the merged tree's in-order sequence is `l` followed by `r`, and it is rooted with a null parent |
| `IntrusiveMaps.IntrusiveMap.Lookup` | bimap/src/intrusive_map.h:238-253 | a read-only descent that returns the node holding the key; on a miss, null with `x_bound`, otherwise the last node visited (the sentinel for an empty tree) |
| `IntrusiveMaps.IntrusiveMap.Find` | bimap/src/intrusive_map.h:233-236 | the result is `end()` exactly when the key is absent, otherwise the element storing the key |
| `IntrusiveMaps.IntrusiveMap.LowerBound` | bimap/src/intrusive_map.h:255-261 | the position of the first key not below the target, `end()` if none |
| `IntrusiveMaps.IntrusiveMap.UpperBound` | bimap/src/intrusive_map.h:263-269 | the position of the first key above the target, `end()` if none |
| `IntrusiveMaps.FirstAtLeast` | bimap/src/intrusive_map.h:255-261 | the index is the first one whose key is not below `k`: every key before it is below |
| `IntrusiveMaps.HitIndex` | bimap/src/intrusive_map.h:255-269 | in sorted keys, the lower bound of a present key is its position and the upper bound the next one |
| `IntrusiveMaps.IntrusiveMap.Begin` | bimap/src/intrusive_map.h:271-276 | the first position of the walk, which is `end()` in an empty map |
| `IntrusiveMaps.IntrusiveMap.End` | bimap/src/intrusive_map.h:278-280 | the sentinel: the last position of the walk and not an element |
| `IntrusiveMaps.IntrusiveMap.Empty` | bimap/src/intrusive_map.h:187-189 | holds exactly when the map has no elements (`fake.left` is null) |
| `IntrusiveMaps.IntrusiveMap.ConnectMap` | bimap/src/intrusive_map.h:191-193 | only the sentinel's `right` link changes, to `other` |
| `IntrusiveMaps.IntrusiveMap.Equals` | bimap/src/intrusive_map.h:282-284 | holds exactly when neither key is below the other, that is, when they are equal |
| `IntrusiveMaps.IntrusiveMap.Insert` | bimap/src/intrusive_map.h:209-221 | `n` becomes the root; the elements and keys gain `n` and its key at the lower-bound position, so the keys stay sorted |
| `IntrusiveMaps.Inserted` | bimap/src/intrusive_map.h:209-218 | hanging `n` in the hole where the search for its key ended puts it between the smaller and the larger keys |
| `IntrusiveMaps.IntrusiveMap.Erase` | bimap/src/intrusive_map.h:223-231 | the elements and keys lose exactly `x` and its key; `x`'s children are nulled |
| `IntrusiveMaps.Erased` | bimap/src/intrusive_map.h:223-231 | merging the root's two subtrees gives the old in-order sequence without the root, still sorted |
| `IntrusiveMaps.IntrusiveMap.Rename` | bimap/src/element_base.h:76-90 | `replace` on an element of a map puts the new record at the same position of the walk; the keys are unchanged |
| `Iterators.Iterator.constructor` | bimap/src/iterator.h:68-69 | the iterator stands at the given record |
| `Iterators.Iterator.Deref` | bimap/src/iterator.h:26-28 | the key at the iterator is the key at the same position of the side's keys |
| `Iterators.Iterator.Inc` | bimap/src/iterator.h:34-37 | moves to the next position of the walk |
| `Iterators.Iterator.PostInc` | bimap/src/iterator.h:39-43 | returns a copy at the old position, and this iterator moves to the next position |
| `Iterators.Iterator.Dec` | bimap/src/iterator.h:45-48 | moves to the previous position of the walk (null before the first element) |
| `Iterators.Iterator.PostDec` | bimap/src/iterator.h:50-54 | returns a copy at the old position, and this iterator moves to the previous position |
| `Iterators.Iterator.Flip` | bimap/src/iterator.h:56-62 | on the sentinel, the other side's sentinel through the cross link; on an element, the same compound element on the other side |
| `Iterators.IncThenDec` | bimap/src/iterator.h:34-48 | from the position after an element, the previous position is that element |
| `Iterators.SamePosition` | bimap/src/iterator.h:64-66 | two iterators are equal exactly when they stand at the same position |
| `Bimaps.Bimap.Bijective` | bimap/src/bimap.h:97-123 | neither column of the rows repeats a key; the left column is the left map's keys and the right column holds exactly the right map's keys |
| `Bimaps.Bimap.constructor` | bimap/src/bimap.h:49-54 | no rows, size 0, and the sentinels are cross-linked |
| `Bimaps.Bimap.Insert` | bimap/src/bimap.h:97-123 | with either key present, nothing changes and `end_left()` is returned; otherwise the pair is added at its left-key position, the size grows by one, and the iterator is at the new element |
| `Bimaps.Bimap.Link` | bimap/src/bimap.h:103-122 | one new compound element is linked into both trees; the rows gain `(l, r)` at its left-key position |
| `Bimaps.Add` | bimap/src/intrusive_map.h:209-221 | one side's registration of a new element: its key is inserted in order, and the cross link is kept |
| `Bimaps.Remove` | bimap/src/intrusive_map.h:223-231 | one side's removal: the element and its key leave their positions, and the cross link is kept |
| `Bimaps.Bimap.EraseNode` | bimap/src/bimap.h:125-131 | the row leaves both trees and the size drops by one |
| `Bimaps.Bimap.EraseLeft` | bimap/src/bimap.h:133-137 | the row at `it` is removed from both sides; the result is the position that followed `it` on the left |
| `Bimaps.Bimap.EraseRight` | bimap/src/bimap.h:139-143 | the row at `it` is removed from both sides; the result is the position that followed `it` on the right |
| `Bimaps.Bimap.EraseLeftKey` | bimap/src/bimap.h:145-151 | true exactly when the left key was present; the row is removed, otherwise nothing changes |
| `Bimaps.Bimap.EraseRightKey` | bimap/src/bimap.h:153-159 | true exactly when the right key was present; the row is removed, otherwise nothing changes |
| `Bimaps.Bimap.EraseLeftRange` | bimap/src/bimap.h:161-166 | the rows from `first` up to `last` are removed, the size drops by their number, and `last` is returned |
| `Bimaps.Bimap.EraseRightRange` | bimap/src/bimap.h:168-173 | the right keys from `first` up to `last` are removed, the size drops by their number, and `last` is returned |
| `Bimaps.Bimap.Clear` | bimap/src/bimap.h:93-95 | no rows and size 0 |
| `Bimaps.Bimap.FindLeft` | bimap/src/bimap.h:175-177 | `end_left()` exactly when the left key is absent, otherwise the element of that row |
| `Bimaps.Bimap.FindRight` | bimap/src/bimap.h:179-181 | `end_right()` exactly when the right key is absent, otherwise the element of that row |
| `Bimaps.Bimap.AtLeft` | bimap/src/bimap.h:183-189 | the paired right key for a present left key, out of range otherwise |
| `Bimaps.Bimap.AtRight` | bimap/src/bimap.h:191-197 | the paired left key for a present right key, out of range otherwise |
| `Bimaps.Bimap.Paired` | bimap/src/bimap.h:183-197 | each row is found by either of its keys |
| `Bimaps.Bimap.LowerBoundLeft` | bimap/src/bimap.h:261-263 | the left position of the first left key not below the target |
| `Bimaps.Bimap.UpperBoundLeft` | bimap/src/bimap.h:265-267 | the left position of the first left key above the target |
| `Bimaps.Bimap.LowerBoundRight` | bimap/src/bimap.h:269-271 | the right position of the first right key not below the target |
| `Bimaps.Bimap.UpperBoundRight` | bimap/src/bimap.h:273-275 | the right position of the first right key above the target |
| `Bimaps.Bimap.BeginLeft` | bimap/src/bimap.h:277-279 | the first left position |
| `Bimaps.Bimap.EndLeft` | bimap/src/bimap.h:281-283 | the left position after every row; not an element |
| `Bimaps.Bimap.BeginRight` | bimap/src/bimap.h:285-287 | the first right position |
| `Bimaps.Bimap.EndRight` | bimap/src/bimap.h:289-291 | the right position after every right key; not an element |
| `Bimaps.Bimap.Empty` | bimap/src/bimap.h:293-295 | holds exactly when there are no rows |
| `Bimaps.Bimap.Size` | bimap/src/bimap.h:297-299 | the number of rows |
| `Bimaps.Exchange` | bimap/src/bimap.h:218-220 | one side of the rebinding: the new record is inserted, the replaced one erased, and the count is unchanged |
| `Bimaps.Substitute` | bimap/src/bimap.h:221-222 | the other side of the rebinding: the new record takes the replaced one's place and key |
| `Bimaps.Bimap.RebindLeft` | bimap/src/bimap.h:213-223 | the row holding the default right key is rebound to the new left key: its old left key disappears and the size is unchanged |
| `Bimaps.Bimap.RebindRight` | bimap/src/bimap.h:244-254 | the row holding the default left key gets the new right key in place; the size is unchanged |
| `Bimaps.Bimap.AtLeftOrDefault` | bimap/src/bimap.h:199-228 | present key: the paired value, nothing changes; otherwise `(key, 0)` is inserted when 0 is not a right key, and the row holding 0 is rebound otherwise |
| `Bimaps.Bimap.AtRightOrDefault` | bimap/src/bimap.h:230-259 | the mirror image by right key, with the default left key 0 |
| `Bimaps.Bimap.Row` | bimap/src/bimap.h:317 | the keys read through the iterator and its flip are the row at that position |
| `Bimaps.Bimap.FlipTwiceLeft` | bimap/src/iterator.h:56-62 | flipping a left position twice returns to it, for elements and for the sentinel |
| `Bimaps.Bimap.FlipTwiceRight` | bimap/src/iterator.h:56-62 | flipping a right position twice returns to it |
| `Bimaps.Compare` | bimap/src/bimap.h:316-320 | one turn of the loop: the rows at the k-th position agree exactly when both keys are equivalent, and both iterators advance |
| `Bimaps.Equal` | bimap/src/bimap.h:311-323 | two bimaps compare equal exactly when their rows, in left order, are the same |
| `Bimaps.NotEqual` | bimap/src/bimap.h:325-327 | the negation of `==` |
| `Moves.TwoBimaps` | bimap/src/bimap.h:50-54 | two empty bimaps in one arena, each with its two sentinels connected (`connect_map`) |
| `Moves.MoveConstruct` | bimap/src/element_base.h:20-22 | the new record takes the old one's place through `swap` (`MovedFrom`); the arena stays closed and gains only the new record |
| `Moves.MoveAssign` | bimap/src/element_base.h:24-29 | no change for self-assignment; otherwise a temporary is move constructed from `src`, swapped with the target and destroyed, which clears only its `left` (`MoveAssigned`) |
| `Moves.StdSwap` | bimap/src/intrusive_map.h:287 | `std::swap` of two records: a move into a temporary, two move assignments and the temporary's destruction (`StdSwapped`) |
| `Moves.SwapMaps` | bimap/src/intrusive_map.h:286-296 | the sentinels are exchanged by `std::swap`, then each sentinel's root gets it as parent (`MapsSwapped`) |
| `Moves.SwapBimapsAsWritten` | bimap/src/bimap.h:301-305 | the left maps and then the right maps are swapped as written (`BimapsSwappedAsWritten`); the arena stays closed |
| `Moves.LeftMapsSwapped` | bimap/src/intrusive_map.h:286-296 | the left maps' swap takes two empty bimaps from stage 0 to stage 6 |
| `Moves.RightMapsSwapped` | bimap/src/intrusive_map.h:286-296 | the right maps' swap takes stage 6 to stage 12 |
| `Moves.TwoBimapsSwappedAsWritten` | bimap/src/bimap.h:301-305 | `bimap::swap` as written takes two empty bimaps from stage 0 to stage 12 |
| `Moves.SwapBreaksSentinels` | bimap/src/bimap.h:301-305 | at stage 6 both right sentinels have parents; at stage 12 every sentinel has a parent, so `flip` misreads every `end`, and each right sentinel's `right` names the other bimap's left sentinel |
| `Moves.MoveBimapAsWritten` | bimap/src/bimap.h:68-72 | each map's sentinel is move constructed from the other bimap's, left then right (`BimapMovedAsWritten`) |
| `Moves.MoveBreaksSentinels` | bimap/src/bimap.h:68-72 | after the move as written the new left sentinel holds the old left tree, but the new right sentinel has a parent (the new left one) and its `right` names the old left sentinel, which has lost its own links except a parent; the new bimap is not connected |
| `Moves.MoveBimap` | bimap/src/bimap.h:68-72 | the intended move: the new sentinels take the trees over and are connected, and the old ones are connected and empty (`BimapMoved`) |
| `Moves.MovedBimapConnected` | bimap/src/bimap.h:68-72 | after the intended move both bimaps are connected; the new one holds the old trees and `flip` treats both of its sentinels as sentinels |
| `Moves.ExchangeTrees` | bimap/src/intrusive_map.h:286-296 | the intended map swap: the sentinels exchange their trees and each root gets its new sentinel as parent (`TreesExchanged`) |
| `Moves.ExchangeKeepsConnected` | bimap/src/intrusive_map.h:286-296 | the intended map swap keeps both bimaps connected, exchanges exactly the two trees and leaves the partner trees alone |
| `Moves.ExchangeTwice` | bimap/src/intrusive_map.h:286-296 | swapping the same two maps twice restores every link |
| `Moves.ExchangesCommute` | bimap/src/bimap.h:301-305 | the swaps of the left and of the right maps commute |
| `Moves.SwapBimaps` | bimap/src/bimap.h:301-305 | the intended bimap swap: left trees, then right trees exchanged (`BimapsSwapped`) |
| `Moves.SwappedBimapsConnected` | bimap/src/bimap.h:301-305 | after the intended swap both bimaps are connected and hold each other's trees |
| `Moves.SwapBimapsTwice` | bimap/src/bimap.h:301-305 | swapping two bimaps twice restores every link |
| `SharedPtrs.Obj.constructor` | shared_ptr/src/shared-ptr.h:235-244 | a new object is alive |
| `SharedPtrs.FreshBlockHasOneOwner` | shared_ptr/src/shared-ptr.h:57-58 | a block at 1/1 is explained by one owner and no observer, and only by that |
| `SharedPtrs.OwnerJoins` | shared_ptr/src/shared-ptr.h:36-38 | `incr_shared` for a new owner keeps the ledger |
| `SharedPtrs.OwnerLeaves` | shared_ptr/src/shared-ptr.h:44-49 | `decr_shared` keeps the ledger; the value dies with the last owner, and the block only if no observer is left |
| `SharedPtrs.ObserverJoins` | shared_ptr/src/shared-ptr.h:40-42 | `incr_weak` for a new observer keeps the ledger |
| `SharedPtrs.ObserverLeaves` | shared_ptr/src/shared-ptr.h:51-55 | `decr_weak` keeps the ledger; the block goes with the last weak reference |
| `SharedPtrs.MakeSharedStartsAtOne` | shared_ptr/src/shared-ptr.h:493-499 | resetting the shared count to 0 and raising it again gives 1/1, explained by one owner |
| `SharedPtrs.ExpiredIffNoOwner` | shared_ptr/src/shared-ptr.h:467-469 | `expired()` holds exactly when no owner is left and exactly when the value is destroyed |
| `SharedPtrs.Adopt` | shared_ptr/src/shared-ptr.h:463-465 | adoption refuses exactly the expired blocks |
| `SharedPtrs.AdoptKeepsLedger` | shared_ptr/src/shared-ptr.h:463-465 | refused adoption means no owner; accepted adoption adds one owner and keeps the ledger |
| `SharedPtrs.Step` | shared_ptr/src/shared-ptr.h:36-55 | any handle event that can happen keeps the ledger |
| `SharedPtrs.RunKeepsLedger` | shared_ptr/src/shared-ptr.h:36-55 | any sequence of handle events keeps the ledger |
| `SharedPtrs.DestroyedStaysDestroyed` | shared_ptr/src/shared-ptr.h:44-49 | once the value is destroyed, no event sequence brings back an owner |
| `SharedPtrs.ReleasedStaysReleased` | shared_ptr/src/shared-ptr.h:51-55 | a released block is never touched again |
| `SharedPtrs.ControlBlock.constructor` | shared_ptr/src/shared-ptr.h:57-58 | the counters start at 1/1 with the value and the block alive |
| `SharedPtrs.ControlBlock.IncrShared` | shared_ptr/src/shared-ptr.h:36-38 | the shared count rises by one |
| `SharedPtrs.ControlBlock.IncrWeak` | shared_ptr/src/shared-ptr.h:40-42 | the weak count rises by one |
| `SharedPtrs.ControlBlock.DestroyData` | shared_ptr/src/shared-ptr.h:71-73 | the managed value is destroyed; the counters are unchanged |
| `SharedPtrs.ControlBlock.DestroyBlock` | shared_ptr/src/shared-ptr.h:75-80 | the block is released, once |
| `SharedPtrs.ControlBlock.DecrWeak` | shared_ptr/src/shared-ptr.h:51-55 | the weak count drops by one, and the block is released at zero |
| `SharedPtrs.ControlBlock.DecrShared` | shared_ptr/src/shared-ptr.h:44-49 | the shared count drops by one; at zero the value is destroyed and the implicit weak reference dropped |
| `SharedPtrs.CreateRegularBlock` | shared_ptr/src/shared-ptr.h:190-206 | on allocation failure no block is returned and the deleter has run on the pointer; otherwise a fresh regular block at 1/1 holds it |
| `SharedPtrs.SharedPtr.UseCountIsOwners` | shared_ptr/src/shared-ptr.h:318-320 | `use_count()` is 0 without a block and otherwise the number of owners, which is positive |
| `SharedPtrs.SharedPtr.Empty` | shared_ptr/src/shared-ptr.h:226-231 | null pointer and null block |
| `SharedPtrs.SharedPtr.FromRaw` | shared_ptr/src/shared-ptr.h:241-244 | a fresh regular block holding the pointer, with use count 1 |
| `SharedPtrs.SharedPtr.Share` | shared_ptr/src/shared-ptr.h:208-215 | shares the given block and raises its shared count when it is non-null |
| `SharedPtrs.SharedPtr.Copy` | shared_ptr/src/shared-ptr.h:256-261 | the same pointer and block, with one owner more |
| `SharedPtrs.SharedPtr.Alias` | shared_ptr/src/shared-ptr.h:246-248 | the given pointer on the other's block, with one owner more |
| `SharedPtrs.SharedPtr.FromWeak` | shared_ptr/src/shared-ptr.h:263-265 | an empty observer gives an empty owner; a live observer gives a new owner of its block and pointer, with the shared count one higher |
| `SharedPtrs.SharedPtr.Move` | shared_ptr/src/shared-ptr.h:267-272 | takes over pointer and block, leaves the source null/null, and changes no count |
| `SharedPtrs.SharedPtr.MoveAlias` | shared_ptr/src/shared-ptr.h:250-254 | takes the block with the given pointer and leaves the source null/null |
| `SharedPtrs.SharedPtr.Destroy` | shared_ptr/src/shared-ptr.h:274-278 | one owner less on the block, if there is one |
| `SharedPtrs.SharedPtr.Swap` | shared_ptr/src/shared-ptr.h:338-341 | exchanges both fields |
| `SharedPtrs.SharedPtr.Assign` | shared_ptr/src/shared-ptr.h:280-289 | copy then swap: this pointer takes the other's fields; the new block gains an owner and the old one loses one |
| `SharedPtrs.SharedPtr.MoveAssign` | shared_ptr/src/shared-ptr.h:291-300 | move then swap: the fields are taken, the source is left empty and the old block loses an owner; self-move changes nothing |
| `SharedPtrs.SharedPtr.UseCount` | shared_ptr/src/shared-ptr.h:318-320 | 0 without a block (`UseCountIsOwners`: otherwise the number of owners, at least 1) |
| `SharedPtrs.SamePointer` | shared_ptr/src/shared-ptr.h:351-354 | `==` compares the stored pointers, so every pointer equals itself |
| `SharedPtrs.SharedPtr.Reset` | shared_ptr/src/shared-ptr.h:322-324 | the pointer ends up empty, with use count 0, and the old block loses an owner |
| `SharedPtrs.SharedPtr.ResetTo` | shared_ptr/src/shared-ptr.h:328-331 | a fresh block for the new pointer with use count 1; the old block loses an owner |
| `SharedPtrs.WeakPtr.ObserverKeepsBlock` | shared_ptr/src/shared-ptr.h:467-469 | an observer's block is alive, and `expired()` holds exactly when the value is destroyed |
| `SharedPtrs.WeakPtr.Empty` | shared_ptr/src/shared-ptr.h:401-403 | null pointer and null block |
| `SharedPtrs.WeakPtr.FromShared` | shared_ptr/src/shared-ptr.h:405-407 | one observer more on the owner's block |
| `SharedPtrs.WeakPtr.Copy` | shared_ptr/src/shared-ptr.h:409-414 | one observer more on the other's block |
| `SharedPtrs.WeakPtr.Move` | shared_ptr/src/shared-ptr.h:416-421 | takes over pointer and block, and leaves the source null/null |
| `SharedPtrs.WeakPtr.Reset` | shared_ptr/src/shared-ptr.h:471-476 | drops this observer's weak reference and forgets the block |
| `SharedPtrs.WeakPtr.Destroy` | shared_ptr/src/shared-ptr.h:431-433 | the destructor runs `reset()` |
| `SharedPtrs.WeakPtr.Swap` | shared_ptr/src/shared-ptr.h:478-481 | exchanges both fields |
| `SharedPtrs.WeakPtr.AssignShared` | shared_ptr/src/shared-ptr.h:435-439 | observes the owner's block; the old block loses an observer |
| `SharedPtrs.WeakPtr.Assign` | shared_ptr/src/shared-ptr.h:441-450 | observes the other's block; the old block loses an observer |
| `SharedPtrs.WeakPtr.MoveAssign` | shared_ptr/src/shared-ptr.h:452-461 | takes the other's fields and leaves it empty; the old block loses an observer; self-move changes nothing |
| `SharedPtrs.WeakPtr.Expired` | shared_ptr/src/shared-ptr.h:467-469 | expired without a block (`ObserverKeepsBlock`: otherwise exactly when the observed value is gone) |
| `SharedPtrs.WeakPtr.Lock` | shared_ptr/src/shared-ptr.h:463-465 | empty when expired, otherwise a new owner on the same block and pointer |
| `SharedPtrs.MakeShared` | shared_ptr/src/shared-ptr.h:493-499 | one fresh inline block holding the value, with use count 1, one owner and counters at 1/1 |
| `SharedPtrDraft.AfterRelease` | shared_ptr/shared_ptr.hpp:67-77 | the release rule of this draft, as counter arithmetic |
| `SharedPtrDraft.FirstOwner` | shared_ptr/shared_ptr.hpp:41-49 | a block at 0/0 raised to one owner is in the ledger |
| `SharedPtrDraft.DraftOwnerJoins` | shared_ptr/shared_ptr.hpp:27-34 | a new owner keeps the ledger |
| `SharedPtrDraft.DraftOwnerLeaves` | shared_ptr/shared_ptr.hpp:67-77 | an owner leaving keeps the ledger; the value dies with the last owner and the block only with no observer |
| `SharedPtrDraft.DraftObserverJoins` | shared_ptr/shared_ptr.hpp:212-224 | a new observer keeps the ledger |
| `SharedPtrDraft.DraftObserverLeaves` | shared_ptr/shared_ptr.hpp:263-270 | an observer leaving keeps the ledger; the block goes when both counts are zero |
| `SharedPtrDraft.CountingRulesAgree` | shared_ptr/shared_ptr.hpp:4-5 | for the same handles, the two drafts agree on the shared count and on the lifetimes, and their weak counts differ by the owners' implicit reference |
| `SharedPtrDraft.DraftStep` | shared_ptr/shared_ptr.hpp:27-77 | every possible handle event keeps this draft's ledger, and an event is refused exactly when no handle could perform it |
| `SharedPtrDraft.DraftsRunInLockstep` | shared_ptr/shared_ptr.hpp:27-77 | from the same handles, the two drafts go through any event sequence with the same owners, observers and lifetimes |
| `SharedPtrDraft.Block.constructor` | shared_ptr/shared_ptr.hpp:4-5 | a new block has both counts at 0 |
| `SharedPtrDraft.Block.DestroyObj` | shared_ptr/shared_ptr.hpp:109 | the value is destroyed; the counts are unchanged |
| `SharedPtrDraft.Block.DestructBlock` | shared_ptr/shared_ptr.hpp:111-115 | the block is released |
| `SharedPtrDraft.Block.Release` | shared_ptr/shared_ptr.hpp:67-77 | one owner less; the value is destroyed at zero, and the block is freed only without observers |
| `SharedPtrDraft.SharedPtr.Empty` | shared_ptr/shared_ptr.hpp:37 | null block and null pointer |
| `SharedPtrDraft.SharedPtr.FromRaw` | shared_ptr/shared_ptr.hpp:41-49 | a fresh block at 0/0 raised to use count 1 |
| `SharedPtrDraft.SharedPtr.FromBlock` | shared_ptr/shared_ptr.hpp:27-34 | a non-null block gains an owner and gives the pointer |
| `SharedPtrDraft.SharedPtr.Copy` | shared_ptr/shared_ptr.hpp:51 | the same block, with one owner more |
| `SharedPtrDraft.SharedPtr.Convert` | shared_ptr/shared_ptr.hpp:53-56 | copies both fields and raises the shared count |
| `SharedPtrDraft.SharedPtr.Move` | shared_ptr/shared_ptr.hpp:58-65 | takes both fields and nulls only the source's block |
| `SharedPtrDraft.SharedPtr.Destroy` | shared_ptr/shared_ptr.hpp:67-77 | one owner less on the block, if there is one |
| `SharedPtrDraft.SharedPtr.Reset` | shared_ptr/shared_ptr.hpp:159-171 | one owner less; both fields are nulled when there was a block |
| `SharedPtrDraft.SharedPtr.Swap` | shared_ptr/shared_ptr.hpp:152-155 | exchanges both fields |
| `SharedPtrDraft.SharedPtr.Assign` | shared_ptr/shared_ptr.hpp:79-83 | copy then swap: the new block gains an owner and the old one loses one |
| `SharedPtrDraft.SharedPtr.MoveAssign` | shared_ptr/shared_ptr.hpp:85-89 | move then swap: the fields are taken, the source loses its block but keeps its pointer field, and the old block loses an owner; self-move changes nothing |
| `SharedPtrDraft.SharedPtr.UseCount` | shared_ptr/shared_ptr.hpp:157 | the block's shared count, read through the block, so only with one |
| `SharedPtrDraft.SharedPtr.ResetTo` | shared_ptr/shared_ptr.hpp:173-177 | a fresh block for the new pointer with use count 1; the old block loses an owner |
| `SharedPtrDraft.WeakPtr.ExpiredIffDestroyed` | shared_ptr/shared_ptr.hpp:252-254 | `expired()` holds exactly when the value is destroyed, and the block is alive |
| `SharedPtrDraft.WeakPtr.Empty` | shared_ptr/shared_ptr.hpp:210 | null block |
| `SharedPtrDraft.WeakPtr.FromShared` | shared_ptr/shared_ptr.hpp:212-215 | one observer more on the owner's block |
| `SharedPtrDraft.WeakPtr.Copy` | shared_ptr/shared_ptr.hpp:217-224 | one observer more on the other's block |
| `SharedPtrDraft.WeakPtr.Destroy` | shared_ptr/shared_ptr.hpp:263-270 | one observer less; the block is freed when both counts are zero |
| `SharedPtrDraft.WeakPtr.Swap` | shared_ptr/shared_ptr.hpp:250 | exchanges the blocks |
| `SharedPtrDraft.WeakPtr.UseCount` | shared_ptr/shared_ptr.hpp:252 | the block's shared count, read through the block, so only with one |
| `SharedPtrDraft.WeakPtr.Expired` | shared_ptr/shared_ptr.hpp:254 | `use_count() == 0` (`ExpiredIffDestroyed`: exactly when the value is destroyed) |
| `SharedPtrDraft.WeakPtr.Lock` | shared_ptr/shared_ptr.hpp:256-259 | empty exactly when the use count is 0, otherwise a new owner on the block |
| `SharedPtrDraft.MakeShared` | shared_ptr/shared_ptr.hpp:186-198 | one fresh inline block holding the value, with use count 1 |
| `Deques.Cursor.constructor` | deque/deque.hpp:496-497 | the iterator stands at the slot, with its block |
| `Deques.Cursor.Increase` | deque/deque.hpp:470-476 | one slot on; the block follows the slot |
| `Deques.Cursor.Decrease` | deque/deque.hpp:478-484 | one slot back; the block follows the slot |
| `Deques.Cursor.Next` | deque/deque.hpp:499-507 | forwards for a forward iterator, backwards for a reverse one |
| `Deques.Cursor.Prev` | deque/deque.hpp:509-517 | the opposite of `++` |
| `Deques.Cursor.Subtract` | deque/deque.hpp:487-494 | the signed number of `++` steps from `other` to this iterator |
| `Deques.SubtractCountsSteps` | deque/deque.hpp:487-494 | after k steps, `Subtract` is k one way and -k the other |
| `Deques.SlotShift` | deque/deque.hpp:347-350 | slot `s + j` is found at block and offset computed from the block of `s` |
| `Deques.CopyTopFits` | deque/deque.hpp:183-189 | the blocks `Expand` moves fit the doubled outer array |
| `Deques.CopyTopAgrees` | deque/deque.hpp:183-189 | the source's `size_t` bound equals the intended one while `finish` has not wrapped |
| `Deques.CopyTopAsWritten` | deque/deque.hpp:183-189 | the last block `Expand` copies, computed in `size_t` as the source does (`CopyTopAgrees`, `CopyTopAsWrittenOverruns`) |
| `Deques.CopyCountAsWritten` | deque/deque.hpp:225-227 | the turns of the copy loops `pos = start_; pos <= finish_`, counted in `size_t` (`CopyCountAgrees`, `CopyLoopAsWrittenOverruns`) |
| `Deques.CopyCountAgrees` | deque/deque.hpp:225-227 | while `finish` has not wrapped, the copy loops visit exactly the element slots |
| `Deques.Deque.constructor` | deque/deque.hpp:210-217 | empty, two blocks, `start == 8` and `finish == start - 1` |
| `Deques.Deque.Fill` | deque/deque.hpp:252-268 | `quantity` copies of the element, from slot 8 of `(quantity / 8 + 1) * 2` blocks |
| `Deques.Deque.Copy` | deque/deque.hpp:218-234 | the same elements, outer size and slots as the other deque, on fresh blocks; an empty deque copies nothing whatever its slots |
| `Deques.Deque.Size` | deque/deque.hpp:303-304 | the number of elements |
| `Deques.Deque.Get` | deque/deque.hpp:346-350 | element `pos`, found at slot `start + pos` |
| `Deques.Deque.At` | deque/deque.hpp:358-365 | out of range exactly when `pos >= size()`, otherwise element `pos` |
| `Deques.Deque.Set` | deque/deque.hpp:346-350 | writing through `operator[]` changes element `pos` only |
| `Deques.Deque.Expand` | deque/deque.hpp:177-194 | the outer size doubles, the elements are unchanged, every slot moves by the same amount (`Moved`) and the first slot keeps its offset in its block |
| `Deques.Deque.PushBack` | deque/deque.hpp:306-318 | the value becomes the last element; the others are unchanged; without expansion `finish` steps forward, with it the slots move as `Expand` moves them |
| `Deques.Deque.PushFront` | deque/deque.hpp:320-332 | the value becomes the first element; the others are unchanged; without expansion `start` steps back; with it the blocks double, the slots move as `Expand` moves them and `start` is the slot before the moved first element |
| `Deques.Deque.PopBack` | deque/deque.hpp:334-338 | the last element is removed and `finish` steps back |
| `Deques.Deque.PopFront` | deque/deque.hpp:340-344 | the first element is removed, `start` steps forward and the blocks and `finish` stay |
| `Deques.Deque.Insert` | deque/deque.hpp:428-444 | `e` is inserted at position `index` and the later elements shift one place |
| `Deques.Deque.ShiftIn` | deque/deque.hpp:436-443 | the shifting loop leaves the elements with `e` at `index` |
| `Deques.Deque.Erase` | deque/deque.hpp:446-459 | the element at `index` is removed and the later ones shift down |
| `Deques.Deque.ShiftOut` | deque/deque.hpp:448-457 | the moving loop leaves every later element one place earlier |
| `Deques.Deque.Assign` | deque/deque.hpp:270-301 | the same elements, outer size and slots as the other deque, on fresh blocks; assigning a deque to itself leaves it as it was |
| `IntrusiveList.Links.constructor` | intrusive-list/intrusive-list.h:14-16 | no nodes and no lists |
| `IntrusiveList.Links.NewNode` | intrusive-list/intrusive-list.h:14-19 | a new node linked to itself, in no list |
| `IntrusiveList.Links.NewList` | intrusive-list/intrusive-list.h:173 | a new empty list whose sentinel is linked to itself |
| `IntrusiveList.Links.SelfLinkedIffAlone` | intrusive-list/intrusive-list.h:51-53 | a node is linked to itself exactly when it is in no list and heads no non-empty list |
| `IntrusiveList.Links.IsLinked` | intrusive-list/intrusive-list.h:51-53 | holds exactly when the node is an element of a list or a sentinel with elements |
| `IntrusiveList.Links.Unlink` | intrusive-list/intrusive-list.h:55-59 | the neighbours become adjacent and the node leaves its list; an unlinked node is left as it was |
| `IntrusiveList.Links.LinkBefore` | intrusive-list/intrusive-list.h:61-69 | `node` leaves any list and is placed just before `pos`; nothing happens when `node == pos` |
| `IntrusiveList.Links.Transfer` | intrusive-list/intrusive-list.h:71-81 | the nodes from `first` up to `last` move, in order, to just before `pos` |
| `IntrusiveList.Links.MoveAssign` | intrusive-list/intrusive-list.h:37-49 | `x` leaves its list and takes `y`'s place in `y`'s list, and `y` is left unlinked; nothing happens for `x == y` |
| `IntrusiveList.Links.CopyAssign` | intrusive-list/intrusive-list.h:30-35 | `x` only leaves its list |
| `IntrusiveList.Links.Destroy` | intrusive-list/intrusive-list.h:26-28 | the node leaves its list and is gone |
| `IntrusiveList.Links.MoveConstruct` | intrusive-list/intrusive-list.h:21-24 | a new node takes `y`'s place in its list |
| `IntrusiveList.Links.Empty` | intrusive-list/intrusive-list.h:188-190 | holds exactly when the list has no elements |
| `IntrusiveList.Links.Size` | intrusive-list/intrusive-list.h:193-195 | the number of steps from `begin()` to `end()` is the number of elements |
| `IntrusiveList.Links.Front` | intrusive-list/intrusive-list.h:198-205 | the first element, or the sentinel of an empty list |
| `IntrusiveList.Links.Back` | intrusive-list/intrusive-list.h:208-215 | the last element, or the sentinel of an empty list |
| `IntrusiveList.Links.Succ` | intrusive-list/intrusive-list.h:123-126 | the next node of the ring: the next element, or `end()` after the last |
| `IntrusiveList.Links.Pred` | intrusive-list/intrusive-list.h:128-131 | the previous node of the ring |
| `IntrusiveList.Links.SuccPred` | intrusive-list/intrusive-list.h:123-131 | `--` undoes `++` |
| `IntrusiveList.Links.PushFront` | intrusive-list/intrusive-list.h:218-220 | the value leaves any list and becomes the first element |
| `IntrusiveList.Links.PushBack` | intrusive-list/intrusive-list.h:223-225 | the value leaves any list and becomes the last element |
| `IntrusiveList.Links.PopFront` | intrusive-list/intrusive-list.h:228-232 | the first element leaves the list; nothing happens on an empty list |
| `IntrusiveList.Links.PopBack` | intrusive-list/intrusive-list.h:235-239 | the last element leaves the list; nothing happens on an empty list |
| `IntrusiveList.Links.Insert` | intrusive-list/intrusive-list.h:267-270 | the value is placed just before `pos` and returned |
| `IntrusiveList.Links.Erase` | intrusive-list/intrusive-list.h:273-281 | at `end()` nothing happens and `end()` is returned; otherwise the element leaves and its successor is returned |
| `IntrusiveList.Links.Splice` | intrusive-list/intrusive-list.h:284-291 | nothing for an empty range; otherwise `[first, last)` moves in order to just before `pos` |
| `Optionals.Optional.constructor` | optional/optional.h:138-139 | a new optional is empty |
| `Optionals.Optional.Of` | optional/optional.h:362-367 | engaged with the given value |
| `Optionals.Optional.Construct` | optional/optional.h:89-93 | engaged with the given value |
| `Optionals.Optional.Destroy` | optional/optional.h:95-100 | empty afterwards; no change on an empty optional |
| `Optionals.Optional.Reset` | optional/optional.h:418-420 | the same as `destroy` |
| `Optionals.Optional.CopyAssign` | optional/optional.h:69-77 | in all three branches the target shows what the source showed, and the source is unchanged |
| `Optionals.Optional.MoveAssign` | optional/optional.h:79-87 | in all three branches the target shows what the source showed |
| `Optionals.Optional.AssignNullopt` | optional/optional.h:369-372 | empty afterwards |
| `Optionals.Optional.AssignValue` | optional/optional.h:380-388 | engaged with the value, by assignment or construction |
| `Optionals.Optional.Emplace` | optional/optional.h:426-431 | engaged with the value, which is returned |
| `Optionals.Swap` | optional/optional.h:434-449 | in all four cases the two optionals exchange what they show |
| `Optionals.Ne` | optional/optional.h:466-477 | `!=`, written with its own cases, is the negation of `==` |
| `Optionals.Le` | optional/optional.h:490-501 | `<=` is `<` or `==` |
| `Optionals.Gt` | optional/optional.h:503-513 | `>` is `<` with the operands swapped |
| `Optionals.Ge` | optional/optional.h:515-526 | `>=` is `<=` with the operands swapped, and not `<` |
| `Optionals.Compare` | optional/optional.h:528-531 | `<=>` is Less, Equivalent or Greater exactly as `<`, `==` or `>` hold |
| `Optionals.EmptyIsLeast` | optional/optional.h:479-488 | empty is below every engaged value and nothing is below empty |
| `Optionals.Eq` | optional/optional.h:455-464 | `==` holds exactly when the optionals show the same thing: both empty, or both engaged with equal values |
| `Optionals.Lt` | optional/optional.h:479-488 | only an engaged optional has anything below it: the empty optional and the smaller values |
| `Optionals.LtIsStrictTotalOrder` | optional/optional.h:479-488 | `<` is irreflexive, transitive, total up to `==`, and asymmetric |
| `Strings.CStr` | include/string.hpp:25 | the text a C function reads: the prefix before the first NUL |
| `Strings.StrLen` | string/string.cpp:14-18 | `strlen`: the length of the text before the first NUL |
| `Strings.IndexOf` | string/string.cpp:91 | `strstr`: the first position at which the needle occurs, if any |
| `Strings.String.constructor` | string/string.cpp:3-6 | empty, capacity 1, terminated |
| `Strings.String.Fill` | string/string.cpp:8-12 | `n` copies of the character, capacity `n + 1` |
| `Strings.String.FromCStr` | string/string.cpp:14-18 | the text before the first NUL, length `strlen`, capacity one more |
| `Strings.String.Copy` | string/string.cpp:20-22 | the same text |
| `Strings.String.Length` | string/string.cpp:34 | the number of characters |
| `Strings.String.Empty` | string/string.cpp:106 | holds exactly when there are no characters |
| `Strings.String.At` | string/string.cpp:24-30 | fails exactly past the end, otherwise the character at the index |
| `Strings.String.Front` | string/string.cpp:54-59 | fails exactly on an empty string, otherwise the first character |
| `Strings.String.Back` | string/string.cpp:65-70 | fails exactly on an empty string, otherwise the last character |
| `Strings.String.Find` | string/string.cpp:76-96 | the first occurrence in the terminated text, or `length()` when there is none |
| `Strings.String.RFind` | string/string.cpp:98-104 | `length()` on a miss, otherwise the hit plus the needle's length minus one, in `size_t` |
| `Strings.String.IncreaseBuff` | string/string.cpp:118-125 | the capacity doubles and the text is kept |
| `Strings.String.DecreaseBuff` | string/string.cpp:127-134 | the capacity halves and the text is kept |
| `Strings.String.PushBack` | string/string.cpp:36-41 | the character is appended; the capacity doubles exactly when the text fills the buffer |
| `Strings.String.PopBack` | string/string.cpp:43-52 | fails on an empty string; otherwise drops the last character and halves the capacity when a quarter of it is in use |
| `Strings.String.Clear` | string/string.cpp:108-114 | empty with capacity 1 |
| `Strings.String.BufferReadsAsContents` | string/string.cpp:36-52 | the buffer reads as the text, because the terminator follows it |
| `Strings.Equal` | include/string.hpp:21-26 | equal lengths and equal terminated texts |
| `Strings.EqualIsEquivalence` | include/string.hpp:21-26 | `==` is reflexive, symmetric and transitive |
| `Strings.EqualOnNulFreeText` | include/string.hpp:21-26 | on NUL-free text, `==` is equality of the texts |
| `Strings.SameTextIsEqual` | test/test_case001.cpp:7-12 | strings with the same text are equal, in particular a copy and its source |
| `Strings.FindOnNulFreeText` | string/string.cpp:76-96 | on NUL-free text, `find` returns the first occurrence or `length()` |
| `Strings.CStrStopsAtTerminator` | include/string.hpp:25 | text followed by a terminator reads as itself |
| `Strings.LiteralText` | string/string.cpp:14-18 | a string literal reads as its text |
| `Strings.PushThenPop` | string/string.cpp:36-52 | `push_back(c)` then `pop_back()` succeeds and leaves the string valid with its text as before |
| `Strings.PoppedHello` | test/test_case001.cpp:24-32 | `"hello"` popped five times is empty |
| `Strings.PopAllThenClear` | test/test_case001.cpp:29-35 | a string emptied by `pop_back` equals a cleared one |
| `Strings.PopOneOfThree` | test/test_case001.cpp:14-16 | `"123"` with its last character popped equals `"12"` |
| `Strings.PushBackAsWritten` | string/string.cpp:36-41 | `push_back` as written still appends the character to the counted text |
| `Strings.PushBackAsWrittenLosesTerminator` | string/string.cpp:36-41 | as written, three appends to `String()` leave no terminator, so the buffer no longer reads as the text |
| `DraftStrings.String.constructor` | src/string.cpp:4-8 | length 1, capacity 1, no buffer |
| `DraftStrings.String.Empty` | src/string.cpp:4-8 | the corrected default: no characters and a (zero-length) buffer, so `Copy` and `Equal` accept it |
| `DraftStrings.String.Fill` | src/string.cpp:10-16 | `n` bytes of the character; capacity equals length |
| `DraftStrings.String.FromCStr` | src/string.cpp:18-24 | the bytes before the first NUL, length `strlen` |
| `DraftStrings.String.Copy` | src/string.cpp:26-28 | the same length and bytes |
| `DraftStrings.String.At` | src/string.cpp:45-53 | fails exactly for `index >= size`, otherwise the byte at the index (a null read for the default string) |
| `DraftStrings.Equal` | src/string.cpp:31-43 | false for different lengths, otherwise true exactly when every byte matches |
| `DraftStrings.DefaultReadsNull` | src/string.cpp:4-8 | the default string claims one character and reads from a null buffer |
| `SharedPtrs.AdoptAsWritten` | shared_ptr/src/shared-ptr.h:263-265 | the constructor from `weak_ptr` raises the shared count without checking it |
| `SharedPtrs.AdoptExpiredBreaksLedger` | shared_ptr/src/shared-ptr.h:263-265 | on an expired block, that constructor leaves counters that no set of handles can explain |
| `Deques.CopyTopAsWrittenOverruns` | deque/deque.hpp:183-189 | an empty deque with `start == 0` makes the source's copy bound run far past the doubled array |
| `Deques.InsertSlotAsWrittenMisses` | deque/deque.hpp:429-444 | a deque whose `insert` expands: `Expand` moves the first element from `it`'s slot 7 to slot 15, and the slot written as the source does it lies before the deque |
| `Deques.InsertSlotAsWritten` | deque/deque.hpp:429-444 | the slot `insert` writes to as written: `it`'s slot from before the `push_back` (`InsertSlotAsWrittenMisses`) |
| `Deques.ConstAtRejectsAsWritten` | deque/deque.hpp:368-370 | the const `at` guard as written, comparing the index with slot numbers (`ConstAtAsWrittenRejects`) |
| `Deques.CopyLoopAsWrittenOverruns` | deque/deque.hpp:218-234 | eight `push_front`s then eight `pop_back`s leave an empty deque with its first slot at 0, whose copy loops as written run 2^64 turns over 16 slots |
| `Deques.Deque.AssignReadsAsWritten` | deque/deque.hpp:270-279 | as written, `d = d` replaces the blocks before the copy loop reads them, so the loop reads fresh blocks and the ones that held the elements are destroyed |
| `Deques.ConstAtAsWrittenRejects` | deque/deque.hpp:368-370 | the const `at(0)` as written rejects a valid index on every non-empty deque whose first slot is not 0 |

## Left out

- SharedPtrDraft.SharedPtr.Convert, SharedPtrDraft.WeakPtr.FromShared,
  SharedPtrDraft.WeakPtr.Copy, SharedPtrDraft.WeakPtr.Expired and
  SharedPtrDraft.WeakPtr.Lock: each requires a non-null block. In
  shared_ptr/shared_ptr.hpp the converting copy of an empty `SharedPtr`
  (lines 54-55), a `WeakPtr` built from an empty `SharedPtr` (lines
  213-214), the copy of an empty `WeakPtr` (lines 222-223), and `expired()`
  and `lock()` on an empty `WeakPtr` (lines 252-258, through `use_count()`)
  dereference a null block. That is undefined behaviour and is not modelled.
- DraftStrings.String.Copy and DraftStrings.Equal: both require buffers
  wherever the source reads one. On the default string (null buffer,
  length 1) the copy constructor of src/string.cpp (lines 26-28) `memcpy`s
  one byte from a null pointer. `operator==` (lines 36-40) reads
  `buffer_[0]` when the other string also has length 1. Those null reads
  are not modelled; the Findings row on the default constructor records
  the cause.
- Exceptions. Throwing constructors, allocators and deleters, together with
  the try/catch rollback paths of `bimap::insert`, `at_*_or_default`, the
  deque's push and copy, and the bimap copy constructor, are not modelled.
  A failing allocation appears only in `SharedPtrs.CreateRegularBlock`, as a
  parameter.
- Memory reclamation. `delete`, `delete[]`, the destructors of
  `bimap_element` and `Deque::Delete` are not modelled. Erased bimap records
  stay in the arenas, and a freed string or deque buffer is simply no longer
  referenced.
- Custom comparators. Bimap keys are `int` with `<`, and optional values in
  comparisons are `int`.
- Allocator rebinding, placement new, `[[no_unique_address]]`, and the
  triviality layers of `optional_storage` and `optional_base`.
- `operator<<` and `operator>>` of include/string.hpp: these are stream I/O.
- Moving and swapping bimaps are modelled on the records only, in
  moves.dfy. `Bimaps.Bimap` objects keep one arena per side, so they have no
  move or swap of their own. The comparators and `size_`, which these
  operations also move or exchange, are not modelled.
- The move assignments of `bimap` (bimap.h:82-87) and `intrusive_map`
  (intrusive_map.h:202-207) are a move construction followed by a swap.
  Both parts are modelled (`Moves.MoveBimapAsWritten`,
  `Moves.SwapBimapsAsWritten`), but the composition is not.
- The bimap's copy constructor and copy assignment, which insert every pair
  into a new bimap and then swap.
- Moves.SwapBreaksSentinels: shown on two empty bimaps only. Each map's swap
  destroys its temporaries before the next map's swap makes new ones, so the
  exhibit reuses the ids `20`, `21` and `22` for both.
- `map_element_base::is_left` is inlined where it is used.
- Bimaps.Bimap.EraseRightRange: stated on the right side's keys and the size,
  not on `Rows()`. The rows in left order lose the same pairs, but their
  positions are scattered, so the row-level statement is not proved.
- Bimaps.Bimap.RebindLeft: the rows after rebinding are stated as a multiset
  (the old row replaced by `(key, 0)`), not as a sequence. The new row's
  place follows from the left keys being sorted, but it is not stated
  outright.
- Bimaps.Equal: the loop walks both maps by position with `next`, instead of
  stepping two `Iterators.Iterator` objects. The keys compared and the order
  of comparison are those of the source.
- Bimap iterators are the record ids they point at. `left_iterator` and
  `right_iterator` objects are `Iterators.Iterator` only in iterator.dfy.
- `list::clear` unlinks only the sentinel, so the former elements stay in a
  ring without a sentinel. That ring belongs to no list and cannot be
  described by the model's per-list sequences.
- The list's move constructor and move assignment (defaulted) and its const
  iterators.
- Deque iterators:
  - `+=`, `-=`, `+`, `-`, the comparison operators, `*` and `->` are not
    modelled;
  - neither are `begin`, `end`, `rbegin`, `rend` and their const forms;
  - `crbegin`'s misplaced parenthesis is not modelled.

  Insert and erase take an element index in place of an iterator.
- Deques.Deque.Fill stands for both `Deque(quantity)` and
  `Deque(quantity, element)`; the first passes the default element.
- Deques.Deque.Fill: takes a `nat`. The source's `quantity` is an `int`; a
  negative `quantity` converts to `size_t` in the outer-size computation
  (`kInnerSize` is a `size_t`), and the allocation of `outer_` throws; this
  is not modelled. Negative quantities are not modelled.
- The non-const `operator[]` of string/string.cpp (line 32) is unchecked and
  not modelled separately. The non-const `front` and `back` delegate to the
  const ones, which are modelled.
- Strings.String.RFind: stated only for a hit whose end fits in `size_t`, and
  for the empty needle, where the source wraps to 2^64 - 1.
- Optionals.Optional.MoveAssign: only the source's engagement is stated
  afterwards. A moved-from value is unspecified for a general `T`.
- Single-threaded code throughout: no concurrency is modelled.

## Findings

| source | as written | input that shows it | evidently intended | confidence | as-written member | corrected member |
|---|---|---|---|---|---|---|
| shared_ptr/src/shared-ptr.h:263-265 | `shared_ptr(const weak_ptr&)` raises `shared_count` without checking for expiry | a `weak_ptr` whose owners are all gone (counters 0/1, value destroyed) | adopt only a live block, as `lock()` does, and refuse an expired one | not executed | `SharedPtrs.AdoptExpiredBreaksLedger` | `SharedPtrs.AdoptKeepsLedger` |
| string/string.cpp:36-41 | `push_back` overwrites the terminator, and only `increase_buff` writes a new one | `String()` then `push_back('a')`, `'b'`, `'c'`: the fourth cell is whatever the allocator left | write `'\0'` after the new last character | not executed | `Strings.PushBackAsWrittenLosesTerminator` | `Strings.String.PushBack` |
| deque/deque.hpp:183-189 | `Expand` computes the last block to copy in `size_t`, from `finish_` | an empty deque with `start_ == 0`, so `finish_` wraps to 2^64 - 1, followed by `push_front` | copy the blocks of the elements only, which gives no block for an empty deque | not executed | `Deques.CopyTopAsWrittenOverruns` | `Deques.Deque.Expand` |
| deque/deque.hpp:429-444 | `insert` keeps `it`'s slot across the `push_back` that may call `Expand` | a default deque with one element pushed at the front and eight at the back, then insert at `begin()` | shift the elements and write `e` at `it`'s element index | not executed | `Deques.InsertSlotAsWrittenMisses` | `Deques.Deque.Insert` |
| deque/deque.hpp:368-370 | the const `at(pos)` compares `pos` with the slot numbers `start_` and `finish_` | `Deque<int>(1, 5)` (first slot 8): the const `at(0)` throws | reject exactly `pos >= size()`, as the non-const `at` does | not executed | `Deques.ConstAtAsWrittenRejects` | `Deques.Deque.At` |
| deque/deque.hpp:218-234 | the copy loops of the copy constructor (line 226) and of `operator=` (lines 279 and 282) run `pos` from `start_` to `finish_` in `size_t` | an empty deque with `start_ == 0` (eight `push_front`s, then eight `pop_back`s), so `finish_` is 2^64 - 1, then copied or assigned | copy the elements only, which is nothing for an empty deque | not executed | `Deques.CopyLoopAsWrittenOverruns` | `Deques.Deque.Copy` |
| deque/deque.hpp:270-301 | `operator=` replaces `outer_` with fresh blocks before it reads `other`, with no self-assignment check | `d = d` on a non-empty deque: the loop copies uninitialised slots, and the blocks that held the elements are destroyed | leave the deque as it is on self-assignment | not executed | `Deques.Deque.AssignReadsAsWritten` | `Deques.Deque.Assign` |
| bimap/src/bimap.h:68-72 | each map's `fake` is move constructed through `map_element_base`'s move constructor, a `swap` whose `relink_parents` also claims the record `right` names, and the old sentinels lose their cross links | `bimap b(std::move(a))` for any bimap `a`, empty or not | the new sentinels take the trees and are connected to each other; the old ones stay connected and empty | not executed | `Moves.MoveBreaksSentinels` | `Moves.MovedBimapConnected` |
| bimap/src/bimap.h:301-305 | `intrusive_map::swap` exchanges the sentinels with `std::swap`, whose moves are `swap`s that rewire the partner sentinels' parents | `a.swap(b)` on two empty bimaps | exchange only the trees below the sentinels | not executed | `Moves.SwapBreaksSentinels` | `Moves.SwappedBimapsConnected` |
| src/string.cpp:4-8 | the default `String()` sets length 1 and capacity 1 with a null buffer | `String()` then `s[0]`, a copy of `s`, or `s == t` with another string of length 1: each reads through the null pointer | an empty string with a buffer, as string/string.cpp's later `String()` has | not executed | `DraftStrings.DefaultReadsNull` | `DraftStrings.String.Empty` |

=== FILE: bimap.dfy ===
/** A model of `bimap` of bimap/src/bimap.h: a set of (left key, right key)
    pairs in which no left key and no right key occurs twice, kept as two
    splay trees, one per side, over the same compound elements.

    A compound element (`bimap_element`) is an id `>= 2` with a record in
    each side's arena; the left sentinel is id `0` and the right one id `1`.
    `new` is modelled by the counter `next`: every id from `next` on is
    unused. The abstract contents are `Rows()`: the pairs of the elements,
    in the order of their left keys. Iterators are given and returned as
    the record they point at (`based_iterator::current`). */
module Bimaps {
  import opened ElementBase
  import opened IntrusiveMaps
  import opened Iterators

  /** The left sentinel's id. */
  const LeftEnd := 0
  /** The right sentinel's id. */
  const RightEnd := 1

  /** The outcome of `at_left` / `at_right`: the paired key, or the
      `std::out_of_range` the source throws. */
  datatype At = Value(v: int) | OutOfRange

  /** The pairs of the elements `E`: left key (from `LV`) then right key
      (from `RV`). */
  ghost function RowsOf(E: seq<int>, LV: map<int, int>, RV: map<int, int>): seq<(int, int)> {
    seq(|E|, i requires 0 <= i < |E| => (if E[i] in LV then LV[E[i]] else 0, if E[i] in RV then RV[E[i]] else 0))
  }

  /** The left keys of `rows`, in row order. */
  ghost function Lefts(rows: seq<(int, int)>): seq<int> {
    seq(|rows|, i requires 0 <= i < |rows| => rows[i].0)
  }

  /** The right keys of `rows`, in row order. */
  ghost function Rights(rows: seq<(int, int)>): seq<int> {
    seq(|rows|, i requires 0 <= i < |rows| => rows[i].1)
  }

  /** `s` without its entry at `i`. */
  ghost function Without<T>(s: seq<T>, i: int): seq<T>
    requires 0 <= i < |s|
  {
    s[..i] + s[i + 1..]
  }

  // ---------------------------------------------------------------------
  // Facts about positions and rows

  /** A new element `n` standing in for the element at `p` changes only
      that element's row. */
  lemma RowsRename(E: seq<int>, p: int, n: int, LV: map<int, int>, RV: map<int, int>, l: int, r: int)
    requires 0 <= p < |E| && n !in E
    ensures RowsOf(E[p := n], LV[n := l], RV[n := r]) == RowsOf(E, LV, RV)[p := (l, r)]
  {
    var rows, rows2 := RowsOf(E, LV, RV), RowsOf(E[p := n], LV[n := l], RV[n := r]);
    forall k | 0 <= k < |rows2|
      ensures rows2[k] == rows[p := (l, r)][k]
    {
      if k != p {
        assert E[k] in E;
      }
    }
  }

  /** Inserting an entry adds it to the multiset. */
  lemma MultisetInsert<T>(s: seq<T>, i: int, x: T)
    requires 0 <= i <= |s|
    ensures multiset(s[..i] + [x] + s[i..]) == multiset(s) + multiset{x}
  {
    assert s == s[..i] + s[i..];
  }

  /** Removing an entry takes it from the multiset. */
  lemma MultisetWithout<T>(s: seq<T>, p: int)
    requires 0 <= p < |s|
    ensures multiset(Without(s, p)) == multiset(s) - multiset{s[p]}
  {
    assert s == s[..p] + [s[p]] + s[p + 1..];
  }

  /** Adding `a` and taking `b`, which is there, can be done in either
      order. */
  lemma MultisetTrade<T>(M: multiset<T>, a: T, b: T)
    requires b in M
    ensures M + multiset{a} - multiset{b} == M - multiset{b} + multiset{a}
  {
    forall y
      ensures (M + multiset{a} - multiset{b})[y] == (M - multiset{b} + multiset{a})[y]
    {
    }
  }

  /** The rows after `at_left_or_default` rebinds the element `rep`: the
      new element `n` with (key, r) is inserted at `i0`, then `rep` is
      removed; `rep`'s row is traded for (key, r). */
  lemma Rebound(E: seq<int>, LV: map<int, int>, RV: map<int, int>, i0: int, n: int, rep: int, key: int, r: int)
    requires 0 <= i0 <= |E| && n !in E && rep in E && rep in RV && RV[rep] == r
    ensures var E1 := E[..i0] + [n] + E[i0..];
            && rep in E1
            && var rows := RowsOf(Without(E1, Pos(E1, rep)), LV[n := key], RV[n := r]);
            && multiset(rows) == multiset(RowsOf(E, LV, RV)) - multiset{RowsOf(E, LV, RV)[Pos(E, rep)]} + multiset{(key, r)}
            && (key, r) in rows
  {
    var E1 := E[..i0] + [n] + E[i0..];
    var q := Pos(E, rep);
    var p := if q < i0 then q else q + 1;
    assert E1[p] == rep;
    PosAtMost(E1, rep, p);
    p := Pos(E1, rep);
    var rows0, rows1 := RowsOf(E, LV, RV), RowsOf(E1, LV[n := key], RV[n := r]);
    RowsInsert(E, i0, n, LV, RV, key, r);
    RowsRemove(E1, p, LV[n := key], RV[n := r]);
    assert rows1[p] == rows0[q];
    assert E1[i0] == n;
    Trade(rows0, i0, (key, r), q, p);
  }

  /** Inserting `x` at `i0` and then removing the entry at `p`, which is
      `s[q]`, trades `s[q]` for `x`. */
  lemma Trade<T>(s: seq<T>, i0: int, x: T, q: int, p: int)
    requires 0 <= i0 <= |s| && 0 <= q < |s| && 0 <= p <= |s| && p != i0
    requires (s[..i0] + [x] + s[i0..])[p] == s[q]
    ensures multiset(Without(s[..i0] + [x] + s[i0..], p)) == multiset(s) - multiset{s[q]} + multiset{x}
    ensures x in Without(s[..i0] + [x] + s[i0..], p)
  {
    var s1 := s[..i0] + [x] + s[i0..];
    MultisetInsert(s, i0, x);
    MultisetWithout(s1, p);
    assert s[q] in multiset(s);
    MultisetTrade(multiset(s), x, s[q]);
    assert Without(s1, p)[if i0 < p then i0 else i0 - 1] == x;
  }

  /** Equal prefixes followed by equal entries are longer equal prefixes. */
  lemma PrefixStep<T>(s: seq<T>, u: seq<T>, k: int)
    requires 0 <= k < |s| && k < |u| && s[..k] == u[..k] && s[k] == u[k]
    ensures s[..k + 1] == u[..k + 1]
  {
    assert s[..k + 1] == s[..k] + [s[k]] && u[..k + 1] == u[..k] + [u[k]];
  }

  /** Cutting a sequence at `i` and joining the halves gives it back. */
  lemma Rejoin<T>(s: seq<T>, i: int)
    requires 0 <= i <= |s|
    ensures s[..i] + s[i..] == s
  {
  }

  /** One step of erasing a range: with the entries `c` after `i` gone,
      erasing at `i` takes one more, and the next position is the one after
      them. */
  lemma RangeStep<T>(s: seq<T>, i: int, j: int, z: T)
    requires 0 <= i <= j < |s|
    ensures (s[..i] + s[j..])[i] == s[j]
    ensures Without(s[..i] + s[j..], i) == s[..i] + s[j + 1..]
    ensures (s[..i] + s[j..] + [z])[i + 1] == (s + [z])[j + 1]
  {
    assert (s[..i] + s[j..])[i + 1..] == s[j + 1..];
  }

  /** Positions of the walk `E + [q]` are found at their indices, and no
      position before that of `last` is `last`. */
  lemma SpanEnds(E: seq<int>, q: int, first: int, last: int)
    requires first in E + [q] && last in E + [q]
    ensures Pos(E + [q], last) <= |E| && (E + [q])[Pos(E + [q], first)] == first
    ensures (E + [q])[Pos(E + [q], last)] == last
    ensures forall j | 0 <= j < Pos(E + [q], last) :: (E + [q])[j] != last
  {
    var w := E + [q];
    forall j | 0 <= j < Pos(w, last)
      ensures w[j] != last
    {
      assert w[..Pos(w, last)][j] == w[j];
    }
  }

  /** The columns of the rows are the keys of the elements of either side,
      read in the order of `E`. */
  lemma Columns(E: seq<int>, LV: map<int, int>, RV: map<int, int>)
    ensures Lefts(RowsOf(E, LV, RV)) == KeysOf(LV, E) && Rights(RowsOf(E, LV, RV)) == KeysOf(RV, E)
  {
  }

  /** Keys read in the order of `E` are keys of `F` when every element of
      `E` is one of `F`. */
  lemma KeysWithin(V: map<int, int>, E: seq<int>, F: seq<int>, k: int)
    requires Stored(V, F) && (forall x | x in E :: x in F) && k in KeysOf(V, E)
    ensures k in KeysOf(V, F)
  {
    var i :| 0 <= i < |E| && KeysOf(V, E)[i] == k;
    NotStored(V, F, E[i]);
  }

  /** Distinct elements of a map with sorted keys have distinct keys, in
      whatever order they are read. */
  lemma DistinctKeys(V: map<int, int>, E: seq<int>, F: seq<int>)
    requires Distinct(E) && Stored(V, F) && Sorted(KeysOf(V, F)) && (forall x | x in E :: x in F)
    ensures Distinct(KeysOf(V, E))
  {
    var ks := KeysOf(V, E);
    forall i, j | 0 <= i < j < |ks|
      ensures ks[i] != ks[j]
    {
      assert E[i] in E && E[j] in E;
      var p, q := Pos(F, E[i]), Pos(F, E[j]);
      assert KeysOf(V, F)[p] == ks[i] && KeysOf(V, F)[q] == ks[j];
    }
  }

  /** The first position of `x` is unchanged by what follows it. */
  lemma {:induction false} PosPrefix(s: seq<int>, u: seq<int>, x: int)
    requires x in s
    ensures Pos(s + u, x) == Pos(s, x)
  {
    if s[0] != x {
      assert (s + u)[1..] == s[1..] + u;
      PosPrefix(s[1..], u, x);
    }
  }

  /** An element's position in the walk is its position among the elements. */
  lemma PosWalk(t: Tree, q: int, x: int)
    requires x in InOrder(t)
    ensures x in Walk(t, q) && Pos(Walk(t, q), x) == Pos(InOrder(t), x)
  {
    PosPrefix(InOrder(t), [q], x);
  }

  /** With sorted keys, an element's key is found where the element is. */
  lemma KeyPos(V: map<int, int>, E: seq<int>, x: int)
    requires Stored(V, E) && Sorted(KeysOf(V, E)) && x in E
    ensures x in V && V[x] in KeysOf(V, E) && Pos(KeysOf(V, E), V[x]) == Pos(E, x)
  {
    var i := Pos(E, x);
    assert KeysOf(V, E)[i] == V[x];
    PosAtMost(KeysOf(V, E), V[x], i);
  }

  /** A record storing a key that is not among the keys is not an element. */
  lemma NotStored(V: map<int, int>, E: seq<int>, x: int)
    requires Stored(V, E) && x in E
    ensures V[x] in KeysOf(V, E)
  {
    assert KeysOf(V, E)[Pos(E, x)] == V[x];
  }

  /** A new element `n` put at position `i` adds its pair at `i`. */
  lemma RowsInsert(E: seq<int>, i: int, n: int, LV: map<int, int>, RV: map<int, int>, l: int, r: int)
    requires 0 <= i <= |E| && n !in E
    ensures RowsOf(E[..i] + [n] + E[i..], LV[n := l], RV[n := r]) ==
            RowsOf(E, LV, RV)[..i] + [(l, r)] + RowsOf(E, LV, RV)[i..]
  {
    var E2 := E[..i] + [n] + E[i..];
    var rows, rows2 := RowsOf(E, LV, RV), RowsOf(E2, LV[n := l], RV[n := r]);
    var want := rows[..i] + [(l, r)] + rows[i..];
    assert |rows2| == |want|;
    forall k | 0 <= k < |rows2|
      ensures rows2[k] == want[k]
    {
      if k < i {
        assert E2[k] == E[k] && want[k] == rows[k];
      } else if i < k {
        assert E2[k] == E[k - 1] && want[k] == rows[k - 1];
      }
    }
  }

  /** Removing the element at `i` removes its pair. */
  lemma RowsRemove(E: seq<int>, i: int, LV: map<int, int>, RV: map<int, int>)
    requires 0 <= i < |E|
    ensures RowsOf(E[..i] + E[i + 1..], LV, RV) == RowsOf(E, LV, RV)[..i] + RowsOf(E, LV, RV)[i + 1..]
  {
    var E2 := E[..i] + E[i + 1..];
    var rows, rows2 := RowsOf(E, LV, RV), RowsOf(E2, LV, RV);
    var want := rows[..i] + rows[i + 1..];
    assert |rows2| == |want|;
    forall k | 0 <= k < |rows2|
      ensures rows2[k] == want[k]
    {
      if k < i {
        assert E2[k] == E[k] && want[k] == rows[k];
      } else {
        assert E2[k] == E[k + 1] && want[k] == rows[k + 1];
      }
    }
  }

  /** One side's part of `insert`: the new element `n` gets its record on
      the side of `m`, storing `key`, and is inserted into `m`. */
  method Add(m: IntrusiveMap, n: int, key: int) returns (it: int)
    requires m.Valid() && n != Null && n != m.fake && n !in Ids(m.tree) && n != m.nodes.right[m.fake] && key !in m.Keys()
    modifies m, m.nodes
    ensures m.Valid() && it == n && Ids(m.tree) == old(Ids(m.tree)) + {n}
    ensures m.nodes.value == old(m.nodes.value)[n := key] && m.nodes.right[m.fake] == old(m.nodes.right[m.fake])
    ensures m.Elements() == old(m.Elements())[..FirstAtLeast(old(m.Keys()), key)] + [n]
                            + old(m.Elements())[FirstAtLeast(old(m.Keys()), key)..]
    ensures m.Keys() == old(m.Keys())[..FirstAtLeast(old(m.Keys()), key)] + [key]
                        + old(m.Keys())[FirstAtLeast(old(m.Keys()), key)..]
  {
    m.Adopt(n, key);
    it := m.Insert(n);
  }

  /** One side's part of `erase_`: the element `x` leaves `m`. */
  method Remove(m: IntrusiveMap, x: int)
    requires m.Valid() && x in m.Elements()
    modifies m, m.nodes
    ensures m.Valid() && Ids(m.tree) == old(Ids(m.tree)) - {x}
    ensures m.nodes.value == old(m.nodes.value) && m.nodes.right[m.fake] == old(m.nodes.right[m.fake])
    ensures m.Elements() == Without(old(m.Elements()), Pos(old(m.Elements()), x))
    ensures m.Keys() == Without(old(m.Keys()), Pos(old(m.Elements()), x))
  {
    IdsInOrder(m.tree);
    m.Erase(x);
  }

  /** The side of `m` of `at_*_or_default`'s rebinding: the new element
      `n` storing `key` is inserted, then the element `rep` is erased. */
  method Exchange(m: IntrusiveMap, n: int, key: int, rep: int)
    requires m.Valid() && n != Null && n != m.fake && n !in Ids(m.tree) && n != m.nodes.right[m.fake]
    requires key !in m.Keys() && rep in m.Elements()
    modifies m, m.nodes
    ensures m.Valid() && Ids(m.tree) == old(Ids(m.tree)) - {rep} + {n} && |m.Elements()| == |old(m.Elements())|
    ensures m.nodes.value == old(m.nodes.value)[n := key] && m.nodes.right[m.fake] == old(m.nodes.right[m.fake])
    ensures var i0 := FirstAtLeast(old(m.Keys()), key);
            var E1 := old(m.Elements())[..i0] + [n] + old(m.Elements())[i0..];
            rep in E1 && m.Elements() == Without(E1, Pos(E1, rep))
  {
    IdsInOrder(m.tree);
    var _ := Add(m, n, key);
    Remove(m, rep);
  }

  /** The record `n` takes the place of the element `x` of `m`
      (`replace`), storing the same key. */
  method Substitute(m: IntrusiveMap, x: int, n: int)
    requires m.Valid() && x in m.Elements()
    requires n != Null && n != m.fake && n !in Ids(m.tree) && n != m.nodes.right[m.fake]
    modifies m, m.nodes
    ensures m.Valid() && Ids(m.tree) == old(Ids(m.tree)) - {x} + {n}
    ensures x in old(m.nodes.value) && m.nodes.value == old(m.nodes.value)[n := old(m.nodes.value)[x]]
    ensures m.nodes.right[m.fake] == old(m.nodes.right[m.fake])
    ensures m.Elements() == old(m.Elements())[Pos(old(m.Elements()), x) := n] && m.Keys() == old(m.Keys())
  {
    IdsInOrder(m.tree);
    m.Adopt(n, m.nodes.Get(x));
    m.Rename(x, n);
  }

  class Bimap {
    const leftMap: IntrusiveMap
    const rightMap: IntrusiveMap
    var size: nat
    var next: int

    ghost predicate Valid()
      reads this, leftMap, rightMap, leftMap.nodes, rightMap.nodes
    {
      && leftMap.nodes != rightMap.nodes && leftMap.fake == LeftEnd && rightMap.fake == RightEnd
      && leftMap.Valid() && rightMap.Valid()
      && leftMap.nodes.right[LeftEnd] == RightEnd && rightMap.nodes.right[RightEnd] == LeftEnd
      && Ids(leftMap.tree) == Ids(rightMap.tree)
      && size == |leftMap.Elements()|
      && 2 <= next && (forall x | x in Ids(leftMap.tree) :: 2 <= x < next)
    }

    /** The pairs, in the order of their left keys. */
    ghost function Rows(): seq<(int, int)>
      reads this, leftMap, rightMap, leftMap.nodes, rightMap.nodes
    {
      RowsOf(leftMap.Elements(), leftMap.nodes.value, rightMap.nodes.value)
    }

    /** The left keys, in order. */
    ghost function LeftKeys(): seq<int>
      reads this, leftMap, leftMap.nodes
    {
      leftMap.Keys()
    }

    /** The right keys, in order. */
    ghost function RightKeys(): seq<int>
      reads this, rightMap, rightMap.nodes
    {
      rightMap.Keys()
    }

    /** Neither column of the rows repeats a key, and the right column
        holds exactly the right keys. */
    lemma Bijective()
      requires Valid()
      ensures Lefts(Rows()) == LeftKeys() && Distinct(Lefts(Rows())) && Distinct(Rights(Rows()))
      ensures forall k :: k in Rights(Rows()) <==> k in RightKeys()
    {
      ghost var E, RE := leftMap.Elements(), rightMap.Elements();
      Columns(E, leftMap.nodes.value, rightMap.nodes.value);
      IdsInOrder(leftMap.tree);
      IdsInOrder(rightMap.tree);
      ProperDistinct(leftMap.tree);
      DistinctKeys(rightMap.nodes.value, E, RE);
      forall k
        ensures k in Rights(Rows()) <==> k in RightKeys()
      {
        if k in Rights(Rows()) {
          KeysWithin(rightMap.nodes.value, E, RE, k);
        }
        if k in RightKeys() {
          forall i | 0 <= i < |E|
            ensures E[i] in rightMap.nodes.value
          {
            NotStored(rightMap.nodes.value, RE, E[i]);
          }
          KeysWithin(rightMap.nodes.value, RE, E, k);
        }
      }
    }

    /** The default constructor: two empty maps whose sentinels are linked
        to each other by `connect_map`. */
    constructor ()
      ensures Valid() && Rows() == [] && size == 0
    {
      var leftNodes := new Bases();
      var rightNodes := new Bases();
      leftMap := new IntrusiveMap(leftNodes, LeftEnd);
      rightMap := new IntrusiveMap(rightNodes, RightEnd);
      size := 0;
      next := 2;
      new;
      leftMap.ConnectMap(rightMap.End());
      rightMap.ConnectMap(leftMap.End());
    }

    /** `insert(l, r)`: nothing happens, and `end_left()` is returned, when
        `l` is a left key or `r` a right key already; otherwise a new
        element holds the pair, which takes its place by left key, and the
        result is its left position. */
    method Insert(l: int, r: int) returns (it: int)
      requires Valid()
      modifies this, leftMap, rightMap, leftMap.nodes, rightMap.nodes
      ensures Valid()
      ensures l in old(LeftKeys()) || r in old(RightKeys()) ==>
                it == LeftEnd && Rows() == old(Rows()) && size == old(size)
      ensures l !in old(LeftKeys()) && r !in old(RightKeys()) ==>
                && size == old(size) + 1
                && Rows() == old(Rows())[..FirstAtLeast(old(LeftKeys()), l)] + [(l, r)]
                             + old(Rows())[FirstAtLeast(old(LeftKeys()), l)..]
                && it in leftMap.Elements() && Pos(leftMap.Elements(), it) == FirstAtLeast(old(LeftKeys()), l)
    {
      var foundLeft := leftMap.Find(l);
      var foundRight := rightMap.Find(r);
      if foundLeft != leftMap.End() || foundRight != rightMap.End() {
        return leftMap.End();
      }
      it := Link(l, r);
    }

    /** The second half of `insert`: a new element `next` holding the
        pair (l, r) joins both sides. */
    method Link(l: int, r: int) returns (it: int)
      requires Valid() && l !in LeftKeys() && r !in RightKeys()
      modifies this, leftMap, rightMap, leftMap.nodes, rightMap.nodes
      ensures Valid() && size == old(size) + 1
      ensures Rows() == old(Rows())[..FirstAtLeast(old(LeftKeys()), l)] + [(l, r)]
                        + old(Rows())[FirstAtLeast(old(LeftKeys()), l)..]
      ensures it in leftMap.Elements() && Pos(leftMap.Elements(), it) == FirstAtLeast(old(LeftKeys()), l)
    {
      ghost var E, LV, RV := leftMap.Elements(), leftMap.nodes.value, rightMap.nodes.value;
      IdsInOrder(leftMap.tree);
      RowsInsert(E, FirstAtLeast(LeftKeys(), l), next, LV, RV, l, r);
      var n := next;
      next := next + 1;
      it := Add(leftMap, n, l);
      var _ := Add(rightMap, n, r);
      size := size + 1;
      ProperDistinct(leftMap.tree);
      PosDistinct(leftMap.Elements(), FirstAtLeast(old(LeftKeys()), l));
    }

    /** `erase_`: the element whose bases are `leftNode` and `rightNode`
        leaves both sides, and its pair leaves the rows. */
    method EraseNode(leftNode: int, rightNode: int)
      requires Valid() && leftNode in leftMap.Elements() && rightNode == leftNode
      modifies this, leftMap, rightMap, leftMap.nodes, rightMap.nodes
      ensures Valid() && size == old(size) - 1 && rightNode in old(rightMap.Elements())
      ensures Rows() == Without(old(Rows()), Pos(old(leftMap.Elements()), leftNode))
      ensures leftMap.Elements() == Without(old(leftMap.Elements()), Pos(old(leftMap.Elements()), leftNode))
      ensures rightMap.Elements() == Without(old(rightMap.Elements()), Pos(old(rightMap.Elements()), rightNode))
      ensures RightKeys() == Without(old(RightKeys()), Pos(old(rightMap.Elements()), rightNode))
    {
      IdsInOrder(leftMap.tree);
      IdsInOrder(rightMap.tree);
      ghost var E, LV, RV := leftMap.Elements(), leftMap.nodes.value, rightMap.nodes.value;
      RowsRemove(E, Pos(E, leftNode), LV, RV);
      Remove(leftMap, leftNode);
      Remove(rightMap, rightNode);
      size := size - 1;
      assert Rows() == RowsOf(Without(E, Pos(E, leftNode)), LV, RV);
    }

    /** `erase_left(it)`: the element at `it` is erased; the result is the
        position after it, which now stands where `it` stood. */
    method EraseLeft(it: int) returns (r: int)
      requires Valid() && it in leftMap.Elements()
      modifies this, leftMap, rightMap, leftMap.nodes, rightMap.nodes
      ensures Valid() && size == old(size) - 1
      ensures Rows() == Without(old(Rows()), Pos(old(leftMap.Elements()), it))
      ensures leftMap.Elements() == Without(old(leftMap.Elements()), Pos(old(leftMap.Elements()), it))
      ensures r == old(Walk(leftMap.tree, LeftEnd))[Pos(old(leftMap.Elements()), it) + 1]
      ensures r in Walk(leftMap.tree, LeftEnd) && Pos(Walk(leftMap.tree, LeftEnd), r) == Pos(old(leftMap.Elements()), it)
    {
      ghost var i := Pos(leftMap.Elements(), it);
      PosWalk(leftMap.tree, LeftEnd, it);
      var cur := new Iterator(it);
      var del := cur.PostInc(leftMap);
      var other := del.Flip(leftMap);
      EraseNode(del.current, other.current);
      r := cur.current;
      WalkDistinct(leftMap.tree, LeftEnd);
      PosDistinct(Walk(leftMap.tree, LeftEnd), i);
    }

    /** `erase_right(it)`: the same from a position of the right side. */
    method EraseRight(it: int) returns (r: int)
      requires Valid() && it in rightMap.Elements()
      modifies this, leftMap, rightMap, leftMap.nodes, rightMap.nodes
      ensures Valid() && size == old(size) - 1 && it in old(leftMap.Elements())
      ensures Rows() == Without(old(Rows()), Pos(old(leftMap.Elements()), it))
      ensures rightMap.Elements() == Without(old(rightMap.Elements()), Pos(old(rightMap.Elements()), it))
      ensures RightKeys() == Without(old(RightKeys()), Pos(old(rightMap.Elements()), it))
      ensures r == old(Walk(rightMap.tree, RightEnd))[Pos(old(rightMap.Elements()), it) + 1]
      ensures r in Walk(rightMap.tree, RightEnd) && Pos(Walk(rightMap.tree, RightEnd), r) == Pos(old(rightMap.Elements()), it)
    {
      ghost var i := Pos(rightMap.Elements(), it);
      IdsInOrder(leftMap.tree);
      IdsInOrder(rightMap.tree);
      PosWalk(rightMap.tree, RightEnd, it);
      var cur := new Iterator(it);
      var del := cur.PostInc(rightMap);
      var other := del.Flip(rightMap);
      EraseNode(other.current, del.current);
      r := cur.current;
      WalkDistinct(rightMap.tree, RightEnd);
      PosDistinct(Walk(rightMap.tree, RightEnd), i);
    }

    /** `erase_left(key)`: whether there was a row with left key `key`;
        if so, it is erased. */
    method EraseLeftKey(key: int) returns (b: bool)
      requires Valid()
      modifies this, leftMap, rightMap, leftMap.nodes, rightMap.nodes
      ensures Valid() && (b <==> key in old(Lefts(Rows())))
      ensures b ==> size == old(size) - 1 && Rows() == Without(old(Rows()), Pos(old(Lefts(Rows())), key))
      ensures !b ==> size == old(size) && Rows() == old(Rows())
    {
      var it := FindLeft(key);
      if it != LeftEnd {
        var _ := EraseLeft(it);
        return true;
      }
      return false;
    }

    /** `erase_right(key)`: the same by right key. */
    method EraseRightKey(key: int) returns (b: bool)
      requires Valid()
      modifies this, leftMap, rightMap, leftMap.nodes, rightMap.nodes
      ensures Valid() && (b <==> key in old(Rights(Rows())))
      ensures b ==> size == old(size) - 1 && Rows() == Without(old(Rows()), Pos(old(Rights(Rows())), key))
      ensures !b ==> size == old(size) && Rows() == old(Rows())
    {
      var it := FindRight(key);
      if it != RightEnd {
        var _ := EraseRight(it);
        return true;
      }
      return false;
    }

    /** One turn of the loop of `erase_left(first, last)`: with the
        elements of the range at `i` up to `j` gone, the one at `j` is
        erased and the result is the position after it. */
    method EraseLeftInRange(it: int, ghost E0: seq<int>, ghost R0: seq<(int, int)>, ghost i: nat, ghost j: nat, ghost k: nat)
      returns (r: int)
      requires Valid() && i <= j < k <= |E0| == |R0| && it == (E0 + [LeftEnd])[j]
      requires leftMap.Elements() == E0[..i] + E0[j..] && Rows() == R0[..i] + R0[j..]
      modifies this, leftMap, rightMap, leftMap.nodes, rightMap.nodes
      ensures Valid() && size == old(size) - 1 && r == (E0 + [LeftEnd])[j + 1]
      ensures leftMap.Elements() == E0[..i] + E0[j + 1..] && Rows() == R0[..i] + R0[j + 1..]
    {
      RangeStep(E0, i, j, LeftEnd);
      RangeStep(R0, i, j, (0, 0));
      ProperDistinct(leftMap.tree);
      PosDistinct(leftMap.Elements(), i);
      r := EraseLeft(it);
    }

    /** One turn of the loop of `erase_right(first, last)`. */
    method EraseRightInRange(it: int, ghost E0: seq<int>, ghost K0: seq<int>, ghost i: nat, ghost j: nat, ghost k: nat)
      returns (r: int)
      requires Valid() && i <= j < k <= |E0| == |K0| && it == (E0 + [RightEnd])[j]
      requires rightMap.Elements() == E0[..i] + E0[j..] && RightKeys() == K0[..i] + K0[j..]
      modifies this, leftMap, rightMap, leftMap.nodes, rightMap.nodes
      ensures Valid() && size == old(size) - 1 && r == (E0 + [RightEnd])[j + 1]
      ensures rightMap.Elements() == E0[..i] + E0[j + 1..] && RightKeys() == K0[..i] + K0[j + 1..]
    {
      RangeStep(E0, i, j, RightEnd);
      RangeStep(K0, i, j, 0);
      ProperDistinct(rightMap.tree);
      PosDistinct(rightMap.Elements(), i);
      r := EraseRight(it);
    }

    /** The loop of `erase_left(first, last)`, over the positions `i` up
        to `k` of the walk `E0 + [LeftEnd]`. */
    method EraseLeftSpan(first: int, last: int, ghost E0: seq<int>, ghost R0: seq<(int, int)>, ghost i: nat, ghost k: nat)
      requires Valid() && i <= k <= |E0| == |R0| && leftMap.Elements() == E0[..i] + E0[i..] && Rows() == R0[..i] + R0[i..]
      requires first == (E0 + [LeftEnd])[i] && last == (E0 + [LeftEnd])[k]
      requires forall j | i <= j < k :: (E0 + [LeftEnd])[j] != last
      modifies this, leftMap, rightMap, leftMap.nodes, rightMap.nodes
      ensures Valid() && size == old(size) - (k - i)
      ensures Rows() == R0[..i] + R0[k..]
    {
      ghost var j := i;
      var it := first;
      while it != last
        invariant Valid() && i <= j <= k && it == (E0 + [LeftEnd])[j]
        invariant leftMap.Elements() == E0[..i] + E0[j..] && Rows() == R0[..i] + R0[j..]
        invariant size == old(size) - (j - i)
        decreases k - j
      {
        assert j < k;
        it := EraseLeftInRange(it, E0, R0, i, j, k);
        j := j + 1;
      }
    }

    /** `erase_left(first, last)`: the elements from `first` up to, not
        including, `last` are erased one by one; the result is `last`. */
    method EraseLeftRange(first: int, last: int) returns (r: int)
      requires Valid() && first in Walk(leftMap.tree, LeftEnd) && last in Walk(leftMap.tree, LeftEnd)
      requires Pos(Walk(leftMap.tree, LeftEnd), first) <= Pos(Walk(leftMap.tree, LeftEnd), last)
      modifies this, leftMap, rightMap, leftMap.nodes, rightMap.nodes
      ensures Valid() && r == last
      ensures Rows() == old(Rows())[..Pos(old(Walk(leftMap.tree, LeftEnd)), first)]
                        + old(Rows())[Pos(old(Walk(leftMap.tree, LeftEnd)), last)..]
      ensures size == old(size) - (Pos(old(Walk(leftMap.tree, LeftEnd)), last) - Pos(old(Walk(leftMap.tree, LeftEnd)), first))
    {
      ghost var W0 := Walk(leftMap.tree, LeftEnd);
      SpanEnds(leftMap.Elements(), LeftEnd, first, last);
      Rejoin(leftMap.Elements(), Pos(W0, first));
      Rejoin(Rows(), Pos(W0, first));
      EraseLeftSpan(first, last, leftMap.Elements(), Rows(), Pos(W0, first), Pos(W0, last));
      return last;
    }

    /** The loop of `erase_right(first, last)`. */
    method EraseRightSpan(first: int, last: int, ghost E0: seq<int>, ghost K0: seq<int>, ghost i: nat, ghost k: nat)
      requires Valid() && i <= k <= |E0| == |K0| && rightMap.Elements() == E0[..i] + E0[i..] && RightKeys() == K0[..i] + K0[i..]
      requires first == (E0 + [RightEnd])[i] && last == (E0 + [RightEnd])[k]
      requires forall j | i <= j < k :: (E0 + [RightEnd])[j] != last
      modifies this, leftMap, rightMap, leftMap.nodes, rightMap.nodes
      ensures Valid() && size == old(size) - (k - i)
      ensures RightKeys() == K0[..i] + K0[k..]
    {
      ghost var j := i;
      var it := first;
      while it != last
        invariant Valid() && i <= j <= k && it == (E0 + [RightEnd])[j]
        invariant rightMap.Elements() == E0[..i] + E0[j..] && RightKeys() == K0[..i] + K0[j..]
        invariant size == old(size) - (j - i)
        decreases k - j
      {
        assert j < k;
        it := EraseRightInRange(it, E0, K0, i, j, k);
        j := j + 1;
      }
    }

    /** `erase_right(first, last)`: the same over a range of right
        positions. */
    method EraseRightRange(first: int, last: int) returns (r: int)
      requires Valid() && first in Walk(rightMap.tree, RightEnd) && last in Walk(rightMap.tree, RightEnd)
      requires Pos(Walk(rightMap.tree, RightEnd), first) <= Pos(Walk(rightMap.tree, RightEnd), last)
      modifies this, leftMap, rightMap, leftMap.nodes, rightMap.nodes
      ensures Valid() && r == last
      ensures RightKeys() == old(RightKeys())[..Pos(old(Walk(rightMap.tree, RightEnd)), first)]
                             + old(RightKeys())[Pos(old(Walk(rightMap.tree, RightEnd)), last)..]
      ensures size == old(size) - (Pos(old(Walk(rightMap.tree, RightEnd)), last) - Pos(old(Walk(rightMap.tree, RightEnd)), first))
    {
      ghost var W0 := Walk(rightMap.tree, RightEnd);
      SpanEnds(rightMap.Elements(), RightEnd, first, last);
      Rejoin(rightMap.Elements(), Pos(W0, first));
      Rejoin(RightKeys(), Pos(W0, first));
      EraseRightSpan(first, last, rightMap.Elements(), RightKeys(), Pos(W0, first), Pos(W0, last));
      return last;
    }

    /** `clear`: every element is erased. */
    method Clear()
      requires Valid()
      modifies this, leftMap, rightMap, leftMap.nodes, rightMap.nodes
      ensures Valid() && Rows() == [] && size == 0
    {
      var first := BeginLeft();
      var _ := EraseLeftRange(first, EndLeft());
    }

    /** `find_left`: the element whose left key is `key`, which holds the
        row of that key, or `end_left()`. */
    method FindLeft(key: int) returns (it: int)
      requires Valid()
      ensures it == LeftEnd <==> key !in Lefts(Rows())
      ensures key in Lefts(Rows()) ==> it in leftMap.Elements() && Pos(leftMap.Elements(), it) == Pos(Lefts(Rows()), key)
    {
      Bijective();
      it := leftMap.Find(key);
      if it != LeftEnd {
        IdsInOrder(leftMap.tree);
        KeyPos(leftMap.nodes.value, leftMap.Elements(), it);
      }
    }

    /** `find_right`: the element whose right key is `key`, which holds the
        row of that key, or `end_right()`. */
    method FindRight(key: int) returns (it: int)
      requires Valid()
      ensures it == RightEnd <==> key !in Rights(Rows())
      ensures key in Rights(Rows()) ==> && it in rightMap.Elements() && it in leftMap.Elements() && key in RightKeys()
                                        && Pos(rightMap.Elements(), it) == Pos(RightKeys(), key)
                                        && Pos(leftMap.Elements(), it) == Pos(Rights(Rows()), key)
    {
      Bijective();
      it := rightMap.Find(key);
      if it != RightEnd {
        IdsInOrder(leftMap.tree);
        IdsInOrder(rightMap.tree);
        KeyPos(rightMap.nodes.value, rightMap.Elements(), it);
        PosDistinct(Rights(Rows()), Pos(leftMap.Elements(), it));
      }
    }

    /** `at_left`: the right key paired with the left key `key`, or
        `out_of_range` when there is none. */
    method AtLeft(key: int) returns (a: At)
      requires Valid()
      ensures a.Value? <==> key in Lefts(Rows())
      ensures a.Value? ==> a.v == Rows()[Pos(Lefts(Rows()), key)].1
    {
      var found := FindLeft(key);
      if found != LeftEnd {
        IdsInOrder(leftMap.tree);
        IdsInOrder(rightMap.tree);
        PosWalk(leftMap.tree, LeftEnd, found);
        var it := new Iterator(found);
        var flipped := it.Flip(leftMap);
        return Value(flipped.Deref(rightMap));
      }
      return OutOfRange;
    }

    /** `at_right`: the left key paired with the right key `key`, or
        `out_of_range` when there is none. */
    method AtRight(key: int) returns (a: At)
      requires Valid()
      ensures a.Value? <==> key in Rights(Rows())
      ensures a.Value? ==> a.v == Rows()[Pos(Rights(Rows()), key)].0
    {
      var found := FindRight(key);
      if found != RightEnd {
        PosWalk(rightMap.tree, RightEnd, found);
        var it := new Iterator(found);
        var flipped := it.Flip(rightMap);
        return Value(flipped.Deref(leftMap));
      }
      return OutOfRange;
    }

    /** Each row is found by either of its keys: `at_left` and `at_right`
        undo each other. */
    lemma Paired(j: int)
      requires Valid() && 0 <= j < |Rows()|
      ensures Rows()[j].0 in Lefts(Rows()) && Pos(Lefts(Rows()), Rows()[j].0) == j
      ensures Rows()[j].1 in Rights(Rows()) && Pos(Rights(Rows()), Rows()[j].1) == j
    {
      Bijective();
      PosDistinct(Lefts(Rows()), j);
      PosDistinct(Rights(Rows()), j);
    }

    /** `lower_bound_left`: the first left position whose key is not below
        `key`. */
    method LowerBoundLeft(key: int) returns (it: int)
      requires Valid()
      ensures it == Walk(leftMap.tree, LeftEnd)[FirstAtLeast(Lefts(Rows()), key)]
    {
      Bijective();
      it := leftMap.LowerBound(key);
    }

    /** `upper_bound_left`: the first left position whose key is above
        `key`. */
    method UpperBoundLeft(key: int) returns (it: int)
      requires Valid()
      ensures it == Walk(leftMap.tree, LeftEnd)[FirstAbove(Lefts(Rows()), key)]
    {
      Bijective();
      it := leftMap.UpperBound(key);
    }

    /** `lower_bound_right`: the first right position whose key is not
        below `key`. */
    method LowerBoundRight(key: int) returns (it: int)
      requires Valid()
      ensures it == Walk(rightMap.tree, RightEnd)[FirstAtLeast(RightKeys(), key)]
    {
      it := rightMap.LowerBound(key);
    }

    /** `upper_bound_right`: the first right position whose key is above
        `key`. */
    method UpperBoundRight(key: int) returns (it: int)
      requires Valid()
      ensures it == Walk(rightMap.tree, RightEnd)[FirstAbove(RightKeys(), key)]
    {
      it := rightMap.UpperBound(key);
    }

    /** `begin_left`: the first left position. */
    method BeginLeft() returns (it: int)
      requires Valid()
      ensures it == Walk(leftMap.tree, LeftEnd)[0]
    {
      it := leftMap.Begin();
    }

    /** `end_left`: the last left position, past every row. */
    function EndLeft(): (it: int)
      reads this, leftMap, rightMap, leftMap.nodes, rightMap.nodes
      requires Valid()
      ensures it == Walk(leftMap.tree, LeftEnd)[|Rows()|] && it !in leftMap.Elements()
    {
      IdsInOrder(leftMap.tree);
      leftMap.End()
    }

    /** `begin_right`: the first right position. */
    method BeginRight() returns (it: int)
      requires Valid()
      ensures it == Walk(rightMap.tree, RightEnd)[0]
    {
      it := rightMap.Begin();
    }

    /** `end_right`: the last right position, past every right key. */
    function EndRight(): (it: int)
      reads this, leftMap, rightMap, leftMap.nodes, rightMap.nodes
      requires Valid()
      ensures it == Walk(rightMap.tree, RightEnd)[|RightKeys()|] && it !in rightMap.Elements()
    {
      IdsInOrder(rightMap.tree);
      rightMap.End()
    }

    /** `empty`: whether there are no rows. */
    function Empty(): (r: bool)
      reads this, leftMap, rightMap, leftMap.nodes, rightMap.nodes
      requires Valid()
      ensures r <==> Rows() == []
    {
      size == 0
    }

    /** `size`: the number of rows. */
    function Size(): (r: nat)
      reads this, leftMap, rightMap, leftMap.nodes, rightMap.nodes
      requires Valid()
      ensures r == |Rows()|
    {
      size
    }

    /** The last part of `at_left_or_default` when the default right key
        is taken: a new element holding (key, right key of `rep`) joins the
        left side, `rep` leaves it, and the new element replaces `rep` on
        the right side. */
    method RebindLeft(key: int, rep: int)
      requires Valid() && key !in LeftKeys() && rep in leftMap.Elements()
      modifies this, leftMap, rightMap, leftMap.nodes, rightMap.nodes
      ensures Valid() && size == old(size)
      ensures var row := old(Rows())[Pos(old(leftMap.Elements()), rep)];
              multiset(Rows()) == multiset(old(Rows())) - multiset{row} + multiset{(key, row.1)} && (key, row.1) in Rows()
    {
      IdsInOrder(leftMap.tree);
      IdsInOrder(rightMap.tree);
      ghost var E, LV, RV := leftMap.Elements(), leftMap.nodes.value, rightMap.nodes.value;
      ghost var i0 := FirstAtLeast(leftMap.Keys(), key);
      var n := RelinkLeft(key, rep);
      Rebound(E, LV, RV, i0, n, rep, key, RV[rep]);
    }

    /** The pointer work of `RebindLeft`: the new element `n` joins the
        left tree with `key` and `rep` leaves it; on the right, `n` takes
        `rep`'s place and right key. */
    method RelinkLeft(key: int, rep: int) returns (n: int)
      requires Valid() && key !in LeftKeys() && rep in leftMap.Elements()
      modifies this, leftMap, rightMap, leftMap.nodes, rightMap.nodes
      ensures Valid() && size == old(size) && n == old(next) && rep in old(rightMap.nodes.value)
      ensures leftMap.nodes.value == old(leftMap.nodes.value)[n := key]
      ensures rightMap.nodes.value == old(rightMap.nodes.value)[n := old(rightMap.nodes.value)[rep]]
      ensures var i0 := FirstAtLeast(old(leftMap.Keys()), key);
              var E1 := old(leftMap.Elements())[..i0] + [n] + old(leftMap.Elements())[i0..];
              rep in E1 && leftMap.Elements() == Without(E1, Pos(E1, rep))
    {
      IdsInOrder(leftMap.tree);
      IdsInOrder(rightMap.tree);
      n := next;
      next := next + 1;
      Exchange(leftMap, n, key, rep);
      Substitute(rightMap, rep, n);
    }

    /** The last part of `at_right_or_default` when the default left key is
        taken: a new element holding (left key of `rep`, key) joins the
        right side, `rep` leaves it, and the new element replaces `rep` on
        the left side, keeping its row's place. */
    method RebindRight(key: int, rep: int)
      requires Valid() && key !in RightKeys() && rep in rightMap.Elements()
      modifies this, leftMap, rightMap, leftMap.nodes, rightMap.nodes
      ensures Valid() && size == old(size) && rep in old(leftMap.Elements())
      ensures var j := Pos(old(leftMap.Elements()), rep);
              Rows() == old(Rows())[j := (old(Rows())[j].0, key)]
    {
      IdsInOrder(leftMap.tree);
      IdsInOrder(rightMap.tree);
      ghost var E, LV, RV := leftMap.Elements(), leftMap.nodes.value, rightMap.nodes.value;
      var n := next;
      next := next + 1;
      var l := leftMap.nodes.Get(rep);
      RowsRename(E, Pos(E, rep), n, LV, RV, l, key);
      Exchange(rightMap, n, key, rep);
      Substitute(leftMap, rep, n);
      assert Rows() == RowsOf(E[Pos(E, rep) := n], LV[n := l], RV[n := key]);
    }

    /** `at_left_or_default`: the right key paired with `key`; when there
        is none, `key` is paired with the default right key 0, inserted as
        a new row when 0 is not a right key, or otherwise taking the place
        of the left key that 0 was paired with. */
    method AtLeftOrDefault(key: int) returns (v: int)
      requires Valid()
      modifies this, leftMap, rightMap, leftMap.nodes, rightMap.nodes
      ensures Valid()
      ensures key in old(Lefts(Rows())) ==>
                v == old(Rows())[Pos(old(Lefts(Rows())), key)].1 && Rows() == old(Rows()) && size == old(size)
      ensures key !in old(Lefts(Rows())) ==> v == 0 && (key, 0) in Rows()
      ensures key !in old(Lefts(Rows())) && 0 !in old(Rights(Rows())) ==>
                && size == old(size) + 1
                && Rows() == old(Rows())[..FirstAtLeast(old(Lefts(Rows())), key)] + [(key, 0)]
                             + old(Rows())[FirstAtLeast(old(Lefts(Rows())), key)..]
      ensures key !in old(Lefts(Rows())) && 0 in old(Rights(Rows())) ==>
                && size == old(size)
                && var row := old(Rows())[Pos(old(Rights(Rows())), 0)];
                   multiset(Rows()) == multiset(old(Rows())) - multiset{row} + multiset{(key, 0)}
    {
      Bijective();
      var found := FindLeft(key);
      if found != LeftEnd {
        IdsInOrder(leftMap.tree);
        IdsInOrder(rightMap.tree);
        PosWalk(leftMap.tree, LeftEnd, found);
        var it := new Iterator(found);
        var flipped := it.Flip(leftMap);
        return flipped.Deref(rightMap);
      }
      var r := 0;
      var replace := FindRight(r);
      if replace == RightEnd {
        var inserted := Insert(key, r);
        ghost var j := Pos(leftMap.Elements(), inserted);
        assert Rows()[j] == (key, r);
        IdsInOrder(leftMap.tree);
        IdsInOrder(rightMap.tree);
        PosWalk(leftMap.tree, LeftEnd, inserted);
        var it := new Iterator(inserted);
        var flipped := it.Flip(leftMap);
        return flipped.Deref(rightMap);
      }
      PosWalk(rightMap.tree, RightEnd, replace);
      var it := new Iterator(replace);
      var flipped := it.Flip(rightMap);
      ghost var row := Rows()[Pos(leftMap.Elements(), replace)];
      assert row == Rows()[Pos(Rights(Rows()), r)] && row.1 == r;
      RebindLeft(key, flipped.current);
      return r;
    }

    /** `at_right_or_default`: the left key paired with `key`; when there
        is none, `key` is paired with the default left key 0, inserted as
        a new row when 0 is not a left key, or otherwise replacing the
        right key of 0's row. */
    method AtRightOrDefault(key: int) returns (v: int)
      requires Valid()
      modifies this, leftMap, rightMap, leftMap.nodes, rightMap.nodes
      ensures Valid()
      ensures key in old(Rights(Rows())) ==>
                v == old(Rows())[Pos(old(Rights(Rows())), key)].0 && Rows() == old(Rows()) && size == old(size)
      ensures key !in old(Rights(Rows())) ==> v == 0 && (0, key) in Rows()
      ensures key !in old(Rights(Rows())) && 0 !in old(Lefts(Rows())) ==>
                && size == old(size) + 1
                && Rows() == old(Rows())[..FirstAtLeast(old(Lefts(Rows())), 0)] + [(0, key)]
                             + old(Rows())[FirstAtLeast(old(Lefts(Rows())), 0)..]
      ensures key !in old(Rights(Rows())) && 0 in old(Lefts(Rows())) ==>
                && size == old(size)
                && Rows() == old(Rows())[Pos(old(Lefts(Rows())), 0) := (0, key)]
    {
      Bijective();
      var found := FindRight(key);
      if found != RightEnd {
        PosWalk(rightMap.tree, RightEnd, found);
        var it := new Iterator(found);
        var flipped := it.Flip(rightMap);
        return flipped.Deref(leftMap);
      }
      var l := 0;
      var replace := FindLeft(l);
      if replace == LeftEnd {
        var inserted := Insert(l, key);
        ghost var j := Pos(leftMap.Elements(), inserted);
        assert Rows()[j] == (l, key);
        IdsInOrder(leftMap.tree);
        var it := new Iterator(inserted);
        return it.Deref(leftMap);
      }
      IdsInOrder(leftMap.tree);
      IdsInOrder(rightMap.tree);
      PosWalk(leftMap.tree, LeftEnd, replace);
      var it := new Iterator(replace);
      var flipped := it.Flip(leftMap);
      ghost var j := Pos(leftMap.Elements(), replace);
      RebindRight(key, flipped.current);
      assert Rows()[j] == (l, key);
      return l;
    }

    /** The row read at the `k`-th left position: `*it` and `*it.flip()`,
        as `operator==` reads them. */
    method Row(x: int, ghost k: int) returns (l: int, r: int)
      requires Valid() && 0 <= k < |Rows()| && x == Walk(leftMap.tree, LeftEnd)[k]
      ensures (l, r) == Rows()[k]
    {
      ProperDistinct(leftMap.tree);
      PosDistinct(leftMap.Elements(), k);
      IdsInOrder(leftMap.tree);
      IdsInOrder(rightMap.tree);
      PosWalk(leftMap.tree, LeftEnd, x);
      var it := new Iterator(x);
      l := it.Deref(leftMap);
      var flipped := it.Flip(leftMap);
      r := flipped.Deref(rightMap);
    }

    /** `flip` twice from a left position comes back to it. */
    lemma FlipTwiceLeft(x: int)
      requires Valid() && x in Walk(leftMap.tree, LeftEnd)
      ensures Across(leftMap, x) in Walk(rightMap.tree, RightEnd) && Across(rightMap, Across(leftMap, x)) == x
    {
      IdsInOrder(leftMap.tree);
      IdsInOrder(rightMap.tree);
    }

    /** `flip` twice from a right position comes back to it. */
    lemma FlipTwiceRight(x: int)
      requires Valid() && x in Walk(rightMap.tree, RightEnd)
      ensures Across(rightMap, x) in Walk(leftMap.tree, LeftEnd) && Across(leftMap, Across(rightMap, x)) == x
    {
      IdsInOrder(leftMap.tree);
      IdsInOrder(rightMap.tree);
    }
  }

  /** One turn of `operator==`'s loop: the rows at the `k`-th left
      positions `it1` of `a` and `it2` of `b` are compared key by key; when
      they agree, both positions move on (`operator++`). */
  method Compare(a: Bimap, b: Bimap, it1: int, it2: int, ghost k: int) returns (same: bool, next1: int, next2: int)
    requires a.Valid() && b.Valid() && 0 <= k < |a.Rows()| && k < |b.Rows()|
    requires it1 == Walk(a.leftMap.tree, LeftEnd)[k] && it2 == Walk(b.leftMap.tree, LeftEnd)[k]
    ensures same <==> a.Rows()[k] == b.Rows()[k]
    ensures same ==> next1 == Walk(a.leftMap.tree, LeftEnd)[k + 1] && next2 == Walk(b.leftMap.tree, LeftEnd)[k + 1]
  {
    var key1, other1 := a.Row(it1, k);
    var key2, other2 := b.Row(it2, k);
    if !IntrusiveMap.Equals(key1, key2) || !IntrusiveMap.Equals(other1, other2) {
      return false, it1, it2;
    }
    WalkDistinct(a.leftMap.tree, LeftEnd);
    WalkDistinct(b.leftMap.tree, LeftEnd);
    PosDistinct(Walk(a.leftMap.tree, LeftEnd), k);
    PosDistinct(Walk(b.leftMap.tree, LeftEnd), k);
    IdsInOrder(a.leftMap.tree);
    IdsInOrder(b.leftMap.tree);
    next1 := a.leftMap.nodes.Next(it1, a.leftMap.tree, LeftEnd);
    next2 := b.leftMap.nodes.Next(it2, b.leftMap.tree, LeftEnd);
    return true, next1, next2;
  }

  /** `operator==`: equal sizes, then both sides' keys compared row by row
      in left order; the result is whether the rows are the same. The two
      iterators of the source's loop are the positions `it1` and `it2`. */
  method Equal(a: Bimap, b: Bimap) returns (r: bool)
    requires a.Valid() && b.Valid()
    ensures r <==> a.Rows() == b.Rows()
  {
    if a.size != b.size {
      return false;
    }
    var it1 := a.BeginLeft();
    var it2 := b.BeginLeft();
    ghost var A, B, W1 := a.Rows(), b.Rows(), Walk(a.leftMap.tree, LeftEnd);
    ghost var k := 0;
    WalkDistinct(a.leftMap.tree, LeftEnd);
    var last := a.EndLeft();
    while it1 != last
      invariant 0 <= k <= |A| == |B| && it1 == W1[k] && it2 == Walk(b.leftMap.tree, LeftEnd)[k] && A[..k] == B[..k]
      decreases |A| - k
    {
      PosDistinct(W1, k);
      var same;
      same, it1, it2 := Compare(a, b, it1, it2, k);
      if !same {
        return false;
      }
      PrefixStep(A, B, k);
      k := k + 1;
    }
    PosDistinct(W1, k);
    assert A == A[..k] && B == B[..k];
    return true;
  }

  /** `operator!=`: the negation of `operator==`. */
  method NotEqual(a: Bimap, b: Bimap) returns (r: bool)
    requires a.Valid() && b.Valid()
    ensures r <==> a.Rows() != b.Rows()
  {
    var same := Equal(a, b);
    return !same;
  }
}

=== FILE: deque.dfy ===
/** A model of the block deque of deque/deque.hpp.

    The elements live in blocks of `Inner` (8) slots; `outer` is the array
    of blocks. Global slot `p` is offset `p % 8` of block `p / 8`, and the
    elements occupy the slots `start .. finish` in order (`finish ==
    start - 1` when the deque is empty). The ghost `elems` is the sequence
    the deque holds.

    `start` and `finish` are mathematical integers. The source keeps them
    in `size_t`; the two agree except for `finish` of an empty deque whose
    `start` is 0, which the source holds as 2^64 - 1 (see `CopyTopAsWritten`
    and `CopyCountAsWritten`). */
module Deques {

  /** `kInnerSize`: slots per block. */
  const Inner := 8
  /** `kDefaultOuterSize`: blocks of a default deque. */
  const DefaultOuter := 2
  /** The range of `size_t`. */
  const SizeRange := 0x1_0000_0000_0000_0000

  /** The outcome of the checked access `at`. */
  datatype Lookup<T> = Found(value: T) | OutOfRange

  /** Slot `s + j`, split through the block of `s`. */
  lemma SlotShift(s: int, j: int)
    requires 0 <= s && 0 <= j
    ensures (s + j) / Inner == s / Inner + (s % Inner + j) / Inner
    ensures (s + j) % Inner == (s % Inner + j) % Inner
  {
    assert s == Inner * (s / Inner) + s % Inner;
    assert s + j == Inner * (s / Inner) + (s % Inner + j);
  }

  /** The last block index that `Expand` copies into the new outer array:
      the blocks of the elements, from the block of `start` to the block of
      `finish`, go to the new indices from `outerSize / 2` on. */
  function CopyTop(outerSize: int, start: int, finish: int): int {
    outerSize / 2 + finish / Inner - start / Inner
  }

  /** The same bound as the source computes it, in `size_t`: `finish` is
      held modulo 2^64, and so is every partial result. */
  function CopyTopAsWritten(outerSize: nat, start: nat, finish: int): nat {
    var f := finish % SizeRange;
    ((outerSize / 2 + f / Inner) % SizeRange - start / Inner) % SizeRange
  }

  /** In a well-formed deque the corrected bound stays inside the doubled
      outer array, and names no block when there is no element to move. */
  lemma CopyTopFits(outerSize: int, start: int, finish: int)
    requires 2 <= outerSize && 0 <= start && start - 1 <= finish < outerSize * Inner
    ensures outerSize / 2 - 1 <= CopyTop(outerSize, start, finish) < 2 * outerSize
    ensures finish < start && start % Inner == 0 ==> CopyTop(outerSize, start, finish) == outerSize / 2 - 1
  {
  }

  /** The two bounds agree whenever `finish` has not wrapped around. */
  lemma CopyTopAgrees(outerSize: nat, start: nat, finish: int)
    requires 2 <= outerSize && outerSize * Inner < SizeRange
    requires start - 1 <= finish && 0 <= finish < outerSize * Inner
    ensures CopyTopAsWritten(outerSize, start, finish) == CopyTop(outerSize, start, finish)
  {
    assert finish % SizeRange == finish;
    var a := outerSize / 2 + finish / Inner;
    assert 0 <= a < SizeRange && a % SizeRange == a;
    assert 0 <= a - start / Inner < SizeRange;
  }

  /** An empty deque whose `start` is 0 (eight `push_front`s then eight
      `pop_back`s reach it) makes the source's bound run far past the
      doubled outer array: the next `push_front` calls `Expand`, which
      copies block pointers out of both arrays' bounds. */
  lemma CopyTopAsWrittenOverruns()
    ensures CopyTopAsWritten(DefaultOuter, 0, -1) == 0x2000_0000_0000_0000
    ensures CopyTopAsWritten(DefaultOuter, 0, -1) >= 2 * DefaultOuter
    ensures CopyTop(DefaultOuter, 0, -1) == DefaultOuter / 2 - 1
  {
  }

  /** The slot that `insert(it, e)` writes `e` to, as the source does it:
      `it.position_`, computed before the `push_back` inside `insert`. */
  function InsertSlotAsWritten(itPosition: int): int {
    itPosition
  }

  /** Where `Expand` moves the slot `p` of a deque whose first element is
      at `start`. */
  function Moved(outerSize: int, start: int, p: int): int {
    (outerSize / 2) * Inner + start % Inner + (p - start)
  }

  /** The iterator of the deque: a global slot, the block holding it, and
      the direction. */
  class Cursor {
    var position: int
    var block: int
    var reverse: bool

    /** `outer_pointer_` points at the block of `position_`. */
    ghost predicate Valid()
      reads this
    {
      block == position / Inner
    }

    /** The private constructor `DequeIterator(pos, outer, rev)`, with the
        block computed as `begin()` and `end()` compute it. */
    constructor (pos: int, rev: bool)
      ensures Valid() && position == pos && reverse == rev
    {
      position, block, reverse := pos, pos / Inner, rev;
    }

    /** `Increase()`: one slot on, moving to the next block after the last
        offset. */
    method Increase()
      requires Valid()
      modifies this
      ensures Valid() && position == old(position) + 1 && reverse == old(reverse)
    {
      if position % Inner == Inner - 1 {
        block := block + 1;
      }
      position := position + 1;
    }

    /** `Decrease()`: one slot back, moving to the previous block from
        offset 0. */
    method Decrease()
      requires Valid()
      modifies this
      ensures Valid() && position == old(position) - 1 && reverse == old(reverse)
    {
      if position % Inner == 0 {
        block := block - 1;
      }
      position := position - 1;
    }

    /** Prefix `++`: forwards for a forward iterator, backwards for a
        reverse one. */
    method Next()
      requires Valid()
      modifies this
      ensures Valid() && reverse == old(reverse)
      ensures position == old(position) + (if reverse then -1 else 1)
    {
      if !reverse {
        Increase();
      } else {
        Decrease();
      }
    }

    /** Prefix `--`: the opposite of `++`. */
    method Prev()
      requires Valid()
      modifies this
      ensures Valid() && reverse == old(reverse)
      ensures position == old(position) - (if reverse then -1 else 1)
    {
      if !reverse {
        Decrease();
      } else {
        Increase();
      }
    }

    /** `Subtract(other)`: how many `++` lead from `other` to this
        iterator. */
    function Subtract(other: Cursor): (d: int)
      reads this, other
      ensures other.position + (if reverse then -d else d) == position
    {
      var buff := position - other.position;
      if reverse then -buff else buff
    }
  }

  /** `Subtract` counts the steps of `Next`: after `k` steps from `c`, the
      iterator is `k` away. */
  lemma SubtractCountsSteps(c: Cursor, d: Cursor, k: int)
    requires c.reverse == d.reverse
    requires d.position == c.position + (if c.reverse then -k else k)
    ensures d.Subtract(c) == k && c.Subtract(d) == -k
  {
  }

  /** The outer array holds distinct blocks of `Inner` slots each, none of
      them the outer array itself. */
  ghost predicate Blocks<T>(o: array<array<T>>)
    reads o
  {
    && (forall k | 0 <= k < o.Length :: o[k].Length == Inner && o[k] as object != o)
    && (forall k, l | 0 <= k < l < o.Length :: o[k] != o[l])
  }

  /** Global slot `p`: offset `p % 8` of block `p / 8`. */
  ghost function Cell<T>(o: array<array<T>>, p: int): T
    requires Blocks(o) && 0 <= p < o.Length * Inner
    reads o, o[p / Inner]
  {
    o[p / Inner][p % Inner]
  }

  /** The slots from `s` on hold `es`, in order. */
  ghost predicate Holds<T>(o: array<array<T>>, s: int, es: seq<T>)
    requires Blocks(o) && 0 <= s && s + |es| <= o.Length * Inner
    reads o, set k | 0 <= k < o.Length :: o[k]
  {
    forall j | 0 <= j < |es| :: Cell(o, s + j) == es[j]
  }

  /** The storage of a deque: an outer array of `n` (at least two) blocks,
      all of them in the footprint `repr`. */
  ghost predicate Store<T>(o: array<array<T>>, n: int, repr: set<object>)
    reads o
  {
    && o in repr && o.Length == n && DefaultOuter <= n && Blocks(o)
    && forall k | 0 <= k < n :: o[k] in repr
  }

  /** Construction of an element in slot `p` (`new(outer_[p / 8] + p % 8)
      T(v)`), or assignment through a reference to it: slot `p` holds `v`
      and every other slot is unchanged. */
  method Put<T>(o: array<array<T>>, p: int, v: T)
    requires Blocks(o) && 0 <= p < o.Length * Inner
    modifies o[p / Inner]
    ensures Blocks(o) && Cell(o, p) == v
    ensures forall q | 0 <= q < o.Length * Inner && q != p :: Cell(o, q) == old(Cell(o, q))
  {
    o[p / Inner][p % Inner] := v;
    forall q | 0 <= q < o.Length * Inner && q != p
      ensures Cell(o, q) == old(Cell(o, q))
    {
      assert q / Inner != p / Inner || q % Inner != p % Inner;
    }
  }

  /** A value put in the slot after the elements extends them at the back. */
  method PutBack<T>(o: array<array<T>>, p: int, ghost s: int, ghost es: seq<T>, v: T)
    requires Blocks(o) && 0 <= s && p == s + |es| < o.Length * Inner && Holds(o, s, es)
    modifies o[p / Inner]
    ensures Blocks(o) && Holds(o, s, es + [v])
  {
    Put(o, p, v);
  }

  /** A value put in the slot before the elements extends them at the front. */
  method PutFront<T>(o: array<array<T>>, s: int, ghost es: seq<T>, v: T)
    requires Blocks(o) && 1 <= s && s + |es| <= o.Length * Inner && Holds(o, s, es)
    modifies o[(s - 1) / Inner]
    ensures Blocks(o) && Holds(o, s - 1, [v] + es)
  {
    Put(o, s - 1, v);
    forall j | 0 <= j < |es| + 1
      ensures Cell(o, s - 1 + j) == ([v] + es)[j]
    {
      if j > 0 {
        assert Cell(o, s + (j - 1)) == es[j - 1];
      }
    }
  }

  /** The first `n` elements stay where they are. */
  lemma HoldsPrefix<T>(o: array<array<T>>, s: int, es: seq<T>, n: int)
    requires Blocks(o) && 0 <= s && s + |es| <= o.Length * Inner && Holds(o, s, es)
    requires 0 <= n <= |es|
    ensures Holds(o, s, es[..n])
  {
    forall j | 0 <= j < n
      ensures Cell(o, s + j) == es[..n][j]
    {
      assert Cell(o, s + j) == es[j];
    }
  }

  /** All elements but the first start one slot later. */
  lemma HoldsTail<T>(o: array<array<T>>, s: int, es: seq<T>)
    requires Blocks(o) && 0 <= s && s + |es| <= o.Length * Inner && Holds(o, s, es)
    requires es != []
    ensures Holds(o, s + 1, es[1..])
  {
    forall j | 0 <= j < |es| - 1
      ensures Cell(o, s + 1 + j) == es[1..][j]
    {
      assert Cell(o, s + (j + 1)) == es[j + 1];
    }
  }

  /** A value put in the slot of element `i` replaces that element. */
  method PutAt<T>(o: array<array<T>>, s: int, ghost es: seq<T>, i: int, v: T)
    requires Blocks(o) && 0 <= s && s + |es| <= o.Length * Inner && Holds(o, s, es)
    requires 0 <= i < |es|
    modifies o[(s + i) / Inner]
    ensures Blocks(o) && Holds(o, s, es[i := v])
  {
    Put(o, s + i, v);
  }

  /** The element-by-element copy loop of the copy constructor and of
      `operator=`: the slots of `es` in `dst` receive the elements held in
      the same slots of `src`, whose blocks are distinct from those of
      `dst`. */
  method CopySlots<T>(src: array<array<T>>, dst: array<array<T>>, lo: int, hi: int, ghost es: seq<T>)
    requires Blocks(src) && Blocks(dst) && src.Length == dst.Length
    requires 0 <= lo && hi == lo + |es| - 1 < src.Length * Inner && Holds(src, lo, es)
    requires forall k | 0 <= k < dst.Length :: dst[k] as object != src
    requires forall k, l | 0 <= k < dst.Length && 0 <= l < src.Length :: dst[k] != src[l]
    modifies set k | 0 <= k < dst.Length :: dst[k]
    ensures Blocks(dst) && Holds(dst, lo, es)
  {
    var p := lo;
    while p <= hi
      invariant lo <= p <= hi + 1 && Blocks(dst) && Blocks(src)
      invariant Holds(src, lo, es) && Holds(dst, lo, es[..p - lo])
    {
      assert Cell(src, lo + (p - lo)) == es[p - lo];
      PutBack(dst, p, lo, es[..p - lo], src[p / Inner][p % Inner]);
      assert es[..p - lo] + [es[p - lo]] == es[..p + 1 - lo];
      p := p + 1;
    }
    assert es[..p - lo] == es;
  }

  /** `n` fresh blocks of `Inner` slots, as the constructors and `Expand`
      allocate them (`new char[sizeof(T) * kInnerSize]`). */
  method NewBlocks<T(0)>(n: nat) returns (o: array<array<T>>)
    ensures fresh(o) && o.Length == n && Blocks(o)
    ensures forall k | 0 <= k < n :: fresh(o[k])
  {
    var b0 := new T[Inner];
    o := new array<T>[n](_ => b0);
    var i := 0;
    while i < n
      invariant 0 <= i <= n
      invariant forall k | 0 <= k < i :: o[k].Length == Inner && fresh(o[k])
      invariant forall k | 0 <= k < n :: o[k] as object != o
      invariant forall k, l | 0 <= k < l < i :: o[k] != o[l]
    {
      o[i] := new T[Inner];
      i := i + 1;
    }
  }

  /** Where the `j`-th element of a deque starting at `s` lands when
      `Expand` moves its blocks to start at block `half`. */
  lemma ExpandSlot(half: int, s: int, f: int, j: int)
    requires 0 <= s && 0 <= j <= f - s && 0 <= half
    ensures var m := (s % Inner + j) / Inner;
      var s' := half * Inner + s % Inner;
      && (s' + j) / Inner == half + m && (s' + j) % Inner == (s + j) % Inner
      && (s + j) / Inner == s / Inner + m && 0 <= m <= f / Inner - s / Inner
  {
    SlotShift(s, j);
    SlotShift(half * Inner + s % Inner, j);
    SlotShift(s, f - s);
  }

  /** The offsets `Expand` computes: the elements keep their count, the
      first one lands in block `outerSize / 2`, and the last one at least a
      block before the end of the doubled outer array. */
  lemma ExpandBounds(n: int, s: int, f: int)
    requires 2 <= n && 0 <= s && s - 1 <= f < n * Inner
    ensures var top := CopyTop(n, s, f);
      var s', f' := n / 2 * Inner + s % Inner, top * Inner + f % Inner;
      && f' - s' == f - s && Inner <= s' && f' < 2 * n * Inner - Inner
  {
    assert f == f / Inner * Inner + f % Inner;
    assert s == s / Inner * Inner + s % Inner;
  }

  /** The blocks `Expand` builds hold the elements at the shifted slots:
      block `half + m` of `d` is block `s / 8 + m` of `o` for every block
      `m` of the elements. */
  lemma ExpandHolds<T>(o: array<array<T>>, d: array<array<T>>, s: int, f: int, es: seq<T>, st: int)
    requires Blocks(o) && Blocks(d) && 2 <= o.Length && d.Length == 2 * o.Length
    requires 0 <= s && s - 1 <= f < o.Length * Inner && |es| == f - s + 1 && Holds(o, s, es)
    requires forall k | o.Length / 2 <= k <= CopyTop(o.Length, s, f) ::
      0 <= k - o.Length / 2 + s / Inner < o.Length && d[k] == o[k - o.Length / 2 + s / Inner]
    requires st == o.Length / 2 * Inner + s % Inner
    ensures Holds(d, st, es)
  {
    var half := o.Length / 2;
    ExpandBounds(o.Length, s, f);
    forall j | 0 <= j < |es|
      ensures Cell(d, half * Inner + s % Inner + j) == es[j]
    {
      ExpandSlot(half, s, f, j);
      assert Cell(o, s + j) == es[j];
    }
  }

  /** One step of the shifting loop of `insert`: place `b` takes the
      element before it, and the gap moves to `b - 1`. */
  lemma ShiftStep<T>(el: seq<T>, E: seq<T>, b: int)
    requires |el| == |E| + 1 && 1 <= b < |el|
    requires el[..b] == E[..b] && el[b + 1..] == E[b..]
    ensures el[b := el[b - 1]][..b - 1] == E[..b - 1]
    ensures el[b := el[b - 1]][b..] == E[b - 1..]
  {
    assert el[b - 1] == E[b - 1] by {
      assert el[..b][b - 1] == E[..b][b - 1];
    }
    var el' := el[b := el[b - 1]];
    assert el'[..b - 1] == el[..b][..b - 1];
    assert el'[b..] == [E[b - 1]] + el[b + 1..];
  }

  /** The last step of the shifting loop of `insert`: `e` fills the gap. */
  lemma ShiftLast<T>(el: seq<T>, E: seq<T>, b: int, e: T)
    requires |el| == |E| + 1 && 0 <= b < |el|
    requires el[..b] == E[..b] && el[b + 1..] == E[b..]
    ensures el[b := e] == E[..b] + [e] + E[b..]
  {
    assert el[b := e] == el[..b] + [e] + el[b + 1..];
  }

  /** What the moving loop of `erase` leaves: the elements without the
      one at `index`, then the last element again. */
  ghost function Closed<T>(E: seq<T>, index: int): (r: seq<T>)
    requires 0 <= index < |E|
    ensures |r| == |E| && r[..|E| - 1] == E[..index] + E[index + 1..]
  {
    E[..index] + E[index + 1..] + [E[|E| - 1]]
  }

  /** When the moving loop of `erase` stops, the last place still holds the
      last element. */
  lemma EraseDone<T>(el: seq<T>, E: seq<T>, index: int)
    requires 0 <= index < |E| == |el|
    requires el[..|E| - 1] == Closed(E, index)[..|E| - 1] && el[|E| - 1..] == E[|E| - 1..]
    ensures el == Closed(E, index)
  {
    var c := Closed(E, index);
    assert c[|E| - 1] == E[|E| - 1];
    assert el == el[..|E| - 1] + el[|E| - 1..];
    assert c == c[..|E| - 1] + [c[|E| - 1]];
  }

  /** One step of the moving loop of `erase`: place `b` takes the element
      after it. */
  lemma EraseStep<T>(el: seq<T>, E: seq<T>, index: int, b: int)
    requires |el| == |E| && 0 <= index <= b && b + 1 < |el|
    requires el[..b] == Closed(E, index)[..b] && el[b..] == E[b..]
    ensures el[b := el[b + 1]][..b + 1] == Closed(E, index)[..b + 1]
    ensures el[b := el[b + 1]][b + 1..] == E[b + 1..]
  {
    assert el[b + 1] == E[b + 1] by {
      assert el[b..][1] == E[b..][1];
    }
    var el' := el[b := el[b + 1]];
    var c := Closed(E, index);
    assert c[b] == E[b + 1] by {
      assert c == E[..index] + E[index + 1..] + [E[|E| - 1]];
      assert (E[..index] + E[index + 1..])[b] == E[index + 1..][b - index];
    }
    assert el'[..b + 1] == el[..b] + [E[b + 1]];
    assert c[..b + 1] == c[..b] + [E[b + 1]];
    assert el'[b + 1..] == el[b..][1..];
  }

  /** The new outer array of `Expand`: `2 * |o|` blocks, where blocks
      `half .. top` are blocks `first ..` of `o` and all others are new. */
  method Spread<T(0)>(o: array<array<T>>, half: nat, first: nat, top: int) returns (d: array<array<T>>)
    requires Blocks(o) && 1 <= o.Length && half <= o.Length
    requires half - 1 <= top < 2 * o.Length && top - half + first < o.Length
    ensures fresh(d) && d.Length == 2 * o.Length && Blocks(d)
    ensures forall k | half <= k <= top :: d[k] == o[k - half + first]
    ensures forall k | 0 <= k < d.Length && !(half <= k <= top) :: fresh(d[k])
  {
    d := NewBlocks(2 * o.Length);
    var i := half;
    while i <= top
      invariant half <= i <= top + 1 || i == half == top + 1
      invariant Blocks(d)
      invariant forall k | half <= k < i :: d[k] == o[k - half + first]
      invariant forall k | 0 <= k < d.Length && !(half <= k < i) :: fresh(d[k])
      modifies d
    {
      d[i] := o[i - half + first];
      i := i + 1;
    }
  }

  class Deque<T(0)> {
    var outerSize: nat
    var outer: array<array<T>>
    var start: int
    var finish: int
    /** The elements, first to last. */
    ghost var elems: seq<T>
    /** The outer array and the blocks. */
    ghost var Repr: set<object>

    ghost predicate Valid()
      reads this, Repr
    {
      && outer in Repr && Store(outer, outerSize, Repr)
      && 0 <= start && start - 1 <= finish < outerSize * Inner
      && |elems| == finish - start + 1
      && Holds(outer, start, elems)
    }

    /** `Deque()`: two blocks and no elements, `start_` at the first slot
        of the second block. */
    constructor ()
      ensures Valid() && fresh(Repr) && elems == []
      ensures outerSize == DefaultOuter && start == Inner * DefaultOuter / 2 && finish == start - 1
    {
      var o := NewBlocks(DefaultOuter);
      outerSize, outer := DefaultOuter, o;
      start, finish := Inner * DefaultOuter / 2, Inner * DefaultOuter / 2 - 1;
      elems := [];
      Repr := {o} + set k | 0 <= k < o.Length :: o[k];
    }

    /** `Deque(quantity, element)`, and `Deque(quantity)` with the default
        element passed in: `(quantity / 8 + 1) * 2` blocks, and `quantity`
        copies of the element from the first slot of the second block. */
    constructor Fill(quantity: nat, element: T)
      ensures Valid() && fresh(Repr) && elems == seq(quantity, _ => element)
      ensures outerSize == (quantity / Inner + 1) * 2 && start == Inner
    {
      var n := (quantity / Inner + 1) * 2;
      var o := NewBlocks(n);
      var first, last := Inner, Inner + quantity - 1;
      assert last < n * Inner;
      ghost var es: seq<T> := [];
      var pos := first;
      while pos <= last
        invariant first <= pos <= last + 1 && Blocks(o)
        invariant forall k | 0 <= k < n :: fresh(o[k])
        invariant es == seq(pos - first, _ => element) && Holds(o, first, es)
        modifies set k | 0 <= k < o.Length :: o[k]
      {
        PutBack(o, pos, first, es, element);
        es := es + [element];
        pos := pos + 1;
      }
      outerSize, outer := n, o;
      start, finish := first, last;
      elems := es;
      Repr := {o} + set k | 0 <= k < o.Length :: o[k];
    }

    /** The copy constructor: the same outer size and slots as `other`,
        with copies of its elements. */
    constructor Copy(other: Deque<T>)
      requires other.Valid()
      ensures Valid() && fresh(Repr) && elems == other.elems
      ensures outerSize == other.outerSize && start == other.start && finish == other.finish
    {
      var o := NewBlocks(other.outerSize);
      CopySlots(other.outer, o, other.start, other.finish, other.elems);
      outerSize, outer := other.outerSize, o;
      start, finish := other.start, other.finish;
      elems := other.elems;
      Repr := {o} + set k | 0 <= k < o.Length :: o[k];
    }

    /** `size()`: the number of elements. */
    function Size(): (n: int)
      requires Valid()
      reads this, Repr
      ensures n == |elems|
    {
      finish - start + 1
    }

    /** `operator[](pos)`: slot `start_ + pos`, unchecked. */
    function Get(pos: int): (r: T)
      requires Valid() && 0 <= pos < |elems|
      reads this, Repr
      ensures r == elems[pos]
    {
      outer[(start + pos) / Inner][(start + pos) % Inner]
    }

    /** Non-const `at(pos)`: out of range when `pos >= size()`, otherwise
        `operator[]`. */
    function At(pos: nat): (r: Lookup<T>)
      requires Valid()
      reads this, Repr
      ensures r.OutOfRange? <==> pos >= |elems|
      ensures r.Found? ==> r.value == elems[pos]
    {
      if pos >= Size() then OutOfRange else Found(Get(pos))
    }

    /** Assignment through `operator[](pos)`: element `pos` becomes `v`. */
    method Set(pos: int, v: T)
      requires Valid() && 0 <= pos < |elems|
      modifies this, Repr
      ensures Valid() && Repr == old(Repr) && elems == old(elems)[pos := v]
      ensures outer == old(outer) && outerSize == old(outerSize)
      ensures start == old(start) && finish == old(finish)
    {
      PutAt(outer, start, elems, pos, v);
      Reframe(start, finish, elems[pos := v]);
    }

    /** `Expand()`: an outer array of twice the size, whose first half
        (`outerSize / 2` blocks) is new, then the blocks holding the
        elements, then new blocks up to the end. The elements keep their
        offsets within their blocks and their order. The bound is
        `CopyTop`, on the mathematical `finish`. */
    method Expand()
      requires Valid()
      modifies this
      ensures Valid() && fresh(Repr - old(Repr)) && elems == old(elems)
      ensures outerSize == 2 * old(outerSize)
      ensures start == Moved(old(outerSize), old(start), old(start))
      ensures finish == Moved(old(outerSize), old(start), old(finish))
      ensures Inner <= start && finish < outerSize * Inner - Inner
    {
      var half := outerSize / 2;
      var s, f := start, finish;
      var top := CopyTop(outerSize, s, f);
      CopyTopFits(outerSize, s, f);
      ExpandBounds(outerSize, s, f);
      var d := Spread(outer, half, s / Inner, top);
      var st, fi := half * Inner + s % Inner, top * Inner + f % Inner;
      ExpandHolds(outer, d, s, f, elems, st);
      Install(d, st, fi, elems);
    }

    /** The deque takes over the outer array `d` with the elements `es`
        from slot `st` to slot `fi`. */
    method Install(d: array<array<T>>, st: int, fi: int, ghost es: seq<T>)
      requires Blocks(d) && DefaultOuter <= d.Length
      requires 0 <= st && st - 1 <= fi < d.Length * Inner && |es| == fi - st + 1
      requires Holds(d, st, es)
      modifies this
      ensures Valid() && Repr == {d} + set k | 0 <= k < d.Length :: d[k]
      ensures outer == d && outerSize == d.Length && start == st && finish == fi && elems == es
    {
      outer, outerSize := d, d.Length;
      start, finish, elems := st, fi, es;
      Repr := {d} + set k | 0 <= k < d.Length :: d[k];
    }

    /** The elements become `es`, from slot `st` to slot `fi` of the same
        blocks. */
    method Reframe(st: int, fi: int, ghost es: seq<T>)
      requires outer in Repr && Store(outer, outerSize, Repr)
      requires 0 <= st && st - 1 <= fi < outerSize * Inner && |es| == fi - st + 1
      requires Holds(outer, st, es)
      modifies this
      ensures Valid() && start == st && finish == fi && elems == es
      ensures outer == old(outer) && outerSize == old(outerSize) && Repr == old(Repr)
    {
      start, finish, elems := st, fi, es;
    }

    /** `push_back(value)`: `Expand()` when the last slot is taken, then
        the value in the slot after `finish`. */
    method PushBack(v: T)
      requires Valid()
      modifies this, Repr
      ensures Valid() && fresh(Repr - old(Repr)) && elems == old(elems) + [v]
      ensures old(finish) < old(outerSize) * Inner - 1 ==>
        outerSize == old(outerSize) && start == old(start) && finish == old(finish) + 1
      ensures old(finish) == old(outerSize) * Inner - 1 ==>
        outerSize == 2 * old(outerSize) && start == Moved(old(outerSize), old(start), old(start))
    {
      if finish == outerSize * Inner - 1 {
        Expand();
      }
      var s, f := start, finish;
      ghost var es := elems;
      PutBack(outer, f + 1, s, es, v);
      Reframe(s, f + 1, es + [v]);
    }

    /** `push_front(value)`: `Expand()` when `start` is slot 0, then the
        value in the slot before `start`. */
    method PushFront(v: T)
      requires Valid()
      modifies this, Repr
      ensures Valid() && fresh(Repr - old(Repr)) && elems == [v] + old(elems)
      ensures old(start) > 0 ==>
        outerSize == old(outerSize) && start == old(start) - 1 && finish == old(finish)
      ensures old(start) == 0 ==>
        outerSize == 2 * old(outerSize) && start == Moved(old(outerSize), old(start), old(start)) - 1 &&
        finish == Moved(old(outerSize), old(start), old(finish))
    {
      if start == 0 {
        Expand();
      }
      var s, f := start, finish;
      ghost var es := elems;
      PutFront(outer, s, es, v);
      Reframe(s - 1, f, [v] + es);
    }

    /** `pop_back()`: the last element is destroyed and `finish` steps
        back. The source does not check for an empty deque. */
    method PopBack()
      requires Valid() && elems != []
      modifies this
      ensures Valid() && Repr == old(Repr) && elems == old(elems)[..|old(elems)| - 1]
      ensures outerSize == old(outerSize) && start == old(start) && finish == old(finish) - 1
    {
      HoldsPrefix(outer, start, elems, |elems| - 1);
      Reframe(start, finish - 1, elems[..|elems| - 1]);
    }

    /** `pop_front()`: the first element is destroyed and `start` steps
        on. The source does not check for an empty deque. */
    method PopFront()
      requires Valid() && elems != []
      modifies this
      ensures Valid() && Repr == old(Repr) && elems == old(elems)[1..]
      ensures outerSize == old(outerSize) && start == old(start) + 1 && finish == old(finish)
    {
      HoldsTail(outer, start, elems);
      Reframe(start + 1, finish, elems[1..]);
    }

    /** `insert(it, elem)` with `it` at element `index`: at the end it is a
        `push_back`; otherwise the last element is pushed again, and the
        elements from `index` on shift one place back, from the end down,
        before `elem` takes place `index`. The shift goes by index, so the
        `Expand` inside `push_back` cannot misplace it (see
        `InsertSlotAsWritten`). */
    method Insert(index: nat, e: T)
      requires Valid() && index <= |elems|
      modifies this, Repr
      ensures Valid() && fresh(Repr - old(Repr))
      ensures elems == old(elems)[..index] + [e] + old(elems)[index..]
    {
      if index == Size() {
        PushBack(e);
        return;
      }
      ghost var E := elems;
      var x := Get(Size() - 1);
      PushBack(x);
      ShiftIn(index, e, E);
    }

    /** The shifting loop of `insert`, once the last element has been
        pushed again: from the end down to `index`, each place takes the
        element before it, then `e` takes place `index`. */
    method ShiftIn(index: nat, e: T, ghost E: seq<T>)
      requires Valid() && index < |E| && elems == E + [E[|E| - 1]]
      modifies this, Repr
      ensures Valid() && Repr == old(Repr)
      ensures elems == E[..index] + [e] + E[index..]
    {
      var b := Size() - 1;
      while b != index
        invariant Valid() && Repr == old(Repr)
        invariant index <= b < |elems| == |E| + 1
        invariant elems[..b] == E[..b] && elems[b + 1..] == E[b..]
        decreases b
      {
        var v := Get(b - 1);
        ShiftStep(elems, E, b);
        Set(b, v);
        b := b - 1;
      }
      ShiftLast(elems, E, b, e);
      Set(b, e);
    }

    /** `erase(it)` with `it` at element `index`: the elements after it
        move one place forward, then `pop_back()`. */
    method Erase(index: nat)
      requires Valid() && index < |elems|
      modifies this, Repr
      ensures Valid() && Repr == old(Repr)
      ensures elems == old(elems)[..index] + old(elems)[index + 1..]
    {
      ShiftOut(index);
      PopBack();
    }

    /** The moving loop of `erase`: from `index` on, each place takes the
        element after it, which leaves the last element twice. */
    method ShiftOut(index: nat)
      requires Valid() && index < |elems|
      modifies this, Repr
      ensures Valid() && Repr == old(Repr) && elems == Closed(old(elems), index)
    {
      ghost var E := elems;
      // `b` is the place of `backward`; `forward` is at `b + 1`
      var b := index;
      var last := Size() - 1;
      while b != last
        invariant Valid() && Repr == old(Repr)
        invariant index <= b <= last && |elems| == |E| == last + 1
        invariant elems[..b] == Closed(E, index)[..b] && elems[b..] == E[b..]
        decreases last - b
      {
        MoveDown(index, b, E);
        b := b + 1;
      }
      EraseDone(elems, E, index);
    }

    /** One step of the moving loop of `erase`: `*backward = *forward`,
        with `backward` at place `b` and `forward` at place `b + 1`. */
    method MoveDown(index: nat, b: nat, ghost E: seq<T>)
      requires Valid() && index <= b && b + 1 < |elems| == |E|
      requires elems[..b] == Closed(E, index)[..b] && elems[b..] == E[b..]
      modifies this, Repr
      ensures Valid() && Repr == old(Repr) && |elems| == |E|
      ensures elems[..b + 1] == Closed(E, index)[..b + 1] && elems[b + 1..] == E[b + 1..]
    {
      var v := Get(b + 1);
      EraseStep(elems, E, index, b);
      Set(b, v);
    }

    /** `operator=(other)`: a new outer array of `other`'s size with
        copies of its elements, then `other`'s offsets. The old blocks are
        released, which the model does not represent. Self-assignment
        leaves the deque as it is (the source has no such check; see
        `AssignReadsAsWritten`). */
    method Assign(other: Deque<T>)
      requires Valid() && other.Valid()
      modifies this
      ensures Valid() && elems == old(other.elems)
      ensures outerSize == old(other.outerSize) && start == old(other.start) && finish == old(other.finish)
      ensures other != this ==> fresh(Repr)
      ensures other == this ==> outer == old(outer) && Repr == old(Repr)
    {
      if other == this {
        return;
      }
      var o := NewBlocks(other.outerSize);
      CopySlots(other.outer, o, other.start, other.finish, other.elems);
      Install(o, other.start, other.finish, other.elems);
    }

    /** The first steps of `operator=` as written: the old outer array is
        kept as `buffer`, `outer_` becomes fresh blocks of `other`'s size,
        and only then does the copy loop read `other[pos - other.start_]`,
        that is, the blocks of `other.outer_`. For `d = d` these are the
        fresh blocks, none of which holds an element: the loop copies
        uninitialised slots, and the blocks in `buffer`, which held the
        elements, are destroyed afterwards. */
    method AssignReadsAsWritten(other: Deque<T>) returns (read: array<array<T>>, buffer: array<array<T>>)
      requires Valid() && other.Valid()
      modifies this
      ensures buffer == old(outer) && fresh(outer) && outer.Length == old(other.outerSize)
      ensures other != this ==> read == old(other.outer)
      ensures other == this ==> read == outer && read != buffer
      ensures other == this ==> forall k | 0 <= k < read.Length :: fresh(read[k])
    {
      buffer := outer;
      var o := NewBlocks(other.outerSize);
      outer := o;
      read := other.outer;
    }
  }

  /** The number of turns of the loops `for (pos = start_; pos <= finish_;
      ++pos)` of the copy constructor and `operator=` (and of the loop that
      destroys the old elements in `operator=`), counted as the source
      counts, in `size_t`. */
  function CopyCountAsWritten(start: nat, finish: int): nat {
    var f := finish % SizeRange;
    if start <= f then f - start + 1 else 0
  }

  /** While `finish` has not wrapped around, the loops visit exactly the
      slots of the elements. */
  lemma CopyCountAgrees(start: nat, finish: int)
    requires start - 1 <= finish && 0 <= finish < SizeRange
    ensures CopyCountAsWritten(start, finish) == finish - start + 1
  {
    assert finish % SizeRange == finish;
  }

  /** Eight `push_front`s then eight `pop_back`s on a default deque leave
      it empty with its first slot at 0. Copying it, or assigning from or
      to it, runs the loops for 2^64 turns over its 16 slots, while `Copy`
      and `Assign` copy nothing. */
  method CopyLoopAsWrittenOverruns() returns (d: Deque<int>)
    ensures d.Valid() && d.elems == [] && d.outerSize == DefaultOuter
    ensures d.start == 0 && d.finish == -1
    ensures CopyCountAsWritten(d.start, d.finish) == SizeRange > d.outerSize * Inner
  {
    d := new Deque<int>();
    var k := 0;
    while k < Inner
      invariant 0 <= k <= Inner && d.Valid() && fresh(d.Repr)
      invariant d.outerSize == DefaultOuter && d.start == Inner - k && d.finish == Inner - 1
    {
      d.PushFront(k);
      k := k + 1;
    }
    k := 0;
    while k < Inner
      invariant 0 <= k <= Inner && d.Valid() && fresh(d.Repr)
      invariant d.outerSize == DefaultOuter && d.start == 0 && d.finish == Inner - 1 - k
    {
      d.PopBack();
      k := k + 1;
    }
    assert -1 % SizeRange == SizeRange - 1;
  }

  /** When the `push_back` inside `insert` has to expand, the elements move
      and the slot the source writes `e` to is no longer the one of `it`:
      with one element pushed at the front and eight at the back of a
      default deque, `insert(begin(), e)` records `it` at slot 7, its
      `push_back` runs `Expand`, and the first element moves to slot 15,
      so `e` goes eight slots before the first element, outside the
      deque. */
  method InsertSlotAsWrittenMisses() returns (d: Deque<int>, it: int)
    ensures d.Valid() && |d.elems| == 10 && d.outerSize == 2 * DefaultOuter
    ensures it == 7 && d.start == Moved(DefaultOuter, it, it) == 15
    ensures InsertSlotAsWritten(it) < d.start
  {
    d := new Deque<int>();
    d.PushFront(1);
    var k := 0;
    while k < Inner
      invariant 0 <= k <= Inner && d.Valid() && fresh(d.Repr)
      invariant d.outerSize == DefaultOuter && d.start == Inner - 1 && d.finish == Inner - 1 + k
    {
      d.PushBack(2);
      k := k + 1;
    }
    it := d.start;
    d.PushBack(d.Get(d.Size() - 1));
  }

  /** The guard of the const `at(pos)` as written: it compares the index
      `pos` with the slot numbers `start_` and `finish_`. */
  predicate ConstAtRejectsAsWritten(start: int, finish: int, pos: int) {
    pos < start || pos >= finish
  }

  /** Every non-empty deque whose first slot is not slot 0 (all deques
      made by `Deque(quantity, x)` with `quantity > 0`, whose first slot is
      8): the const `at(0)` throws although 0 is in range, while `At`
      finds the first element. */
  lemma ConstAtAsWrittenRejects<T(0)>(d: Deque<T>)
    requires d.Valid() && d.elems != [] && 0 < d.start
    ensures ConstAtRejectsAsWritten(d.start, d.finish, 0)
    ensures d.At(0) == Found(d.elems[0])
  {
  }
}

=== FILE: element_base.dfy ===
/** A model of `map_element_base` of bimap/src/element_base.h.

    Every `map_element_base` is a record with `left`, `right` and `parent`
    pointers. The records of one side of a bimap (its elements' bases of
    that side and the side's sentinel) live in one arena (`Bases`), indexed
    by integer ids; `Null` is the null pointer. A compound `bimap_element`
    has the same id in the arenas of both sides. A map element's stored key
    is its `value`.

    The ghost side of the model is a binary `Tree` of record ids and a
    zipper `Path` to a position in it. `Rep(L, R, P, t, q)` says that the
    pointer maps lay out exactly the tree `t`, whose root's parent is `q`;
    `Hung(L, R, P, t, q)` says that `t` hangs below the sentinel `q` as a
    map's tree hangs below its `fake` node. */
module ElementBase {

  /** The null pointer. */
  const Null := -1

  datatype Tree = Leaf | Node(left: Tree, id: int, right: Tree)

  /** The way from a subtree up to the top of a tree: at each step the
      subtree is the left (`InLeft`) or right (`InRight`) child of `id`,
      whose other child is `other`. */
  datatype Path = Top | InLeft(up: Path, id: int, other: Tree) | InRight(other: Tree, id: int, up: Path)

  /** The pointer to the root of `t`. */
  function Root(t: Tree): int {
    if t.Leaf? then Null else t.id
  }

  ghost function Ids(t: Tree): set<int> {
    match t
    case Leaf => {}
    case Node(a, x, b) => Ids(a) + {x} + Ids(b)
  }

  ghost function InOrder(t: Tree): seq<int> {
    match t
    case Leaf => []
    case Node(a, x, b) => InOrder(a) + [x] + InOrder(b)
  }

  /** Every record occurs once, and none is the null pointer. */
  ghost predicate Proper(t: Tree) {
    match t
    case Leaf => true
    case Node(a, x, b) =>
      && x != Null && x !in Ids(a) && x !in Ids(b) && Ids(a) !! Ids(b)
      && Proper(a) && Proper(b)
  }

  ghost function Plug(p: Path, t: Tree): Tree {
    match p
    case Top => t
    case InLeft(up, x, r) => Plug(up, Node(t, x, r))
    case InRight(l, x, up) => Plug(up, Node(l, x, t))
  }

  /** The parent of the hole of `p`, when the whole tree's root has parent `top`. */
  ghost function Above(p: Path, top: int): int {
    if p.Top? then top else p.id
  }

  ghost function PathIds(p: Path): set<int> {
    match p
    case Top => {}
    case InLeft(up, x, r) => PathIds(up) + {x} + Ids(r)
    case InRight(l, x, up) => Ids(l) + {x} + PathIds(up)
  }

  ghost predicate PathProper(p: Path) {
    match p
    case Top => true
    case InLeft(up, x, r) =>
      x != Null && x !in Ids(r) && Proper(r) && PathProper(up) && (Ids(r) + {x}) !! PathIds(up)
    case InRight(l, x, up) =>
      x != Null && x !in Ids(l) && Proper(l) && PathProper(up) && (Ids(l) + {x}) !! PathIds(up)
  }

  /** What the in-order walk visits before and after the hole of `p`. */
  ghost function Before(p: Path): seq<int> {
    match p
    case Top => []
    case InLeft(up, _, _) => Before(up)
    case InRight(l, x, up) => Before(up) + InOrder(l) + [x]
  }

  ghost function After(p: Path): seq<int> {
    match p
    case Top => []
    case InLeft(up, x, r) => [x] + InOrder(r) + After(up)
    case InRight(_, _, up) => After(up)
  }

  function Depth(p: Path): nat {
    match p
    case Top => 0
    case InLeft(up, _, _) => 1 + Depth(up)
    case InRight(_, _, up) => 1 + Depth(up)
  }

  /** The pointer maps lay out `t`, and the root of `t` has parent `q`. */
  ghost predicate Rep(L: map<int, int>, R: map<int, int>, P: map<int, int>, t: Tree, q: int) {
    match t
    case Leaf => true
    case Node(a, x, b) =>
      && x in L && x in R && x in P
      && P[x] == q && L[x] == Root(a) && R[x] == Root(b)
      && Rep(L, R, P, a, x) && Rep(L, R, P, b, x)
  }

  /** The pointer maps lay out the path `p` around a hole whose root pointer
      is `hole`; the top of the path has parent `top`. */
  ghost predicate PathRep(L: map<int, int>, R: map<int, int>, P: map<int, int>, p: Path, hole: int, top: int) {
    match p
    case Top => true
    case InLeft(up, x, r) =>
      && x in L && x in R && x in P
      && L[x] == hole && R[x] == Root(r) && P[x] == Above(up, top)
      && Rep(L, R, P, r, x) && PathRep(L, R, P, up, x, top)
    case InRight(l, x, up) =>
      && x in L && x in R && x in P
      && R[x] == hole && L[x] == Root(l) && P[x] == Above(up, top)
      && Rep(L, R, P, l, x) && PathRep(L, R, P, up, x, top)
  }

  /** A map's tree `t` below its sentinel `q`: `q` has no parent, its `left`
      is the root, and its `right` (the link to the other side's sentinel)
      is not an element of the tree. */
  ghost predicate Hung(L: map<int, int>, R: map<int, int>, P: map<int, int>, t: Tree, q: int) {
    && q != Null && q in L && q in R && q in P
    && P[q] == Null && L[q] == Root(t) && q !in Ids(t) && R[q] !in Ids(t)
    && Proper(t) && Rep(L, R, P, t, q)
  }

  /** The records of `s` are the same in `M` and `M2`. */
  ghost predicate Agree(M: map<int, int>, M2: map<int, int>, s: set<int>) {
    forall y | y in s && y in M :: y in M2 && M2[y] == M[y]
  }

  /** The records outside `ex` are the same in `M` and `M2`. */
  ghost predicate Keep(M: map<int, int>, M2: map<int, int>, ex: set<int>) {
    forall y | y in M && y !in ex :: y in M2 && M2[y] == M[y]
  }

  /** The positions an iterator visits: the elements in order, then `end()`. */
  ghost function Walk(t: Tree, q: int): seq<int> {
    InOrder(t) + [q]
  }

  ghost predicate Distinct(s: seq<int>) {
    forall i, j | 0 <= i < j < |s| :: s[i] != s[j]
  }

  /** The first position of `x` in `s`. */
  ghost function Pos(s: seq<int>, x: int): (i: nat)
    requires x in s
    ensures i < |s| && s[i] == x && x !in s[..i]
  {
    if s[0] == x then 0 else assert s == [s[0]] + s[1..]; 1 + Pos(s[1..], x)
  }

  // ---------------------------------------------------------------------
  // Facts about trees, paths and sequences

  lemma PosSplit(s: seq<int>, a: seq<int>, x: int, b: seq<int>)
    requires s == a + [x] + b && Distinct(s)
    ensures x in s && Pos(s, x) == |a|
  {
    assert s[|a|] == x;
    var i := Pos(s, x);
    assert s[i] == s[|a|];
  }

  lemma Regroup(a: seq<int>, b: seq<int>, x: int, c: seq<int>, d: seq<int>)
    ensures a + (b + [x] + c) + d == (a + b) + [x] + (c + d)
    ensures a + (b + [x] + c) + d == (a + b) + ([x] + c + d)
    ensures a + (b + [x] + c) + d == (a + b + [x]) + (c + d)
  {
  }

  lemma RegroupRight(a: seq<int>, b: seq<int>, x: int, c: seq<int>, d: seq<int>)
    ensures a + (b + [x] + c) + d == (a + b + [x]) + c + d
  {
  }

  lemma Regroup1(a: seq<int>, x: int, c: seq<int>, d: seq<int>)
    ensures a + ([x] + c) + d == a + [x] + (c + d)
  {
  }

  lemma Front(x: int, a: seq<int>, b: seq<int>, c: seq<int>)
    ensures ([x] + a) + b + c == [x] + (a + (b + c))
  {
  }

  lemma Empty(a: seq<int>)
    ensures [] + a == a
  {
  }

  /** The walk of a tree with a hole in it. */
  lemma WalkPlug(p: Path, t: Tree, q: int)
    ensures Walk(Plug(p, t), q) == Before(p) + InOrder(t) + (After(p) + [q])
  {
    PlugInOrder(p, t);
  }

  /** The walk around a node `x` that ends a subtree. */
  lemma WalkLast(p: Path, sub: Tree, q: int, pre: seq<int>, x: int)
    requires InOrder(sub) == pre + [x]
    ensures Walk(Plug(p, sub), q) == (Before(p) + pre) + [x] + (After(p) + [q])
  {
    WalkPlug(p, sub, q);
    Regroup(Before(p), pre, x, [], After(p) + [q]);
  }

  /** The walk around a node `x` that starts a subtree. */
  lemma WalkFirst(p: Path, sub: Tree, q: int, x: int, post: seq<int>)
    requires InOrder(sub) == [x] + post
    ensures Walk(Plug(p, sub), q) == Before(p) + [x] + (post + (After(p) + [q]))
  {
    WalkPlug(p, sub, q);
    Regroup1(Before(p), x, post, After(p) + [q]);
  }

  /** The walk around the root `x` of a subtree. */
  lemma WalkAt(p: Path, sub: Tree, q: int)
    requires sub.Node?
    ensures Walk(Plug(p, sub), q) == (Before(p) + InOrder(sub.left)) + [sub.id] + (InOrder(sub.right) + (After(p) + [q]))
  {
    WalkPlug(p, sub, q);
    Regroup(Before(p), InOrder(sub.left), sub.id, InOrder(sub.right), After(p) + [q]);
  }

  lemma {:induction false} ProperNoNull(t: Tree)
    requires Proper(t)
    ensures Null !in Ids(t)
  {
    match t
    case Leaf =>
    case Node(a, _, b) =>
      ProperNoNull(a);
      ProperNoNull(b);
  }

  lemma {:induction false} IdsInOrder(t: Tree)
    ensures forall y :: y in Ids(t) <==> y in InOrder(t)
  {
    match t
    case Leaf =>
    case Node(a, x, b) =>
      IdsInOrder(a);
      IdsInOrder(b);
  }

  lemma DistinctJoin(s: seq<int>, u: seq<int>)
    requires Distinct(s) && Distinct(u) && forall y | y in s :: y !in u
    ensures Distinct(s + u)
  {
    var su := s + u;
    forall i, j | 0 <= i < j < |su|
      ensures su[i] != su[j]
    {
      if i < |s| && j >= |s| {
        assert su[i] in s && su[j] == u[j - |s|];
      } else if i >= |s| {
        assert su[i] == u[i - |s|] && su[j] == u[j - |s|];
      }
    }
  }

  /** In a proper tree no record occurs twice in the in-order walk. */
  lemma {:induction false} ProperDistinct(t: Tree)
    requires Proper(t)
    ensures Distinct(InOrder(t))
  {
    match t
    case Leaf =>
    case Node(a, x, b) =>
      ProperDistinct(a);
      ProperDistinct(b);
      IdsInOrder(a);
      IdsInOrder(b);
      DistinctJoin(InOrder(a), [x]);
      DistinctJoin(InOrder(a) + [x], InOrder(b));
  }

  /** The sentinel ends the walk, after every element. */
  lemma WalkDistinct(t: Tree, q: int)
    requires Proper(t) && q !in Ids(t)
    ensures Distinct(Walk(t, q))
  {
    ProperDistinct(t);
    IdsInOrder(t);
    DistinctJoin(InOrder(t), [q]);
  }

  lemma {:induction false} PlugRoot(p: Path, t: Tree, t2: Tree)
    ensures !p.Top? ==> Root(Plug(p, t)) == Root(Plug(p, t2))
  {
    match p
    case Top =>
    case InLeft(up, x, r) =>
      PlugRoot(up, Node(t, x, r), Node(t2, x, r));
    case InRight(l, x, up) =>
      PlugRoot(up, Node(l, x, t), Node(l, x, t2));
  }

  lemma {:induction false} PlugIds(p: Path, t: Tree)
    ensures Ids(Plug(p, t)) == PathIds(p) + Ids(t)
  {
    match p
    case Top =>
    case InLeft(up, x, r) => PlugIds(up, Node(t, x, r));
    case InRight(l, x, up) => PlugIds(up, Node(l, x, t));
  }

  lemma {:induction false} PlugInOrder(p: Path, t: Tree)
    ensures InOrder(Plug(p, t)) == Before(p) + InOrder(t) + After(p)
  {
    match p
    case Top =>
    case InLeft(up, x, r) =>
      PlugInOrder(up, Node(t, x, r));
      Regroup(Before(up), InOrder(t), x, InOrder(r), After(up));
    case InRight(l, x, up) =>
      PlugInOrder(up, Node(l, x, t));
      RegroupRight(Before(up), InOrder(l), x, InOrder(t), After(up));
  }

  lemma {:induction false} PlugProper(p: Path, t: Tree)
    ensures Proper(Plug(p, t)) <==> PathProper(p) && Proper(t) && PathIds(p) !! Ids(t)
  {
    match p
    case Top =>
    case InLeft(up, x, r) =>
      PlugProper(up, Node(t, x, r));
    case InRight(l, x, up) =>
      PlugProper(up, Node(l, x, t));
  }

  /** A tree laid out around a path is the path laid out around the hole
      and the subtree laid out below the path's last node. */
  lemma {:induction false} PlugRep(L: map<int, int>, R: map<int, int>, P: map<int, int>, p: Path, t: Tree, top: int)
    ensures Rep(L, R, P, Plug(p, t), top) <==> Rep(L, R, P, t, Above(p, top)) && PathRep(L, R, P, p, Root(t), top)
  {
    match p
    case Top =>
    case InLeft(up, x, r) =>
      PlugRep(L, R, P, up, Node(t, x, r), top);
    case InRight(l, x, up) =>
      PlugRep(L, R, P, up, Node(l, x, t), top);
  }

  /** Finding a record: the path to it and the subtree it is the root of. */
  ghost function Locate(p: Path, t: Tree, x: int): (r: (Path, Tree))
    requires x in Ids(t)
    ensures Plug(r.0, r.1) == Plug(p, t) && r.1.Node? && r.1.id == x
    decreases t
  {
    if t.id == x then (p, t)
    else if x in Ids(t.left) then Locate(InLeft(p, t.id, t.right), t.left, x)
    else Locate(InRight(t.left, t.id, p), t.right, x)
  }

  /** A subtree keeps its layout when the records of its nodes are kept,
      except that its root may be given a new parent `q2`. */
  lemma {:induction false} RepMove(L: map<int, int>, R: map<int, int>, P: map<int, int>,
                                   L2: map<int, int>, R2: map<int, int>, P2: map<int, int>,
                                   t: Tree, q: int, q2: int)
    requires Rep(L, R, P, t, q) && Proper(t)
    requires Agree(L, L2, Ids(t)) && Agree(R, R2, Ids(t)) && Agree(P, P2, Ids(t) - {Root(t)})
    requires t.Node? ==> t.id in P2 && P2[t.id] == q2
    ensures Rep(L2, R2, P2, t, q2)
  {
    match t
    case Leaf =>
    case Node(a, x, b) =>
      RepMove(L, R, P, L2, R2, P2, a, x, x);
      RepMove(L, R, P, L2, R2, P2, b, x, x);
  }

  /** A path keeps its layout when the records of its nodes are kept,
      except for the slot of its last node that holds the hole. */
  lemma {:induction false} PathRepMove(L: map<int, int>, R: map<int, int>, P: map<int, int>,
                                       L2: map<int, int>, R2: map<int, int>, P2: map<int, int>,
                                       p: Path, hole: int, hole2: int, top: int)
    requires PathRep(L, R, P, p, hole, top) && PathProper(p)
    requires var s := PathIds(p) - {Above(p, top)};
      Agree(L, L2, s) && Agree(R, R2, s) && Agree(P, P2, s)
    requires p.InLeft? ==>
      (p.id in L2 && p.id in R2 && p.id in P2 && L2[p.id] == hole2 && R2[p.id] == R[p.id] && P2[p.id] == P[p.id])
    requires p.InRight? ==>
      (p.id in L2 && p.id in R2 && p.id in P2 && R2[p.id] == hole2 && L2[p.id] == L[p.id] && P2[p.id] == P[p.id])
    ensures PathRep(L2, R2, P2, p, hole2, top)
  {
    match p
    case Top =>
    case InLeft(up, x, r) =>
      RepMove(L, R, P, L2, R2, P2, r, x, x);
      PathRepMove(L, R, P, L2, R2, P2, up, x, x, top);
    case InRight(l, x, up) =>
      RepMove(L, R, P, L2, R2, P2, l, x, x);
      PathRepMove(L, R, P, L2, R2, P2, up, x, x, top);
  }

  /** The links around a node at the end of a path: its parent, and which
      child slot of the parent holds it. */
  lemma Links(L: map<int, int>, R: map<int, int>, P: map<int, int>, p: Path, t: Tree, top: int)
    requires Rep(L, R, P, Plug(p, t), top) && Proper(Plug(p, t)) && t.Node?
    ensures Rep(L, R, P, t, Above(p, top)) && PathRep(L, R, P, p, t.id, top)
    ensures PathProper(p) && Proper(t) && PathIds(p) !! Ids(t)
    ensures t.id in L && t.id in R && t.id in P && P[t.id] == Above(p, top)
    ensures !p.Top? ==> p.id in L && p.id in R && p.id in P && p.id != t.id && P[p.id] == Above(p.up, top)
    ensures p.InLeft? ==> L[p.id] == t.id && R[p.id] != t.id
    ensures p.InRight? ==> R[p.id] == t.id && L[p.id] != t.id
  {
    PlugRep(L, R, P, p, t, top);
    PlugProper(p, t);
  }

  /** The records of a map element moved by `map_element_base`'s move
      operations: `y`, whose links are all null, takes over the parent, the
      children and the parent's slot of `x`, and `x` is left unlinked. */
  ghost function MoveLinks(L: map<int, int>, R: map<int, int>, P: map<int, int>, x: int, y: int)
    : (r: (map<int, int>, map<int, int>, map<int, int>))
    requires x in L && x in R && x in P
    ensures r.0.Keys == L.Keys + {x, y} && r.1.Keys == R.Keys + {x, y}
    ensures r.2.Keys == P.Keys + {x, y} + (if L[x] != Null then {L[x]} else {}) + (if R[x] != Null then {R[x]} else {})
  {
    var px, lx, rx := P[x], L[x], R[x];
    var L1 := if px != Null && px in L && L[px] == x then L[px := y] else L;
    var R1 := if px != Null && px in L && L[px] != x && px in R then R[px := y] else R;
    var P1 := P[x := Null][y := px];
    var P2 := if lx != Null then P1[lx := y] else P1;
    var P3 := if rx != Null then P2[rx := y] else P2;
    (L1[x := Null][y := lx], R1[x := Null][y := rx], P3)
  }

  /** The link `m` stores for `x`; null for a record `m` does not have. */
  function Link(m: map<int, int>, x: int): int {
    if x in m then m[x] else Null
  }

  /** The slot of `x`'s parent that holds `x` (the left one if it does,
      the right one otherwise) set to `other`, as `relink_parent` does. */
  ghost function ParentSlotSet(L: map<int, int>, R: map<int, int>, P: map<int, int>, x: int, other: int)
    : (map<int, int>, map<int, int>)
  {
    var px := Link(P, x);
    if px == Null then (L, R)
    else if Link(L, px) == x then (L[px := other], R)
    else (L, R[px := other])
  }

  /** The non-null children of `x` (its `left` and `right`) with `x` as
      their parent, as `relink_parents` leaves them. */
  ghost function ChildrenClaimed(L: map<int, int>, R: map<int, int>, P: map<int, int>, x: int): map<int, int> {
    var lx, rx := Link(L, x), Link(R, x);
    var P1 := if lx != Null then P[lx := x] else P;
    if rx != Null then P1[rx := x] else P1
  }

  /** The records after `x.swap(y)`, step by step as the source takes them. */
  ghost function SwappedLinks(L: map<int, int>, R: map<int, int>, P: map<int, int>, x: int, y: int)
    : (map<int, int>, map<int, int>, map<int, int>)
  {
    var (L1, R1) := ParentSlotSet(L, R, P, x, y);
    var (L2, R2) := ParentSlotSet(L1, R1, P, y, x);
    var L3 := L2[x := Link(L2, y)][y := Link(L2, x)];
    var R3 := R2[x := Link(R2, y)][y := Link(R2, x)];
    var P3 := P[x := Link(P, y)][y := Link(P, x)];
    (L3, R3, ChildrenClaimed(L3, R3, ChildrenClaimed(L3, R3, P3, x), y))
  }

  /** A swap with a record `y` whose links are all null and that nothing
      points to, which is how the move constructor uses it: `y` takes over
      `x`'s links and position, and `x` is left unlinked. */
  lemma SwapIntoEmpty(L: map<int, int>, R: map<int, int>, P: map<int, int>, x: int, y: int)
    requires x != y && x in L && x in R && x in P && y in L && y in R && y in P
    requires L[y] == Null && R[y] == Null && P[y] == Null
    requires P[x] != y && L[x] != y && R[x] != y && P[x] != x
    requires P[x] != Null ==> P[x] in L && P[x] in R
    requires L[x] != Null ==> L[x] in P
    requires R[x] != Null ==> R[x] in P
    ensures SwappedLinks(L, R, P, x, y) == MoveLinks(L, R, P, x, y)
  {
  }

  /** The records after `x.replace(to)`: `to` gets `x`'s parent and
      children, the parent's slot that held `x` (the left one if it did, the
      right one otherwise) holds `to`, and the children's parents are `to`. */
  ghost function ReplacedLinks(L: map<int, int>, R: map<int, int>, P: map<int, int>, x: int, to: int)
    : (map<int, int>, map<int, int>, map<int, int>)
    requires x in L && x in R && x in P && (P[x] in L || P[x] == to)
  {
    var px := P[x];
    var P1, L1, R1 := P[to := px], L[to := L[x]], R[to := R[x]];
    var isLeft := L1[px] == x;
    var L2 := if isLeft then L1[px := to] else L1;
    var R2 := if isLeft then R1 else R1[px := to];
    var P2 := P1[to := px];
    var P3 := if L2[to] != Null then P2[L2[to] := to] else P2;
    (L2, R2, if R2[to] != Null then P3[R2[to] := to] else P3)
  }

  /** The `map_element_base` records of one side of a bimap: that side's
      bases of the elements and its sentinel. `value` is the key a
      `map_element` stores. */
  class Bases {
    var left: map<int, int>
    var right: map<int, int>
    var parent: map<int, int>
    var value: map<int, int>

    /** An empty arena. */
    constructor ()
      ensures left == right == parent == value == map[]
    {
      left, right, parent, value := map[], map[], map[], map[];
    }

    /** A new record, as `new bimap_element(l, r)` makes one for each side:
        all links null (`map_element_base`'s defaults) and the key `v`
        stored (`map_element`'s constructor). */
    method Make(x: int, v: int)
      modifies this
      ensures left == old(left)[x := Null] && right == old(right)[x := Null] && parent == old(parent)[x := Null]
      ensures value == old(value)[x := v]
    {
      left, right, parent := left[x := Null], right[x := Null], parent[x := Null];
      value := value[x := v];
    }

    /** `map_element::get`: the stored key. */
    function Get(x: int): (k: int)
      requires x in value
      reads this
      ensures k in value.Values
    {
      value[x]
    }

    /** `reset` (also what the destructor does): clears `left` only. */
    method Reset(x: int)
      modifies this
      ensures left == old(left)[x := Null]
      ensures right == old(right) && parent == old(parent) && value == old(value)
    {
      left := left[x := Null];
    }

    /** `link_child`: the chosen child slot of `x` becomes `child`, and a
        non-null child gets `x` as its parent. */
    method LinkChild(x: int, child: int, isLeft: bool)
      modifies this
      ensures left == if isLeft then old(left)[x := child] else old(left)
      ensures right == if isLeft then old(right) else old(right)[x := child]
      ensures parent == if child != Null then old(parent)[child := x] else old(parent)
      ensures value == old(value)
    {
      if isLeft {
        left := left[x := child];
      } else {
        right := right[x := child];
      }
      if child != Null {
        parent := parent[child := x];
      }
    }

    /** `relink_parent`: the slot of `x`'s parent that holds `x` (the left
        one if it does, the right one otherwise) now holds `other`; nothing
        happens without a parent. */
    method RelinkParent(x: int, other: int)
      requires x in parent && (parent[x] != Null ==> parent[x] in left)
      modifies this
      ensures var px := old(parent)[x];
        && left == (if px != Null && old(left)[px] == x then old(left)[px := other] else old(left))
        && right == (if px != Null && old(left)[px] != x then old(right)[px := other] else old(right))
      ensures parent == old(parent) && value == old(value)
    {
      if parent[x] != Null {
        if left[parent[x]] == x {
          left := left[parent[x] := other];
        } else {
          right := right[parent[x] := other];
        }
      }
    }

    /** `relink_parents`: the non-null children of `x` get `x` as their parent. */
    method RelinkParents(x: int)
      requires x in left && x in right
      modifies this
      ensures var lx, rx := old(left)[x], old(right)[x];
        var p1 := if lx != Null then old(parent)[lx := x] else old(parent);
        parent == if rx != Null then p1[rx := x] else p1
      ensures left == old(left) && right == old(right) && value == old(value)
    {
      if left[x] != Null {
        parent := parent[left[x] := x];
      }
      if right[x] != Null {
        parent := parent[right[x] := x];
      }
    }

    /** `swap`: each record's parent slot that held it now holds the other
        record, the two records exchange their links, and then each claims
        its children (`relink_parents`, which also claims whatever `right`
        points at). */
    method Swap(x: int, y: int)
      requires x in left && x in right && x in parent
      requires y in left && y in right && y in parent
      requires parent[x] != Null ==> parent[x] in left
      requires parent[y] != Null ==> parent[y] in left
      modifies this
      ensures (left, right, parent) == SwappedLinks(old(left), old(right), old(parent), x, y)
      ensures value == old(value)
    {
      RelinkParent(x, y);
      RelinkParent(y, x);
      left, right, parent := left[x := left[y]][y := left[x]], right[x := right[y]][y := right[x]], parent[x := parent[y]][y := parent[x]];
      RelinkParents(x);
      RelinkParents(y);
    }

    /** `replace`: `to` takes over the parent, the children and the parent's
        slot of `x`. When `x` is an element of a map's tree, the tree is then
        the same with `to` in place of `x` (`ReplaceLayout`). The parent must
        not be null. */
    method Replace(x: int, to: int)
      requires x in left && x in right && x in parent && parent[x] != Null && to != Null
      requires parent[x] in left || parent[x] == to
      modifies this
      ensures (left, right, parent) == ReplacedLinks(old(left), old(right), old(parent), x, to)
      ensures value == old(value)
    {
      parent := parent[to := parent[x]];
      left := left[to := left[x]];
      right := right[to := right[x]];
      var isLeft := left[parent[x]] == x;
      LinkChild(parent[x], to, isLeft);
      if left[to] != Null {
        parent := parent[left[to] := to];
      }
      if right[to] != Null {
        parent := parent[right[to] := to];
      }
    }

    /** `tree_min`: null for a null subtree, otherwise the first node of the
        subtree in order. */
    method TreeMin(node: int, ghost t: Tree, ghost q: int) returns (r: int)
      requires Rep(left, right, parent, t, q) && Proper(t) && Root(t) == node
      ensures r == if t.Leaf? then Null else InOrder(t)[0]
    {
      if node == Null {
        return node;
      }
      r := node;
      ghost var s, qs := t, q;
      while r != Null && left[r] != Null
        invariant s.Node? && r == s.id && Rep(left, right, parent, s, qs) && Proper(s)
        invariant InOrder(s)[0] == InOrder(t)[0]
        decreases s
      {
        r, qs, s := left[r], s.id, s.left;
      }
    }

    /** `tree_max`: null for a null subtree, otherwise the last node of the
        subtree in order. */
    method TreeMax(node: int, ghost t: Tree, ghost q: int) returns (r: int)
      requires Rep(left, right, parent, t, q) && Proper(t) && Root(t) == node
      ensures r == if t.Leaf? then Null else InOrder(t)[|InOrder(t)| - 1]
    {
      if node == Null {
        return node;
      }
      r := node;
      ghost var s, qs := t, q;
      while r != Null && right[r] != Null
        invariant s.Node? && r == s.id && Rep(left, right, parent, s, qs) && Proper(s)
        invariant InOrder(s)[|InOrder(s)| - 1] == InOrder(t)[|InOrder(t)| - 1]
        decreases s
      {
        r, qs, s := right[r], s.id, s.right;
      }
    }

    /** `next`: the in-order successor of an element, where the successor of
        the last element is the sentinel (`end()`). */
    method Next(node: int, ghost t: Tree, ghost q: int) returns (r: int)
      requires Hung(left, right, parent, t, q) && node in Ids(t)
      ensures node in Walk(t, q) && Pos(Walk(t, q), node) + 1 < |Walk(t, q)| && r == Walk(t, q)[Pos(Walk(t, q), node) + 1]
    {
      ghost var path, sub := Locate(Top, t, node).0, Locate(Top, t, node).1;
      Links(left, right, parent, path, sub, q);
      if right[node] != Null {
        r := TreeMin(right[node], sub.right, node);
        SuccessorBelow(t, q, path, sub);
        return;
      }
      var n := node;
      ghost var pre := InOrder(sub.left);
      Climb(left, right, parent, t, q, path, sub);
      while parent[n] != Null && right[parent[n]] == n
        invariant Plug(path, sub) == t && sub.Node? && sub.id == n
        invariant InOrder(sub) == pre + [node]
        invariant n in parent && parent[n] == Above(path, q) != Null && parent[n] in left && parent[n] in right
        invariant right[parent[n]] == n <==> path.InRight?
        decreases Depth(path)
      {
        Regroup(InOrder(path.other), [path.id], node, [], []);
        pre := InOrder(path.other) + [path.id] + pre;
        n, sub, path := parent[n], Node(path.other, path.id, sub), path.up;
        Climb(left, right, parent, t, q, path, sub);
      }
      r := parent[n];
      SuccessorAbove(t, q, path, sub, pre, node);
    }

    /** `prev`: the in-order predecessor of an element or of the sentinel
        (whose predecessor is the last element); the first element has none
        and yields null. */
    method Prev(node: int, ghost t: Tree, ghost q: int) returns (r: int)
      requires Hung(left, right, parent, t, q) && (node in Ids(t) || node == q)
      ensures node in Walk(t, q) && var i := Pos(Walk(t, q), node); r == if i == 0 then Null else Walk(t, q)[i - 1]
    {
      ghost var path, sub := Top, t;
      ghost var lsub, lq := t, q;
      if node != q {
        path, sub := Locate(Top, t, node).0, Locate(Top, t, node).1;
        Links(left, right, parent, path, sub, q);
        lsub, lq := sub.left, node;
      }
      if left[node] != Null {
        r := TreeMax(left[node], lsub, lq);
        PredecessorBelow(t, q, path, sub, node);
        return;
      }
      var n := node;
      ghost var atSentinel := node == q;
      ghost var post := if node == q then [] else InOrder(sub.right);
      if node != q {
        Climb(left, right, parent, t, q, path, sub);
      }
      while parent[n] != Null && left[parent[n]] == n
        invariant atSentinel ==> n == q && (node == q ==> t.Leaf?) && (node != q ==> InOrder(t) == [node] + post)
        invariant !atSentinel ==> Plug(path, sub) == t && sub.Node? && sub.id == n && InOrder(sub) == [node] + post
        invariant n in parent && (parent[n] != Null ==> parent[n] in left)
        invariant !atSentinel ==> parent[n] == Above(path, q) != Null && (left[parent[n]] == n <==> !path.InRight?)
        invariant atSentinel ==> parent[n] == Null
        decreases Depth(path) + (if atSentinel then 0 else 1)
      {
        n := parent[n];
        if path.Top? {
          atSentinel := true;
        } else {
          Front(node, post, [path.id], InOrder(path.other));
          post := post + ([path.id] + InOrder(path.other));
          sub, path := Node(sub, path.id, path.other), path.up;
          Climb(left, right, parent, t, q, path, sub);
        }
      }
      r := parent[n];
      PredecessorAbove(t, q, path, sub, post, node, atSentinel);
    }
  }

  /** What `replace` changes, record by record, when `x` hangs below a
      parent `px` distinct from `to` and from `x`'s children. */
  lemma ReplacedFrame(L: map<int, int>, R: map<int, int>, P: map<int, int>, x: int, to: int, px: int)
    requires x in L && x in R && x in P && P[x] == px && px in L && px in R && px in P
    requires to in L && to in R && to in P && to != Null
    requires px != to && px != L[x] && px != R[x] && x != to && to != L[x] && to != R[x]
    requires L[x] != Null ==> L[x] in P
    requires R[x] != Null ==> R[x] in P
    ensures var (L2, R2, P2) := ReplacedLinks(L, R, P, x, to);
      && L2.Keys == L.Keys && R2.Keys == R.Keys && P2.Keys == P.Keys
      && L2[to] == L[x] && R2[to] == R[x] && P2[to] == px && P2[px] == P[px]
      && (L[px] == x ==> L2[px] == to && R2[px] == R[px])
      && (L[px] != x ==> R2[px] == to && L2[px] == L[px])
      && (L[x] != Null ==> P2[L[x]] == to)
      && (R[x] != Null ==> P2[R[x]] == to)
      && Keep(L, L2, {to, px}) && Keep(R, R2, {to, px})
      && Keep(P, P2, {to, L[x], R[x]})
  {
  }

  /** A frame kept on all records but `ex` is kept on every set clear of `ex`. */
  lemma AgreeSub(M: map<int, int>, M2: map<int, int>, ex: set<int>, s: set<int>)
    requires Keep(M, M2, ex) && s !! ex
    ensures Agree(M, M2, s)
  {
  }

  /** Where the parent of a tree node lies. */
  lemma AboveOut(L: map<int, int>, R: map<int, int>, P: map<int, int>, t: Tree, q: int, p: Path, a: Tree, x: int, b: Tree)
    requires Hung(L, R, P, t, q) && t == Plug(p, Node(a, x, b))
    ensures var px := Above(p, q);
      && px != Null && px in L && px in R && px in P && px !in Ids(Node(a, x, b))
      && x in L && x in R && x in P && P[x] == px && L[x] == Root(a) && R[x] == Root(b)
      && (L[x] != Null ==> L[x] in P) && (R[x] != Null ==> R[x] in P)
      && (p.InLeft? || p.Top? <==> L[px] == x)
      && (!p.Top? ==> p.id in PathIds(p) && P[px] == Above(p.up, q))
      && Rep(L, R, P, Node(a, x, b), px) && PathRep(L, R, P, p, x, q) && PathProper(p)
      && Proper(Node(a, x, b)) && PathIds(p) !! Ids(Node(a, x, b))
  {
    Links(L, R, P, p, Node(a, x, b), q);
    PlugIds(p, Node(a, x, b));
  }

  /** The records `replace` rewrites lie outside the parts of the tree it keeps. */
  lemma Clear(t: Tree, q: int, p: Path, a: Tree, x: int, b: Tree, to: int)
    requires Proper(t) && t == Plug(p, Node(a, x, b)) && q != Null && q !in Ids(t) && to !in Ids(t) && to != q
    ensures (Ids(a) + Ids(b)) !! {to, Above(p, q)}
    ensures (PathIds(p) - {Above(p, q)}) !! {to, Above(p, q)}
    ensures (PathIds(p) - {Above(p, q)}) !! {to, Root(a), Root(b)}
    ensures x != to && Above(p, q) != to
  {
    PlugIds(p, Node(a, x, b));
    PlugProper(p, Node(a, x, b));
    ProperNoNull(t);
    AboveOnPath(p, q);
    ClearBelow(Ids(a), Ids(b), PathIds(p), Above(p, q), to);
    ClearPath(PathIds(p), Above(p, q), to, Root(a), Root(b), Ids(a), Ids(b));
  }

  /** The parent of the hole is on the path, unless the path is empty. */
  lemma AboveOnPath(p: Path, q: int)
    ensures Above(p, q) == q || Above(p, q) in PathIds(p)
  {
  }

  lemma ClearBelow(A: set<int>, B: set<int>, P: set<int>, up: int, to: int)
    requires to !in A && to !in B && (up in P ==> up !in A && up !in B) && (up !in P ==> up !in A + B)
    ensures (A + B) !! {to, up}
  {
  }

  lemma ClearPath(P: set<int>, up: int, to: int, ra: int, rb: int, A: set<int>, B: set<int>)
    requires to !in P && P !! (A + B) && (ra in A || ra !in P) && (rb in B || rb !in P)
    ensures (P - {up}) !! {to, up} && (P - {up}) !! {to, ra, rb}
  {
  }

  lemma RootsClear(a: Tree, b: Tree, ex: set<int>)
    requires (Ids(a) + Ids(b)) !! ex && Null !in ex
    ensures Root(a) !in ex && Root(b) !in ex
  {
  }

  /** `replace` on an element of a map's tree lays out the same tree with
      `to` in place of `x`, and changes no other record than those of `to`,
      of `x`'s parent and of `x`'s children. */
  lemma ReplaceLayout(L: map<int, int>, R: map<int, int>, P: map<int, int>,
                      t: Tree, q: int, p: Path, a: Tree, x: int, b: Tree, to: int)
    requires Hung(L, R, P, t, q) && t == Plug(p, Node(a, x, b))
    requires to != Null && to != q && to !in Ids(t) && to != R[q]
    requires to in L && to in R && to in P
    ensures x in L && x in R && x in P && P[x] == Above(p, q) != Null && P[x] in L
    ensures var (L2, R2, P2) := ReplacedLinks(L, R, P, x, to);
      && Hung(L2, R2, P2, Plug(p, Node(a, to, b)), q)
      && L2.Keys == L.Keys && R2.Keys == R.Keys && P2.Keys == P.Keys
      && Keep(L, L2, {to, Above(p, q)}) && Keep(R, R2, {to, Above(p, q)})
      && Keep(P, P2, {to, Root(a), Root(b)})
  {
    var px := Above(p, q);
    ReplaceReady(L, R, P, t, q, p, a, x, b, to);
    ReplacedFrame(L, R, P, x, to, px);
    var (L2, R2, P2) := ReplacedLinks(L, R, P, x, to);
    ReplacedTree(L, R, P, L2, R2, P2, t, q, p, a, x, b, to, px);
  }

  /** The records `replace` reads, seen from the tree. */
  lemma ReplaceReady(L: map<int, int>, R: map<int, int>, P: map<int, int>,
                     t: Tree, q: int, p: Path, a: Tree, x: int, b: Tree, to: int)
    requires Hung(L, R, P, t, q) && t == Plug(p, Node(a, x, b))
    requires to != Null && to != q && to !in Ids(t) && to != R[q]
    requires to in L && to in R && to in P
    ensures var px := Above(p, q);
      && x in L && x in R && x in P && P[x] == px && px in L && px in R && px in P && px != Null
      && px != to && px != L[x] && px != R[x] && x != to && to != L[x] && to != R[x]
      && (L[x] != Null ==> L[x] in P) && (R[x] != Null ==> R[x] in P)
      && L[x] == Root(a) && R[x] == Root(b) && (p.InLeft? || p.Top? <==> L[px] == x)
      && (a.Node? ==> L[x] != Null) && (b.Node? ==> R[x] != Null)
  {
    var px := Above(p, q);
    AboveOut(L, R, P, t, q, p, a, x, b);
    Clear(t, q, p, a, x, b, to);
    RootsClear(a, b, {to, px});
    ProperNoNull(a);
    ProperNoNull(b);
  }

  /** Any records that `replace` could leave behind lay out the renamed tree. */
  lemma ReplacedTree(L: map<int, int>, R: map<int, int>, P: map<int, int>,
                     L2: map<int, int>, R2: map<int, int>, P2: map<int, int>,
                     t: Tree, q: int, p: Path, a: Tree, x: int, b: Tree, to: int, px: int)
    requires Hung(L, R, P, t, q) && t == Plug(p, Node(a, x, b))
    requires to != Null && to != q && to !in Ids(t) && to != R[q]
    requires px == Above(p, q) && px in L && px in R && px in P
    requires to in L2 && to in R2 && to in P2 && px in L2 && px in R2 && px in P2
    requires L2[to] == Root(a) && R2[to] == Root(b) && P2[to] == px && P2[px] == P[px]
    requires p.InLeft? || p.Top? ==> L2[px] == to && R2[px] == R[px]
    requires p.InRight? ==> R2[px] == to && L2[px] == L[px]
    requires a.Node? ==> a.id in P2 && P2[a.id] == to
    requires b.Node? ==> b.id in P2 && P2[b.id] == to
    requires Keep(L, L2, {to, px}) && Keep(R, R2, {to, px}) && Keep(P, P2, {to, Root(a), Root(b)})
    ensures Hung(L2, R2, P2, Plug(p, Node(a, to, b)), q)
  {
    AboveOut(L, R, P, t, q, p, a, x, b);
    Clear(t, q, p, a, x, b, to);
    RenamedNode(L, R, P, L2, R2, P2, a, x, b, to, px);
    if !p.Top? {
      ReplacedPath(L, R, P, L2, R2, P2, p, x, to, q, Root(a), Root(b));
    }
    ReplacedHung(L, R, P, L2, R2, P2, t, q, p, a, x, b, to);
  }

  /** The path above a renamed node keeps its layout, with the renamed
      node in its hole. */
  lemma ReplacedPath(L: map<int, int>, R: map<int, int>, P: map<int, int>,
                     L2: map<int, int>, R2: map<int, int>, P2: map<int, int>,
                     p: Path, x: int, to: int, q: int, ra: int, rb: int)
    requires PathRep(L, R, P, p, x, q) && PathProper(p) && !p.Top?
    requires (PathIds(p) - {p.id}) !! {to, p.id} && (PathIds(p) - {p.id}) !! {to, ra, rb}
    requires Keep(L, L2, {to, p.id}) && Keep(R, R2, {to, p.id})
    requires Keep(P, P2, {to, ra, rb})
    requires p.id in L2 && p.id in R2 && p.id in P2 && P2[p.id] == P[p.id]
    requires p.InLeft? ==> L2[p.id] == to && R2[p.id] == R[p.id]
    requires p.InRight? ==> R2[p.id] == to && L2[p.id] == L[p.id]
    ensures PathRep(L2, R2, P2, p, to, q)
  {
    var s := PathIds(p) - {p.id};
    AgreeSub(L, L2, {to, p.id}, s);
    AgreeSub(R, R2, {to, p.id}, s);
    AgreeSub(P, P2, {to, ra, rb}, s);
    PathRepMove(L, R, P, L2, R2, P2, p, x, to, q);
  }

  /** The sentinel keeps its links across `replace`, and the renamed tree is
      laid out below it. */
  lemma ReplacedHung(L: map<int, int>, R: map<int, int>, P: map<int, int>,
                     L2: map<int, int>, R2: map<int, int>, P2: map<int, int>,
                     t: Tree, q: int, p: Path, a: Tree, x: int, b: Tree, to: int)
    requires Hung(L, R, P, t, q) && t == Plug(p, Node(a, x, b))
    requires to != Null && to != q && to !in Ids(t) && to != R[q]
    requires Rep(L2, R2, P2, Node(a, to, b), Above(p, q)) && PathRep(L2, R2, P2, p, to, q)
    requires Keep(L, L2, {to, Above(p, q)}) && Keep(R, R2, {to, Above(p, q)})
    requires Keep(P, P2, {to, Root(a), Root(b)})
    requires p.Top? ==> q in L2 && L2[q] == to && q in R2 && R2[q] == R[q]
    ensures Hung(L2, R2, P2, Plug(p, Node(a, to, b)), q)
  {
    PlugIds(p, Node(a, x, b));
    PlugIds(p, Node(a, to, b));
    PlugProper(p, Node(a, x, b));
    PlugProper(p, Node(a, to, b));
    PlugRep(L2, R2, P2, p, Node(a, to, b), q);
    PlugRoot(p, Node(a, x, b), Node(a, to, b));
  }

  /** A node renamed from `x` to `to`, with the same children and parent. */
  lemma RenamedNode(L: map<int, int>, R: map<int, int>, P: map<int, int>,
                    L2: map<int, int>, R2: map<int, int>, P2: map<int, int>,
                    a: Tree, x: int, b: Tree, to: int, px: int)
    requires Rep(L, R, P, Node(a, x, b), px) && Proper(Node(a, x, b)) && (Ids(a) + Ids(b)) !! {to, px}
    requires to in L2 && to in R2 && to in P2
    requires L2[to] == Root(a) && R2[to] == Root(b) && P2[to] == px
    requires a.Node? ==> a.id in P2 && P2[a.id] == to
    requires b.Node? ==> b.id in P2 && P2[b.id] == to
    requires Keep(L, L2, {to, px}) && Keep(R, R2, {to, px})
    requires Keep(P, P2, {to, Root(a), Root(b)})
    ensures Rep(L2, R2, P2, Node(a, to, b), px)
  {
    ProperNoNull(a);
    ProperNoNull(b);
    var sub := Ids(a) + Ids(b);
    AgreeSub(L, L2, {to, px}, sub);
    AgreeSub(R, R2, {to, px}, sub);
    AgreeSub(P, P2, {to, Root(a), Root(b)}, sub - {Root(a), Root(b)});
    RepMove(L, R, P, L2, R2, P2, a, x, to);
    RepMove(L, R, P, L2, R2, P2, b, x, to);
  }

  /** At a node of the tree: its parent, and which of the parent's slots
      holds it. The root's parent is the sentinel, whose `right` is not an
      element. */
  lemma Climb(L: map<int, int>, R: map<int, int>, P: map<int, int>, t: Tree, q: int, p: Path, sub: Tree)
    requires Hung(L, R, P, t, q) && Plug(p, sub) == t && sub.Node?
    ensures sub.id in P && P[sub.id] == Above(p, q) && P[sub.id] != Null && P[sub.id] in L && P[sub.id] in R
    ensures R[P[sub.id]] == sub.id <==> p.InRight?
    ensures L[P[sub.id]] == sub.id <==> !p.InRight?
  {
    Links(L, R, P, p, sub, q);
    PlugIds(p, sub);
  }

  /** The successor of a node with a right subtree is that subtree's first node. */
  lemma SuccessorBelow(t: Tree, q: int, p: Path, sub: Tree)
    requires Proper(t) && q !in Ids(t) && Plug(p, sub) == t && sub.Node? && sub.right.Node?
    ensures sub.id in Walk(t, q) && Pos(Walk(t, q), sub.id) + 1 < |Walk(t, q)|
    ensures Walk(t, q)[Pos(Walk(t, q), sub.id) + 1] == InOrder(sub.right)[0]
  {
    WalkDistinct(t, q);
    WalkAt(p, sub, q);
    PosSplit(Walk(t, q), Before(p) + InOrder(sub.left), sub.id, InOrder(sub.right) + (After(p) + [q]));
  }

  /** The successor of the last node of a subtree that is not a right child
      is the subtree's parent, or the sentinel at the top. */
  lemma SuccessorAbove(t: Tree, q: int, p: Path, sub: Tree, pre: seq<int>, x: int)
    requires Proper(t) && q !in Ids(t) && Plug(p, sub) == t && InOrder(sub) == pre + [x] && !p.InRight?
    ensures x in Walk(t, q) && Pos(Walk(t, q), x) + 1 < |Walk(t, q)| && Walk(t, q)[Pos(Walk(t, q), x) + 1] == Above(p, q)
  {
    WalkDistinct(t, q);
    WalkLast(p, sub, q, pre, x);
    PosSplit(Walk(t, q), Before(p) + pre, x, After(p) + [q]);
  }

  /** The predecessor of a node with a left subtree is that subtree's last
      node; the sentinel's is the tree's last node. */
  lemma PredecessorBelow(t: Tree, q: int, p: Path, sub: Tree, x: int)
    requires Proper(t) && q !in Ids(t)
    requires x == q ==> p == Top && sub == t && t.Node?
    requires x != q ==> Plug(p, sub) == t && sub.Node? && sub.id == x && sub.left.Node?
    ensures x in Walk(t, q) && Pos(Walk(t, q), x) > 0
    ensures var lsub := if x == q then t else sub.left;
      Walk(t, q)[Pos(Walk(t, q), x) - 1] == InOrder(lsub)[|InOrder(lsub)| - 1]
  {
    WalkDistinct(t, q);
    if x == q {
      PosSplit(Walk(t, q), InOrder(t), q, []);
    } else {
      WalkAt(p, sub, q);
      PosSplit(Walk(t, q), Before(p) + InOrder(sub.left), x, InOrder(sub.right) + (After(p) + [q]));
    }
  }

  /** The predecessor of the first node of a subtree that is a right child
      is the subtree's parent; the first node of the tree has none. */
  lemma PredecessorAbove(t: Tree, q: int, p: Path, sub: Tree, post: seq<int>, x: int, atSentinel: bool)
    requires Proper(t) && q !in Ids(t)
    requires atSentinel ==> (x == q ==> t.Leaf?) && (x != q ==> InOrder(t) == [x] + post)
    requires !atSentinel ==> Plug(p, sub) == t && InOrder(sub) == [x] + post && p.InRight?
    ensures x in Walk(t, q)
    ensures var i := Pos(Walk(t, q), x); (if atSentinel then Null else p.id) == if i == 0 then Null else Walk(t, q)[i - 1]
  {
    if atSentinel {
      FirstOfWalk(t, q, post, x);
    } else {
      AfterRightTurn(t, q, p, sub, post, x);
    }
  }

  /** The first position of the walk has no predecessor. */
  lemma FirstOfWalk(t: Tree, q: int, post: seq<int>, x: int)
    requires Proper(t) && q !in Ids(t)
    requires (x == q ==> t.Leaf?) && (x != q ==> InOrder(t) == [x] + post)
    ensures x in Walk(t, q) && Pos(Walk(t, q), x) == 0
  {
    WalkDistinct(t, q);
    if x == q {
      PosSplit(Walk(t, q), [], q, []);
    } else {
      Empty([x] + (post + [q]));
      PosSplit(Walk(t, q), [], x, post + [q]);
    }
  }

  /** The first node of a right subtree comes just after the subtree's parent. */
  lemma AfterRightTurn(t: Tree, q: int, p: Path, sub: Tree, post: seq<int>, x: int)
    requires Proper(t) && q !in Ids(t)
    requires Plug(p, sub) == t && InOrder(sub) == [x] + post && p.InRight?
    ensures x in Walk(t, q) && 0 < Pos(Walk(t, q), x) && Walk(t, q)[Pos(Walk(t, q), x) - 1] == p.id
  {
    WalkDistinct(t, q);
    WalkFirst(p, sub, q, x, post);
    PosSplit(Walk(t, q), Before(p), x, post + (After(p) + [q]));
    assert Before(p) == Before(p.up) + InOrder(p.other) + [p.id];
    JustBefore(Before(p.up) + InOrder(p.other), p.id, [x] + (post + (After(p) + [q])));
  }

  lemma JustBefore(b: seq<int>, y: int, rest: seq<int>)
    ensures (b + [y]) + rest == b + [y] + rest && (b + [y] + rest)[|b + [y]| - 1] == y
  {
  }
}

=== FILE: intrusive_list.dfy ===
/** A model of the circular intrusive list of intrusive-list/intrusive-list.h.

    Every `list_element_base` is a node with `prev_` and `next_` pointers; a
    list is a sentinel node (`dummy_head_`) whose ring runs through the
    list's elements in order and back. Nodes are identified by `Id`s and all
    links live in one `Links` object, so that one operation can rewrite the
    links of nodes that belong to different lists, as the pointer code does.
    The ghost fields say which nodes are sentinels, which list each element
    is in, and in what order. */
module IntrusiveList {

  type Id = int

  /** `s` visits its nodes along `next`, and `prev` walks it back. */
  ghost predicate Chain(nx: map<Id, Id>, pv: map<Id, Id>, s: seq<Id>) {
    && (forall i | 0 <= i < |s| :: s[i] in nx && s[i] in pv)
    && (forall i | 0 <= i < |s| - 1 :: nx[s[i]] == s[i + 1] && pv[s[i + 1]] == s[i])
  }

  /** No node twice. */
  ghost predicate Distinct(s: seq<Id>) {
    forall i, j | 0 <= i < j < |s| :: s[i] != s[j]
  }

  /** The nodes of `s`. */
  ghost function Elems(s: seq<Id>): set<Id> {
    set y | y in s
  }

  /** A chain is its two halves joined by one link. */
  lemma ChainSplit(nx: map<Id, Id>, pv: map<Id, Id>, s: seq<Id>, t: seq<Id>)
    requires s != [] && t != []
    ensures Chain(nx, pv, s + t) <==>
      && Chain(nx, pv, s) && Chain(nx, pv, t)
      && s[|s| - 1] in nx && t[0] in pv
      && nx[s[|s| - 1]] == t[0] && pv[t[0]] == s[|s| - 1]
  {
    var st := s + t;
    if Chain(nx, pv, s) && Chain(nx, pv, t) && s[|s| - 1] in nx && t[0] in pv
      && nx[s[|s| - 1]] == t[0] && pv[t[0]] == s[|s| - 1]
    {
      forall i | 0 <= i < |st|
        ensures st[i] in nx && st[i] in pv
      {
        if i >= |s| {
          assert st[i] == t[i - |s|];
        }
      }
      forall i | 0 <= i < |st| - 1
        ensures nx[st[i]] == st[i + 1] && pv[st[i + 1]] == st[i]
      {
        if i < |s| - 1 {
        } else if i == |s| - 1 {
        } else {
          assert st[i] == t[i - |s|] && st[i + 1] == t[i - |s| + 1];
        }
      }
    }
    if Chain(nx, pv, st) {
      forall i | 0 <= i < |s|
        ensures s[i] in nx && s[i] in pv
      {
        assert s[i] == st[i];
      }
      forall i | 0 <= i < |s| - 1
        ensures nx[s[i]] == s[i + 1] && pv[s[i + 1]] == s[i]
      {
        assert s[i] == st[i] && s[i + 1] == st[i + 1];
      }
      forall i | 0 <= i < |t|
        ensures t[i] in nx && t[i] in pv
      {
        assert t[i] == st[|s| + i];
      }
      forall i | 0 <= i < |t| - 1
        ensures nx[t[i]] == t[i + 1] && pv[t[i + 1]] == t[i]
      {
        assert t[i] == st[|s| + i] && t[i + 1] == st[|s| + i + 1];
      }
      assert st[|s| - 1] == s[|s| - 1] && st[|s|] == t[0];
    }
  }

  /** A chain survives a rewrite of links that touches the `next` of none
      of its nodes but the last and the `prev` of none but the first. */
  lemma ChainKeep(nx: map<Id, Id>, pv: map<Id, Id>, nx': map<Id, Id>, pv': map<Id, Id>,
                  s: seq<Id>, wn: set<Id>, wp: set<Id>)
    requires Chain(nx, pv, s)
    requires nx.Keys <= nx'.Keys && pv.Keys <= pv'.Keys
    requires forall y | y in nx && y !in wn :: nx'[y] == nx[y]
    requires forall y | y in pv && y !in wp :: pv'[y] == pv[y]
    requires forall i | 0 <= i < |s| - 1 :: s[i] !in wn
    requires forall i | 0 < i < |s| :: s[i] !in wp
    ensures Chain(nx', pv', s)
  {
  }

  /** `e` with the one occurrence of `x` removed. */
  function Remove(e: seq<Id>, x: Id): (r: seq<Id>)
    ensures x !in e ==> r == e
    ensures |r| <= |e|
  {
    if e == [] then []
    else if e[0] == x then e[1..]
    else [e[0]] + Remove(e[1..], x)
  }

  /** Where `x` first occurs in `e`. */
  function Pos(e: seq<Id>, x: Id): (i: nat)
    requires x in e
    ensures i < |e| && e[i] == x && x !in e[..i]
  {
    if e[0] == x then 0
    else
      var i := Pos(e[1..], x) + 1;
      assert e[..i] == [e[0]] + e[1..][..i - 1];
      i
  }

  /** Removal cuts `e` at the position of `x`. */
  lemma {:induction false} RemoveAtPos(e: seq<Id>, x: Id)
    requires x in e
    ensures Remove(e, x) == e[..Pos(e, x)] + e[Pos(e, x) + 1..]
  {
    if e[0] != x {
      var t := e[1..];
      RemoveAtPos(t, x);
      var i := Pos(t, x);
      assert Pos(e, x) == i + 1;
      assert e[..i + 1] == [e[0]] + t[..i];
      assert e[i + 2..] == t[i + 1..];
    }
  }

  /** The ring of a list with sentinel `h` and elements `e`: the sentinel,
      the elements, and back. */
  ghost function RingOf(e: seq<Id>, h: Id): (r: seq<Id>)
    ensures |r| == |e| + 2 && r[0] == h && r[|r| - 1] == h
  {
    [h] + e + [h]
  }

  /** Which node is what: sentinels and elements are allocated nodes, not
      in flight; every element is in the list of its sentinel, exactly
      once. */
  ghost predicate Placed(keys: set<Id>, ls: map<Id, seq<Id>>, hm: map<Id, Id>, f: set<Id>) {
    && f <= keys
    && (forall h | h in ls :: h in keys && h !in hm && h !in f)
    && (forall x | x in hm :: x in keys && hm[x] in ls && x in ls[hm[x]] && x !in f)
    && (forall h, i | h in ls && 0 <= i < |ls[h]| :: ls[h][i] in hm && hm[ls[h][i]] == h)
    && (forall h | h in ls :: Distinct(ls[h]))
  }

  /** Every list's ring is linked both ways. */
  ghost predicate Rings(nx: map<Id, Id>, pv: map<Id, Id>, ls: map<Id, seq<Id>>) {
    forall h | h in ls :: Chain(nx, pv, RingOf(ls[h], h))
  }

  /** Every node that is neither a sentinel, nor an element, nor in flight
      is linked to itself. */
  ghost predicate Alone(nx: map<Id, Id>, pv: map<Id, Id>, ls: map<Id, seq<Id>>, hm: map<Id, Id>, f: set<Id>)
    requires pv.Keys == nx.Keys
  {
    forall x | x in nx && x !in hm && x !in ls && x !in f :: nx[x] == x && pv[x] == x
  }

  /** Well-formed memory, `nx`/`pv` being every node's `next_`/`prev_`, `ls`
      each list's elements by sentinel and `hm` each element's sentinel.
      The nodes in `f` are "in flight": cut out of a ring and not yet put
      back, so neither an element nor necessarily linked to itself. */
  ghost predicate Wf(nx: map<Id, Id>, pv: map<Id, Id>, ls: map<Id, seq<Id>>, hm: map<Id, Id>, f: set<Id>) {
    && pv.Keys == nx.Keys
    && Placed(nx.Keys, ls, hm, f)
    && Rings(nx, pv, ls)
    && Alone(nx, pv, ls, hm, f)
  }

  /** Well-formedness carried over to equal memory, as a step of its own
      so that the two descriptions of the memory need not be unfolded. */
  lemma WfEq(nx: map<Id, Id>, pv: map<Id, Id>, ls: map<Id, seq<Id>>, hm: map<Id, Id>, f: set<Id>,
             nx': map<Id, Id>, pv': map<Id, Id>, ls': map<Id, seq<Id>>, hm': map<Id, Id>, f': set<Id>)
    requires Wf(nx, pv, ls, hm, f) && nx' == nx && pv' == pv && ls' == ls && hm' == hm && f' == f
    ensures Wf(nx', pv', ls', hm', f')
  {
  }

  /** The nodes of a ring are its sentinel and the elements homed on it. */
  lemma RingOwners(nx: map<Id, Id>, pv: map<Id, Id>, ls: map<Id, seq<Id>>, hm: map<Id, Id>, f: set<Id>, h: Id)
    requires Wf(nx, pv, ls, hm, f) && h in ls
    ensures forall y | y in RingOf(ls[h], h) :: y == h || (y in hm && hm[y] == h)
  {
    forall y | y in RingOf(ls[h], h)
      ensures y == h || (y in hm && hm[y] == h)
    {
      if y != h {
        var i :| 0 <= i < |RingOf(ls[h], h)| && RingOf(ls[h], h)[i] == y;
        assert y == ls[h][i - 1];
      }
    }
  }

  /** A ring meets a node twice only at its two ends, the sentinel. */
  lemma RingDistinct(e: seq<Id>, h: Id)
    requires Distinct(e) && h !in e
    ensures var r := RingOf(e, h);
      forall i, j | 0 <= i < j < |r| :: r[i] == r[j] ==> i == 0 && j == |r| - 1
  {
    var r := RingOf(e, h);
    forall i, j | 0 <= i < j < |r|
      ensures r[i] == r[j] ==> i == 0 && j == |r| - 1
    {
      if 0 < i && j < |r| - 1 {
        assert r[i] == e[i - 1] && r[j] == e[j - 1];
      } else if 0 < i {
        assert r[i] == e[i - 1];
      } else if j < |r| - 1 {
        assert r[j] == e[j - 1];
      }
    }
  }

  /** Distinct elements in a slice: what lies in one part lies in no
      other. */
  lemma DistinctParts(e: seq<Id>, a: int, b: int)
    requires Distinct(e) && 0 <= a <= b <= |e|
    ensures Distinct(e[a..b]) && Distinct(e[..a] + e[b..])
    ensures forall y | y in e[a..b] :: y !in e[..a] && y !in e[b..]
  {
    var c := e[..a] + e[b..];
    forall i, j | 0 <= i < j < |c|
      ensures c[i] != c[j]
    {
      var i0 := if i < a then i else i + (b - a);
      var j0 := if j < a then j else j + (b - a);
      assert c[i] == e[i0] && c[j] == e[j0];
    }
    forall y | y in e[a..b]
      ensures y !in e[..a] && y !in e[b..]
    {
      var k :| a <= k < b && e[k] == y;
      assert forall n | 0 <= n < a :: e[..a][n] == e[n] != e[k];
      assert forall n | 0 <= n < |e| - b :: e[b..][n] == e[b + n] != e[k];
    }
  }

  /** The links of one ring after the elements `a` to `b` (exclusive) are
      cut out: the node before them is linked to the node after them. */
  lemma CutChains(nx: map<Id, Id>, pv: map<Id, Id>, e: seq<Id>, h: Id, a: int, b: int)
    requires Chain(nx, pv, RingOf(e, h)) && Distinct(e) && h !in e && 0 <= a < b <= |e|
    ensures var r := RingOf(e, h);
      var nx', pv' := nx[r[a] := r[b + 1]], pv[r[b + 1] := r[a]];
      Chain(nx', pv', RingOf(e[..a] + e[b..], h)) && Chain(nx', pv', e[a..b])
  {
    var r := RingOf(e, h);
    var fp, last := r[a], r[b + 1];
    var nx', pv' := nx[fp := last], pv[last := fp];
    RingDistinct(e, h);
    var r' := RingOf(e[..a] + e[b..], h);
    var d := b - a;
    forall i | 0 <= i < |r'|
      ensures r'[i] == (if i <= a then r[i] else r[i + d])
      ensures r'[i] in nx' && r'[i] in pv'
    {
    }
    forall i | 0 <= i < |r'| - 1
      ensures nx'[r'[i]] == r'[i + 1] && pv'[r'[i + 1]] == r'[i]
    {
      if i < a {
        assert r[i] != fp && r[i + 1] != last;
      } else if i > a {
        assert r[i + d] != fp && r[i + 1 + d] != last;
      }
    }
    var m := e[a..b];
    forall i | 0 <= i < |m|
      ensures m[i] == r[a + 1 + i] && m[i] != fp && m[i] != last
    {
    }
    forall i | 0 <= i < |m| - 1
      ensures nx'[m[i]] == m[i + 1] && pv'[m[i + 1]] == m[i]
    {
      assert m[i] == r[a + 1 + i] && m[i + 1] == r[a + 2 + i];
    }
  }

  /** The links of one ring after a chain `m` of outside nodes is put in
      just before its `p`-th node. */
  lemma InsertChains(nx: map<Id, Id>, pv: map<Id, Id>, e: seq<Id>, h: Id, m: seq<Id>, p: int)
    requires Chain(nx, pv, RingOf(e, h)) && Distinct(e) && h !in e && 0 <= p <= |e|
    requires m != [] && Chain(nx, pv, m) && Distinct(m)
    requires forall i | 0 <= i < |m| :: m[i] != h && m[i] !in e
    ensures var r := RingOf(e, h);
      var nx' := nx[r[p] := m[0]][m[|m| - 1] := r[p + 1]];
      var pv' := pv[m[0] := r[p]][r[p + 1] := m[|m| - 1]];
      Chain(nx', pv', RingOf(e[..p] + m + e[p..], h))
  {
    var r := RingOf(e, h);
    var pp, pos := r[p], r[p + 1];
    var m0, ml := m[0], m[|m| - 1];
    var nx' := nx[pp := m0][ml := pos];
    var pv' := pv[m0 := pp][pos := ml];
    RingDistinct(e, h);
    var r' := RingOf(e[..p] + m + e[p..], h);
    var k := |m|;
    forall i | 0 <= i < |r|
      ensures r[i] !in m
    {
      if 0 < i < |r| - 1 {
        assert r[i] == e[i - 1];
      }
    }
    forall i | 0 <= i < |r'|
      ensures r'[i] == (if i <= p then r[i] else if i <= p + k then m[i - p - 1] else r[i - k])
      ensures r'[i] in nx' && r'[i] in pv'
    {
    }
    forall i | 0 <= i < |r'| - 1
      ensures nx'[r'[i]] == r'[i + 1] && pv'[r'[i + 1]] == r'[i]
    {
      if i < p {
        assert r[i] != pp && r[i] !in m && r[i + 1] != pos && r[i + 1] !in m;
      } else if i == p {
        assert pp !in m && m0 != pos;
      } else if i < p + k {
        assert m[i - p - 1] != ml && m[i - p] != m0;
        assert m[i - p - 1] != pp && m[i - p] != pos;
      } else if i == p + k {
      } else {
        assert r[i - k] != pp && r[i - k] !in m && r[i - k + 1] != pos && r[i - k + 1] !in m;
      }
    }
  }

  /** Rings other than that of list `h` keep their links when only links
      of list `h`'s own nodes, or of free nodes, are rewritten. */
  lemma OtherRingsKeep(nx: map<Id, Id>, pv: map<Id, Id>, ls: map<Id, seq<Id>>, hm: map<Id, Id>, f: set<Id>,
                       nx': map<Id, Id>, pv': map<Id, Id>, h: Id, w: set<Id>)
    requires Wf(nx, pv, ls, hm, f)
    requires nx.Keys <= nx'.Keys && pv.Keys <= pv'.Keys
    requires forall y | y in nx && y !in w :: nx'[y] == nx[y]
    requires forall y | y in pv && y !in w :: pv'[y] == pv[y]
    requires forall y | y in w :: (y in ls ==> y == h) && (y in hm ==> hm[y] == h)
    ensures forall h2 | h2 in ls && h2 != h :: Chain(nx', pv', RingOf(ls[h2], h2))
  {
    forall h2 | h2 in ls && h2 != h
      ensures Chain(nx', pv', RingOf(ls[h2], h2))
    {
      var r2 := RingOf(ls[h2], h2);
      RingOwners(nx, pv, ls, hm, f, h2);
      forall i | 0 <= i < |r2|
        ensures r2[i] !in w
      {
        assert r2[i] in r2;
      }
      ChainKeep(nx, pv, nx', pv', r2, w, w);
    }
  }

  /** The bookkeeping of a cut: the cut-out elements leave their list and
      go in flight. */
  lemma CutPlaced(keys: set<Id>, ls: map<Id, seq<Id>>, hm: map<Id, Id>, f: set<Id>, h: Id, a: int, b: int)
    requires Placed(keys, ls, hm, f) && h in ls && 0 <= a < b <= |ls[h]|
    ensures var m := ls[h][a..b];
      Placed(keys, ls[h := ls[h][..a] + ls[h][b..]], hm - Elems(m), f + Elems(m))
  {
    var e := ls[h];
    var m := e[a..b];
    var e' := e[..a] + e[b..];
    var ls', hm', f' := ls[h := e'], hm - Elems(m), f + Elems(m);
    DistinctParts(e, a, b);
    forall x | x in hm'
      ensures x in ls'[hm'[x]]
    {
      if hm[x] == h {
        var k :| 0 <= k < |e| && e[k] == x;
        assert x !in m;
        assert x == e'[if k < a then k else k - (b - a)];
      }
    }
    forall i | 0 <= i < |e'|
      ensures e'[i] in hm' && hm'[e'[i]] == h
    {
      assert e'[i] in e[..a] || e'[i] in e[b..];
    }
    forall y | y in m
      ensures y in hm && y in keys
    {
      var k :| a <= k < b && e[k] == y;
    }
  }

  /** Cutting the elements `a` to `b` (exclusive) out of the ring of list
      `h`, as `unlink` and the first half of `transfer` do. The rest stays
      well formed, the cut-out elements are in flight and still chained to
      each other. */
  lemma CutKeepsWf(nx: map<Id, Id>, pv: map<Id, Id>, ls: map<Id, seq<Id>>, hm: map<Id, Id>, f: set<Id>,
                   h: Id, a: int, b: int)
    requires Wf(nx, pv, ls, hm, f) && h in ls && 0 <= a < b <= |ls[h]|
    ensures var r := RingOf(ls[h], h);
      var nx', pv' := nx[r[a] := r[b + 1]], pv[r[b + 1] := r[a]];
      var m := ls[h][a..b];
      && Wf(nx', pv', ls[h := ls[h][..a] + ls[h][b..]], hm - Elems(m), f + Elems(m))
      && Chain(nx', pv', m) && Distinct(m)
  {
    var e := ls[h];
    var r := RingOf(e, h);
    var fp, last := r[a], r[b + 1];
    var nx', pv' := nx[fp := last], pv[last := fp];
    var m := e[a..b];
    var ls', hm', f' := ls[h := e[..a] + e[b..]], hm - Elems(m), f + Elems(m);
    assert h !in e by {
      assert forall i | 0 <= i < |e| :: e[i] in hm;
    }
    DistinctParts(e, a, b);
    CutChains(nx, pv, e, h, a, b);
    CutPlaced(nx.Keys, ls, hm, f, h, a, b);
    assert nx'.Keys == nx.Keys;
    RingOwners(nx, pv, ls, hm, f, h);
    assert fp in r && last in r;
    OtherRingsKeep(nx, pv, ls, hm, f, nx', pv', h, {fp, last});
    assert Rings(nx', pv', ls');
    forall x | x in nx' && x !in hm' && x !in ls' && x !in f'
      ensures nx'[x] == x && pv'[x] == x
    {
      assert x !in hm;
    }
  }

  /** Inserting distinct new nodes into a list without repeats keeps it
      without repeats. */
  lemma DistinctInsert(e: seq<Id>, m: seq<Id>, p: int)
    requires Distinct(e) && Distinct(m) && 0 <= p <= |e|
    requires forall i | 0 <= i < |m| :: m[i] !in e
    ensures Distinct(e[..p] + m + e[p..])
  {
    var e' := e[..p] + m + e[p..];
    var k := |m|;
    forall i | 0 <= i < |e'|
      ensures e'[i] == if i < p then e[i] else if i < p + k then m[i - p] else e[i - k]
    {
    }
    forall i, j | 0 <= i < j < |e'|
      ensures e'[i] != e'[j]
    {
      if p <= i < p + k && !(p <= j < p + k) {
        assert e'[i] in m;
      } else if p <= j < p + k && !(p <= i < p + k) {
        assert e'[j] in m;
      }
    }
  }

  /** The homes after list `h` takes the nodes of `m`. */
  ghost function Rehome(hm: map<Id, Id>, m: seq<Id>, h: Id): (r: map<Id, Id>)
    ensures r.Keys == hm.Keys + Elems(m)
    ensures forall y | y in r :: r[y] == if y in m then h else hm[y]
  {
    map y | y in hm.Keys + Elems(m) :: if y in m then h else hm[y]
  }

  /** Where each node of `e[..p] + m + e[p..]` comes from. */
  lemma InsertedAt(e: seq<Id>, m: seq<Id>, p: int)
    requires 0 <= p <= |e|
    ensures var e' := e[..p] + m + e[p..];
      forall i | 0 <= i < |e'| ::
        e'[i] == if i < p then e[i] else if i < p + |m| then m[i - p] else e[i - |m|]
  {
  }

  /** After an insertion into list `h`, all its elements are homed on it. */
  lemma InsertedHomes(ls: map<Id, seq<Id>>, hm: map<Id, Id>, f: set<Id>, m: seq<Id>, h: Id, p: int)
    requires h in ls && 0 <= p <= |ls[h]|
    requires forall i | 0 <= i < |ls[h]| :: ls[h][i] in hm && hm[ls[h][i]] == h
    requires forall i | 0 <= i < |m| :: m[i] !in hm
    ensures var e' := ls[h][..p] + m + ls[h][p..];
      forall i | 0 <= i < |e'| :: e'[i] in Rehome(hm, m, h) && Rehome(hm, m, h)[e'[i]] == h
  {
    var e := ls[h];
    var e' := e[..p] + m + e[p..];
    var k := |m|;
    var hm' := Rehome(hm, m, h);
    InsertedAt(e, m, p);
    forall i | 0 <= i < |e'|
      ensures e'[i] in hm' && hm'[e'[i]] == h
    {
      if i < p {
        assert e[i] !in m;
      } else if i < p + k {
        assert m[i - p] in m;
      } else {
        assert e[i - k] !in m;
      }
    }
  }

  /** After an insertion into list `h`, every element is in the list of
      its sentinel and no longer in flight. */
  lemma InsertedMembers(keys: set<Id>, ls: map<Id, seq<Id>>, hm: map<Id, Id>, f: set<Id>, m: seq<Id>, h: Id, p: int)
    requires Placed(keys, ls, hm, f) && h in ls && 0 <= p <= |ls[h]|
    requires Distinct(m) && Elems(m) <= f
    ensures var ls', hm' := ls[h := ls[h][..p] + m + ls[h][p..]], Rehome(hm, m, h);
      forall x | x in hm' :: x in keys && hm'[x] in ls' && x in ls'[hm'[x]] && x !in f - Elems(m)
  {
    var e := ls[h];
    var e' := e[..p] + m + e[p..];
    var ls', hm' := ls[h := e'], Rehome(hm, m, h);
    InsertedAt(e, m, p);
    forall x | x in hm'
      ensures x in keys && hm'[x] in ls' && x in ls'[hm'[x]] && x !in f - Elems(m)
    {
      if x in m {
        var j :| 0 <= j < |m| && m[j] == x;
        assert e'[p + j] == x;
      } else if hm[x] == h {
        var j :| 0 <= j < |e| && e[j] == x;
        assert x == e'[if j < p then j else j + |m|];
      }
    }
  }

  /** The bookkeeping of an insertion: the nodes of `m` leave flight and
      become elements of list `h`, at positions `p` onwards. */
  lemma InsertPlaced(keys: set<Id>, ls: map<Id, seq<Id>>, hm: map<Id, Id>, f: set<Id>, m: seq<Id>, h: Id, p: int)
    requires Placed(keys, ls, hm, f) && h in ls && 0 <= p <= |ls[h]|
    requires Distinct(m) && Elems(m) <= f
    ensures Placed(keys, ls[h := ls[h][..p] + m + ls[h][p..]], Rehome(hm, m, h), f - Elems(m))
  {
    var e := ls[h];
    assert forall i | 0 <= i < |m| :: m[i] in f && m[i] !in hm;
    assert forall i | 0 <= i < |e| :: e[i] in hm;
    DistinctInsert(e, m, p);
    InsertedHomes(ls, hm, f, m, h, p);
    InsertedMembers(keys, ls, hm, f, m, h, p);
  }

  /** The rings after an insertion into list `h`. */
  lemma InsertRings(nx: map<Id, Id>, pv: map<Id, Id>, ls: map<Id, seq<Id>>, hm: map<Id, Id>, f: set<Id>,
                    m: seq<Id>, h: Id, p: int)
    requires Wf(nx, pv, ls, hm, f) && h in ls && 0 <= p <= |ls[h]|
    requires m != [] && Distinct(m) && Chain(nx, pv, m) && Elems(m) <= f
    ensures var r := RingOf(ls[h], h);
      var nx' := nx[r[p] := m[0]][m[|m| - 1] := r[p + 1]];
      var pv' := pv[m[0] := r[p]][r[p + 1] := m[|m| - 1]];
      Rings(nx', pv', ls[h := ls[h][..p] + m + ls[h][p..]])
  {
    var e := ls[h];
    var r := RingOf(e, h);
    var pp, pos := r[p], r[p + 1];
    var m0, ml := m[0], m[|m| - 1];
    var nx' := nx[pp := m0][ml := pos];
    var pv' := pv[m0 := pp][pos := ml];
    assert forall i | 0 <= i < |m| :: m[i] in f && m[i] !in hm && m[i] !in ls;
    assert forall i | 0 <= i < |e| :: e[i] in hm;
    InsertChains(nx, pv, e, h, m, p);
    RingOwners(nx, pv, ls, hm, f, h);
    assert pp in r && pos in r && m0 in m && ml in m;
    OtherRingsKeep(nx, pv, ls, hm, f, nx', pv', h, {pp, pos, m0, ml});
  }

  /** Putting a chain `m` of nodes in flight back into the ring of list
      `h` just before its `p`-th node (`p == |ls[h]|` meaning the
      sentinel), as `link_before` and the second half of `transfer` do. */
  lemma InsertKeepsWf(nx: map<Id, Id>, pv: map<Id, Id>, ls: map<Id, seq<Id>>, hm: map<Id, Id>, f: set<Id>,
                      m: seq<Id>, h: Id, p: int)
    requires Wf(nx, pv, ls, hm, f) && h in ls && 0 <= p <= |ls[h]|
    requires m != [] && Distinct(m) && Chain(nx, pv, m) && Elems(m) <= f
    ensures var r := RingOf(ls[h], h);
      var nx' := nx[r[p] := m[0]][m[|m| - 1] := r[p + 1]];
      var pv' := pv[m[0] := r[p]][r[p + 1] := m[|m| - 1]];
      Wf(nx', pv', ls[h := ls[h][..p] + m + ls[h][p..]], Rehome(hm, m, h), f - Elems(m))
  {
    var e := ls[h];
    var r := RingOf(e, h);
    var pp, pos := r[p], r[p + 1];
    var m0, ml := m[0], m[|m| - 1];
    var nx' := nx[pp := m0][ml := pos];
    var pv' := pv[m0 := pp][pos := ml];
    var ls', hm', f' := ls[h := e[..p] + m + e[p..]], Rehome(hm, m, h), f - Elems(m);
    assert m0 in m && ml in m && m0 in nx && ml in nx;
    InsertRings(nx, pv, ls, hm, f, m, h, p);
    InsertPlaced(nx.Keys, ls, hm, f, m, h, p);
    assert nx'.Keys == nx.Keys && pv'.Keys == pv.Keys;
    RingOwners(nx, pv, ls, hm, f, h);
    assert pp in r && pos in r;
    forall x | x in nx' && x !in hm' && x !in ls' && x !in f'
      ensures nx'[x] == x && pv'[x] == x
    {
      assert x !in m && x != pp && x != pos;
    }
  }

  /** A node in flight that is linked to itself is simply a free node. */
  lemma SelfLinkKeepsWf(nx: map<Id, Id>, pv: map<Id, Id>, ls: map<Id, seq<Id>>, hm: map<Id, Id>, f: set<Id>, x: Id)
    requires Wf(nx, pv, ls, hm, f) && x in f
    ensures Wf(nx[x := x], pv[x := x], ls, hm, f - {x})
  {
    var nx', pv' := nx[x := x], pv[x := x];
    forall h | h in ls
      ensures Chain(nx', pv', RingOf(ls[h], h))
    {
      RingOwners(nx, pv, ls, hm, f, h);
      ChainKeep(nx, pv, nx', pv', RingOf(ls[h], h), {x}, {x});
    }
  }

  /** Where node `x` sits in a list with sentinel `h` and elements `e`:
      its index, the sentinel counting as one past the last element. */
  function IndexIn(e: seq<Id>, h: Id, x: Id): (i: nat)
    requires x == h || x in e
    requires h !in e
    ensures i <= |e| && RingOf(e, h)[i + 1] == x
  {
    if x == h then |e| else Pos(e, x)
  }

  /** The lists after element `x` leaves its list (no change when `x` is
      in none). */
  ghost function Without(ls: map<Id, seq<Id>>, hm: map<Id, Id>, x: Id): (r: map<Id, seq<Id>>)
    ensures r.Keys == ls.Keys
  {
    if x in hm && hm[x] in ls then ls[hm[x] := Remove(ls[hm[x]], x)] else ls
  }

  /** `e` with `x` placed just before `pos`, or at the end when `pos` is
      not an element (it is then the sentinel). */
  ghost function Before(e: seq<Id>, pos: Id, x: Id): seq<Id> {
    if pos in e then e[..Pos(e, pos)] + [x] + e[Pos(e, pos)..] else e + [x]
  }

  /** The list that sentinel or element `x` belongs to. */
  ghost function HostOf(ls: map<Id, seq<Id>>, hm: map<Id, Id>, x: Id): Id {
    if x in ls then x else if x in hm then hm[x] else x
  }

  /** The index of sentinel or element `x` in its list. */
  ghost function IndexOf(ls: map<Id, seq<Id>>, hm: map<Id, Id>, x: Id): nat {
    var h := HostOf(ls, hm, x);
    if h in ls && (x == h || x in ls[h]) && h !in ls[h] then IndexIn(ls[h], h, x) else 0
  }

  /** The nodes from `first` up to, not including, `last`, when both are
      in one list in that order. */
  ghost function BetweenOf(ls: map<Id, seq<Id>>, hm: map<Id, Id>, first: Id, last: Id): seq<Id> {
    var h, a, b := HostOf(ls, hm, first), IndexOf(ls, hm, first), IndexOf(ls, hm, last);
    if h in ls && a <= b <= |ls[h]| then ls[h][a..b] else []
  }

  /** A sentinel or element is in the list of its host, at its index. */
  lemma Located(nx: map<Id, Id>, pv: map<Id, Id>, ls: map<Id, seq<Id>>, hm: map<Id, Id>, x: Id)
    requires Wf(nx, pv, ls, hm, {}) && (x in ls || x in hm)
    ensures var h := HostOf(ls, hm, x);
      && h in ls && h !in ls[h] && (x in hm ==> h == hm[x]) && x in nx
      && IndexOf(ls, hm, x) <= |ls[h]| && RingOf(ls[h], h)[IndexOf(ls, hm, x) + 1] == x
  {
    var h := HostOf(ls, hm, x);
    assert forall i | 0 <= i < |ls[h]| :: ls[h][i] in hm;
  }

  /** What `transfer` relies on, from the hosts and indices of its
      arguments. */
  lemma TransferPlaces(nx: map<Id, Id>, pv: map<Id, Id>, ls: map<Id, seq<Id>>, hm: map<Id, Id>,
                       pos: Id, first: Id, last: Id)
    requires Wf(nx, pv, ls, hm, {})
    requires first in hm && (last in ls || last in hm) && HostOf(ls, hm, last) == hm[first]
    requires IndexOf(ls, hm, first) < IndexOf(ls, hm, last)
    requires pos in ls || pos in hm
    requires HostOf(ls, hm, pos) == hm[first] ==>
      IndexOf(ls, hm, pos) < IndexOf(ls, hm, first) || IndexOf(ls, hm, last) <= IndexOf(ls, hm, pos)
    ensures var h2, a, b := hm[first], IndexOf(ls, hm, first), IndexOf(ls, hm, last);
      var h, p := HostOf(ls, hm, pos), IndexOf(ls, hm, pos);
      && h2 in ls && h in ls && 0 <= a < b <= |ls[h2]| && 0 <= p <= |ls[h]|
      && (h == h2 ==> p < a || b <= p)
      && first == RingOf(ls[h2], h2)[a + 1] && last == RingOf(ls[h2], h2)[b + 1]
      && pos == RingOf(ls[h], h)[p + 1]
      && first in pv && last in pv && pos in pv && pos != first
      && Wf(TransferNext(nx, pv, pos, first, last), TransferPrev(nx, pv, pos, first, last),
            Spliced(ls, h2, a, b, h, p), Rehome(hm, BetweenOf(ls, hm, first, last), h), {})
  {
    Located(nx, pv, ls, hm, first);
    Located(nx, pv, ls, hm, last);
    Located(nx, pv, ls, hm, pos);
    var h2, a, b := hm[first], IndexOf(ls, hm, first), IndexOf(ls, hm, last);
    var h, p := HostOf(ls, hm, pos), IndexOf(ls, hm, pos);
    assert BetweenOf(ls, hm, first, last) == ls[h2][a..b];
    TransferKeepsWf(nx, pv, ls, hm, h2, a, b, h, p, pos, first, last);
  }

  /** The lists after `link_before`: `node` leaves its list and goes just
      before `pos` in the list of `pos`. */
  ghost function MovedBefore(ls: map<Id, seq<Id>>, hm: map<Id, Id>, pos: Id, node: Id): map<Id, seq<Id>>
    requires pos in ls || pos in hm
  {
    var ls1 := Without(ls, hm, node);
    var h := HostOf(ls, hm, pos);
    if h in ls1 then ls1[h := Before(ls1[h], pos, node)] else ls1
  }

  /** The lists after `[a, b)` of list `h2` moves, in order, to just before
      the `p`-th node of list `h` (`p` indexing list `h` before the move). */
  ghost function Spliced(ls: map<Id, seq<Id>>, h2: Id, a: int, b: int, h: Id, p: int): map<Id, seq<Id>>
    requires h2 in ls && h in ls && 0 <= a < b <= |ls[h2]| && 0 <= p <= |ls[h]|
    requires h == h2 ==> p < a || b <= p
  {
    var e2 := ls[h2];
    var ls1 := ls[h2 := e2[..a] + e2[b..]];
    var q := if h == h2 && b <= p then p - (b - a) else p;
    ls1[h := ls1[h][..q] + e2[a..b] + ls1[h][q..]]
  }

  /** `next_` and `prev_` after `unlink()` of `x`. */
  function DetachNext(nx: map<Id, Id>, pv: map<Id, Id>, x: Id): map<Id, Id>
    requires x in nx && x in pv
  {
    nx[pv[x] := nx[x]][x := x]
  }

  function DetachPrev(nx: map<Id, Id>, pv: map<Id, Id>, x: Id): map<Id, Id>
    requires x in nx && x in pv
  {
    pv[nx[x] := pv[x]][x := x]
  }

  /** `next_` and `prev_` after `pos.link_before(node)`, `pos != node`. */
  function LinkNext(nx: map<Id, Id>, pv: map<Id, Id>, pos: Id, node: Id): map<Id, Id>
    requires node in nx && node in pv && pos in pv
  {
    var pv1 := DetachPrev(nx, pv, node);
    DetachNext(nx, pv, node)[node := pos][pv1[pos] := node]
  }

  function LinkPrev(nx: map<Id, Id>, pv: map<Id, Id>, pos: Id, node: Id): map<Id, Id>
    requires node in nx && node in pv && pos in pv
  {
    var pv1 := DetachPrev(nx, pv, node);
    pv1[node := pv1[pos]][pos := node]
  }

  /** Removing a node that is not `y` keeps `y`. */
  lemma {:induction false} RemoveKeeps(e: seq<Id>, x: Id, y: Id)
    requires y in e && y != x
    ensures y in Remove(e, x)
  {
    if e[0] != x && e[0] != y {
      RemoveKeeps(e[1..], x, y);
    }
  }

  /** Writes to two different keys can be made in either order. */
  lemma UpdatesCommute(m: map<Id, Id>, k1: Id, v1: Id, k2: Id, v2: Id)
    requires k1 != k2
    ensures m[k1 := v1][k2 := v2] == m[k2 := v2][k1 := v1]
  {
  }

  /** A free node can be taken in flight. */
  lemma Float(nx: map<Id, Id>, pv: map<Id, Id>, ls: map<Id, seq<Id>>, hm: map<Id, Id>, x: Id)
    requires Wf(nx, pv, ls, hm, {}) && x in nx && x !in ls && x !in hm
    ensures Wf(nx, pv, ls, hm, {x}) && Chain(nx, pv, [x])
  {
  }

  /** A node in flight goes back in just before `pos`. */
  lemma PutBeforeKeepsWf(nx: map<Id, Id>, pv: map<Id, Id>, ls: map<Id, seq<Id>>, hm: map<Id, Id>, h: Id, pos: Id, node: Id)
    requires Wf(nx, pv, ls, hm, {node}) && h in ls && (pos == h || pos in ls[h])
    ensures pos in pv && pv[pos] != node
    ensures Wf(nx[pv[pos] := node][node := pos], pv[node := pv[pos]][pos := node],
               ls[h := Before(ls[h], pos, node)], hm[node := h], {})
  {
    var e := ls[h];
    assert h !in e by {
      assert forall i | 0 <= i < |e| :: e[i] in hm;
    }
    var p := IndexIn(e, h, pos);
    var r := RingOf(e, h);
    PutOneShape(hm, e, h, pos, node);
    assert r[p + 1] == pos && r[p] == pv[pos];
    assert r[p] != node by {
      RingOwners(nx, pv, ls, hm, {node}, h);
      assert r[p] in r;
    }
    InsertKeepsWf(nx, pv, ls, hm, {node}, [node], h, p);
    WfEq(nx[r[p] := node][node := r[p + 1]], pv[node := r[p]][r[p + 1] := node],
         ls[h := e[..p] + [node] + e[p..]], Rehome(hm, [node], h), {node} - Elems([node]),
         nx[pv[pos] := node][node := pos], pv[node := pv[pos]][pos := node],
         ls[h := Before(e, pos, node)], hm[node := h], {});
  }

  /** One node put at the place of `pos` in `e`, and its new sentinel. */
  lemma PutOneShape(hm: map<Id, Id>, e: seq<Id>, h: Id, pos: Id, node: Id)
    requires h !in e && (pos == h || pos in e)
    ensures var p := IndexIn(e, h, pos);
      && e[..p] + [node] + e[p..] == Before(e, pos, node)
      && Rehome(hm, [node], h) == hm[node := h] && {node} - Elems([node]) == {}
  {
    var p := IndexIn(e, h, pos);
    if pos == h {
      assert e[..p] == e && e[p..] == [];
    }
  }

  /** `unlink()` keeps memory well formed, and takes its node out of its
      list; a node in no list is already linked to itself. */
  lemma UnlinkKeepsWf(nx: map<Id, Id>, pv: map<Id, Id>, ls: map<Id, seq<Id>>, hm: map<Id, Id>, x: Id)
    requires Wf(nx, pv, ls, hm, {}) && x in nx && x !in ls
    ensures pv[x] in nx && nx[x] in nx
    ensures Wf(DetachNext(nx, pv, x), DetachPrev(nx, pv, x), Without(ls, hm, x), hm - {x}, {})
    ensures x !in hm ==> DetachNext(nx, pv, x) == nx && DetachPrev(nx, pv, x) == pv
  {
    if x in hm {
      var h := hm[x];
      var e := ls[h];
      var k := Pos(e, x);
      var r := RingOf(e, h);
      var m := e[k..k + 1];
      assert r[k + 1] == x && pv[x] == r[k] && nx[x] == r[k + 2];
      RemoveAtPos(e, x);
      assert m == [x] && Elems(m) == {x} && {} + Elems(m) == {x};
      var nx1, pv1 := nx[pv[x] := nx[x]], pv[nx[x] := pv[x]];
      var ls1, hm1 := Without(ls, hm, x), hm - {x};
      assert ls1 == ls[h := e[..k] + e[k + 1..]];
      CutKeepsWf(nx, pv, ls, hm, {}, h, k, k + 1);
      assert Wf(nx1, pv1, ls1, hm1, {x});
      SelfLinkKeepsWf(nx1, pv1, ls1, hm1, {x}, x);
      assert {x} - {x} == {};
    }
  }

  /** `next_` and `prev_` after `pos.transfer(first, last)`. */
  function TransferNext(nx: map<Id, Id>, pv: map<Id, Id>, pos: Id, first: Id, last: Id): map<Id, Id>
    requires first in pv && last in pv && pos in pv
  {
    var prevLast := pv[last];
    var pv1 := pv[last := pv[first]];
    nx[pv[first] := last][pv1[pos] := first][prevLast := pos]
  }

  function TransferPrev(nx: map<Id, Id>, pv: map<Id, Id>, pos: Id, first: Id, last: Id): map<Id, Id>
    requires first in pv && last in pv && pos in pv
  {
    var prevLast := pv[last];
    var pv1 := pv[last := pv[first]];
    pv1[first := pv1[pos]][pos := prevLast]
  }

  /** The six writes of `transfer`, one after the other, give
      `TransferNext` and `TransferPrev`, provided `pos` is not `first`. */
  lemma TransferWrites(nx: map<Id, Id>, pv: map<Id, Id>, pos: Id, first: Id, last: Id)
    requires first in pv && last in pv && pos in pv && pos != first
    ensures var pv1 := pv[last := pv[first]];
      var pv2 := pv1[first := pv1[pos]];
      && nx[pv[first] := last][pv2[pos] := first][pv[last] := pos] == TransferNext(nx, pv, pos, first, last)
      && pv2[pos := pv[last]] == TransferPrev(nx, pv, pos, first, last)
  {
  }

  /** After `[a, b)` is cut out of `e`, the node at `p` (outside the cut)
      is at `p` or `b - a` places earlier. */
  lemma CutIndex(e: seq<Id>, h: Id, a: int, b: int, p: int)
    requires 0 <= a < b <= |e| && 0 <= p <= |e| && (p < a || b <= p)
    ensures var q := if b <= p then p - (b - a) else p;
      0 <= q <= |e[..a] + e[b..]| && RingOf(e[..a] + e[b..], h)[q + 1] == RingOf(e, h)[p + 1]
  {
  }

  /** The second half of `transfer`: a chain `m` in flight goes back in
      just before `pos`, the `q`-th node of list `h`. */
  lemma PutChainKeepsWf(nx: map<Id, Id>, pv: map<Id, Id>, ls: map<Id, seq<Id>>, hm: map<Id, Id>,
                        m: seq<Id>, h: Id, q: int, pos: Id,
                        nx': map<Id, Id>, pv': map<Id, Id>, ls': map<Id, seq<Id>>, hm': map<Id, Id>)
    requires Wf(nx, pv, ls, hm, Elems(m)) && m != [] && Distinct(m) && Chain(nx, pv, m)
    requires h in ls && 0 <= q <= |ls[h]| && pos == RingOf(ls[h], h)[q + 1] && pos in pv
    requires nx' == nx[pv[pos] := m[0]][m[|m| - 1] := pos] && pv' == pv[m[0] := pv[pos]][pos := m[|m| - 1]]
    requires ls' == ls[h := ls[h][..q] + m + ls[h][q..]] && hm' == Rehome(hm, m, h)
    ensures Wf(nx', pv', ls', hm', {})
  {
    InsertKeepsWf(nx, pv, ls, hm, Elems(m), m, h, q);
    assert Elems(m) - Elems(m) == {};
  }

  /** The first half of `transfer`: `[first, last)`, the elements `a`
      to `b` (exclusive) of list `h2`, are cut out and in flight. */
  lemma TransferCut(nx: map<Id, Id>, pv: map<Id, Id>, ls: map<Id, seq<Id>>, hm: map<Id, Id>,
                    h2: Id, a: int, b: int, first: Id, last: Id)
    requires Wf(nx, pv, ls, hm, {}) && h2 in ls && 0 <= a < b <= |ls[h2]|
    requires first == RingOf(ls[h2], h2)[a + 1] && last == RingOf(ls[h2], h2)[b + 1]
    ensures first in pv && last in pv
    ensures ls[h2][a] == first && ls[h2][b - 1] == pv[last]
    ensures var m := ls[h2][a..b];
      && Wf(nx[pv[first] := last], pv[last := pv[first]], ls[h2 := ls[h2][..a] + ls[h2][b..]],
            hm - Elems(m), Elems(m))
      && Chain(nx[pv[first] := last], pv[last := pv[first]], m) && Distinct(m)
  {
    var e2 := ls[h2];
    var r2 := RingOf(e2, h2);
    var m := e2[a..b];
    assert r2[a + 1] == e2[a] && r2[b] == e2[b - 1];
    assert r2[a] == pv[first] && r2[b] == pv[last];
    assert {} + Elems(m) == Elems(m);
    CutKeepsWf(nx, pv, ls, hm, {}, h2, a, b);
    WfEq(nx[r2[a] := r2[b + 1]], pv[r2[b + 1] := r2[a]], ls[h2 := e2[..a] + e2[b..]], hm - Elems(m), {} + Elems(m),
         nx[pv[first] := last], pv[last := pv[first]], ls[h2 := e2[..a] + e2[b..]], hm - Elems(m), Elems(m));
  }

  /** `transfer` as a cut of `m == [first, last)`, then an insertion of
      `m` before `pos`, at `q` in the list left by the cut. */
  lemma TransferShape(nx: map<Id, Id>, pv: map<Id, Id>, ls: map<Id, seq<Id>>,
                      h2: Id, a: int, b: int, h: Id, p: int, pos: Id, first: Id, last: Id)
    requires h2 in ls && h in ls
    requires 0 <= a < b <= |ls[h2]| && 0 <= p <= |ls[h]| && (h == h2 ==> p < a || b <= p)
    requires first in pv && last in pv && pos in pv
    requires ls[h2][a] == first && ls[h2][b - 1] == pv[last]
    ensures var m := ls[h2][a..b];
      var nxc, pvc := nx[pv[first] := last], pv[last := pv[first]];
      var lsc := ls[h2 := ls[h2][..a] + ls[h2][b..]];
      var q := if h == h2 && b <= p then p - (b - a) else p;
      && TransferNext(nx, pv, pos, first, last) == nxc[pvc[pos] := m[0]][m[|m| - 1] := pos]
      && TransferPrev(nx, pv, pos, first, last) == pvc[m[0] := pvc[pos]][pos := m[|m| - 1]]
      && Spliced(ls, h2, a, b, h, p) == lsc[h := lsc[h][..q] + m + lsc[h][q..]]
  {
  }

  /** `pos.transfer(first, last)`, `first` and `last` being the `a`-th and
      `b`-th nodes of list `h2` and `pos` the `p`-th of list `h`, keeps
      memory well formed and moves `[first, last)` to just before `pos`. */
  lemma TransferKeepsWf(nx: map<Id, Id>, pv: map<Id, Id>, ls: map<Id, seq<Id>>, hm: map<Id, Id>,
                        h2: Id, a: int, b: int, h: Id, p: int, pos: Id, first: Id, last: Id)
    requires Wf(nx, pv, ls, hm, {}) && h2 in ls && h in ls
    requires 0 <= a < b <= |ls[h2]| && 0 <= p <= |ls[h]| && (h == h2 ==> p < a || b <= p)
    requires first == RingOf(ls[h2], h2)[a + 1] && last == RingOf(ls[h2], h2)[b + 1]
    requires pos == RingOf(ls[h], h)[p + 1]
    ensures first in pv && last in pv && pos in pv
    ensures Wf(TransferNext(nx, pv, pos, first, last), TransferPrev(nx, pv, pos, first, last),
               Spliced(ls, h2, a, b, h, p), Rehome(hm, ls[h2][a..b], h), {})
  {
    var e2 := ls[h2];
    var m := e2[a..b];
    var q := if h == h2 && b <= p then p - (b - a) else p;
    TransferAt(nx, pv, ls, hm, h2, a, b, h, p, pos);
    TransferSpots(hm, e2, h2, a, b, h, p, pos, ls[h]);
    TransferCut(nx, pv, ls, hm, h2, a, b, first, last);
    TransferShape(nx, pv, ls, h2, a, b, h, p, pos, first, last);
    var nxc, pvc := nx[pv[first] := last], pv[last := pv[first]];
    PutChainKeepsWf(nxc, pvc, ls[h2 := e2[..a] + e2[b..]], hm - Elems(m), m, h, q, pos,
                    TransferNext(nx, pv, pos, first, last), TransferPrev(nx, pv, pos, first, last),
                    Spliced(ls, h2, a, b, h, p), Rehome(hm, m, h));
  }

  /** Where `pos` is linked, and that the nodes moved are elements. */
  lemma TransferAt(nx: map<Id, Id>, pv: map<Id, Id>, ls: map<Id, seq<Id>>, hm: map<Id, Id>,
                   h2: Id, a: int, b: int, h: Id, p: int, pos: Id)
    requires Wf(nx, pv, ls, hm, {}) && h2 in ls && h in ls
    requires 0 <= a < b <= |ls[h2]| && 0 <= p <= |ls[h]| && pos == RingOf(ls[h], h)[p + 1]
    ensures pos in pv && Elems(ls[h2][a..b]) <= hm.Keys
  {
    RingOwners(nx, pv, ls, hm, {}, h);
    assert pos in RingOf(ls[h], h);
    assert forall i | a <= i < b :: ls[h2][i] in hm;
  }

  /** Where `pos`, the `p`-th node of list `h` (elements `e`), is once
      `[a, b)` of list `h2` (elements `e2`) is cut out, and that the moved
      nodes' old sentinels are all replaced. */
  lemma TransferSpots(hm: map<Id, Id>, e2: seq<Id>, h2: Id, a: int, b: int, h: Id, p: int, pos: Id, e: seq<Id>)
    requires 0 <= a < b <= |e2| && 0 <= p <= |e| && (h == h2 ==> (p < a || b <= p) && e == e2)
    requires pos == RingOf(e, h)[p + 1] && Elems(e2[a..b]) <= hm.Keys
    ensures var q := if h == h2 && b <= p then p - (b - a) else p;
      var ec := if h == h2 then e2[..a] + e2[b..] else e;
      && 0 <= q <= |ec| && RingOf(ec, h)[q + 1] == pos
      && Rehome(hm - Elems(e2[a..b]), e2[a..b], h) == Rehome(hm, e2[a..b], h)
  {
    if h == h2 {
      CutIndex(e2, h2, a, b, p);
    }
  }

  /** `next_` and `prev_` after the moved-to node `x` (already unlinked)
      takes the place of the element `y`. */
  function ReplaceNext(nx: map<Id, Id>, pv: map<Id, Id>, x: Id, y: Id): map<Id, Id>
    requires y in nx && y in pv
  {
    nx[x := nx[y]][y := y][pv[y] := x]
  }

  function ReplacePrev(nx: map<Id, Id>, pv: map<Id, Id>, x: Id, y: Id): map<Id, Id>
    requires y in nx && y in pv
  {
    pv[x := pv[y]][y := y][nx[y] := x]
  }

  /** The lists after `x` takes the place of element `y` in its list. */
  ghost function Replaced(ls: map<Id, seq<Id>>, hm: map<Id, Id>, x: Id, y: Id): (r: map<Id, seq<Id>>)
    ensures r.Keys == ls.Keys
  {
    if y in hm && hm[y] in ls && y in ls[hm[y]] then
      var e := ls[hm[y]];
      ls[hm[y] := e[Pos(e, y) := x]]
    else ls
  }

  /** The links of a free node `x` put in place of `y` are those of `y`
      taken out, set apart, and `x` put before its old successor. */
  lemma ReplaceLinks(nx: map<Id, Id>, pv: map<Id, Id>, x: Id, y: Id)
    requires y in nx && y in pv
    requires x != y && x != pv[y] && x != nx[y] && y != pv[y] && y != nx[y]
    ensures var nx1, pv1 := DetachNext(nx, pv, y), DetachPrev(nx, pv, y);
      && nx[y] in pv1 && pv1[nx[y]] == pv[y]
      && ReplaceNext(nx, pv, x, y) == nx1[x := nx[y]][pv1[nx[y]] := x]
      && ReplacePrev(nx, pv, x, y) == pv1[x := pv1[nx[y]]][nx[y] := x]
  {
  }

  /** Putting `x` before the successor of the `k`-th element, once that
      element is gone, puts `x` in its place. */
  lemma ReplaceOrder(e: seq<Id>, h: Id, k: nat, x: Id)
    requires k < |e| && h !in e && Distinct(e)
    ensures Before(e[..k] + e[k + 1..], RingOf(e, h)[k + 2], x) == e[k := x]
  {
    var e1 := e[..k] + e[k + 1..];
    assert e[k := x] == e[..k] + [x] + e[k + 1..];
    if k == |e| - 1 {
      assert e1 == e[..k] && e[k + 1..] == [];
      assert RingOf(e, h)[k + 2] == h;
      assert h !in e1 by {
        assert forall i | 0 <= i < |e1| :: e1[i] == e[i];
      }
    } else {
      var ny := e[k + 1];
      assert RingOf(e, h)[k + 2] == ny;
      assert e1[..k] == e[..k] && e1[k..] == e[k + 1..] && e1[k] == ny;
      var i := Pos(e1, ny);
      assert i == k;
    }
  }

  /** A free `node` put just before `pos`, in list `h`, keeps memory well
      formed. */
  lemma PlaceKeepsWf(nx: map<Id, Id>, pv: map<Id, Id>, ls: map<Id, seq<Id>>, hm: map<Id, Id>, h: Id, pos: Id, node: Id)
    requires Wf(nx, pv, ls, hm, {}) && node in nx && node !in ls && node !in hm
    requires h in ls && (pos == h || pos in ls[h])
    ensures pos in pv && pv[pos] != node && pos != node
    ensures Wf(nx[node := pos][pv[pos] := node], pv[node := pv[pos]][pos := node],
               ls[h := Before(ls[h], pos, node)], hm[node := h], {})
  {
    Float(nx, pv, ls, hm, node);
    PutBeforeKeepsWf(nx, pv, ls, hm, h, pos, node);
    UpdatesCommute(nx, pv[pos], node, node, pos);
  }

  /** A fresh node, linked to itself, keeps memory well formed. */
  lemma FreshKeepsWf(nx: map<Id, Id>, pv: map<Id, Id>, ls: map<Id, seq<Id>>, hm: map<Id, Id>, x: Id)
    requires Wf(nx, pv, ls, hm, {}) && x !in nx
    ensures Wf(nx[x := x], pv[x := x], ls, hm, {})
  {
    forall h | h in ls
      ensures Chain(nx[x := x], pv[x := x], RingOf(ls[h], h))
    {
      RingOwners(nx, pv, ls, hm, {}, h);
      ChainKeep(nx, pv, nx[x := x], pv[x := x], RingOf(ls[h], h), {x}, {x});
    }
  }

  /** So does a fresh sentinel, linked to itself, with an empty list. */
  lemma FreshListKeepsWf(nx: map<Id, Id>, pv: map<Id, Id>, ls: map<Id, seq<Id>>, hm: map<Id, Id>, h: Id)
    requires Wf(nx, pv, ls, hm, {}) && h !in nx
    ensures Wf(nx[h := h], pv[h := h], ls[h := []], hm, {})
  {
    FreshKeepsWf(nx, pv, ls, hm, h);
    assert RingOf([], h) == [h, h];
  }

  /** Who is where after a move assignment does not depend on `x` having
      left its list first. */
  lemma MovedHomes(ls: map<Id, seq<Id>>, hm: map<Id, Id>, x: Id, y: Id)
    requires y in hm && x != y
    ensures Replaced(ls, hm - {x}, x, y) == Replaced(ls, hm, x, y)
    ensures ((hm - {x}) - {y})[x := (hm - {x})[y]] == (hm - {x, y})[x := hm[y]]
  {
  }

  /** The writes of a move assignment, in the order the source makes them,
      are the exchange of `x` for `y`. */
  lemma ExchangeWrites(nx: map<Id, Id>, pv: map<Id, Id>, x: Id, y: Id)
    requires y in nx && y in pv && pv[y] != x && x != y
    ensures var pv1, nx1 := pv[x := pv[y]][y := y], nx[x := nx[y]][y := y];
      && x in pv1 && nx1[pv1[x] := x][x] == nx[y]
      && nx1[pv1[x] := x] == ReplaceNext(nx, pv, x, y)
      && pv1[nx[y] := x] == ReplacePrev(nx, pv, x, y)
  {
  }

  /** `PutBeforeKeepsWf` for a free node, for links and lists already
      computed. */
  lemma PlacedWf(nx: map<Id, Id>, pv: map<Id, Id>, ls: map<Id, seq<Id>>, hm: map<Id, Id>, h: Id, pos: Id, node: Id,
                 nx': map<Id, Id>, pv': map<Id, Id>, ls': map<Id, seq<Id>>, hm': map<Id, Id>)
    requires Wf(nx, pv, ls, hm, {}) && node in nx && node !in ls && node !in hm
    requires h in ls && (pos == h || pos in ls[h]) && pos in pv && pv[pos] != node
    requires nx' == nx[node := pos][pv[pos] := node] && pv' == pv[node := pv[pos]][pos := node]
    requires ls' == ls[h := Before(ls[h], pos, node)] && hm' == hm[node := h]
    ensures Wf(nx', pv', ls', hm', {})
  {
    PlaceKeepsWf(nx, pv, ls, hm, h, pos, node);
  }

  /** A free node `x` taking the place of the element `y`, which is left
      free and linked to itself, keeps memory well formed: it is `y`
      unlinked and `x` linked before the old successor of `y`. */
  lemma ReplaceKeepsWf(nx: map<Id, Id>, pv: map<Id, Id>, ls: map<Id, seq<Id>>, hm: map<Id, Id>, x: Id, y: Id)
    requires Wf(nx, pv, ls, hm, {}) && x in nx && x !in ls && x !in hm && y in hm
    ensures y in nx && y in pv && pv[y] != x
    ensures Wf(ReplaceNext(nx, pv, x, y), ReplacePrev(nx, pv, x, y),
               Replaced(ls, hm, x, y), (hm - {y})[x := hm[y]], {})
  {
    var h := hm[y];
    var k := Pos(ls[h], y);
    ReplaceAt(nx, pv, ls, hm, x, y);
    ReplaceShape(nx, pv, ls, hm, h, k, x, y);
    ReplaceLinks(nx, pv, x, y);
    UnlinkKeepsWf(nx, pv, ls, hm, y);
    var nx1, pv1 := DetachNext(nx, pv, y), DetachPrev(nx, pv, y);
    PlacedWf(nx1, pv1, Without(ls, hm, y), hm - {y}, h, nx[y], x,
             ReplaceNext(nx, pv, x, y), ReplacePrev(nx, pv, x, y), Replaced(ls, hm, x, y), (hm - {y})[x := hm[y]]);
  }

  /** Where the element `y` sits, and that its neighbours are neither `y`
      nor the free node `x`. */
  lemma ReplaceAt(nx: map<Id, Id>, pv: map<Id, Id>, ls: map<Id, seq<Id>>, hm: map<Id, Id>, x: Id, y: Id)
    requires Wf(nx, pv, ls, hm, {}) && x in nx && x !in ls && x !in hm && y in hm
    ensures var h := hm[y];
      && h in ls && y in ls[h] && h !in ls[h] && Distinct(ls[h])
      && var k, r := Pos(ls[h], y), RingOf(ls[h], h);
      && y in nx && y in pv && nx[y] in pv && pv[y] == r[k] && nx[y] == r[k + 2]
      && x != y && x != pv[y] && x != nx[y] && y != pv[y] && y != nx[y]
  {
    var h := hm[y];
    var e := ls[h];
    var k := Pos(e, y);
    var r := RingOf(e, h);
    assert forall i | 0 <= i < |e| :: e[i] in hm;
    assert r[k + 1] == y && pv[y] == r[k] && nx[y] == r[k + 2];
    RingOwners(nx, pv, ls, hm, {}, h);
    RingDistinct(e, h);
    assert r[k] in r && r[k + 2] in r;
  }

  /** Unlinking the `k`-th element `y` of list `h` and putting the free
      node `x` before the old successor of `y` writes what the exchange
      of `x` and `y` writes. */
  lemma ReplaceShape(nx: map<Id, Id>, pv: map<Id, Id>, ls: map<Id, seq<Id>>, hm: map<Id, Id>, h: Id, k: nat, x: Id, y: Id)
    requires y in hm && h == hm[y] && h in ls && y in ls[h] && k == Pos(ls[h], y) && h !in ls[h] && Distinct(ls[h])
    requires y in nx && nx[y] == RingOf(ls[h], h)[k + 2]
    ensures var ls1 := Without(ls, hm, y);
      && h in ls1 && (nx[y] == h || nx[y] in ls1[h])
      && Replaced(ls, hm, x, y) == ls1[h := Before(ls1[h], nx[y], x)]
      && (hm - {y})[x := hm[y]] == (hm - {y})[x := h]
  {
    var e := ls[h];
    var e1 := e[..k] + e[k + 1..];
    RemoveAtPos(e, y);
    assert Without(ls, hm, y) == ls[h := e1];
    assert nx[y] == h || nx[y] in e1 by {
      if nx[y] != h {
        assert nx[y] == e[k + 1] == e1[k];
      }
    }
    ReplaceLists(ls, hm, h, k, x, y);
  }

  /** The lists after the `k`-th element `y` of list `h` leaves and `x` is
      put before its old successor are those with `x` in its place. */
  lemma ReplaceLists(ls: map<Id, seq<Id>>, hm: map<Id, Id>, h: Id, k: nat, x: Id, y: Id)
    requires h in ls && k < |ls[h]| && ls[h][k] == y && y in hm && hm[y] == h
    requires h !in ls[h] && Distinct(ls[h])
    ensures var e := ls[h];
      ls[h := e[..k] + e[k + 1..]][h := Before(e[..k] + e[k + 1..], RingOf(e, h)[k + 2], x)] == Replaced(ls, hm, x, y)
  {
    var e := ls[h];
    ReplaceOrder(e, h, k, x);
    assert Pos(e, y) == k;
  }

  /** Removing a node keeps only nodes that were there. */
  lemma {:induction false} RemoveSubset(e: seq<Id>, x: Id)
    ensures forall y | y in Remove(e, x) :: y in e
  {
    if e != [] && e[0] != x {
      RemoveSubset(e[1..], x);
    }
  }

  /** Consecutive nodes of a ring are linked both ways. */
  lemma RingStep(nx: map<Id, Id>, pv: map<Id, Id>, ls: map<Id, seq<Id>>, hm: map<Id, Id>, h: Id, i: int)
    requires Wf(nx, pv, ls, hm, {}) && h in ls && 0 <= i <= |ls[h]|
    ensures var r := RingOf(ls[h], h);
      && r[i] in nx && nx[r[i]] == r[i + 1] && r[i + 1] in pv && pv[r[i + 1]] == r[i]
  {
    assert Chain(nx, pv, RingOf(ls[h], h));
  }

  /** An element is in the list of its sentinel, and only there. */
  lemma HomeIff(ls: map<Id, seq<Id>>, hm: map<Id, Id>, keys: set<Id>, h: Id, x: Id)
    requires Placed(keys, ls, hm, {}) && h in ls
    ensures x in ls[h] <==> x in hm && hm[x] == h
    ensures h !in ls[h]
  {
    if x in ls[h] {
      var i :| 0 <= i < |ls[h]| && ls[h][i] == x;
    }
    assert forall i | 0 <= i < |ls[h]| :: ls[h][i] in hm;
  }

  /** Where `push_front(x)` puts `x`: before the first node after the
      sentinel, so that `x` comes first and leaves any other place. */
  lemma PushFrontShape(nx: map<Id, Id>, pv: map<Id, Id>, ls: map<Id, seq<Id>>, hm: map<Id, Id>, h: Id, x: Id)
    requires Wf(nx, pv, ls, hm, {}) && h in ls && x in nx && x !in ls
    ensures h in nx && (nx[h] in ls || nx[h] in hm) && HostOf(ls, hm, nx[h]) == h
    ensures var ls' := Without(ls, hm, x)[h := [x] + Remove(ls[h], x)];
      && (nx[h] != x ==> MovedBefore(ls, hm, nx[h], x) == ls' && (hm - {x})[x := h] == hm[x := h])
      && (nx[h] == x ==> ls == ls' && hm == hm[x := h])
  {
    var e := ls[h];
    RingStep(nx, pv, ls, hm, h, 0);
    HomeIff(ls, hm, nx.Keys, h, x);
    if e != [] {
      HomeIff(ls, hm, nx.Keys, h, e[0]);
    }
    FrontShape(ls, hm, h, x, nx[h]);
  }

  /** `PushFrontShape` on the lists alone. */
  lemma FrontShape(ls: map<Id, seq<Id>>, hm: map<Id, Id>, h: Id, x: Id, pos: Id)
    requires h in ls && h !in ls[h] && x !in ls && x != h
    requires x in ls[h] <==> x in hm && hm[x] == h
    requires pos == RingOf(ls[h], h)[1]
    requires ls[h] != [] ==> ls[h][0] in hm && hm[ls[h][0]] == h && ls[h][0] !in ls
    ensures (pos in ls || pos in hm) && HostOf(ls, hm, pos) == h
    ensures var ls' := Without(ls, hm, x)[h := [x] + Remove(ls[h], x)];
      && (pos != x ==> MovedBefore(ls, hm, pos, x) == ls' && (hm - {x})[x := h] == hm[x := h])
      && (pos == x ==> ls == ls' && hm == hm[x := h])
  {
    var e := ls[h];
    var ls1 := Without(ls, hm, x);
    assert ls1[h] == Remove(e, x);
    assert (hm - {x})[x := h] == hm[x := h];
    if e == [] {
      assert pos == h && ls1[h] == [] && Before([], h, x) == [x] && [x] + Remove(e, x) == [x];
      assert MovedBefore(ls, hm, pos, x) == ls1[h := [x]];
    } else if e[0] == x {
      assert e == [x] + e[1..];
    } else {
      assert ls1[h][0] == e[0];
      FirstBefore(ls1[h], x);
    }
  }

  /** Putting `x` before the first node puts it first. */
  lemma FirstBefore(c: seq<Id>, x: Id)
    requires c != []
    ensures Before(c, c[0], x) == [x] + c
  {
    assert Pos(c, c[0]) == 0;
    assert c[..0] + [x] + c[0..] == [x] + c;
  }

  /** Where `push_back(x)` puts `x`: before the sentinel, so that `x`
      comes last and leaves any other place. */
  lemma PushBackShape(nx: map<Id, Id>, pv: map<Id, Id>, ls: map<Id, seq<Id>>, hm: map<Id, Id>, h: Id, x: Id)
    requires Wf(nx, pv, ls, hm, {}) && h in ls && x !in ls
    ensures MovedBefore(ls, hm, h, x) == Without(ls, hm, x)[h := Remove(ls[h], x) + [x]]
    ensures (hm - {x})[x := h] == hm[x := h]
  {
    var e := ls[h];
    HomeIff(ls, hm, nx.Keys, h, x);
    assert Without(ls, hm, x)[h] == Remove(e, x);
    RemoveSubset(e, x);
  }

  /** The first element leaves its list by `pop_front`. */
  lemma PopFrontShape(nx: map<Id, Id>, pv: map<Id, Id>, ls: map<Id, seq<Id>>, hm: map<Id, Id>, h: Id)
    requires Wf(nx, pv, ls, hm, {}) && h in ls && ls[h] != []
    ensures h in nx && nx[h] == ls[h][0] && nx[h] in nx && nx[h] !in ls
    ensures Without(ls, hm, nx[h]) == ls[h := ls[h][1..]]
  {
    RingStep(nx, pv, ls, hm, h, 0);
    HomeIff(ls, hm, nx.Keys, h, ls[h][0]);
  }

  /** The last element leaves its list by `pop_back`. */
  lemma PopBackShape(nx: map<Id, Id>, pv: map<Id, Id>, ls: map<Id, seq<Id>>, hm: map<Id, Id>, h: Id)
    requires Wf(nx, pv, ls, hm, {}) && h in ls && ls[h] != []
    ensures h in pv && pv[h] == ls[h][|ls[h]| - 1] && pv[h] in nx && pv[h] !in ls
    ensures Without(ls, hm, pv[h]) == ls[h := ls[h][..|ls[h]| - 1]]
  {
    var e := ls[h];
    var x := e[|e| - 1];
    RingStep(nx, pv, ls, hm, h, |e|);
    HomeIff(ls, hm, nx.Keys, h, x);
    assert Distinct(e);
    RemoveAtPos(e, x);
    assert Pos(e, x) == |e| - 1;
    assert e[..|e| - 1] + e[|e|..] == e[..|e| - 1];
  }

  /** What `erase(pos)` relies on: the successor of an element, and the
      list without it. */
  lemma EraseShape(nx: map<Id, Id>, pv: map<Id, Id>, ls: map<Id, seq<Id>>, hm: map<Id, Id>, h: Id, x: Id)
    requires Wf(nx, pv, ls, hm, {}) && x in hm && hm[x] == h
    ensures h in ls && x in nx && x !in ls && IndexOf(ls, hm, x) < |ls[h]|
    ensures nx[x] == RingOf(ls[h], h)[IndexOf(ls, hm, x) + 2]
    ensures var e, k := ls[h], IndexOf(ls, hm, x); Without(ls, hm, x) == ls[h := e[..k] + e[k + 1..]]
  {
    var e := ls[h];
    HomeIff(ls, hm, nx.Keys, h, x);
    var k := Pos(e, x);
    assert IndexOf(ls, hm, x) == k;
    RingStep(nx, pv, ls, hm, h, k + 1);
    RemoveAtPos(e, x);
  }

  /** `splice` puts the moved nodes, in order, right before `pos`. */
  lemma SplicedBefore(ls: map<Id, seq<Id>>, h2: Id, a: int, b: int, h: Id, p: int, pos: Id)
    requires h2 in ls && h in ls && 0 <= a < b <= |ls[h2]| && 0 <= p <= |ls[h]|
    requires h == h2 ==> p < a || b <= p
    requires pos == RingOf(ls[h], h)[p + 1]
    ensures var q := if h == h2 && b <= p then p - (b - a) else p;
      var e' := Spliced(ls, h2, a, b, h, p)[h];
      && 0 <= q && q + (b - a) <= |e'|
      && e'[q..q + (b - a)] == ls[h2][a..b]
      && RingOf(e', h)[q + (b - a) + 1] == pos
  {
    var e2 := ls[h2];
    var ls1 := ls[h2 := e2[..a] + e2[b..]];
    var q := if h == h2 && b <= p then p - (b - a) else p;
    var c := ls1[h];
    var e' := c[..q] + e2[a..b] + c[q..];
    assert Spliced(ls, h2, a, b, h, p)[h] == e';
    assert e'[q..q + (b - a)] == e2[a..b];
    if p < |ls[h]| {
      assert c[q] == ls[h][p] by {
        if h == h2 && b <= p {
          assert c == e2[..a] + e2[b..];
        } else if h == h2 {
          assert c == e2[..a] + e2[b..];
        }
      }
      assert e'[q + (b - a)] == c[q];
    } else {
      assert q == |c| by {
        if h == h2 {
          assert c == e2[..a] + e2[b..];
        }
      }
    }
  }

  /** `splice` takes the moved nodes out of their list, and changes no
      list but that one and the list of `pos`. */
  lemma SplicedTakes(ls: map<Id, seq<Id>>, h2: Id, a: int, b: int, h: Id, p: int)
    requires h2 in ls && h in ls && 0 <= a < b <= |ls[h2]| && 0 <= p <= |ls[h]|
    requires h == h2 ==> p < a || b <= p
    ensures var r := Spliced(ls, h2, a, b, h, p);
      && r.Keys == ls.Keys
      && (h != h2 ==> r[h2] == ls[h2][..a] + ls[h2][b..])
      && (forall g | g in ls && g != h && g != h2 :: r[g] == ls[g])
  {
  }

  /** `splice` neither loses nor duplicates a node: the two lists it
      touches hold, together, the nodes they held. */
  lemma SplicedKeeps(ls: map<Id, seq<Id>>, h2: Id, a: int, b: int, h: Id, p: int)
    requires h2 in ls && h in ls && 0 <= a < b <= |ls[h2]| && 0 <= p <= |ls[h]|
    requires h == h2 ==> p < a || b <= p
    ensures var r := Spliced(ls, h2, a, b, h, p);
      && (h == h2 ==> multiset(r[h]) == multiset(ls[h]))
      && (h != h2 ==> multiset(r[h]) + multiset(r[h2]) == multiset(ls[h]) + multiset(ls[h2]))
  {
    var e2 := ls[h2];
    var m := e2[a..b];
    var q := if h == h2 && b <= p then p - (b - a) else p;
    var c := if h == h2 then e2[..a] + e2[b..] else ls[h];
    var r := Spliced(ls, h2, a, b, h, p);
    assert r[h] == c[..q] + m + c[q..];
    CutMultiset(e2, a, b);
    InsertMultiset(c, m, q);
    if h != h2 {
      assert r[h2] == e2[..a] + e2[b..];
    }
  }

  /** The multiset of a list with a slice cut out. */
  lemma CutMultiset(e: seq<Id>, a: int, b: int)
    requires 0 <= a <= b <= |e|
    ensures multiset(e[..a] + e[b..]) + multiset(e[a..b]) == multiset(e)
  {
    assert e == e[..a] + e[a..b] + e[b..];
  }

  /** The multiset of a list with a slice put in. */
  lemma InsertMultiset(c: seq<Id>, m: seq<Id>, q: int)
    requires 0 <= q <= |c|
    ensures multiset(c[..q] + m + c[q..]) == multiset(c) + multiset(m)
  {
    assert c == c[..q] + c[q..];
  }

  /** A node alone, in no list, can be destroyed. */
  lemma DropKeepsWf(nx: map<Id, Id>, pv: map<Id, Id>, ls: map<Id, seq<Id>>, hm: map<Id, Id>, x: Id)
    requires Wf(nx, pv, ls, hm, {}) && x in nx && x !in ls && x !in hm
    ensures Wf(nx - {x}, pv - {x}, ls, hm, {})
  {
    forall h | h in ls
      ensures Chain(nx - {x}, pv - {x}, RingOf(ls[h], h))
    {
      RingOwners(nx, pv, ls, hm, {}, h);
      assert Chain(nx, pv, RingOf(ls[h], h));
    }
  }

  /** A fresh node `x` is in no list: taking it out of one changes
      nothing. */
  lemma FreshMoved(nx: map<Id, Id>, pv: map<Id, Id>, ls: map<Id, seq<Id>>, hm: map<Id, Id>, x: Id, y: Id)
    requires x !in hm && x != y
    ensures DetachNext(nx[x := x], pv[x := x], x) == nx[x := x]
    ensures DetachPrev(nx[x := x], pv[x := x], x) == pv[x := x]
    ensures Without(ls, hm, x) == ls && hm - {x} == hm && hm - {x, y} == hm - {y}
  {
  }

  /** `link_before` puts `x` at the index of `pos`, right before it, and
      taking `x` out again gives back the list. */
  lemma BeforeSpot(e: seq<Id>, h: Id, pos: Id, x: Id)
    requires h !in e && (pos == h || pos in e) && x !in e && x != h
    ensures var k, e' := IndexIn(e, h, pos), Before(e, pos, x);
      && |e'| == |e| + 1 && e'[k] == x && RingOf(e', h)[k + 2] == pos
      && Remove(e', x) == e
  {
    var k := IndexIn(e, h, pos);
    var e' := Before(e, pos, x);
    PutOneShape(map[], e, h, pos, x);
    assert e' == e[..k] + [x] + e[k..];
    assert e'[..k] == e[..k];
    RemoveAtPos(e', x);
    assert Pos(e', x) == k;
    assert e'[..k] + e'[k + 1..] == e;
  }

  /** The memory of all list nodes and lists. */
  class Links {
    var prev: map<Id, Id>
    var next: map<Id, Id>
    /** Each list, by its sentinel, with its elements in order. */
    ghost var lists: map<Id, seq<Id>>
    /** The sentinel of the list each linked element belongs to. */
    ghost var home: map<Id, Id>

    ghost predicate Valid()
      reads this
    {
      Wf(next, prev, lists, home, {})
    }

    /** The list that the sentinel or element `x` belongs to. */
    ghost function Host(x: Id): Id
      reads this
    {
      HostOf(lists, home, x)
    }

    /** The position of `x` in its list (the sentinel is one past the
        end). */
    ghost function Index(x: Id): nat
      reads this
    {
      IndexOf(lists, home, x)
    }

    /** The nodes from `first` up to, not including, `last`, in list
        order. */
    ghost function Between(first: Id, last: Id): seq<Id>
      reads this
    {
      BetweenOf(lists, home, first, last)
    }

    /** Where a sentinel or element sits: in the list of its host, at its
        index. */
    lemma Locate(x: Id)
      requires Valid() && (x in lists || x in home)
      ensures Host(x) in lists && Host(x) !in lists[Host(x)] && (x in home ==> Host(x) == home[x])
      ensures Index(x) <= |lists[Host(x)]| && RingOf(lists[Host(x)], Host(x))[Index(x) + 1] == x
    {
      Located(next, prev, lists, home, x);
    }

    /** No nodes and no lists yet. */
    constructor ()
      ensures Valid() && next == map[] && prev == map[] && lists == map[] && home == map[]
    {
      next, prev := map[], map[];
      lists, home := map[], map[];
    }

    /** `list_element_base()` (and its copy constructor): a new node, linked
        to itself. */
    method NewNode(x: Id)
      requires Valid() && x !in next
      modifies this
      ensures Valid() && next == old(next)[x := x] && prev == old(prev)[x := x]
      ensures lists == old(lists) && home == old(home)
    {
      FreshKeepsWf(next, prev, lists, home, x);
      next := next[x := x];
      prev := prev[x := x];
    }

    /** `list()`: a new, empty list whose sentinel is linked to itself. */
    method NewList(h: Id)
      requires Valid() && h !in next
      modifies this
      ensures Valid() && lists == old(lists)[h := []] && home == old(home)
      ensures next == old(next)[h := h] && prev == old(prev)[h := h]
    {
      FreshListKeepsWf(next, prev, lists, home, h);
      next := next[h := h];
      prev := prev[h := h];
      lists := lists[h := []];
    }

    /** A node is linked to itself exactly when it belongs to no list and
        is not the sentinel of a list with elements. */
    lemma SelfLinkedIffAlone(x: Id)
      requires Valid() && x in next
      ensures prev[x] == x <==> !(x in home || (x in lists && lists[x] != []))
    {
      if x in lists || x in home {
        Locate(x);
        var h := Host(x);
        var r := RingOf(lists[h], h);
        var i := Index(x);
        assert forall k | 0 <= k < |lists[h]| :: lists[h][k] in home;
        RingDistinct(lists[h], h);
        if x in home {
          assert prev[x] == r[i] && r[i + 1] == x;
        } else if lists[x] != [] {
          assert r[|r| - 2] == prev[x] && r[|r| - 1] == x;
        }
      }
    }

    /** `is_linked()`: a node is linked exactly when it is an element of a
        list, or the sentinel of a non-empty one. */
    predicate IsLinked(x: Id)
      requires Valid() && x in next
      reads this
      ensures IsLinked(x) <==> x in home || (x in lists && lists[x] != [])
    {
      SelfLinkedIffAlone(x);
      prev[x] != x
    }

    /** `unlink()`: the neighbours of `x` are joined and `x` is left linked
        to itself; `x` leaves its list. On a node that is not linked it
        changes nothing. */
    method Unlink(x: Id)
      requires Valid() && x in next && x !in lists
      modifies this
      ensures Valid()
      ensures next == DetachNext(old(next), old(prev), x) && prev == DetachPrev(old(next), old(prev), x)
      ensures lists == Without(old(lists), old(home), x) && home == old(home) - {x}
      ensures x !in old(home) ==> next == old(next) && prev == old(prev)
    {
      UnlinkKeepsWf(next, prev, lists, home, x);
      Detach(x, Without(lists, home, x), home - {x});
    }

    /** The writes of `unlink()`, with the lists they leave. */
    method Detach(x: Id, ghost ls: map<Id, seq<Id>>, ghost hm: map<Id, Id>)
      requires x in next && x in prev && prev[x] in next && next[x] in prev
      requires Wf(DetachNext(next, prev, x), DetachPrev(next, prev, x), ls, hm, {})
      modifies this
      ensures Valid()
      ensures next == DetachNext(old(next), old(prev), x) && prev == DetachPrev(old(next), old(prev), x)
      ensures lists == ls && home == hm
    {
      var p := prev[x];
      var n := next[x];
      next := next[p := n];
      prev := prev[n := p];
      next := next[x := x];
      prev := prev[x := x];
      lists, home := ls, hm;
    }

    /** `pos.link_before(node)`: `node` leaves its list and is placed just
        before `pos`, in the list of `pos`. Nothing happens when `pos` is
        `node` itself. */
    method LinkBefore(pos: Id, node: Id)
      requires Valid() && node in next && node !in lists && (pos in lists || pos in home)
      modifies this
      ensures Valid()
      ensures pos == node ==> next == old(next) && prev == old(prev) && lists == old(lists) && home == old(home)
      ensures pos != node ==>
        && next == LinkNext(old(next), old(prev), pos, node) && prev == LinkPrev(old(next), old(prev), pos, node)
        && lists == MovedBefore(old(lists), old(home), pos, node)
        && home == (old(home) - {node})[node := old(Host(pos))]
        && next[node] == pos && prev[pos] == node
    {
      if pos != node {
        ghost var h := Host(pos);
        Unlink(node);
        assert Host(pos) == h;
        Locate(pos);
        PlaceKeepsWf(next, prev, lists, home, h, pos, node);
        PlaceBefore(pos, node, lists[h := Before(lists[h], pos, node)], home[node := h]);
      }
    }

    /** The writes of `link_before` once `node` is free: `node` goes just
        before `pos`. */
    method PlaceBefore(pos: Id, node: Id, ghost ls: map<Id, seq<Id>>, ghost hm: map<Id, Id>)
      requires node in next && pos in prev && pos != node && prev[pos] != node
      requires Wf(next[node := pos][prev[pos] := node], prev[node := prev[pos]][pos := node], ls, hm, {})
      modifies this
      ensures Valid()
      ensures next == old(next)[node := pos][old(prev)[pos] := node]
      ensures prev == old(prev)[node := old(prev)[pos]][pos := node]
      ensures lists == ls && home == hm
      ensures next[node] == pos && prev[pos] == node
    {
      prev := prev[node := prev[pos]];
      next := next[node := pos];
      next := next[prev[pos] := node];
      prev := prev[pos := node];
      lists, home := ls, hm;
    }

    /** `pos.transfer(first, last)`: the nodes from `first` up to, not
        including, `last` (both of one list, `first` an element) leave their
        list and are placed, in order, just before `pos`, which is not among
        them. */
    method Transfer(pos: Id, first: Id, last: Id)
      requires Valid()
      requires first in home && (last in lists || last in home) && Host(last) == home[first]
      requires Index(first) < Index(last)
      requires pos in lists || pos in home
      requires Host(pos) == home[first] ==> Index(pos) < Index(first) || Index(last) <= Index(pos)
      modifies this
      ensures Valid()
      ensures next == TransferNext(old(next), old(prev), pos, first, last)
      ensures prev == TransferPrev(old(next), old(prev), pos, first, last)
      ensures lists == old(Spliced(lists, home[first], Index(first), Index(last), Host(pos), Index(pos)))
      ensures home == old(Rehome(home, Between(first, last), Host(pos)))
    {
      TransferFacts(pos, first, last);
      Relink(pos, first, last, Spliced(lists, home[first], Index(first), Index(last), Host(pos), Index(pos)),
             Rehome(home, Between(first, last), Host(pos)));
    }

    /** The writes of `transfer`, with the lists they leave. */
    method Relink(pos: Id, first: Id, last: Id, ghost ls: map<Id, seq<Id>>, ghost hm: map<Id, Id>)
      requires first in prev && last in prev && pos in prev && pos != first
      requires Wf(TransferNext(next, prev, pos, first, last), TransferPrev(next, prev, pos, first, last), ls, hm, {})
      modifies this
      ensures Valid()
      ensures next == TransferNext(old(next), old(prev), pos, first, last)
      ensures prev == TransferPrev(old(next), old(prev), pos, first, last)
      ensures lists == ls && home == hm
    {
      TransferWrites(next, prev, pos, first, last);
      var prevLast := prev[last];
      next := next[prev[first] := last];
      prev := prev[last := prev[first]];
      prev := prev[first := prev[pos]];
      next := next[prev[pos] := first];
      prev := prev[pos := prevLast];
      next := next[prevLast := pos];
      lists, home := ls, hm;
    }

    /** What `transfer` relies on, and the memory it leaves, in terms of
        list positions. */
    lemma TransferFacts(pos: Id, first: Id, last: Id)
      requires Valid()
      requires first in home && (last in lists || last in home) && Host(last) == home[first]
      requires Index(first) < Index(last)
      requires pos in lists || pos in home
      requires Host(pos) == home[first] ==> Index(pos) < Index(first) || Index(last) <= Index(pos)
      ensures var h2, a, b, h, p := home[first], Index(first), Index(last), Host(pos), Index(pos);
        && h2 in lists && h in lists && 0 <= a < b <= |lists[h2]| && 0 <= p <= |lists[h]|
        && (h == h2 ==> p < a || b <= p)
        && first in prev && last in prev && pos in prev && pos != first
        && Wf(TransferNext(next, prev, pos, first, last), TransferPrev(next, prev, pos, first, last),
              Spliced(lists, h2, a, b, h, p), Rehome(home, Between(first, last), h), {})
    {
      TransferPlaces(next, prev, lists, home, pos, first, last);
    }

    /** Move assignment `x = std::move(y)` of two element nodes: `x` leaves
        its list; if `y` is linked, `x` takes its place and `y` is left
        linked to itself. Nothing happens when `x` is `y`. */
    method MoveAssign(x: Id, y: Id)
      requires Valid() && x in next && y in next && x !in lists && y !in lists
      modifies this
      ensures Valid()
      ensures x == y ==> next == old(next) && prev == old(prev) && lists == old(lists) && home == old(home)
      ensures x != y && y !in old(home) ==>
        && next == DetachNext(old(next), old(prev), x) && prev == DetachPrev(old(next), old(prev), x)
        && lists == Without(old(lists), old(home), x) && home == old(home) - {x}
      ensures x != y && y in old(home) ==>
        var nx1, pv1 := DetachNext(old(next), old(prev), x), DetachPrev(old(next), old(prev), x);
        && next == ReplaceNext(nx1, pv1, x, y) && prev == ReplacePrev(nx1, pv1, x, y)
        && lists == Replaced(Without(old(lists), old(home), x), old(home), x, y)
        && home == (old(home) - {x, y})[x := old(home)[y]]
    {
      if x != y {
        ghost var hm0 := home;
        Unlink(x);
        if IsLinked(y) {
          ReplaceKeepsWf(next, prev, lists, home, x, y);
          MovedHomes(lists, hm0, x, y);
          TakePlace(x, y, Replaced(lists, home, x, y), (home - {y})[x := home[y]]);
        } else {
          assert y !in hm0;
        }
      }
    }

    /** The writes of a move assignment once `x` is free: `x` takes the
        place of `y`, which is left linked to itself. */
    method TakePlace(x: Id, y: Id, ghost ls: map<Id, seq<Id>>, ghost hm: map<Id, Id>)
      requires y in next && y in prev && prev[y] != x && x != y
      requires Wf(ReplaceNext(next, prev, x, y), ReplacePrev(next, prev, x, y), ls, hm, {})
      modifies this
      ensures Valid()
      ensures next == ReplaceNext(old(next), old(prev), x, y) && prev == ReplacePrev(old(next), old(prev), x, y)
      ensures lists == ls && home == hm
    {
      ExchangeWrites(next, prev, x, y);
      prev := prev[x := prev[y]][y := y];
      next := next[x := next[y]][y := y];
      next := next[prev[x] := x];
      prev := prev[next[x] := x];
      lists, home := ls, hm;
    }

    /** Copy assignment `x = y` of element nodes: `x` only leaves its list
        (nodes are never copied into lists). */
    method CopyAssign(x: Id, y: Id)
      requires Valid() && x in next && x !in lists
      modifies this
      ensures Valid()
      ensures x == y ==> next == old(next) && prev == old(prev) && lists == old(lists) && home == old(home)
      ensures x != y ==> lists == Without(old(lists), old(home), x) && home == old(home) - {x}
      ensures x != y ==> next == DetachNext(old(next), old(prev), x) && prev == DetachPrev(old(next), old(prev), x)
    {
      if x != y {
        Unlink(x);
      }
    }

    /** The `i`-th and the next node of the ring of list `h` are linked
        both ways. */
    lemma Step(h: Id, i: int)
      requires Valid() && h in lists && 0 <= i <= |lists[h]|
      ensures var r := RingOf(lists[h], h);
        && r[i] in next && next[r[i]] == r[i + 1] && r[i + 1] in prev && prev[r[i + 1]] == r[i]
    {
      RingStep(next, prev, lists, home, h, i);
    }

    /** `~list_element_base()`: the node leaves its list and is gone. */
    method Destroy(x: Id)
      requires Valid() && x in next && x !in lists
      modifies this
      ensures Valid()
      ensures next == DetachNext(old(next), old(prev), x) - {x} && prev == DetachPrev(old(next), old(prev), x) - {x}
      ensures lists == Without(old(lists), old(home), x) && home == old(home) - {x}
    {
      Unlink(x);
      DropKeepsWf(next, prev, lists, home, x);
      next := next - {x};
      prev := prev - {x};
    }

    /** The move constructor: a new node, linked to itself, then moved
        into from `y`: it takes the place of `y` if `y` is linked. */
    method MoveConstruct(x: Id, y: Id)
      requires Valid() && x !in next && y in next && y !in lists
      modifies this
      ensures Valid()
      ensures y !in old(home) ==>
        && next == old(next)[x := x] && prev == old(prev)[x := x] && lists == old(lists) && home == old(home)
      ensures y in old(home) ==>
        && next == ReplaceNext(old(next)[x := x], old(prev)[x := x], x, y)
        && prev == ReplacePrev(old(next)[x := x], old(prev)[x := x], x, y)
        && lists == Replaced(old(lists), old(home), x, y)
        && home == (old(home) - {y})[x := old(home)[y]]
    {
      FreshMoved(next, prev, lists, home, x, y);
      NewNode(x);
      MoveAssign(x, y);
    }

    /** `empty()`: the sentinel is not linked exactly when its list has no
        elements. */
    predicate Empty(h: Id)
      requires Valid() && h in lists
      reads this
      ensures Empty(h) <==> lists[h] == []
    {
      Locate(h);
      !IsLinked(h)
    }

    /** `size()`: the number of steps along `next_` from `begin()` to
        `end()`, the sentinel. */
    method Size(h: Id) returns (n: nat)
      requires Valid() && h in lists
      ensures n == |lists[h]|
    {
      Locate(h);
      Step(h, 0);
      n := 0;
      var cur := next[h];
      while cur != h
        invariant n <= |lists[h]| && cur == RingOf(lists[h], h)[n + 1]
        decreases |lists[h]| - n
      {
        Step(h, n + 1);
        cur := next[cur];
        n := n + 1;
      }
    }

    /** `begin()`, and `front()` which reads it: the first element, or the
        sentinel itself when the list is empty. */
    function Front(h: Id): (r: Id)
      requires Valid() && h in lists
      reads this
      ensures lists[h] != [] ==> r == lists[h][0]
      ensures lists[h] == [] ==> r == h
    {
      Step(h, 0);
      next[h]
    }

    /** `back()`, the node before `end()`: the last element, or the
        sentinel itself when the list is empty. */
    function Back(h: Id): (r: Id)
      requires Valid() && h in lists
      reads this
      ensures lists[h] != [] ==> r == lists[h][|lists[h]| - 1]
      ensures lists[h] == [] ==> r == h
    {
      Step(h, |lists[h]|);
      prev[h]
    }

    /** Iterator `++`: from an element to the next element, from the last
        element to the sentinel, and from the sentinel to the first. */
    function Succ(x: Id): (r: Id)
      requires Valid() && (x in lists || x in home)
      reads this
      ensures x in home ==> r == RingOf(lists[Host(x)], Host(x))[Index(x) + 2]
      ensures x in lists ==> r == RingOf(lists[x], x)[1]
    {
      Locate(x);
      Step(Host(x), if x in lists then 0 else Index(x) + 1);
      next[x]
    }

    /** Iterator `--`: the mirror image of `++`. */
    function Pred(x: Id): (r: Id)
      requires Valid() && (x in lists || x in home)
      reads this
      ensures x in home ==> r == RingOf(lists[Host(x)], Host(x))[Index(x)]
      ensures x in lists ==> r == RingOf(lists[x], x)[|lists[x]|]
    {
      Locate(x);
      Step(Host(x), if x in lists then |lists[x]| else Index(x));
      prev[x]
    }

    /** `++` and `--` undo each other. */
    lemma SuccPred(x: Id)
      requires Valid() && (x in lists || x in home)
      ensures Succ(x) in lists || Succ(x) in home
      ensures Pred(Succ(x)) == x
    {
      Locate(x);
      var h := Host(x);
      var r := RingOf(lists[h], h);
      var i := if x in lists then 0 else Index(x) + 1;
      Step(h, i);
      assert r[i] == x;
      RingOwners(next, prev, lists, home, {}, h);
      assert r[i + 1] in r;
    }

    /** `push_front(x)`: `x` leaves any list it is in and becomes the
        first element of list `h`. */
    method PushFront(h: Id, x: Id)
      requires Valid() && h in lists && x in next && x !in lists
      modifies this
      ensures Valid()
      ensures lists == Without(old(lists), old(home), x)[h := [x] + Remove(old(lists)[h], x)]
      ensures home == old(home)[x := h]
    {
      PushFrontShape(next, prev, lists, home, h, x);
      LinkBefore(next[h], x);
    }

    /** `push_back(x)`: `x` leaves any list it is in and becomes the last
        element of list `h`. */
    method PushBack(h: Id, x: Id)
      requires Valid() && h in lists && x in next && x !in lists
      modifies this
      ensures Valid()
      ensures lists == Without(old(lists), old(home), x)[h := Remove(old(lists)[h], x) + [x]]
      ensures home == old(home)[x := h]
    {
      PushBackShape(next, prev, lists, home, h, x);
      LinkBefore(h, x);
    }

    /** `pop_front()`: the first element leaves the list and is left linked
        to itself; nothing happens on an empty list. */
    method PopFront(h: Id)
      requires Valid() && h in lists
      modifies this
      ensures Valid()
      ensures old(lists)[h] == [] ==> next == old(next) && prev == old(prev) && lists == old(lists) && home == old(home)
      ensures old(lists)[h] != [] ==> var x := old(lists)[h][0];
        && lists == old(lists)[h := old(lists)[h][1..]] && home == old(home) - {x}
        && x in next && x in prev && next[x] == x && prev[x] == x
    {
      if !Empty(h) {
        PopFrontShape(next, prev, lists, home, h);
        Unlink(next[h]);
      }
    }

    /** `pop_back()`: the last element leaves the list and is left linked
        to itself; nothing happens on an empty list. */
    method PopBack(h: Id)
      requires Valid() && h in lists
      modifies this
      ensures Valid()
      ensures old(lists)[h] == [] ==> next == old(next) && prev == old(prev) && lists == old(lists) && home == old(home)
      ensures old(lists)[h] != [] ==> var x := old(lists)[h][|old(lists)[h]| - 1];
        && lists == old(lists)[h := old(lists)[h][..|old(lists)[h]| - 1]] && home == old(home) - {x}
        && x in next && x in prev && next[x] == x && prev[x] == x
    {
      if !Empty(h) {
        PopBackShape(next, prev, lists, home, h);
        Unlink(prev[h]);
      }
    }

    /** `insert(pos, x)`: `x` is placed just before `pos` and the node
        before `pos` is returned, which is `x` itself unless `x` already
        was `pos` (then nothing moves and the node before `x` comes back). */
    method Insert(pos: Id, x: Id) returns (r: Id)
      requires Valid() && x in next && x !in lists && (pos in lists || pos in home)
      modifies this
      ensures Valid()
      ensures pos != x ==>
        && r == x && lists == MovedBefore(old(lists), old(home), pos, x)
        && home == (old(home) - {x})[x := old(Host(pos))]
      ensures pos == x ==>
        && r == old(prev)[x] && r != x
        && next == old(next) && prev == old(prev) && lists == old(lists) && home == old(home)
    {
      if pos == x {
        SelfLinkedIffAlone(x);
      }
      LinkBefore(pos, x);
      r := prev[pos];
    }

    /** `erase(pos)`: at `end()` nothing happens and `end()` comes back;
        otherwise the element leaves its list and its successor (the next
        element, or the sentinel) comes back. */
    method Erase(h: Id, pos: Id) returns (r: Id)
      requires Valid() && h in lists && (pos == h || (pos in home && home[pos] == h))
      modifies this
      ensures Valid()
      ensures pos == h ==> r == h && next == old(next) && prev == old(prev) && lists == old(lists) && home == old(home)
      ensures pos != h ==> var e, k := old(lists)[h], old(Index(pos));
        && k < |e| && r == RingOf(e, h)[k + 2]
        && lists == old(lists)[h := e[..k] + e[k + 1..]] && home == old(home) - {pos}
        && pos in next && pos in prev && next[pos] == pos && prev[pos] == pos
    {
      if pos == h {
        return pos;
      }
      EraseShape(next, prev, lists, home, h, pos);
      r := next[pos];
      Unlink(pos);
    }

    /** `splice(pos, other, first, last)`: nothing when `first == last`;
        otherwise `transfer`, which moves `[first, last)` to just before
        `pos`. */
    method Splice(pos: Id, first: Id, last: Id)
      requires Valid()
      requires first != last ==>
        && first in home && (last in lists || last in home) && Host(last) == home[first]
        && Index(first) < Index(last)
        && (pos in lists || pos in home)
        && (Host(pos) == home[first] ==> Index(pos) < Index(first) || Index(last) <= Index(pos))
      modifies this
      ensures Valid()
      ensures first == last ==> next == old(next) && prev == old(prev) && lists == old(lists) && home == old(home)
      ensures first != last ==>
        && lists == old(Spliced(lists, home[first], Index(first), Index(last), Host(pos), Index(pos)))
        && home == old(Rehome(home, Between(first, last), Host(pos)))
    {
      if first != last {
        Transfer(pos, first, last);
      }
    }
  }
}

=== FILE: intrusive_map.dfy ===
/** A model of `intrusive_map` of bimap/src/intrusive_map.h: a splay tree
    of `map_element_base` records hung below a sentinel record `fake`.

    One map owns one arena of records (`nodes`); `fake`'s `left` is the
    root of the tree and its `right` links to the other side's sentinel.
    Keys are the records' `value`s, ordered by `<` (the default `Compare`).
    The ghost `tree` is the shape the pointers lay out. */
module IntrusiveMaps {
  import opened ElementBase
  import opened Rotations

  /** The keys stored at the records of `s`, in the order of `s`. */
  ghost function KeysOf(V: map<int, int>, s: seq<int>): seq<int> {
    seq(|s|, i requires 0 <= i < |s| => if s[i] in V then V[s[i]] else 0)
  }

  ghost predicate Sorted(ks: seq<int>) {
    forall i, j | 0 <= i < j < |ks| :: ks[i] < ks[j]
  }

  /** Every record of `s` stores a key. */
  ghost predicate Stored(V: map<int, int>, s: seq<int>) {
    forall i | 0 <= i < |s| :: s[i] in V
  }

  /** The keys of the records of `s` are all below `k`. */
  ghost predicate AllBelow(V: map<int, int>, s: seq<int>, k: int) {
    forall i | 0 <= i < |s| :: s[i] in V && V[s[i]] < k
  }

  /** The keys of the records of `s` are all above `k`. */
  ghost predicate AllAbove(V: map<int, int>, s: seq<int>, k: int) {
    forall i | 0 <= i < |s| :: s[i] in V && k < V[s[i]]
  }

  /** The key `k` belongs in the hole of `p`: the nodes before the hole
      have smaller keys and the nodes after it greater ones. */
  ghost predicate Gap(V: map<int, int>, p: Path, k: int) {
    AllBelow(V, Before(p), k) && AllAbove(V, After(p), k)
  }

  /** The first position in `ks` whose key is not below `k`, or `|ks|`:
      where `lower_bound` lands. */
  ghost function FirstAtLeast(ks: seq<int>, k: int): (i: nat)
    ensures i <= |ks| && (forall j | 0 <= j < i :: ks[j] < k) && (i < |ks| ==> k <= ks[i])
  {
    if ks == [] || k <= ks[0] then 0 else 1 + FirstAtLeast(ks[1..], k)
  }

  /** The first position in `ks` whose key is above `k`, or `|ks|`:
      where `upper_bound` lands. */
  ghost function FirstAbove(ks: seq<int>, k: int): (i: nat)
    ensures i <= |ks| && (forall j | 0 <= j < i :: ks[j] <= k) && (i < |ks| ==> k < ks[i])
  {
    if ks == [] || k < ks[0] then 0 else 1 + FirstAbove(ks[1..], k)
  }

  /** The tree of a map with its root's parent cleared is laid out below null. */
  lemma Detached(L: map<int, int>, R: map<int, int>, P: map<int, int>, t: Tree, q: int)
    requires Hung(L, R, P, t, q) && t.Node?
    ensures Rep(L, R, P[t.id := Null], t, Null) && Proper(t)
  {
    ProperNoNull(t);
    RepMove(L, R, P, L, R, P[t.id := Null], t, q, Null);
  }

  /** A tree `t2` that replaced the detached tree `t` of a map hangs below
      the sentinel `q` again once `q`'s left link and the new root's parent
      are set, and nothing outside the tree has changed. */
  lemma Rehung(L: map<int, int>, R: map<int, int>, P: map<int, int>, t: Tree, q: int,
               L2: map<int, int>, R2: map<int, int>, P2: map<int, int>, t2: Tree)
    requires Hung(L, R, P, t, q) && t.Node? && t2.Node?
    requires Laid(L, R, P[t.id := Null], L2, R2, P2, t, t2)
    ensures Hung(L2[q := t2.id], R2, P2[t2.id := q], t2, q)
    ensures Keep(L, L2[q := t2.id], Ids(t) + {q, Null}) && Keep(R, R2, Ids(t) + {Null})
    ensures Keep(P, P2[t2.id := q], Ids(t) + {Null})
  {
    ProperNoNull(t2);
    RepMove(L2, R2, P2, L2[q := t2.id], R2, P2[t2.id := q], t2, Null, q);
  }

  /** The in-order sequence of a tree, split at a node `x` of it: the
      nodes before `x`'s left subtree and that subtree, then `x` and what
      follows it. */
  lemma AroundNode(p: Path, l: Tree, x: int, r: Tree)
    ensures InOrder(Plug(p, Node(l, x, r))) == (Before(p) + InOrder(l)) + After(InLeft(p, x, r))
    ensures InOrder(Plug(p, Node(l, x, r))) == Before(InRight(l, x, p)) + (InOrder(r) + After(p))
  {
    PlugInOrder(p, Node(l, x, r));
    Regroup(Before(p), InOrder(l), x, InOrder(r), After(p));
  }


  /** In sorted records `front + a`, a key below the first key of `a` is
      below all of `a`. */
  lemma AboveFrom(V: map<int, int>, front: seq<int>, a: seq<int>, k: int)
    requires Stored(V, front + a) && Sorted(KeysOf(V, front + a)) && |a| > 0 && a[0] in V && k < V[a[0]]
    ensures AllAbove(V, a, k)
  {
    var s, n := front + a, |front|;
    var ks := KeysOf(V, s);
    forall i | 0 <= i < |a|
      ensures a[i] in V && k < V[a[i]]
    {
      assert s[n + i] == a[i];
      if i > 0 {
        assert ks[n] < ks[n + i];
      }
    }
  }

  /** In sorted records `b + back`, a key above the last key of `b` is
      above all of `b`. */
  lemma BelowUpTo(V: map<int, int>, b: seq<int>, back: seq<int>, k: int)
    requires Stored(V, b + back) && Sorted(KeysOf(V, b + back)) && |b| > 0 && b[|b| - 1] in V && V[b[|b| - 1]] < k
    ensures AllBelow(V, b, k)
  {
    var s, n := b + back, |b| - 1;
    var ks := KeysOf(V, s);
    forall i | 0 <= i < |b|
      ensures b[i] in V && V[b[i]] < k
    {
      assert s[i] == b[i];
      if i < n {
        assert ks[i] < ks[n];
      }
    }
  }

  /** Going left at `x` while searching for `k < key(x)` keeps `k` in the
      gap of the path. */
  lemma SearchLeft(V: map<int, int>, p: Path, l: Tree, x: int, r: Tree, k: int)
    requires Stored(V, InOrder(Plug(p, Node(l, x, r)))) && Sorted(KeysOf(V, InOrder(Plug(p, Node(l, x, r)))))
    requires Gap(V, p, k) && x in V && k < V[x]
    ensures Gap(V, InLeft(p, x, r), k)
  {
    AroundNode(p, l, x, r);
    AboveFrom(V, Before(p) + InOrder(l), After(InLeft(p, x, r)), k);
  }

  /** Going right at `x` while searching for `k > key(x)` keeps `k` in the
      gap of the path. */
  lemma SearchRight(V: map<int, int>, p: Path, l: Tree, x: int, r: Tree, k: int)
    requires Stored(V, InOrder(Plug(p, Node(l, x, r)))) && Sorted(KeysOf(V, InOrder(Plug(p, Node(l, x, r)))))
    requires Gap(V, p, k) && x in V && V[x] < k
    ensures Gap(V, InRight(l, x, p), k)
  {
    AroundNode(p, l, x, r);
    BelowUpTo(V, Before(InRight(l, x, p)), InOrder(r) + After(p), k);
  }

  /** A key in the gap of an empty hole is not a key of the tree. */
  lemma Absent(V: map<int, int>, p: Path, k: int)
    requires Gap(V, p, k)
    ensures k !in KeysOf(V, InOrder(Plug(p, Leaf)))
  {
    PlugInOrder(p, Leaf);
    var s := InOrder(Plug(p, Leaf));
    assert s == Before(p) + After(p);
    forall i | 0 <= i < |s|
      ensures KeysOf(V, s)[i] != k
    {
      if i < |Before(p)| {
        assert s[i] == Before(p)[i];
      } else {
        assert s[i] == After(p)[i - |Before(p)|];
      }
    }
  }

  /** A node of the tree is at its position in the in-order walk. */
  lemma Present(V: map<int, int>, t: Tree, x: int)
    requires x in Ids(t)
    ensures x in InOrder(t) && Pos(InOrder(t), x) < |KeysOf(V, InOrder(t))|
    ensures x in V ==> V[x] in KeysOf(V, InOrder(t))
  {
    IdsInOrder(t);
    var i := Pos(InOrder(t), x);
    assert KeysOf(V, InOrder(t))[i] == if x in V then V[x] else 0;
  }

  /** Both bounds of `k` are at `n` when the keys before `n` are below `k`
      and the others above it. */
  lemma GapIndex(ks: seq<int>, n: nat, k: int)
    requires n <= |ks| && (forall j | 0 <= j < n :: ks[j] < k) && (forall j | n <= j < |ks| :: k < ks[j])
    ensures FirstAtLeast(ks, k) == n == FirstAbove(ks, k)
  {
    if n < |ks| {
      assert k < ks[n];
    }
  }

  /** In sorted keys, the lower bound of a present key is its position and
      the upper bound the next one. */
  lemma HitIndex(ks: seq<int>, p: nat, k: int)
    requires Sorted(ks) && p < |ks| && ks[p] == k
    ensures FirstAtLeast(ks, k) == p && FirstAbove(ks, k) == p + 1
  {
  }

  /** The keys of a tree split at an empty hole whose gap holds `k`. */
  lemma GapKeys(V: map<int, int>, hole: Path, k: int)
    requires Gap(V, hole, k)
    ensures var ks := KeysOf(V, InOrder(Plug(hole, Leaf)));
      && |Before(hole)| <= |ks|
      && (forall j | 0 <= j < |Before(hole)| :: ks[j] < k)
      && (forall j | |Before(hole)| <= j < |ks| :: k < ks[j])
  {
    PlugInOrder(hole, Leaf);
    var s := InOrder(Plug(hole, Leaf));
    assert s == Before(hole) + After(hole);
    forall j | 0 <= j < |Before(hole)|
      ensures s[j] == Before(hole)[j]
    {
    }
    forall j | |Before(hole)| <= j < |s|
      ensures s[j] == After(hole)[j - |Before(hole)|]
    {
    }
  }

  /** Where the bounds of a missing key `k` land: at the hole the search
      for `k` ended in. */
  lemma Landing(V: map<int, int>, t: Tree, hole: Path, k: int)
    requires Plug(hole, Leaf) == t && Gap(V, hole, k)
    ensures FirstAtLeast(KeysOf(V, InOrder(t)), k) == |Before(hole)| == FirstAbove(KeysOf(V, InOrder(t)), k)
  {
    GapKeys(V, hole, k);
    GapIndex(KeysOf(V, InOrder(t)), |Before(hole)|, k);
  }

  /** The position of the hole the search for a missing key `k` ended in:
      at the hole's parent when the hole is a left child, just after it
      when it is a right child, and at `end()` in an empty tree. */
  lemma HoleParent(V: map<int, int>, t: Tree, q: int, hole: Path, k: int)
    requires Plug(hole, Leaf) == t && Gap(V, hole, k) && Proper(t) && q !in Ids(t)
    ensures |Before(hole)| < |Walk(t, q)|
    ensures hole.Top? ==> Above(hole, q) == Walk(t, q)[|Before(hole)|]
    ensures hole.InLeft? ==> hole.id in Ids(t) && hole.id in V && k < V[hole.id] && hole.id == Walk(t, q)[|Before(hole)|]
    ensures hole.InRight? ==>
      && hole.id in Ids(t) && hole.id in V && V[hole.id] < k
      && hole.id in Walk(t, q) && Pos(Walk(t, q), hole.id) + 1 == |Before(hole)|
  {
    PlugIds(hole, Leaf);
    var n := |Before(hole)|;
    WalkPlug(hole, Leaf, q);
    assert Walk(t, q) == Before(hole) + (After(hole) + [q]);
    match hole
    case Top =>
    case InLeft(up, x, r) =>
      assert After(hole)[0] == x;
    case InRight(l, x, up) =>
      assert Before(hole) == Before(up) + InOrder(l) + [x];
      assert Before(hole)[n - 1] == x;
      WalkDistinct(t, q);
      PosSplit(Walk(t, q), Before(hole)[..n - 1], x, After(hole) + [q]);
  }

  lemma SplitAt(s: seq<int>, p: nat, q: int)
    requires p < |s|
    ensures s + [q] == s[..p] + [s[p]] + (s[p + 1..] + [q])
  {
    assert s == s[..p] + [s[p]] + s[p + 1..];
  }

  /** Where the bounds of a present key land: `lower_bound` at its node,
      `upper_bound` just after it. */
  lemma Hit(V: map<int, int>, t: Tree, q: int, x: int)
    requires Stored(V, InOrder(t)) && Sorted(KeysOf(V, InOrder(t))) && Proper(t) && q !in Ids(t)
    requires x in Ids(t) && x in V
    ensures x in Walk(t, q) && x in InOrder(t) && Pos(Walk(t, q), x) == Pos(InOrder(t), x)
    ensures FirstAtLeast(KeysOf(V, InOrder(t)), V[x]) == Pos(InOrder(t), x)
    ensures FirstAbove(KeysOf(V, InOrder(t)), V[x]) == Pos(InOrder(t), x) + 1
  {
    Present(V, t, x);
    var s := InOrder(t);
    var p := Pos(s, x);
    HitIndex(KeysOf(V, s), p, V[x]);
    WalkDistinct(t, q);
    SplitAt(s, p, q);
    PosSplit(Walk(t, q), s[..p], x, s[p + 1..] + [q]);
  }

  /** Hanging a fresh record `n` into the empty hole `hole` of a map's
      tree, as `insert` does, lays out the tree with `n` in the hole. */
  lemma Attach(L: map<int, int>, R: map<int, int>, P: map<int, int>,
               L2: map<int, int>, R2: map<int, int>, P2: map<int, int>, hole: Path, q: int, n: int)
    requires Hung(L, R, P, Plug(hole, Leaf), q)
    requires n != Null && n != q && n !in Ids(Plug(hole, Leaf)) && n != R[q]
    requires n in L && n in R && n in P && L[n] == Null && R[n] == Null
    requires P2 == P[n := Above(hole, q)]
    requires hole.Top? ==> L2 == L[q := n] && R2 == R
    requires hole.InLeft? ==> L2 == L[hole.id := n] && R2 == R
    requires hole.InRight? ==> R2 == R[hole.id := n] && L2 == L
    ensures Hung(L2, R2, P2, Plug(hole, Node(Leaf, n, Leaf)), q)
    ensures Ids(Plug(hole, Node(Leaf, n, Leaf))) == Ids(Plug(hole, Leaf)) + {n}
  {
    PlugIds(hole, Leaf);
    PlugIds(hole, Node(Leaf, n, Leaf));
    PlugRep(L, R, P, hole, Leaf, q);
    PlugRep(L2, R2, P2, hole, Node(Leaf, n, Leaf), q);
    PlugProper(hole, Leaf);
    PlugProper(hole, Node(Leaf, n, Leaf));
    PlugRoot(hole, Leaf, Node(Leaf, n, Leaf));
    if !hole.Top? {
      PathRepMove(L, R, P, L2, R2, P2, hole, Null, n, q);
    }
  }

  lemma KeysAppend(V: map<int, int>, a: seq<int>, b: seq<int>)
    ensures KeysOf(V, a + b) == KeysOf(V, a) + KeysOf(V, b)
  {
  }

  /** A key above those of `kb` and below those of `ka` keeps them sorted
      when put between them. */
  lemma SortedPut(kb: seq<int>, k: int, ka: seq<int>)
    requires Sorted(kb + ka) && (forall i | 0 <= i < |kb| :: kb[i] < k) && (forall i | 0 <= i < |ka| :: k < ka[i])
    ensures Sorted(kb + [k] + ka)
  {
    var ks, ks0 := kb + [k] + ka, kb + ka;
    var m := |kb|;
    forall i, j | 0 <= i < j < |ks|
      ensures ks[i] < ks[j]
    {
      if j < m {
        assert ks[i] == ks0[i] && ks[j] == ks0[j];
      } else if j == m {
        assert ks[i] == kb[i];
      } else if i == m {
        assert ks[j] == ka[j - m - 1];
      } else if i < m {
        assert ks[i] == ks0[i] && ks[j] == ks0[j - 1];
      } else {
        assert ks[i] == ks0[i - 1] && ks[j] == ks0[j - 1];
      }
    }
  }

  /** A key between the keys of `b` and those of `a` keeps them sorted
      when put between them. */
  lemma SortedInsert(V: map<int, int>, b: seq<int>, n: int, a: seq<int>)
    requires n in V && AllBelow(V, b, V[n]) && AllAbove(V, a, V[n]) && Sorted(KeysOf(V, b + a))
    ensures Sorted(KeysOf(V, b + [n] + a))
    ensures KeysOf(V, b + [n] + a) == KeysOf(V, b + a)[..|b|] + [V[n]] + KeysOf(V, b + a)[|b|..]
  {
    KeysAppend(V, b, a);
    KeysAppend(V, b + [n], a);
    KeysAppend(V, b, [n]);
    var kb, ka := KeysOf(V, b), KeysOf(V, a);
    assert KeysOf(V, b + a)[..|b|] == kb && KeysOf(V, b + a)[|b|..] == ka;
    SortedPut(kb, V[n], ka);
  }

  /** Filling the hole with `n`: the in-order walk gains `n` between what
      comes before and after the hole, and the keys stay sorted. */
  lemma Inserted(V: map<int, int>, hole: Path, n: int)
    requires n in V && Gap(V, hole, V[n])
    requires Stored(V, InOrder(Plug(hole, Leaf))) && Sorted(KeysOf(V, InOrder(Plug(hole, Leaf))))
    ensures |Before(hole)| <= |InOrder(Plug(hole, Leaf))|
    ensures InOrder(Plug(hole, Node(Leaf, n, Leaf))) ==
            InOrder(Plug(hole, Leaf))[..|Before(hole)|] + [n] + InOrder(Plug(hole, Leaf))[|Before(hole)|..]
    ensures Stored(V, InOrder(Plug(hole, Node(Leaf, n, Leaf))))
    ensures KeysOf(V, InOrder(Plug(hole, Node(Leaf, n, Leaf)))) ==
            KeysOf(V, InOrder(Plug(hole, Leaf)))[..|Before(hole)|] + [V[n]] + KeysOf(V, InOrder(Plug(hole, Leaf)))[|Before(hole)|..]
    ensures Sorted(KeysOf(V, InOrder(Plug(hole, Node(Leaf, n, Leaf)))))
  {
    PlugInOrder(hole, Leaf);
    PlugInOrder(hole, Node(Leaf, n, Leaf));
    var b, a := Before(hole), After(hole);
    assert InOrder(Plug(hole, Leaf)) == b + a;
    assert (b + a)[..|b|] == b && (b + a)[|b|..] == a;
    assert InOrder(Plug(hole, Node(Leaf, n, Leaf))) == b + [n] + a;
    SortedInsert(V, b, n, a);
  }

  /** Two steps that each keep the records outside a set keep those
      outside any set holding both. */
  lemma KeepChain(M0: map<int, int>, M1: map<int, int>, M2: map<int, int>, e1: set<int>, e2: set<int>, e: set<int>)
    requires Keep(M0, M1, e1) && Keep(M1, M2, e2) && e1 + e2 <= e
    ensures Keep(M0, M2, e)
  {
  }

  /** A tree whose last node in order is its root has no right subtree. */
  lemma LastIsRoot(t: Tree)
    requires t.Node? && Proper(t) && InOrder(t)[|InOrder(t)| - 1] == t.id
    ensures t.right == Leaf
  {
    LastOf(t);
  }

  /** The last node in order of a tree with a right subtree lies in it. */
  lemma LastOf(t: Tree)
    requires t.Node?
    ensures |InOrder(t)| > 0 && (t.right.Node? ==> InOrder(t)[|InOrder(t)| - 1] in Ids(t.right))
  {
    IdsInOrder(t.right);
    assert InOrder(t) == InOrder(t.left) + [t.id] + InOrder(t.right);
  }

  /** The first position of `x` in `s` is at most any position holding it. */
  lemma {:induction false} PosAtMost(s: seq<int>, x: int, j: int)
    requires 0 <= j < |s| && s[j] == x
    ensures Pos(s, x) <= j
  {
    if s[0] != x {
      assert s[1..][j - 1] == x;
      PosAtMost(s[1..], x, j - 1);
    }
  }

  /** `merge` of two non-empty trees: after the left tree `a` is splayed
      to its maximum `a2`, hanging the right tree `b` on `a2`'s root lays
      out both trees' nodes in order. */
  lemma Merged(L: map<int, int>, R: map<int, int>, P: map<int, int>,
               L2: map<int, int>, R2: map<int, int>, P2: map<int, int>, a: Tree, a2: Tree, b: Tree, q: int)
    requires Rep(L, R, P, b, q) && Proper(b) && b.Node? && a2.Node? && a2.right == Leaf
    requires Rep(L2, R2, P2, a2, Null) && Proper(a2) && Ids(a2) == Ids(a) && Ids(a) !! Ids(b) && Null !in Ids(b)
    requires Keep(L, L2, Ids(a) + {Null}) && Keep(R, R2, Ids(a) + {Null}) && Keep(P, P2, Ids(a) + {Null})
    ensures Rep(L2, R2[a2.id := b.id], P2[b.id := a2.id], Node(a2.left, a2.id, b), Null)
    ensures Proper(Node(a2.left, a2.id, b))
  {
    var m := a2.id;
    var R3, P3 := R2[m := b.id], P2[b.id := m];
    assert Rep(L2, R2, P2, a2.left, m);
    RepMove(L2, R2, P2, L2, R3, P3, a2.left, m, m);
    AgreeSub(L, L2, Ids(a) + {Null}, Ids(b));
    AgreeSub(R, R3, Ids(a) + {Null}, Ids(b));
    AgreeSub(P, P2, Ids(a) + {Null}, Ids(b) - {b.id});
    assert Agree(P, P3, Ids(b) - {b.id});
    RepMove(L, R, P, L2, R3, P3, b, q, m);
  }

  /** Taking a key out of a sorted sequence leaves it sorted. */
  lemma SortedDrop(kb: seq<int>, k: int, ka: seq<int>)
    requires Sorted(kb + [k] + ka)
    ensures Sorted(kb + ka)
  {
    var ks, ks0 := kb + ka, kb + [k] + ka;
    var m := |kb|;
    forall i, j | 0 <= i < j < |ks|
      ensures ks[i] < ks[j]
    {
      if j < m {
        assert ks[i] == ks0[i] && ks[j] == ks0[j];
      } else if i < m {
        assert ks[i] == ks0[i] && ks[j] == ks0[j + 1];
      } else {
        assert ks[i] == ks0[i + 1] && ks[j] == ks0[j + 1];
      }
    }
  }

  /** Removing the record `x` from between `b` and `a`: the remaining keys
      are the old ones without `x`'s, and they stay sorted. */
  lemma SortedRemove(V: map<int, int>, b: seq<int>, x: int, a: seq<int>)
    requires Stored(V, b + [x] + a) && Sorted(KeysOf(V, b + [x] + a))
    ensures Stored(V, b + a) && Sorted(KeysOf(V, b + a))
    ensures KeysOf(V, b + a) == KeysOf(V, b + [x] + a)[..|b|] + KeysOf(V, b + [x] + a)[|b| + 1..]
  {
    KeysAppend(V, b, a);
    KeysAppend(V, b + [x], a);
    KeysAppend(V, b, [x]);
    var kb, ka := KeysOf(V, b), KeysOf(V, a);
    assert (b + [x] + a)[|b|] == x;
    assert KeysOf(V, b + [x] + a) == kb + [V[x]] + ka;
    assert (kb + [V[x]] + ka)[..|b|] == kb && (kb + [V[x]] + ka)[|b| + 1..] == ka;
    SortedDrop(kb, V[x], ka);
    forall i | 0 <= i < |b + a|
      ensures (b + a)[i] in V
    {
      if i < |b| {
        assert (b + a)[i] == (b + [x] + a)[i];
      } else {
        assert (b + a)[i] == (b + [x] + a)[i + 1];
      }
    }
  }

  /** In a sequence without repetitions, `x` sits between `b` and `a` at
      position `|b|`. */
  lemma Removed(b: seq<int>, x: int, a: seq<int>)
    requires Distinct(b + [x] + a)
    ensures Pos(b + [x] + a, x) == |b|
    ensures b + a == (b + [x] + a)[..|b|] + (b + [x] + a)[|b| + 1..]
  {
    var s := b + [x] + a;
    assert s[|b|] == x;
    PosAtMost(s, x, |b|);
    assert s[..|b|] == b && s[|b| + 1..] == a;
  }

  /** Erasing the root `x` of `t1`, whose subtrees are merged into `t`:
      the walk and the keys lose `x` and its key, and stay sorted. */
  lemma Erased(V: map<int, int>, t1: Tree, t: Tree)
    requires t1.Node? && Proper(t1) && Stored(V, InOrder(t1)) && Sorted(KeysOf(V, InOrder(t1)))
    requires InOrder(t) == InOrder(t1.left) + InOrder(t1.right)
    ensures t1.id in InOrder(t1)
    ensures Stored(V, InOrder(t)) && Sorted(KeysOf(V, InOrder(t)))
    ensures InOrder(t) == InOrder(t1)[..Pos(InOrder(t1), t1.id)] + InOrder(t1)[Pos(InOrder(t1), t1.id) + 1..]
    ensures KeysOf(V, InOrder(t)) ==
            KeysOf(V, InOrder(t1))[..Pos(InOrder(t1), t1.id)] + KeysOf(V, InOrder(t1))[Pos(InOrder(t1), t1.id) + 1..]
  {
    ProperDistinct(t1);
    assert InOrder(t1) == InOrder(t1.left) + [t1.id] + InOrder(t1.right);
    Removed(InOrder(t1.left), t1.id, InOrder(t1.right));
    SortedRemove(V, InOrder(t1.left), t1.id, InOrder(t1.right));
  }

  /** The two subtrees of a map's root hang below the root. */
  lemma Halves(L: map<int, int>, R: map<int, int>, P: map<int, int>, t: Tree, q: int)
    requires Hung(L, R, P, t, q) && t.Node?
    ensures Rep(L, R, P, t.left, t.id) && Rep(L, R, P, t.right, t.id) && Proper(t.left) && Proper(t.right)
    ensures Ids(t.left) !! Ids(t.right) && t.id in L && t.id in R
    ensures L[t.id] == Root(t.left) && R[t.id] == Root(t.right)
  {
  }

  /** Once the erased root's subtrees are merged into `t`, hanging `t`
      below the sentinel again makes a map. */
  lemma Unhung(L: map<int, int>, R: map<int, int>, P: map<int, int>, t0: Tree, q: int,
               L2: map<int, int>, R2: map<int, int>, P2: map<int, int>, t: Tree)
    requires Hung(L, R, P, t0, q) && t0.Node?
    requires Rep(L2, R2, P2, t, Null) && Proper(t) && Ids(t) == Ids(t0.left) + Ids(t0.right)
    requires Keep(L, L2, Ids(t0.left) + Ids(t0.right) + {Null}) && Keep(R, R2, Ids(t0.left) + Ids(t0.right) + {Null})
    requires Keep(P, P2, Ids(t0.left) + Ids(t0.right) + {Null})
    ensures var L3, R3 := L2[q := Root(t)][t0.id := Null], R2[t0.id := Null];
      var P3 := if t.Node? then P2[t.id := q] else P2;
      Hung(L3, R3, P3, t, q) && Keep(L, L3, Ids(t0) + {q, Null}) && Keep(R, R3, Ids(t0) + {Null}) && Keep(P, P3, Ids(t0) + {Null})
    ensures Ids(t) == Ids(t0) - {t0.id}
  {
    var L3, R3 := L2[q := Root(t)][t0.id := Null], R2[t0.id := Null];
    var P3 := if t.Node? then P2[t.id := q] else P2;
    ProperNoNull(t);
    assert q !in Ids(t0.left) + Ids(t0.right) + {Null};
    assert t0.id !in Ids(t);
    RepMove(L2, R2, P2, L3, R3, P3, t, Null, q);
  }

  /** Writing a record that is neither in the tree nor the sentinel leaves
      the map laid out as it was, with the same keys. */
  lemma Untouched(L: map<int, int>, R: map<int, int>, P: map<int, int>, V: map<int, int>, t: Tree, q: int, n: int, k: int)
    requires Hung(L, R, P, t, q) && Stored(V, InOrder(t)) && n != q && n !in Ids(t)
    ensures Hung(L[n := Null], R[n := Null], P[n := Null], t, q)
    ensures Stored(V[n := k], InOrder(t)) && KeysOf(V[n := k], InOrder(t)) == KeysOf(V, InOrder(t))
  {
    IdsInOrder(t);
    ProperNoNull(t);
    RepMove(L, R, P, L[n := Null], R[n := Null], P[n := Null], t, q, q);
  }

  /** The tree with `to` in place of `x`, both storing the same key: the
      walk has `to` where it had `x`, and the keys are the same. */
  lemma Renamed(V: map<int, int>, p: Path, a: Tree, x: int, b: Tree, to: int)
    requires Proper(Plug(p, Node(a, x, b))) && Stored(V, InOrder(Plug(p, Node(a, x, b))))
    requires to in V && x in V && V[to] == V[x]
    ensures x in InOrder(Plug(p, Node(a, x, b)))
    ensures InOrder(Plug(p, Node(a, to, b))) ==
            InOrder(Plug(p, Node(a, x, b)))[Pos(InOrder(Plug(p, Node(a, x, b))), x) := to]
    ensures Stored(V, InOrder(Plug(p, Node(a, to, b))))
    ensures KeysOf(V, InOrder(Plug(p, Node(a, to, b)))) == KeysOf(V, InOrder(Plug(p, Node(a, x, b))))
  {
    var s, s2 := InOrder(Plug(p, Node(a, x, b))), InOrder(Plug(p, Node(a, to, b)));
    PlugInOrder(p, Node(a, x, b));
    PlugInOrder(p, Node(a, to, b));
    ProperDistinct(Plug(p, Node(a, x, b)));
    var pre, post := Before(p) + InOrder(a), InOrder(b) + After(p);
    Regroup(Before(p), InOrder(a), x, InOrder(b), After(p));
    Regroup(Before(p), InOrder(a), to, InOrder(b), After(p));
    PosSplit(s, pre, x, post);
    Substituted(V, pre, x, to, post);
  }

  /** Putting `to` for `x`, which stores the same key, in a walk. */
  lemma Substituted(V: map<int, int>, pre: seq<int>, x: int, to: int, post: seq<int>)
    requires Stored(V, pre + [x] + post) && to in V && x in V && V[to] == V[x]
    ensures pre + [to] + post == (pre + [x] + post)[|pre| := to]
    ensures Stored(V, pre + [to] + post) && KeysOf(V, pre + [to] + post) == KeysOf(V, pre + [x] + post)
  {
    var s, s2 := pre + [x] + post, pre + [to] + post;
    forall i | 0 <= i < |s2|
      ensures s2[i] in V && V[s2[i]] == V[s[i]]
    {
      assert s[i] in V;
    }
  }

  class IntrusiveMap {
    const nodes: Bases
    const fake: int
    ghost var tree: Tree

    /** The pointers lay out `tree` below `fake`, every node stores a key,
        and the keys increase in order. */
    ghost predicate Valid()
      reads this, nodes
    {
      && Hung(nodes.left, nodes.right, nodes.parent, tree, fake)
      && Stored(nodes.value, InOrder(tree))
      && Sorted(KeysOf(nodes.value, InOrder(tree)))
    }

    /** The elements in key order. */
    ghost function Elements(): seq<int>
      reads this
    {
      InOrder(tree)
    }

    /** The keys in increasing order. */
    ghost function Keys(): seq<int>
      reads this, nodes
    {
      KeysOf(nodes.value, InOrder(tree))
    }

    /** The default constructor: an empty tree below a fresh sentinel
        record `fake` of the arena `nodes`, whose links are all null. */
    constructor (nodes: Bases, fake: int)
      requires fake != Null
      modifies nodes
      ensures this.nodes == nodes && this.fake == fake && tree == Leaf && Valid()
      ensures nodes.left == old(nodes.left)[fake := Null] && nodes.right == old(nodes.right)[fake := Null]
      ensures nodes.parent == old(nodes.parent)[fake := Null] && nodes.value == old(nodes.value)
    {
      this.nodes := nodes;
      this.fake := fake;
      tree := Leaf;
      new;
      nodes.left := nodes.left[fake := Null];
      nodes.right := nodes.right[fake := Null];
      nodes.parent := nodes.parent[fake := Null];
    }

    /** `zig`: a single rotation that lifts `child` above its parent and
        leaves it without a parent. */
    method Zig(child: int)
      requires Linked(nodes.left, nodes.right, nodes.parent, child)
      requires Linked(nodes.left, nodes.right, nodes.parent, nodes.parent[child])
      modifies nodes
      ensures (nodes.left, nodes.right, nodes.parent) == ZigLinks(old(nodes.left), old(nodes.right), old(nodes.parent), child)
      ensures nodes.value == old(nodes.value)
    {
      var parent := nodes.parent[child];
      if nodes.left[parent] == child {
        var childRight := nodes.right[child];
        nodes.right := nodes.right[child := parent];
        nodes.parent := nodes.parent[parent := child];
        nodes.left := nodes.left[parent := childRight];
        if childRight != Null {
          nodes.parent := nodes.parent[childRight := parent];
        }
      } else {
        var childLeft := nodes.left[child];
        nodes.left := nodes.left[child := parent];
        nodes.parent := nodes.parent[parent := child];
        nodes.right := nodes.right[parent := childLeft];
        if childLeft != Null {
          nodes.parent := nodes.parent[childLeft := parent];
        }
      }
      nodes.parent := nodes.parent[child := Null];
    }

    /** `child` takes the place of `grandParent` below the grandparent's
        parent, if there is one. */
    method TakeSlot(child: int, grandParent: int)
      requires child in nodes.parent && grandParent in nodes.parent
      requires nodes.parent[grandParent] != Null ==> nodes.parent[grandParent] in nodes.right
      modifies nodes
      ensures nodes.parent == old(nodes.parent)[child := old(nodes.parent)[grandParent]]
      ensures (nodes.left, nodes.right) == SlotTo(old(nodes.left), old(nodes.right), old(nodes.parent)[grandParent], grandParent, child)
      ensures nodes.value == old(nodes.value)
    {
      nodes.parent := nodes.parent[child := nodes.parent[grandParent]];
      var up := nodes.parent[child];
      if up != Null {
        if nodes.right[up] == grandParent {
          nodes.right := nodes.right[up := child];
        } else {
          nodes.left := nodes.left[up := child];
        }
      }
    }

    /** `zig_zig`: two rotations in the same direction, the grandparent's
        first. */
    method ZigZig(child: int)
      requires CanRotTwice(nodes.left, nodes.right, nodes.parent, child)
      modifies nodes
      ensures (nodes.left, nodes.right, nodes.parent) == ZigZigLinks(old(nodes.left), old(nodes.right), old(nodes.parent), child)
      ensures nodes.value == old(nodes.value)
    {
      var parent := nodes.parent[child];
      var grandParent := nodes.parent[parent];
      if nodes.left[grandParent] == parent && nodes.left[parent] == child {
        var childRight := nodes.right[child];
        var parentChild := nodes.right[parent];
        TakeSlot(child, grandParent);
        nodes.parent := nodes.parent[grandParent := parent];
        nodes.right := nodes.right[parent := grandParent];
        nodes.parent := nodes.parent[parent := child];
        nodes.right := nodes.right[child := parent];
        nodes.left := nodes.left[parent := childRight];
        nodes.left := nodes.left[grandParent := parentChild];
        if childRight != Null {
          nodes.parent := nodes.parent[childRight := parent];
        }
        if parentChild != Null {
          nodes.parent := nodes.parent[parentChild := grandParent];
        }
      } else {
        var childParent := nodes.left[parent];
        var childLeft := nodes.left[child];
        TakeSlot(child, grandParent);
        nodes.parent := nodes.parent[grandParent := parent];
        nodes.left := nodes.left[parent := grandParent];
        nodes.parent := nodes.parent[parent := child];
        nodes.left := nodes.left[child := parent];
        nodes.right := nodes.right[parent := childLeft];
        nodes.right := nodes.right[grandParent := childParent];
        if childParent != Null {
          nodes.parent := nodes.parent[childParent := grandParent];
        }
        if childLeft != Null {
          nodes.parent := nodes.parent[childLeft := parent];
        }
      }
    }

    /** `zig_zag`: two rotations in opposite directions, both lifting
        `child`. */
    method ZigZag(child: int)
      requires CanRotTwice(nodes.left, nodes.right, nodes.parent, child)
      modifies nodes
      ensures (nodes.left, nodes.right, nodes.parent) == ZigZagLinks(old(nodes.left), old(nodes.right), old(nodes.parent), child)
      ensures nodes.value == old(nodes.value)
    {
      var parent := nodes.parent[child];
      var grandParent := nodes.parent[parent];
      var childLeft := nodes.left[child];
      var childRight := nodes.right[child];
      if nodes.left[grandParent] == parent && nodes.right[parent] == child {
        TakeSlot(child, grandParent);
        nodes.right := nodes.right[child := grandParent];
        nodes.left := nodes.left[child := parent];
        nodes.parent := nodes.parent[grandParent := child];
        nodes.parent := nodes.parent[parent := child];
        nodes.right := nodes.right[parent := childLeft];
        nodes.left := nodes.left[grandParent := childRight];
        if childLeft != Null {
          nodes.parent := nodes.parent[childLeft := parent];
        }
        if childRight != Null {
          nodes.parent := nodes.parent[childRight := grandParent];
        }
      } else {
        TakeSlot(child, grandParent);
        nodes.left := nodes.left[child := grandParent];
        nodes.right := nodes.right[child := parent];
        nodes.parent := nodes.parent[grandParent := child];
        nodes.parent := nodes.parent[parent := child];
        nodes.right := nodes.right[grandParent := childLeft];
        nodes.left := nodes.left[parent := childRight];
        if childLeft != Null {
          nodes.parent := nodes.parent[childLeft := grandParent];
        }
        if childRight != Null {
          nodes.parent := nodes.parent[childRight := parent];
        }
      }
    }

    /** `splay_`: rotates `child` up until it has no parent. The tree
        `Plug(path, sub)`, whose root has no parent, becomes `t`, with
        `child` at the root, the same nodes in the same order, and no
        other record changed. */
    method SplayFrom(child: int, ghost path: Path, ghost sub: Tree) returns (r: int, ghost t: Tree)
      requires sub.Node? && sub.id == child
      requires Rep(nodes.left, nodes.right, nodes.parent, Plug(path, sub), Null) && Proper(Plug(path, sub))
      modifies nodes
      ensures r == child && t.Node? && t.id == child
      ensures Laid(old(nodes.left), old(nodes.right), old(nodes.parent), nodes.left, nodes.right, nodes.parent, Plug(path, sub), t)
      ensures nodes.value == old(nodes.value)
    {
      ghost var L0, R0, P0, t0 := nodes.left, nodes.right, nodes.parent, Plug(path, sub);
      ghost var p, s := path, sub;
      Links(L0, R0, P0, p, s, Null);
      while nodes.parent[child] != Null
        invariant s.Node? && s.id == child && nodes.value == old(nodes.value)
        invariant Laid(L0, R0, P0, nodes.left, nodes.right, nodes.parent, t0, Plug(p, s))
        invariant child in nodes.parent && nodes.parent[child] == Above(p, Null)
        decreases Depth(p)
      {
        ghost var L, R, P := nodes.left, nodes.right, nodes.parent;
        SplayStep(L, R, P, p, s);
        ghost var next := Splayed(p, s);
        var parent := nodes.parent[child];
        var grandParent := nodes.parent[parent];
        if grandParent == Null {
          Zig(child);
        } else if (nodes.left[grandParent] == parent && nodes.left[parent] == child) ||
                  (nodes.right[grandParent] == parent && nodes.right[parent] == child) {
          ZigZig(child);
        } else {
          ZigZag(child);
        }
        LaidTrans(L0, R0, P0, L, R, P, nodes.left, nodes.right, nodes.parent, t0, Plug(p, s), Plug(next.0, next.1));
        p, s := next.0, next.1;
        Links(nodes.left, nodes.right, nodes.parent, p, s, Null);
      }
      Links(nodes.left, nodes.right, nodes.parent, p, s, Null);
      r, t := child, s;
    }

    /** `splay`: the tree's root is detached from `fake`, `node` is splayed
        to the root, and the new root is hung below `fake`. The map keeps
        its elements in the same order, and only the records of the tree
        change. */
    method Splay(node: int)
      requires Valid() && node in Ids(tree)
      modifies this, nodes
      ensures Valid() && tree.Node? && tree.id == node
      ensures Elements() == old(Elements()) && Ids(tree) == old(Ids(tree))
      ensures Keep(old(nodes.left), nodes.left, old(Ids(tree)) + {fake, Null}) && Keep(old(nodes.right), nodes.right, old(Ids(tree)) + {Null})
      ensures Keep(old(nodes.parent), nodes.parent, old(Ids(tree)) + {Null}) && nodes.value == old(nodes.value)
    {
      ghost var L0, R0, P0, t0 := nodes.left, nodes.right, nodes.parent, tree;
      var root := nodes.left[fake];
      nodes.parent := nodes.parent[root := Null];
      Detached(L0, R0, P0, t0, fake);
      ghost var (path, sub) := Locate(Top, tree, node);
      var top;
      ghost var t;
      top, t := SplayFrom(node, path, sub);
      ghost var L2, R2, P2 := nodes.left, nodes.right, nodes.parent;
      nodes.left := nodes.left[fake := top];
      nodes.parent := nodes.parent[top := fake];
      tree := t;
      Rehung(L0, R0, P0, t0, fake, L2, R2, P2, t);
    }

    /** `find_`: the search from the root. A node with the key `target` is
        returned when there is one; otherwise the search ends at a null
        child whose hole `hole` is where `target` belongs, and the result
        is null (`xBound`) or the last node visited (`fake` in an empty
        map). */
    method Lookup(target: int, xBound: bool) returns (r: int, ghost hole: Path)
      requires Valid()
      ensures target in Keys() ==> r in Ids(tree) && r in nodes.value && nodes.value[r] == target
      ensures target !in Keys() ==>
        Plug(hole, Leaf) == tree && Gap(nodes.value, hole, target) && r == if xBound then Null else Above(hole, fake)
    {
      var prev := fake;
      var curr := nodes.left[fake];
      ghost var s := tree;
      hole := Top;
      while curr != Null
        invariant Plug(hole, s) == tree && curr == Root(s) && prev == Above(hole, fake) && Proper(s)
        invariant Gap(nodes.value, hole, target)
        decreases s
      {
        Links(nodes.left, nodes.right, nodes.parent, hole, s, fake);
        PlugIds(hole, s);
        Present(nodes.value, tree, curr);
        prev := curr;
        if target < nodes.value[curr] {
          SearchLeft(nodes.value, hole, s.left, curr, s.right, target);
          hole, s := InLeft(hole, curr, s.right), s.left;
          curr := nodes.left[curr];
        } else if nodes.value[curr] < target {
          SearchRight(nodes.value, hole, s.left, curr, s.right, target);
          hole, s := InRight(s.left, curr, hole), s.right;
          curr := nodes.right[curr];
        } else {
          return curr, hole;
        }
      }
      Absent(nodes.value, hole, target);
      r := if xBound then Null else prev;
    }

    /** `find`: the node with key `target`, or `end()` (the sentinel) when
        there is none. */
    method Find(target: int) returns (r: int)
      requires Valid()
      ensures r == fake <==> target !in Keys()
      ensures r != fake ==> r in Ids(tree) && r in nodes.value && nodes.value[r] == target
    {
      ghost var hole;
      r, hole := Lookup(target, true);
      ProperNoNull(tree);
      if r == Null {
        r := fake;
      }
    }

    /** `lower_bound`: the first position of the walk (the elements in
        order, then `end()`) whose key is not below `key`. */
    method LowerBound(key: int) returns (r: int)
      requires Valid()
      ensures r == Walk(tree, fake)[FirstAtLeast(Keys(), key)]
    {
      var found, hole := Lookup(key, false);
      if key in Keys() {
        Hit(nodes.value, tree, fake, found);
      } else {
        Landing(nodes.value, tree, hole, key);
        HoleParent(nodes.value, tree, fake, hole, key);
      }
      if found == fake || Equals(key, nodes.Get(found)) || key < nodes.Get(found) {
        return found;
      }
      r := nodes.Next(found, tree, fake);
    }

    /** `upper_bound`: the first position of the walk whose key is above
        `key`. */
    method UpperBound(key: int) returns (r: int)
      requires Valid()
      ensures r == Walk(tree, fake)[FirstAbove(Keys(), key)]
    {
      var found, hole := Lookup(key, false);
      if key in Keys() {
        Hit(nodes.value, tree, fake, found);
      } else {
        Landing(nodes.value, tree, hole, key);
        HoleParent(nodes.value, tree, fake, hole, key);
      }
      if found == fake || key < nodes.Get(found) {
        return found;
      }
      r := nodes.Next(found, tree, fake);
    }

    /** `begin`: the first element, or `end()` in an empty map. */
    method Begin() returns (r: int)
      requires Valid()
      ensures r == Walk(tree, fake)[0]
    {
      if nodes.left[fake] == Null {
        return End();
      }
      r := nodes.TreeMin(nodes.left[fake], tree, fake);
    }

    /** `end`: the sentinel, the last position of the walk. */
    function End(): (r: int)
      reads this, nodes
      requires Valid()
      ensures r == Walk(tree, fake)[|Walk(tree, fake)| - 1] && r !in Ids(tree)
    {
      fake
    }

    /** `empty`: whether the map has no elements. */
    function Empty(): (r: bool)
      reads this, nodes
      requires Valid()
      ensures r <==> Elements() == []
    {
      assert tree.Node? ==> InOrder(tree) != [];
      nodes.left[fake] == Null
    }

    /** `connect_map`: the sentinel's right link points to `other`, the
        other side's sentinel. */
    method ConnectMap(other: int)
      requires Valid() && other !in Ids(tree)
      modifies nodes
      ensures Valid() && nodes.right == old(nodes.right)[fake := other]
      ensures nodes.left == old(nodes.left) && nodes.parent == old(nodes.parent) && nodes.value == old(nodes.value)
    {
      nodes.right := nodes.right[fake := other];
      RepMove(old(nodes.left), old(nodes.right), old(nodes.parent), nodes.left, nodes.right, nodes.parent, tree, fake, fake);
    }

    /** `equals`: neither key is below the other. */
    static function Equals(key1: int, key2: int): (r: bool)
      ensures r <==> key1 == key2
    {
      !(key1 < key2) && !(key2 < key1)
    }

    /** `insert`: the fresh record `n`, whose key is not yet in the map, is
        hung where the search for its key ended and then splayed to the
        root. The elements gain `n` at the position its key sorts to. */
    method Insert(n: int) returns (r: int)
      requires Valid()
      requires n != Null && n != fake && n !in Ids(tree) && n != nodes.right[fake]
      requires n in nodes.left && n in nodes.right && n in nodes.parent && n in nodes.value
      requires nodes.left[n] == Null && nodes.right[n] == Null
      requires nodes.value[n] !in Keys()
      modifies this, nodes
      ensures nodes.value == old(nodes.value)
      ensures r == n && Valid() && tree.Node? && tree.id == n && Ids(tree) == old(Ids(tree)) + {n}
      ensures Elements() == old(Elements())[..FirstAtLeast(old(Keys()), nodes.value[n])] + [n]
                            + old(Elements())[FirstAtLeast(old(Keys()), nodes.value[n])..]
      ensures Keys() == old(Keys())[..FirstAtLeast(old(Keys()), nodes.value[n])] + [nodes.value[n]]
                        + old(Keys())[FirstAtLeast(old(Keys()), nodes.value[n])..]
      ensures Keep(old(nodes.left), nodes.left, old(Ids(tree)) + {n, fake, Null})
      ensures Keep(old(nodes.right), nodes.right, old(Ids(tree)) + {n, Null})
      ensures Keep(old(nodes.parent), nodes.parent, old(Ids(tree)) + {n, Null})
    {
      var prev, hole := Lookup(nodes.Get(n), false);
      Landing(nodes.value, tree, hole, nodes.value[n]);
      HoleParent(nodes.value, tree, fake, hole, nodes.value[n]);
      ghost var L, R, P := nodes.left, nodes.right, nodes.parent;
      nodes.parent := nodes.parent[n := prev];
      if prev == fake {
        nodes.left := nodes.left[fake := n];
      } else if nodes.Get(prev) < nodes.Get(n) {
        nodes.right := nodes.right[prev := n];
      } else {
        nodes.left := nodes.left[prev := n];
      }
      Attach(L, R, P, nodes.left, nodes.right, nodes.parent, hole, fake, n);
      Inserted(nodes.value, hole, n);
      ghost var ids := Ids(tree) + {n};
      assert Keep(L, nodes.left, {fake} + ids) && Keep(R, nodes.right, ids) && Keep(P, nodes.parent, {n});
      ghost var L1, R1, P1 := nodes.left, nodes.right, nodes.parent;
      tree := Plug(hole, Node(Leaf, n, Leaf));
      Splay(n);
      KeepChain(L, L1, nodes.left, {fake} + ids, ids + {fake, Null}, ids + {fake, Null});
      KeepChain(R, R1, nodes.right, ids, ids + {Null}, ids + {Null});
      KeepChain(P, P1, nodes.parent, {n}, ids + {Null}, ids + {Null});
      r := n;
    }

    /** `merge`: joins the trees `a` (rooted at `left`) and `b` (rooted at
        `right`), all of whose nodes come before those of `b`, into one
        tree without a parent: the maximum of `a` is splayed to the root
        and `b` hangs to its right. */
    method Merge(left: int, right: int, ghost a: Tree, ghost b: Tree, ghost q: int) returns (r: int, ghost t: Tree)
      requires Rep(nodes.left, nodes.right, nodes.parent, a, q) && Rep(nodes.left, nodes.right, nodes.parent, b, q)
      requires Proper(a) && Proper(b) && Ids(a) !! Ids(b) && left == Root(a) && right == Root(b)
      modifies nodes
      ensures Rep(nodes.left, nodes.right, nodes.parent, t, Null) && Proper(t) && r == Root(t)
      ensures InOrder(t) == InOrder(a) + InOrder(b) && Ids(t) == Ids(a) + Ids(b)
      ensures Keep(old(nodes.left), nodes.left, Ids(a) + Ids(b) + {Null})
      ensures Keep(old(nodes.right), nodes.right, Ids(a) + Ids(b) + {Null})
      ensures Keep(old(nodes.parent), nodes.parent, Ids(a) + Ids(b) + {Null}) && nodes.value == old(nodes.value)
    {
      ProperNoNull(a);
      ProperNoNull(b);
      ghost var L, R, P := nodes.left, nodes.right, nodes.parent;
      if left == Null && right == Null {
        return Null, Leaf;
      }
      if left != Null && right == Null {
        nodes.parent := nodes.parent[left := Null];
        RepMove(L, R, P, nodes.left, nodes.right, nodes.parent, a, q, Null);
        return left, a;
      }
      if left == Null {
        nodes.parent := nodes.parent[right := Null];
        RepMove(L, R, P, nodes.left, nodes.right, nodes.parent, b, q, Null);
        return right, b;
      }
      nodes.parent := nodes.parent[left := Null];
      RepMove(L, R, P, nodes.left, nodes.right, nodes.parent, a, q, Null);
      RepMove(L, R, P, nodes.left, nodes.right, nodes.parent, b, q, q);
      ghost var L1, R1, P1 := nodes.left, nodes.right, nodes.parent;
      var max := nodes.TreeMax(left, a, Null);
      IdsInOrder(a);
      ghost var (path, sub) := Locate(Top, a, max);
      ghost var a2;
      r, a2 := SplayFrom(max, path, sub);
      LastIsRoot(a2);
      ghost var L2, R2, P2 := nodes.left, nodes.right, nodes.parent;
      nodes.right := nodes.right[r := right];
      nodes.parent := nodes.parent[right := r];
      Merged(L1, R1, P1, L2, R2, P2, a, a2, b, q);
      t := Node(a2.left, r, b);
      assert InOrder(a2) == InOrder(a2.left) + [r];
      KeepChain(L1, L2, nodes.left, Ids(a) + {Null}, {}, Ids(a) + Ids(b) + {Null});
      KeepChain(L, L1, nodes.left, {}, Ids(a) + {Null}, Ids(a) + Ids(b) + {Null});
    }

    /** `erase`: splays `x` to the root and replaces it by the merge of its
        subtrees; `x` leaves with both child links cleared. */
    method Erase(x: int)
      requires Valid() && x in Elements()
      modifies this, nodes
      ensures nodes.value == old(nodes.value)
      ensures Valid() && Ids(tree) == old(Ids(tree)) - {x}
      ensures Elements() == old(Elements())[..Pos(old(Elements()), x)] + old(Elements())[Pos(old(Elements()), x) + 1..]
      ensures Keys() == old(Keys())[..Pos(old(Elements()), x)] + old(Keys())[Pos(old(Elements()), x) + 1..]
      ensures x in nodes.left && nodes.left[x] == Null && x in nodes.right && nodes.right[x] == Null
      ensures Keep(old(nodes.left), nodes.left, old(Ids(tree)) + {fake, Null})
      ensures Keep(old(nodes.right), nodes.right, old(Ids(tree)) + {Null})
      ensures Keep(old(nodes.parent), nodes.parent, old(Ids(tree)) + {Null})
    {
      ghost var L0, R0, P0, t0 := nodes.left, nodes.right, nodes.parent, tree;
      IdsInOrder(tree);
      Splay(x);
      ghost var L1, R1, P1, t1 := nodes.left, nodes.right, nodes.parent, tree;
      Unroot(x);
      KeepChain(L0, L1, nodes.left, Ids(t0) + {fake, Null}, Ids(t1) + {fake, Null}, Ids(t0) + {fake, Null});
      KeepChain(R0, R1, nodes.right, Ids(t0) + {Null}, Ids(t1) + {Null}, Ids(t0) + {Null});
      KeepChain(P0, P1, nodes.parent, Ids(t0) + {Null}, Ids(t1) + {Null}, Ids(t0) + {Null});
    }

    /** The second half of `erase`: the root `x` gives way to the merge of
        its subtrees. */
    method Unroot(x: int)
      requires Valid() && tree.Node? && tree.id == x
      modifies this, nodes
      ensures nodes.value == old(nodes.value)
      ensures Valid() && Ids(tree) == old(Ids(tree)) - {x}
      ensures Elements() == old(Elements())[..Pos(old(Elements()), x)] + old(Elements())[Pos(old(Elements()), x) + 1..]
      ensures Keys() == old(Keys())[..Pos(old(Elements()), x)] + old(Keys())[Pos(old(Elements()), x) + 1..]
      ensures x in nodes.left && nodes.left[x] == Null && x in nodes.right && nodes.right[x] == Null
      ensures Keep(old(nodes.left), nodes.left, old(Ids(tree)) + {fake, Null})
      ensures Keep(old(nodes.right), nodes.right, old(Ids(tree)) + {Null})
      ensures Keep(old(nodes.parent), nodes.parent, old(Ids(tree)) + {Null})
    {
      ghost var L1, R1, P1, t1 := nodes.left, nodes.right, nodes.parent, tree;
      Halves(L1, R1, P1, t1, fake);
      var merged;
      ghost var t;
      merged, t := Merge(nodes.left[x], nodes.right[x], tree.left, tree.right, x);
      ghost var L2, R2, P2 := nodes.left, nodes.right, nodes.parent;
      Unhung(L1, R1, P1, t1, fake, L2, R2, P2, t);
      Erased(nodes.value, t1, t);
      Reattach(x, merged);
      tree := t;
    }

    /** The writes that end `erase`: the sentinel takes the merged tree,
        whose root takes the sentinel as parent, and `x` drops its
        children. */
    method Reattach(x: int, merged: int)
      modifies nodes
      ensures nodes.left == old(nodes.left)[fake := merged][x := Null] && nodes.right == old(nodes.right)[x := Null]
      ensures nodes.parent == if merged != Null then old(nodes.parent)[merged := fake] else old(nodes.parent)
      ensures nodes.value == old(nodes.value)
    {
      nodes.left := nodes.left[fake := merged];
      nodes.left := nodes.left[x := Null];
      nodes.right := nodes.right[x := Null];
      if merged != Null {
        nodes.parent := nodes.parent[merged := fake];
      }
    }

    /** The record of a new compound element on this side (see
        `Bases.Make`); the map itself is unchanged. */
    method Adopt(n: int, key: int)
      requires Valid() && n != fake && n !in Ids(tree)
      modifies nodes
      ensures Valid() && Elements() == old(Elements()) && Keys() == old(Keys())
      ensures nodes.left == old(nodes.left)[n := Null] && nodes.right == old(nodes.right)[n := Null]
      ensures nodes.parent == old(nodes.parent)[n := Null] && nodes.value == old(nodes.value)[n := key]
    {
      Untouched(nodes.left, nodes.right, nodes.parent, nodes.value, tree, fake, n, key);
      nodes.Make(n, key);
    }

    /** `x.replace(to)` on an element `x` of this map (as the bimap's
        `at_*_or_default` does): `to`, which stores the same key, stands in
        the tree where `x` stood, and the keys are unchanged. */
    method Rename(x: int, to: int)
      requires Valid() && x in Ids(tree) && x in nodes.value
      requires to != Null && to != fake && to !in Ids(tree) && to != nodes.right[fake]
      requires to in nodes.left && to in nodes.right && to in nodes.parent && to in nodes.value
      requires nodes.value[to] == nodes.value[x]
      modifies this, nodes
      ensures nodes.value == old(nodes.value)
      ensures Valid() && Ids(tree) == old(Ids(tree)) - {x} + {to}
      ensures x in old(Elements()) && Elements() == old(Elements())[Pos(old(Elements()), x) := to]
      ensures Keys() == old(Keys()) && nodes.right[fake] == old(nodes.right[fake])
    {
      ghost var V, t0 := nodes.value, tree;
      ghost var (p, sub) := Locate(Top, tree, x);
      assert t0 == Plug(p, Node(sub.left, x, sub.right));
      Links(nodes.left, nodes.right, nodes.parent, p, sub, fake);
      ReplaceLayout(nodes.left, nodes.right, nodes.parent, tree, fake, p, sub.left, x, sub.right, to);
      nodes.Replace(x, to);
      tree := Plug(p, Node(sub.left, to, sub.right));
      Renamed(V, p, sub.left, x, sub.right, to);
      PlugIds(p, Node(sub.left, x, sub.right));
      PlugIds(p, Node(sub.left, to, sub.right));
    }
  }
}

=== FILE: iterator.dfy ===
/** A model of `based_iterator` of bimap/src/iterator.h: a position in one
    side of a bimap, held as the id of the record it points at. An
    iterator's positions are those of the side's walk (`Walk`): the
    elements in key order, then the sentinel (`end()`). */
module Iterators {
  import opened ElementBase
  import opened IntrusiveMaps

  /** In a sequence without repetitions, each entry is found where it is. */
  lemma PosDistinct(s: seq<int>, i: int)
    requires Distinct(s) && 0 <= i < |s|
    ensures Pos(s, s[i]) == i
  {
    PosAtMost(s, s[i], i);
  }

  /** An element's record has a parent: the sentinel or another element. */
  lemma ParentOf(L: map<int, int>, R: map<int, int>, P: map<int, int>, t: Tree, q: int, x: int)
    requires Hung(L, R, P, t, q) && x in Ids(t)
    ensures x in P && x in R && P[x] != Null
  {
    var (p, sub) := Locate(Top, t, x);
    Climb(L, R, P, t, q, p, sub);
    Links(L, R, P, p, sub, q);
  }

  /** The position `flip` yields from position `x` of the map `m`: the
      record `m`'s sentinel links across to for the sentinel, and the same
      compound element for an element. */
  ghost function Across(m: IntrusiveMap, x: int): int
    reads m, m.nodes
    requires m.fake in m.nodes.right
  {
    if x == m.fake then m.nodes.right[m.fake] else x
  }

  class Iterator {
    var current: int

    /** `based_iterator(current)`. */
    constructor (current: int)
      ensures this.current == current
    {
      this.current := current;
    }

    /** `operator*`: the key stored at the current element, which is the
        key at the same position of the side's keys. */
    function Deref(m: IntrusiveMap): (k: int)
      reads this, m, m.nodes
      requires m.Valid() && current in m.Elements()
      ensures k == m.Keys()[Pos(m.Elements(), current)]
    {
      var i := Pos(m.Elements(), current);
      assert m.Elements()[i] in m.nodes.value;
      m.nodes.Get(current)
    }

    /** `operator++`: the next position of the walk. */
    method Inc(m: IntrusiveMap)
      requires m.Valid() && current in m.Elements()
      modifies this
      ensures old(current) in Walk(m.tree, m.fake) && Pos(Walk(m.tree, m.fake), old(current)) + 1 < |Walk(m.tree, m.fake)|
      ensures current == Walk(m.tree, m.fake)[Pos(Walk(m.tree, m.fake), old(current)) + 1]
    {
      IdsInOrder(m.tree);
      current := m.nodes.Next(current, m.tree, m.fake);
    }

    /** `operator++(int)`: a copy at the old position; this iterator moves
        to the next position. */
    method PostInc(m: IntrusiveMap) returns (copy: Iterator)
      requires m.Valid() && current in m.Elements()
      modifies this
      ensures fresh(copy) && copy.current == old(current)
      ensures old(current) in Walk(m.tree, m.fake) && Pos(Walk(m.tree, m.fake), old(current)) + 1 < |Walk(m.tree, m.fake)|
      ensures current == Walk(m.tree, m.fake)[Pos(Walk(m.tree, m.fake), old(current)) + 1]
    {
      copy := new Iterator(current);
      Inc(m);
    }

    /** `operator--`: the previous position of the walk; from the first
        element, where there is none, null. */
    method Dec(m: IntrusiveMap)
      requires m.Valid() && current in Walk(m.tree, m.fake)
      modifies this
      ensures var i := Pos(Walk(m.tree, m.fake), old(current)); current == if i == 0 then Null else Walk(m.tree, m.fake)[i - 1]
    {
      IdsInOrder(m.tree);
      current := m.nodes.Prev(current, m.tree, m.fake);
    }

    /** `operator--(int)`: a copy at the old position; this iterator moves
        to the previous position. */
    method PostDec(m: IntrusiveMap) returns (copy: Iterator)
      requires m.Valid() && current in Walk(m.tree, m.fake)
      modifies this
      ensures fresh(copy) && copy.current == old(current)
      ensures var i := Pos(Walk(m.tree, m.fake), old(current)); current == if i == 0 then Null else Walk(m.tree, m.fake)[i - 1]
    {
      copy := new Iterator(current);
      Dec(m);
    }

    /** `flip`: the iterator of the other side at the same compound element,
        or at the other side's sentinel (through the cross link that
        `connect_map` set) for `end()`. The test the source makes is on the
        parent: only the sentinel has none. */
    method Flip(m: IntrusiveMap) returns (r: Iterator)
      requires m.Valid() && current in Walk(m.tree, m.fake)
      ensures fresh(r) && r.current == Across(m, current)
      ensures current in m.Elements() ==> r.current == current
    {
      IdsInOrder(m.tree);
      if current != m.fake {
        ParentOf(m.nodes.left, m.nodes.right, m.nodes.parent, m.tree, m.fake, current);
      }
      if m.nodes.parent[current] == Null {
        r := new Iterator(m.nodes.right[current]);
      } else {
        r := new Iterator(current);
      }
    }

    /** `operator==`: the same record. */
    predicate Equal(other: Iterator)
      reads this, other
    {
      current == other.current
    }
  }

  /** `operator--` undoes `operator++`: from the position after an
      element, the previous position is that element. */
  lemma IncThenDec(m: IntrusiveMap, x: int)
    requires m.Valid() && x in m.Elements()
    ensures var w := Walk(m.tree, m.fake);
            x in w && Pos(w, x) + 1 < |w| && Pos(w, w[Pos(w, x) + 1]) == Pos(w, x) + 1
  {
    var w := Walk(m.tree, m.fake);
    IdsInOrder(m.tree);
    WalkDistinct(m.tree, m.fake);
    PosDistinct(w, Pos(w, x) + 1);
  }

  /** Two iterators over the same side are equal exactly when they stand
      at the same position of the walk. */
  lemma SamePosition(m: IntrusiveMap, a: Iterator, b: Iterator)
    requires m.Valid() && a.current in Walk(m.tree, m.fake) && b.current in Walk(m.tree, m.fake)
    ensures a.Equal(b) <==> Pos(Walk(m.tree, m.fake), a.current) == Pos(Walk(m.tree, m.fake), b.current)
  {
    var w := Walk(m.tree, m.fake);
    IdsInOrder(m.tree);
    WalkDistinct(m.tree, m.fake);
    var i, j := Pos(w, a.current), Pos(w, b.current);
    assert w[i] == a.current && w[j] == b.current;
  }
}

=== FILE: moves.dfy ===
/** The move and swap operations of the bimap, modelled at the level of the
    `map_element_base` records they touch.

    Unlike the per-side arenas of the rest of the model, the records here
    all share one arena, because a move or a swap hands records of one
    bimap to another: the sentinels (`fake`) of both sides of two bimaps,
    the temporaries that `std::swap` and the move assignment create, and
    the roots of the trees below the sentinels.

    A bimap's two sentinels are `Connected` when neither has a parent, each
    one's `right` is the other (`connect_map`) and the roots of the trees
    below them have them as parents. `based_iterator::flip` relies on the
    first two: a record without a parent is taken for a sentinel and
    flipped through its `right`, and any other record is taken for an
    element.

    Each operation is a method on a `Bases` arena, built from `Bases.Swap`
    and `Bases.Reset` as the source builds it from `swap` and the
    destructor, and proved equal to a ghost function of the old links.
    The lemmas are stated on those functions. */
module Moves {
  import opened ElementBase

  /** The `left`, `right` and `parent` links of an arena. */
  type Links = (map<int, int>, map<int, int>, map<int, int>)

  /** Every record has all three links, every link is null or names a
      record, and `Null` is not a record. */
  ghost predicate Closed(L: map<int, int>, R: map<int, int>, P: map<int, int>) {
    && L.Keys == R.Keys == P.Keys && Null !in L
    && forall z | z in L :: (L[z] == Null || L[z] in L) && (R[z] == Null || R[z] in L) && (P[z] == Null || P[z] in L)
  }

  /** `l` and `r` are the left and right sentinels of one bimap, as its
      constructor leaves them and its operations keep them. */
  ghost predicate Connected(L: map<int, int>, R: map<int, int>, P: map<int, int>, l: int, r: int) {
    && l in L && l in R && l in P && r in L && r in R && r in P && l != r
    && P[l] == Null && P[r] == Null && R[l] == r && R[r] == l
    && (L[l] != Null ==> L[l] in P && P[L[l]] == l)
    && (L[r] != Null ==> L[r] in P && P[L[r]] == r)
  }

  /** `flip` treats `x` as a sentinel, i.e. follows its `right`, exactly
      when `x` has no parent. */
  predicate FlipsAsSentinel(P: map<int, int>, x: int)
    requires x in P
  {
    P[x] == Null
  }

  /** Re-pointing a parent's child slot keeps the arena closed. */
  lemma SlotSetClosed(L: map<int, int>, R: map<int, int>, P: map<int, int>, x: int, other: int)
    requires Closed(L, R, P) && x in L && other in L
    ensures var (L1, R1) := ParentSlotSet(L, R, P, x, other); Closed(L1, R1, P)
  {
  }

  /** Exchanging two records' links keeps the arena closed. */
  lemma ExchangeClosed(L: map<int, int>, R: map<int, int>, P: map<int, int>, x: int, y: int)
    requires Closed(L, R, P) && x in L && y in L
    ensures Closed(L[x := L[y]][y := L[x]], R[x := R[y]][y := R[x]], P[x := P[y]][y := P[x]])
  {
  }

  /** A record claiming its children keeps the arena closed. */
  lemma ClaimClosed(L: map<int, int>, R: map<int, int>, P: map<int, int>, x: int)
    requires Closed(L, R, P) && x in L
    ensures Closed(L, R, ChildrenClaimed(L, R, P, x))
  {
  }

  /** Giving a record another record as its parent keeps the arena closed. */
  lemma ReparentClosed(L: map<int, int>, R: map<int, int>, P: map<int, int>, x: int, s: int)
    requires Closed(L, R, P) && x in L && s in L
    ensures Closed(L, R, P[x := s])
  {
  }

  /** Clearing a record's `left` link keeps the arena closed. */
  lemma ClearLeftClosed(L: map<int, int>, R: map<int, int>, P: map<int, int>, x: int)
    requires Closed(L, R, P) && x in L
    ensures Closed(L[x := Null], R, P)
  {
  }

  /** `t1`, `t2` and `t3` can name new, distinct temporaries. */
  ghost predicate FreshTemps(L: map<int, int>, t1: int, t2: int, t3: int) {
    && t1 !in L && t2 !in L && t3 !in L && Null !in {t1, t2, t3}
    && t1 != t2 && t1 != t3 && t2 != t3
  }

  /** A swap of two records keeps the arena closed. */
  lemma SwapClosed(L: map<int, int>, R: map<int, int>, P: map<int, int>, x: int, y: int)
    requires Closed(L, R, P) && x in L && y in L
    ensures var r := SwappedLinks(L, R, P, x, y); Closed(r.0, r.1, r.2) && r.0.Keys == L.Keys
  {
    var (L1, R1) := ParentSlotSet(L, R, P, x, y);
    SlotSetClosed(L, R, P, x, y);
    var (L2, R2) := ParentSlotSet(L1, R1, P, y, x);
    SlotSetClosed(L1, R1, P, y, x);
    var L3 := L2[x := L2[y]][y := L2[x]];
    var R3 := R2[x := R2[y]][y := R2[x]];
    var P3 := P[x := P[y]][y := P[x]];
    ExchangeClosed(L2, R2, P, x, y);
    ClaimClosed(L3, R3, P3, x);
    ClaimClosed(L3, R3, ChildrenClaimed(L3, R3, P3, x), y);
  }

  /** The records after `y`, a new record with null links, is move
      constructed from `x`: `map_element_base(map_element_base&&)` is
      `y.swap(x)`. */
  ghost function MovedFrom(L: map<int, int>, R: map<int, int>, P: map<int, int>, y: int, x: int): Links {
    SwappedLinks(L[y := Null], R[y := Null], P[y := Null], y, x)
  }

  /** The records after `a = std::move(src)`: unless `a` is `src`, a
      temporary `t` is move constructed from `src`, swapped with `a` and
      destroyed, which clears its `left` only. */
  ghost function MoveAssigned(L: map<int, int>, R: map<int, int>, P: map<int, int>, a: int, src: int, t: int): Links {
    if a == src then (L, R, P)
    else
      var (L1, R1, P1) := MovedFrom(L, R, P, t, src);
      var (L2, R2, P2) := SwappedLinks(L1, R1, P1, t, a);
      (L2[t := Null], R2, P2)
  }

  /** The records after `std::swap(a, c)`: a temporary `t1` is move
      constructed from `a`, `a` is move assigned from `c` (temporary `t2`),
      `c` from `t1` (temporary `t3`), and `t1` is destroyed. */
  ghost function StdSwapped(L: map<int, int>, R: map<int, int>, P: map<int, int>, a: int, c: int, t1: int, t2: int, t3: int): Links {
    var (L1, R1, P1) := MovedFrom(L, R, P, t1, a);
    var (L2, R2, P2) := MoveAssigned(L1, R1, P1, a, c, t2);
    var (L3, R3, P3) := MoveAssigned(L2, R2, P2, c, t1, t3);
    (L3[t1 := Null], R3, P3)
  }

  /** The records after `intrusive_map::swap` of the maps with sentinels
      `f` and `g`: `std::swap(fake, other.fake)`, then each sentinel's
      `left` (a root) gets that sentinel as its parent. */
  ghost function MapsSwapped(L: map<int, int>, R: map<int, int>, P: map<int, int>, f: int, g: int, t1: int, t2: int, t3: int): Links {
    var (L1, R1, P1) := StdSwapped(L, R, P, f, g, t1, t2, t3);
    var P2 := if Link(L1, f) != Null then P1[Link(L1, f) := f] else P1;
    var P3 := if Link(L1, g) != Null then P2[Link(L1, g) := g] else P2;
    (L1, R1, P3)
  }

  /** The records after `bimap::swap` of the bimaps with sentinels `l1`,
      `r1` and `l2`, `r2`, as written: the left maps are swapped with the
      temporaries `t1` to `t3`, then the right maps with `t4` to `t6`. */
  ghost function BimapsSwappedAsWritten(L: map<int, int>, R: map<int, int>, P: map<int, int>, l1: int, r1: int, l2: int, r2: int,
                                        t1: int, t2: int, t3: int, t4: int, t5: int, t6: int): Links {
    var (L1, R1, P1) := MapsSwapped(L, R, P, l1, l2, t1, t2, t3);
    MapsSwapped(L1, R1, P1, r1, r2, t4, t5, t6)
  }

  /** The records after a bimap with sentinels `l2`, `r2` is move
      constructed from the bimap with sentinels `l1`, `r1`, as written:
      `intrusive_map`'s move constructor move constructs `fake` from
      `other.fake`, for the left map and then for the right map. */
  ghost function BimapMovedAsWritten(L: map<int, int>, R: map<int, int>, P: map<int, int>, l1: int, r1: int, l2: int, r2: int): Links {
    var (L1, R1, P1) := MovedFrom(L, R, P, l2, l1);
    MovedFrom(L1, R1, P1, r2, r1)
  }

  /** Moving a bimap as written breaks both bimaps: the new right sentinel
      `r2` gets the new left sentinel as its parent, so `flip` of the new
      bimap's `end_right()` takes the element branch, and its `right` still
      names the old left sentinel `l1`, which in turn has `r2` as its parent
      and lost its cross link. */
  lemma MoveBreaksSentinels(L: map<int, int>, R: map<int, int>, P: map<int, int>, l1: int, r1: int, l2: int, r2: int)
    requires Closed(L, R, P) && Connected(L, R, P, l1, r1)
    requires l2 !in L && r2 !in L && l2 != Null && r2 != Null && l2 != r2
    ensures var (L', R', P') := BimapMovedAsWritten(L, R, P, l1, r1, l2, r2);
      && L'[l2] == L[l1] && R'[l2] == r2 && P'[l2] == Null
      && L'[r2] == L[r1] && R'[r2] == l1 && P'[r2] == l2
      && L'[l1] == Null && R'[l1] == Null && P'[l1] == r2
      && L'[r1] == Null && R'[r1] == Null && P'[r1] == Null
      && !FlipsAsSentinel(P', r2) && !Connected(L', R', P', l2, r2)
  {
  }

  /** Two empty bimaps in one arena, with sentinels 0 and 1 and 2 and 3. */
  ghost function TwoBimaps(): (r: Links)
    ensures Closed(r.0, r.1, r.2) && Connected(r.0, r.1, r.2, 0, 1) && Connected(r.0, r.1, r.2, 2, 3)
  {
    (map[0 := Null, 1 := Null, 2 := Null, 3 := Null],
     map[0 := 1, 1 := 0, 2 := 3, 3 := 2],
     map[0 := Null, 1 := Null, 2 := Null, 3 := Null])
  }

  /** The arenas `bimap::swap` passes through on `TwoBimaps()`, as the
      source's steps compute them: stage 0 is the start, stages 1 to 6 the
      swap of the left maps and stages 7 to 12 that of the right maps. */
  ghost function SwapStage0(): Links {
    TwoBimaps()
  }

  ghost function SwapStage1(): Links {
    (map[0 := Null, 1 := Null, 2 := Null, 3 := Null, 20 := Null],
     map[0 := Null, 1 := 0, 2 := 3, 3 := 2, 20 := 1],
     map[0 := Null, 1 := 20, 2 := Null, 3 := Null, 20 := Null])
  }

  ghost function SwapStage2(): Links {
    (map[0 := Null, 1 := Null, 2 := Null, 3 := Null, 20 := Null, 21 := Null],
     map[0 := Null, 1 := 0, 2 := Null, 3 := 2, 20 := 1, 21 := 3],
     map[0 := Null, 1 := 20, 2 := Null, 3 := 21, 20 := Null, 21 := Null])
  }

  ghost function SwapStage3(): Links {
    (map[0 := Null, 1 := Null, 2 := Null, 3 := Null, 20 := Null, 21 := Null],
     map[0 := 3, 1 := 0, 2 := Null, 3 := 2, 20 := 1, 21 := Null],
     map[0 := Null, 1 := 20, 2 := Null, 3 := 0, 20 := Null, 21 := Null])
  }

  ghost function SwapStage4(): Links {
    (map[0 := Null, 1 := Null, 2 := Null, 3 := Null, 20 := Null, 21 := Null, 22 := Null],
     map[0 := 3, 1 := 0, 2 := Null, 3 := 2, 20 := Null, 21 := Null, 22 := 1],
     map[0 := Null, 1 := 22, 2 := Null, 3 := 0, 20 := Null, 21 := Null, 22 := Null])
  }

  ghost function SwapStage5(): Links {
    (map[0 := Null, 1 := Null, 2 := Null, 3 := Null, 20 := Null, 21 := Null, 22 := Null],
     map[0 := 3, 1 := 0, 2 := 1, 3 := 2, 20 := Null, 21 := Null, 22 := Null],
     map[0 := Null, 1 := 2, 2 := Null, 3 := 0, 20 := Null, 21 := Null, 22 := Null])
  }

  ghost function SwapStage6(): Links {
    (map[0 := Null, 1 := Null, 2 := Null, 3 := Null, 20 := Null, 21 := Null, 22 := Null],
     map[0 := 3, 1 := 0, 2 := 1, 3 := 2, 20 := Null, 21 := Null, 22 := Null],
     map[0 := Null, 1 := 2, 2 := Null, 3 := 0, 20 := Null, 21 := Null, 22 := Null])
  }

  ghost function SwapStage7(): Links {
    (map[0 := Null, 1 := Null, 2 := Null, 3 := Null, 20 := Null, 21 := Null, 22 := Null],
     map[0 := 3, 1 := Null, 2 := 20, 3 := 2, 20 := 0, 21 := Null, 22 := Null],
     map[0 := 20, 1 := Null, 2 := Null, 3 := 0, 20 := 2, 21 := Null, 22 := Null])
  }

  ghost function SwapStage8(): Links {
    (map[0 := Null, 1 := Null, 2 := Null, 3 := Null, 20 := Null, 21 := Null, 22 := Null],
     map[0 := 21, 1 := Null, 2 := 20, 3 := Null, 20 := 0, 21 := 2, 22 := Null],
     map[0 := 20, 1 := Null, 2 := 21, 3 := Null, 20 := 2, 21 := 0, 22 := Null])
  }

  ghost function SwapStage9(): Links {
    (map[0 := Null, 1 := Null, 2 := Null, 3 := Null, 20 := Null, 21 := Null, 22 := Null],
     map[0 := 1, 1 := 2, 2 := 20, 3 := Null, 20 := 0, 21 := Null, 22 := Null],
     map[0 := 20, 1 := 0, 2 := 1, 3 := Null, 20 := 2, 21 := Null, 22 := Null])
  }

  ghost function SwapStage10(): Links {
    (map[0 := Null, 1 := Null, 2 := Null, 3 := Null, 20 := Null, 21 := Null, 22 := Null],
     map[0 := 1, 1 := 2, 2 := 22, 3 := Null, 20 := Null, 21 := Null, 22 := 0],
     map[0 := 22, 1 := 0, 2 := 1, 3 := Null, 20 := Null, 21 := Null, 22 := 2])
  }

  ghost function SwapStage11(): Links {
    (map[0 := Null, 1 := Null, 2 := Null, 3 := Null, 20 := Null, 21 := Null, 22 := Null],
     map[0 := 1, 1 := 2, 2 := 3, 3 := 0, 20 := Null, 21 := Null, 22 := Null],
     map[0 := 3, 1 := 0, 2 := 1, 3 := 2, 20 := Null, 21 := Null, 22 := Null])
  }

  ghost function SwapStage12(): Links {
    (map[0 := Null, 1 := Null, 2 := Null, 3 := Null, 20 := Null, 21 := Null, 22 := Null],
     map[0 := 1, 1 := 2, 2 := 3, 3 := 0, 20 := Null, 21 := Null, 22 := Null],
     map[0 := 3, 1 := 0, 2 := 1, 3 := 2, 20 := Null, 21 := Null, 22 := Null])
  }

  /** `StdSwapped` from the results of its two move assignments. */
  lemma StdSwappedSteps(L: map<int, int>, R: map<int, int>, P: map<int, int>, a: int, c: int, t1: int, t2: int, t3: int,
                        L2: map<int, int>, R2: map<int, int>, P2: map<int, int>, L3: map<int, int>, R3: map<int, int>, P3: map<int, int>)
    requires var (L1, R1, P1) := MovedFrom(L, R, P, t1, a);
      var (L', R', P') := MoveAssigned(L1, R1, P1, a, c, t2);
      L' == L2 && R' == R2 && P' == P2
    requires var (L', R', P') := MoveAssigned(L2, R2, P2, c, t1, t3); L' == L3 && R' == R3 && P' == P3
    ensures var (L', R', P') := StdSwapped(L, R, P, a, c, t1, t2, t3); L' == L3[t1 := Null] && R' == R3 && P' == P3
  {
  }

  /** Stage 1: `T tmp(std::move(a))` of `std::swap` on the left sentinels: the temporary `20` is move constructed from `0`. */
  lemma SwapStep1(L: map<int, int>, R: map<int, int>, P: map<int, int>)
    requires L == SwapStage0().0 && R == SwapStage0().1 && P == SwapStage0().2
    ensures var (L', R', P') := MovedFrom(L, R, P, 20, 0);
      L' == SwapStage1().0 && R' == SwapStage1().1 && P' == SwapStage1().2
  {
    SwapStep1Left(L, R, P);
    SwapStep1Right(L, R, P);
    SwapStep1Parent(L, R, P);
  }

  /** The `left` links of stage 1. */
  lemma SwapStep1Left(L: map<int, int>, R: map<int, int>, P: map<int, int>)
    requires L == SwapStage0().0 && R == SwapStage0().1 && P == SwapStage0().2
    ensures var (L', R', P') := MovedFrom(L, R, P, 20, 0); L' == SwapStage1().0
  {
  }

  /** The `right` links of stage 1. */
  lemma SwapStep1Right(L: map<int, int>, R: map<int, int>, P: map<int, int>)
    requires L == SwapStage0().0 && R == SwapStage0().1 && P == SwapStage0().2
    ensures var (L', R', P') := MovedFrom(L, R, P, 20, 0); R' == SwapStage1().1
  {
  }

  /** The `parent` links of stage 1. */
  lemma SwapStep1Parent(L: map<int, int>, R: map<int, int>, P: map<int, int>)
    requires L == SwapStage0().0 && R == SwapStage0().1 && P == SwapStage0().2
    ensures var (L', R', P') := MovedFrom(L, R, P, 20, 0); P' == SwapStage1().2
  {
  }

  /** Stage 2: `a = std::move(b)` begins: the temporary `21` is move constructed from `2`. */
  lemma SwapStep2(L: map<int, int>, R: map<int, int>, P: map<int, int>)
    requires L == SwapStage1().0 && R == SwapStage1().1 && P == SwapStage1().2
    ensures var (L', R', P') := MovedFrom(L, R, P, 21, 2);
      L' == SwapStage2().0 && R' == SwapStage2().1 && P' == SwapStage2().2
  {
    SwapStep2Left(L, R, P);
    SwapStep2Right(L, R, P);
    SwapStep2Parent(L, R, P);
  }

  /** The `left` links of stage 2. */
  lemma SwapStep2Left(L: map<int, int>, R: map<int, int>, P: map<int, int>)
    requires L == SwapStage1().0 && R == SwapStage1().1 && P == SwapStage1().2
    ensures var (L', R', P') := MovedFrom(L, R, P, 21, 2); L' == SwapStage2().0
  {
  }

  /** The `right` links of stage 2. */
  lemma SwapStep2Right(L: map<int, int>, R: map<int, int>, P: map<int, int>)
    requires L == SwapStage1().0 && R == SwapStage1().1 && P == SwapStage1().2
    ensures var (L', R', P') := MovedFrom(L, R, P, 21, 2); R' == SwapStage2().1
  {
  }

  /** The `parent` links of stage 2. */
  lemma SwapStep2Parent(L: map<int, int>, R: map<int, int>, P: map<int, int>)
    requires L == SwapStage1().0 && R == SwapStage1().1 && P == SwapStage1().2
    ensures var (L', R', P') := MovedFrom(L, R, P, 21, 2); P' == SwapStage2().2
  {
  }

  /** Stage 3: `a = std::move(b)` ends: `21` is swapped with `0` and destroyed. */
  lemma SwapStep3(L: map<int, int>, R: map<int, int>, P: map<int, int>)
    requires L == SwapStage2().0 && R == SwapStage2().1 && P == SwapStage2().2
    ensures var (L', R', P') := SwappedLinks(L, R, P, 21, 0);
      L'[21 := Null] == SwapStage3().0 && R' == SwapStage3().1 && P' == SwapStage3().2
  {
    SwapStep3Left(L, R, P);
    SwapStep3Right(L, R, P);
    SwapStep3Parent(L, R, P);
  }

  /** The `left` links of stage 3. */
  lemma SwapStep3Left(L: map<int, int>, R: map<int, int>, P: map<int, int>)
    requires L == SwapStage2().0 && R == SwapStage2().1 && P == SwapStage2().2
    ensures var (L', R', P') := SwappedLinks(L, R, P, 21, 0); L'[21 := Null] == SwapStage3().0
  {
  }

  /** The `right` links of stage 3. */
  lemma SwapStep3Right(L: map<int, int>, R: map<int, int>, P: map<int, int>)
    requires L == SwapStage2().0 && R == SwapStage2().1 && P == SwapStage2().2
    ensures var (L', R', P') := SwappedLinks(L, R, P, 21, 0); R' == SwapStage3().1
  {
  }

  /** The `parent` links of stage 3. */
  lemma SwapStep3Parent(L: map<int, int>, R: map<int, int>, P: map<int, int>)
    requires L == SwapStage2().0 && R == SwapStage2().1 && P == SwapStage2().2
    ensures var (L', R', P') := SwappedLinks(L, R, P, 21, 0); P' == SwapStage3().2
  {
  }

  /** Stage 4: `b = std::move(tmp)` begins: the temporary `22` is move constructed from `20`. */
  lemma SwapStep4(L: map<int, int>, R: map<int, int>, P: map<int, int>)
    requires L == SwapStage3().0 && R == SwapStage3().1 && P == SwapStage3().2
    ensures var (L', R', P') := MovedFrom(L, R, P, 22, 20);
      L' == SwapStage4().0 && R' == SwapStage4().1 && P' == SwapStage4().2
  {
    SwapStep4Left(L, R, P);
    SwapStep4Right(L, R, P);
    SwapStep4Parent(L, R, P);
  }

  /** The `left` links of stage 4. */
  lemma SwapStep4Left(L: map<int, int>, R: map<int, int>, P: map<int, int>)
    requires L == SwapStage3().0 && R == SwapStage3().1 && P == SwapStage3().2
    ensures var (L', R', P') := MovedFrom(L, R, P, 22, 20); L' == SwapStage4().0
  {
  }

  /** The `right` links of stage 4. */
  lemma SwapStep4Right(L: map<int, int>, R: map<int, int>, P: map<int, int>)
    requires L == SwapStage3().0 && R == SwapStage3().1 && P == SwapStage3().2
    ensures var (L', R', P') := MovedFrom(L, R, P, 22, 20); R' == SwapStage4().1
  {
  }

  /** The `parent` links of stage 4. */
  lemma SwapStep4Parent(L: map<int, int>, R: map<int, int>, P: map<int, int>)
    requires L == SwapStage3().0 && R == SwapStage3().1 && P == SwapStage3().2
    ensures var (L', R', P') := MovedFrom(L, R, P, 22, 20); P' == SwapStage4().2
  {
  }

  /** Stage 5: `b = std::move(tmp)` ends: `22` is swapped with `2` and destroyed. */
  lemma SwapStep5(L: map<int, int>, R: map<int, int>, P: map<int, int>)
    requires L == SwapStage4().0 && R == SwapStage4().1 && P == SwapStage4().2
    ensures var (L', R', P') := SwappedLinks(L, R, P, 22, 2);
      L'[22 := Null] == SwapStage5().0 && R' == SwapStage5().1 && P' == SwapStage5().2
  {
    SwapStep5Left(L, R, P);
    SwapStep5Right(L, R, P);
    SwapStep5Parent(L, R, P);
  }

  /** The `left` links of stage 5. */
  lemma SwapStep5Left(L: map<int, int>, R: map<int, int>, P: map<int, int>)
    requires L == SwapStage4().0 && R == SwapStage4().1 && P == SwapStage4().2
    ensures var (L', R', P') := SwappedLinks(L, R, P, 22, 2); L'[22 := Null] == SwapStage5().0
  {
  }

  /** The `right` links of stage 5. */
  lemma SwapStep5Right(L: map<int, int>, R: map<int, int>, P: map<int, int>)
    requires L == SwapStage4().0 && R == SwapStage4().1 && P == SwapStage4().2
    ensures var (L', R', P') := SwappedLinks(L, R, P, 22, 2); R' == SwapStage5().1
  {
  }

  /** The `parent` links of stage 5. */
  lemma SwapStep5Parent(L: map<int, int>, R: map<int, int>, P: map<int, int>)
    requires L == SwapStage4().0 && R == SwapStage4().1 && P == SwapStage4().2
    ensures var (L', R', P') := SwappedLinks(L, R, P, 22, 2); P' == SwapStage5().2
  {
  }

  /** `a = std::move(b)` of `std::swap` on the left sentinels. */
  lemma LeftFirstMoveAssign(L: map<int, int>, R: map<int, int>, P: map<int, int>)
    requires L == SwapStage1().0 && R == SwapStage1().1 && P == SwapStage1().2
    ensures var (L', R', P') := MoveAssigned(L, R, P, 0, 2, 21);
      L' == SwapStage3().0 && R' == SwapStage3().1 && P' == SwapStage3().2
  {
    var (L1, R1, P1) := MovedFrom(L, R, P, 21, 2);
    SwapStep2(L, R, P);
    SwapStep3(L1, R1, P1);
  }

  /** `b = std::move(tmp)` of `std::swap` on the left sentinels. */
  lemma LeftSecondMoveAssign(L: map<int, int>, R: map<int, int>, P: map<int, int>)
    requires L == SwapStage3().0 && R == SwapStage3().1 && P == SwapStage3().2
    ensures var (L', R', P') := MoveAssigned(L, R, P, 2, 20, 22);
      L' == SwapStage5().0 && R' == SwapStage5().1 && P' == SwapStage5().2
  {
    var (L1, R1, P1) := MovedFrom(L, R, P, 22, 20);
    SwapStep4(L, R, P);
    SwapStep5(L1, R1, P1);
  }

  /** `std::swap` of the left sentinels, up to the destruction of `20`. */
  lemma LeftStdSwap(L: map<int, int>, R: map<int, int>, P: map<int, int>)
    requires L == SwapStage0().0 && R == SwapStage0().1 && P == SwapStage0().2
    ensures var (L', R', P') := StdSwapped(L, R, P, 0, 2, 20, 21, 22);
      L' == SwapStage5().0[20 := Null] && R' == SwapStage5().1 && P' == SwapStage5().2
  {
    var (L1, R1, P1) := MovedFrom(L, R, P, 20, 0);
    SwapStep1(L, R, P);
    LeftFirstMoveAssign(L1, R1, P1);
    var (L2, R2, P2) := SwapStage3();
    LeftSecondMoveAssign(L2, R2, P2);
    var (L3, R3, P3) := SwapStage5();
    StdSwappedSteps(L, R, P, 0, 2, 20, 21, 22, L2, R2, P2, L3, R3, P3);
  }

  /** The roots of the left maps given their sentinels as parents. */
  lemma LeftRootsReparented(L: map<int, int>, R: map<int, int>, P: map<int, int>)
    requires L == SwapStage5().0[20 := Null] && R == SwapStage5().1 && P == SwapStage5().2
    ensures var P2 := if Link(L, 0) != Null then P[Link(L, 0) := 0] else P;
      var P3 := if Link(L, 2) != Null then P2[Link(L, 2) := 2] else P2;
      L == SwapStage6().0 && R == SwapStage6().1 && P3 == SwapStage6().2
  {
  }

  /** `intrusive_map::swap` of the left maps, from stage 0 to stage 6. */
  lemma LeftMapsSwapped(L: map<int, int>, R: map<int, int>, P: map<int, int>)
    requires L == SwapStage0().0 && R == SwapStage0().1 && P == SwapStage0().2
    ensures var (L', R', P') := MapsSwapped(L, R, P, 0, 2, 20, 21, 22);
      L' == SwapStage6().0 && R' == SwapStage6().1 && P' == SwapStage6().2
  {
    var (L1, R1, P1) := StdSwapped(L, R, P, 0, 2, 20, 21, 22);
    LeftStdSwap(L, R, P);
    LeftRootsReparented(L1, R1, P1);
  }

  /** Stage 7: `T tmp(std::move(a))` of `std::swap` on the right sentinels: the temporary `20` is move constructed from `1`. */
  lemma SwapStep7(L: map<int, int>, R: map<int, int>, P: map<int, int>)
    requires L == SwapStage6().0 && R == SwapStage6().1 && P == SwapStage6().2
    ensures var (L', R', P') := MovedFrom(L, R, P, 20, 1);
      L' == SwapStage7().0 && R' == SwapStage7().1 && P' == SwapStage7().2
  {
    SwapStep7Left(L, R, P);
    SwapStep7Right(L, R, P);
    SwapStep7Parent(L, R, P);
  }

  /** The `left` links of stage 7. */
  lemma SwapStep7Left(L: map<int, int>, R: map<int, int>, P: map<int, int>)
    requires L == SwapStage6().0 && R == SwapStage6().1 && P == SwapStage6().2
    ensures var (L', R', P') := MovedFrom(L, R, P, 20, 1); L' == SwapStage7().0
  {
  }

  /** The `right` links of stage 7. */
  lemma SwapStep7Right(L: map<int, int>, R: map<int, int>, P: map<int, int>)
    requires L == SwapStage6().0 && R == SwapStage6().1 && P == SwapStage6().2
    ensures var (L', R', P') := MovedFrom(L, R, P, 20, 1); R' == SwapStage7().1
  {
  }

  /** The `parent` links of stage 7. */
  lemma SwapStep7Parent(L: map<int, int>, R: map<int, int>, P: map<int, int>)
    requires L == SwapStage6().0 && R == SwapStage6().1 && P == SwapStage6().2
    ensures var (L', R', P') := MovedFrom(L, R, P, 20, 1); P' == SwapStage7().2
  {
  }

  /** Stage 8: `a = std::move(b)` begins: the temporary `21` is move constructed from `3`. */
  lemma SwapStep8(L: map<int, int>, R: map<int, int>, P: map<int, int>)
    requires L == SwapStage7().0 && R == SwapStage7().1 && P == SwapStage7().2
    ensures var (L', R', P') := MovedFrom(L, R, P, 21, 3);
      L' == SwapStage8().0 && R' == SwapStage8().1 && P' == SwapStage8().2
  {
    SwapStep8Left(L, R, P);
    SwapStep8Right(L, R, P);
    SwapStep8Parent(L, R, P);
  }

  /** The `left` links of stage 8. */
  lemma SwapStep8Left(L: map<int, int>, R: map<int, int>, P: map<int, int>)
    requires L == SwapStage7().0 && R == SwapStage7().1 && P == SwapStage7().2
    ensures var (L', R', P') := MovedFrom(L, R, P, 21, 3); L' == SwapStage8().0
  {
  }

  /** The `right` links of stage 8. */
  lemma SwapStep8Right(L: map<int, int>, R: map<int, int>, P: map<int, int>)
    requires L == SwapStage7().0 && R == SwapStage7().1 && P == SwapStage7().2
    ensures var (L', R', P') := MovedFrom(L, R, P, 21, 3); R' == SwapStage8().1
  {
  }

  /** The `parent` links of stage 8. */
  lemma SwapStep8Parent(L: map<int, int>, R: map<int, int>, P: map<int, int>)
    requires L == SwapStage7().0 && R == SwapStage7().1 && P == SwapStage7().2
    ensures var (L', R', P') := MovedFrom(L, R, P, 21, 3); P' == SwapStage8().2
  {
  }

  /** Stage 9: `a = std::move(b)` ends: `21` is swapped with `1` and destroyed. */
  lemma SwapStep9(L: map<int, int>, R: map<int, int>, P: map<int, int>)
    requires L == SwapStage8().0 && R == SwapStage8().1 && P == SwapStage8().2
    ensures var (L', R', P') := SwappedLinks(L, R, P, 21, 1);
      L'[21 := Null] == SwapStage9().0 && R' == SwapStage9().1 && P' == SwapStage9().2
  {
    SwapStep9Left(L, R, P);
    SwapStep9Right(L, R, P);
    SwapStep9Parent(L, R, P);
  }

  /** The `left` links of stage 9. */
  lemma SwapStep9Left(L: map<int, int>, R: map<int, int>, P: map<int, int>)
    requires L == SwapStage8().0 && R == SwapStage8().1 && P == SwapStage8().2
    ensures var (L', R', P') := SwappedLinks(L, R, P, 21, 1); L'[21 := Null] == SwapStage9().0
  {
  }

  /** The `right` links of stage 9. */
  lemma SwapStep9Right(L: map<int, int>, R: map<int, int>, P: map<int, int>)
    requires L == SwapStage8().0 && R == SwapStage8().1 && P == SwapStage8().2
    ensures var (L', R', P') := SwappedLinks(L, R, P, 21, 1); R' == SwapStage9().1
  {
  }

  /** The `parent` links of stage 9. */
  lemma SwapStep9Parent(L: map<int, int>, R: map<int, int>, P: map<int, int>)
    requires L == SwapStage8().0 && R == SwapStage8().1 && P == SwapStage8().2
    ensures var (L', R', P') := SwappedLinks(L, R, P, 21, 1); P' == SwapStage9().2
  {
  }

  /** Stage 10: `b = std::move(tmp)` begins: the temporary `22` is move constructed from `20`. */
  lemma SwapStep10(L: map<int, int>, R: map<int, int>, P: map<int, int>)
    requires L == SwapStage9().0 && R == SwapStage9().1 && P == SwapStage9().2
    ensures var (L', R', P') := MovedFrom(L, R, P, 22, 20);
      L' == SwapStage10().0 && R' == SwapStage10().1 && P' == SwapStage10().2
  {
    SwapStep10Left(L, R, P);
    SwapStep10Right(L, R, P);
    SwapStep10Parent(L, R, P);
  }

  /** The `left` links of stage 10. */
  lemma SwapStep10Left(L: map<int, int>, R: map<int, int>, P: map<int, int>)
    requires L == SwapStage9().0 && R == SwapStage9().1 && P == SwapStage9().2
    ensures var (L', R', P') := MovedFrom(L, R, P, 22, 20); L' == SwapStage10().0
  {
  }

  /** The `right` links of stage 10. */
  lemma SwapStep10Right(L: map<int, int>, R: map<int, int>, P: map<int, int>)
    requires L == SwapStage9().0 && R == SwapStage9().1 && P == SwapStage9().2
    ensures var (L', R', P') := MovedFrom(L, R, P, 22, 20); R' == SwapStage10().1
  {
  }

  /** The `parent` links of stage 10. */
  lemma SwapStep10Parent(L: map<int, int>, R: map<int, int>, P: map<int, int>)
    requires L == SwapStage9().0 && R == SwapStage9().1 && P == SwapStage9().2
    ensures var (L', R', P') := MovedFrom(L, R, P, 22, 20); P' == SwapStage10().2
  {
  }

  /** Stage 11: `b = std::move(tmp)` ends: `22` is swapped with `3` and destroyed. */
  lemma SwapStep11(L: map<int, int>, R: map<int, int>, P: map<int, int>)
    requires L == SwapStage10().0 && R == SwapStage10().1 && P == SwapStage10().2
    ensures var (L', R', P') := SwappedLinks(L, R, P, 22, 3);
      L'[22 := Null] == SwapStage11().0 && R' == SwapStage11().1 && P' == SwapStage11().2
  {
    SwapStep11Left(L, R, P);
    SwapStep11Right(L, R, P);
    SwapStep11Parent(L, R, P);
  }

  /** The `left` links of stage 11. */
  lemma SwapStep11Left(L: map<int, int>, R: map<int, int>, P: map<int, int>)
    requires L == SwapStage10().0 && R == SwapStage10().1 && P == SwapStage10().2
    ensures var (L', R', P') := SwappedLinks(L, R, P, 22, 3); L'[22 := Null] == SwapStage11().0
  {
  }

  /** The `right` links of stage 11. */
  lemma SwapStep11Right(L: map<int, int>, R: map<int, int>, P: map<int, int>)
    requires L == SwapStage10().0 && R == SwapStage10().1 && P == SwapStage10().2
    ensures var (L', R', P') := SwappedLinks(L, R, P, 22, 3); R' == SwapStage11().1
  {
  }

  /** The `parent` links of stage 11. */
  lemma SwapStep11Parent(L: map<int, int>, R: map<int, int>, P: map<int, int>)
    requires L == SwapStage10().0 && R == SwapStage10().1 && P == SwapStage10().2
    ensures var (L', R', P') := SwappedLinks(L, R, P, 22, 3); P' == SwapStage11().2
  {
  }

  /** `a = std::move(b)` of `std::swap` on the right sentinels. */
  lemma RightFirstMoveAssign(L: map<int, int>, R: map<int, int>, P: map<int, int>)
    requires L == SwapStage7().0 && R == SwapStage7().1 && P == SwapStage7().2
    ensures var (L', R', P') := MoveAssigned(L, R, P, 1, 3, 21);
      L' == SwapStage9().0 && R' == SwapStage9().1 && P' == SwapStage9().2
  {
    var (L1, R1, P1) := MovedFrom(L, R, P, 21, 3);
    SwapStep8(L, R, P);
    SwapStep9(L1, R1, P1);
  }

  /** `b = std::move(tmp)` of `std::swap` on the right sentinels. */
  lemma RightSecondMoveAssign(L: map<int, int>, R: map<int, int>, P: map<int, int>)
    requires L == SwapStage9().0 && R == SwapStage9().1 && P == SwapStage9().2
    ensures var (L', R', P') := MoveAssigned(L, R, P, 3, 20, 22);
      L' == SwapStage11().0 && R' == SwapStage11().1 && P' == SwapStage11().2
  {
    var (L1, R1, P1) := MovedFrom(L, R, P, 22, 20);
    SwapStep10(L, R, P);
    SwapStep11(L1, R1, P1);
  }

  /** `std::swap` of the right sentinels, up to the destruction of `20`. */
  lemma RightStdSwap(L: map<int, int>, R: map<int, int>, P: map<int, int>)
    requires L == SwapStage6().0 && R == SwapStage6().1 && P == SwapStage6().2
    ensures var (L', R', P') := StdSwapped(L, R, P, 1, 3, 20, 21, 22);
      L' == SwapStage11().0[20 := Null] && R' == SwapStage11().1 && P' == SwapStage11().2
  {
    var (L1, R1, P1) := MovedFrom(L, R, P, 20, 1);
    SwapStep7(L, R, P);
    RightFirstMoveAssign(L1, R1, P1);
    var (L2, R2, P2) := SwapStage9();
    RightSecondMoveAssign(L2, R2, P2);
    var (L3, R3, P3) := SwapStage11();
    StdSwappedSteps(L, R, P, 1, 3, 20, 21, 22, L2, R2, P2, L3, R3, P3);
  }

  /** The roots of the right maps given their sentinels as parents. */
  lemma RightRootsReparented(L: map<int, int>, R: map<int, int>, P: map<int, int>)
    requires L == SwapStage11().0[20 := Null] && R == SwapStage11().1 && P == SwapStage11().2
    ensures var P2 := if Link(L, 1) != Null then P[Link(L, 1) := 1] else P;
      var P3 := if Link(L, 3) != Null then P2[Link(L, 3) := 3] else P2;
      L == SwapStage12().0 && R == SwapStage12().1 && P3 == SwapStage12().2
  {
  }

  /** `intrusive_map::swap` of the right maps, from stage 6 to stage 12. */
  lemma RightMapsSwapped(L: map<int, int>, R: map<int, int>, P: map<int, int>)
    requires L == SwapStage6().0 && R == SwapStage6().1 && P == SwapStage6().2
    ensures var (L', R', P') := MapsSwapped(L, R, P, 1, 3, 20, 21, 22);
      L' == SwapStage12().0 && R' == SwapStage12().1 && P' == SwapStage12().2
  {
    var (L1, R1, P1) := StdSwapped(L, R, P, 1, 3, 20, 21, 22);
    RightStdSwap(L, R, P);
    RightRootsReparented(L1, R1, P1);
  }

  /** `bimap::swap` of the two empty bimaps of `TwoBimaps()`, as written,
      from stage 0 to stage 12; each map's swap destroys its temporaries
      before the next one's are made, so they reuse `20`, `21` and `22`. */
  lemma TwoBimapsSwappedAsWritten(L: map<int, int>, R: map<int, int>, P: map<int, int>)
    requires L == SwapStage0().0 && R == SwapStage0().1 && P == SwapStage0().2
    ensures var (L', R', P') := BimapsSwappedAsWritten(L, R, P, 0, 1, 2, 3, 20, 21, 22, 20, 21, 22);
      L' == SwapStage12().0 && R' == SwapStage12().1 && P' == SwapStage12().2
  {
    LeftMapsSwapped(L, R, P);
    var (L1, R1, P1) := MapsSwapped(L, R, P, 0, 2, 20, 21, 22);
    RightMapsSwapped(L1, R1, P1);
  }

  /** Swapping two bimaps as written breaks both. `bimap::swap` swaps the
      left maps (`LeftMapsSwapped`: stage 0 to stage 6) and then the right
      maps (`RightMapsSwapped`: stage 6 to stage 12), which together make
      `TwoBimapsSwappedAsWritten`. After the left maps, each right sentinel
      already has the other bimap's left sentinel as its parent. After the
      right maps, every sentinel has a parent, so `flip` of any `end` takes
      the element branch, and each right sentinel's `right` names the other
      bimap's left sentinel. */
  lemma SwapBreaksSentinels()
    ensures var (L, R, P) := SwapStage6(); Link(P, 1) == 2 && Link(P, 3) == 0
    ensures var (L, R, P) := SwapStage12();
      && Link(R, 0) == 1 && Link(P, 0) == 3 && Link(R, 1) == 2 && Link(P, 1) == 0
      && Link(R, 2) == 3 && Link(P, 2) == 1 && Link(R, 3) == 0 && Link(P, 3) == 2
      && !FlipsAsSentinel(P, 0) && !FlipsAsSentinel(P, 1) && !FlipsAsSentinel(P, 2) && !FlipsAsSentinel(P, 3)
  {
  }

  /** The links the move of a bimap evidently intends: the new sentinels
      take over the trees below the old ones, and the old ones keep only
      their cross links. */
  ghost function BimapMoved(L: map<int, int>, R: map<int, int>, P: map<int, int>, l1: int, r1: int, l2: int, r2: int): Links
    requires l1 in L && r1 in L
  {
    var rootL, rootR := L[l1], L[r1];
    var P1 := P[l2 := Null][r2 := Null];
    var P2 := if rootL != Null then P1[rootL := l2] else P1;
    var P3 := if rootR != Null then P2[rootR := r2] else P2;
    (L[l2 := rootL][r2 := rootR][l1 := Null][r1 := Null],
     R[l2 := r2][r2 := l2][l1 := r1][r1 := l1],
     P3)
  }

  /** After the intended move both bimaps are intact: the new one holds
      the old trees and flips between its ends, the old one is empty. */
  lemma MovedBimapConnected(L: map<int, int>, R: map<int, int>, P: map<int, int>, l1: int, r1: int, l2: int, r2: int)
    requires Closed(L, R, P) && Connected(L, R, P, l1, r1)
    requires l2 !in L && r2 !in L && l2 != Null && r2 != Null && l2 != r2
    ensures var (L', R', P') := BimapMoved(L, R, P, l1, r1, l2, r2);
      && Closed(L', R', P') && L'.Keys == L.Keys + {l2, r2}
      && Connected(L', R', P', l2, r2) && L'[l2] == L[l1] && L'[r2] == L[r1]
      && Connected(L', R', P', l1, r1) && L'[l1] == Null && L'[r1] == Null
      && FlipsAsSentinel(P', l2) && R'[l2] == r2 && FlipsAsSentinel(P', r2) && R'[r2] == l2
  {
  }

  /** The intended `intrusive_map::swap` of the maps with sentinels `f`
      and `g`: the sentinels exchange the trees below them (their `left`)
      and each root gets its new sentinel as parent; the sentinels' own
      `right` and `parent` links stay. */
  ghost function TreesExchanged(L: map<int, int>, P: map<int, int>, f: int, g: int): (map<int, int>, map<int, int>)
    requires f in L && g in L
  {
    var a, c := L[f], L[g];
    var P1 := if c != Null then P[c := f] else P;
    var P2 := if a != Null then P1[a := g] else P1;
    (L[f := c][g := a], P2)
  }

  /** Exchanging the trees of two maps, as intended, keeps both bimaps
      intact: the sentinels hold each other's trees and stay connected to
      their partners `u` and `v`, whose trees are untouched. */
  lemma ExchangeKeepsConnected(L: map<int, int>, R: map<int, int>, P: map<int, int>, f: int, u: int, g: int, v: int)
    requires Closed(L, R, P) && Connected(L, R, P, f, u) && Connected(L, R, P, g, v)
    requires {f, u} !! {g, v}
    ensures var (L', P') := TreesExchanged(L, P, f, g);
      && Closed(L', R, P') && L'.Keys == L.Keys
      && L'[f] == L[g] && L'[g] == L[f] && L'[u] == L[u] && L'[v] == L[v]
      && Connected(L', R, P', f, u) && Connected(L', R, P', g, v)
  {
  }

  /** Exchanging the same two trees again restores the links. */
  lemma ExchangeTwice(L: map<int, int>, R: map<int, int>, P: map<int, int>, f: int, u: int, g: int, v: int)
    requires Connected(L, R, P, f, u) && Connected(L, R, P, g, v)
    requires {f, u} !! {g, v}
    ensures var (L', P') := TreesExchanged(L, P, f, g);
      TreesExchanged(L', P', f, g).0 == L && TreesExchanged(L', P', f, g).1 == P
  {
    var (L', P') := TreesExchanged(L, P, f, g);
    var (L2, P2) := TreesExchanged(L', P', f, g);
    assert L2 == L;
    assert P2 == P;
  }

  /** The links the swap of two bimaps evidently intends: the trees of the
      left maps are exchanged, then those of the right maps. */
  ghost function BimapsSwapped(L: map<int, int>, R: map<int, int>, P: map<int, int>, l1: int, r1: int, l2: int, r2: int): Links
    requires l1 in L && r1 in L && l2 in L && r2 in L
  {
    var (L1, P1) := TreesExchanged(L, P, l1, l2);
    var (L2, P2) := TreesExchanged(L1, P1, r1, r2);
    (L2, R, P2)
  }

  /** After the intended swap both bimaps are intact and hold each other's
      trees. */
  lemma SwappedBimapsConnected(L: map<int, int>, R: map<int, int>, P: map<int, int>, l1: int, r1: int, l2: int, r2: int)
    requires Closed(L, R, P) && Connected(L, R, P, l1, r1) && Connected(L, R, P, l2, r2)
    requires {l1, r1} !! {l2, r2}
    ensures var (L', R', P') := BimapsSwapped(L, R, P, l1, r1, l2, r2);
      && Closed(L', R', P') && L'.Keys == L.Keys
      && Connected(L', R', P', l1, r1) && L'[l1] == L[l2] && L'[r1] == L[r2]
      && Connected(L', R', P', l2, r2) && L'[l2] == L[l1] && L'[r2] == L[r1]
  {
    ExchangeKeepsConnected(L, R, P, l1, r1, l2, r2);
    var (L1, P1) := TreesExchanged(L, P, l1, l2);
    ExchangeKeepsConnected(L1, R, P1, r1, l1, r2, l2);
  }

  /** The exchanges of the left and of the right trees touch disjoint
      records, so their order does not matter. */
  lemma ExchangesCommute(L: map<int, int>, R: map<int, int>, P: map<int, int>, l1: int, r1: int, l2: int, r2: int)
    requires Connected(L, R, P, l1, r1) && Connected(L, R, P, l2, r2)
    requires {l1, r1} !! {l2, r2}
    ensures var (La, Pa) := TreesExchanged(L, P, l1, l2);
      var (Lb, Pb) := TreesExchanged(L, P, r1, r2);
      && TreesExchanged(La, Pa, r1, r2).0 == TreesExchanged(Lb, Pb, l1, l2).0
      && TreesExchanged(La, Pa, r1, r2).1 == TreesExchanged(Lb, Pb, l1, l2).1
  {
  }

  /** Swapping two bimaps twice, as intended, restores every link. */
  lemma SwapBimapsTwice(L: map<int, int>, R: map<int, int>, P: map<int, int>, l1: int, r1: int, l2: int, r2: int)
    requires Closed(L, R, P) && Connected(L, R, P, l1, r1) && Connected(L, R, P, l2, r2)
    requires {l1, r1} !! {l2, r2}
    ensures var (L', R', P') := BimapsSwapped(L, R, P, l1, r1, l2, r2);
      var (L2, R2, P2) := BimapsSwapped(L', R', P', l1, r1, l2, r2);
      L2 == L && R2 == R && P2 == P
  {
    var (L1, P1) := TreesExchanged(L, P, l1, l2);
    ExchangeKeepsConnected(L, R, P, l1, r1, l2, r2);
    var (L2, P2) := TreesExchanged(L1, P1, r1, r2);
    ExchangeKeepsConnected(L1, R, P1, r1, l1, r2, l2);
    // The second swap exchanges the left trees back before the right ones.
    ExchangesCommute(L1, R, P1, l1, r1, l2, r2);
    ExchangeTwice(L, R, P, l1, r1, l2, r2);
    ExchangeTwice(L, R, P, r1, l1, r2, l2);
  }

  /** `map_element_base(map_element_base&& other)` for a new record `y`:
      null links, then `swap(other)`. */
  method MoveConstruct(b: Bases, y: int, x: int)
    requires Closed(b.left, b.right, b.parent) && x in b.left && y !in b.left && y != Null
    modifies b
    ensures (b.left, b.right, b.parent) == MovedFrom(old(b.left), old(b.right), old(b.parent), y, x)
    ensures Closed(b.left, b.right, b.parent) && b.left.Keys == old(b.left.Keys) + {y}
    ensures b.value == old(b.value)
  {
    b.left, b.right, b.parent := b.left[y := Null], b.right[y := Null], b.parent[y := Null];
    SwapClosed(b.left, b.right, b.parent, y, x);
    b.Swap(y, x);
  }

  /** `map_element_base::operator=(map_element_base&& other)`: unless `a`
      is `src`, a temporary `t` is move constructed from `src`, swapped
      with `a` and destroyed. */
  method MoveAssign(b: Bases, a: int, src: int, t: int)
    requires Closed(b.left, b.right, b.parent) && a in b.left && src in b.left && t !in b.left && t != Null
    modifies b
    ensures (b.left, b.right, b.parent) == MoveAssigned(old(b.left), old(b.right), old(b.parent), a, src, t)
    ensures Closed(b.left, b.right, b.parent) && old(b.left.Keys) <= b.left.Keys <= old(b.left.Keys) + {t}
    ensures b.value == old(b.value)
  {
    if a != src {
      MoveConstruct(b, t, src);
      SwapClosed(b.left, b.right, b.parent, t, a);
      b.Swap(t, a);
      ClearLeftClosed(b.left, b.right, b.parent, t);
      b.Reset(t);
    }
  }

  /** `std::swap(a, c)` on two records, with the temporaries `t1`, `t2`
      and `t3`. */
  method StdSwap(b: Bases, a: int, c: int, t1: int, t2: int, t3: int)
    requires Closed(b.left, b.right, b.parent) && a in b.left && c in b.left
    requires FreshTemps(b.left, t1, t2, t3)
    modifies b
    ensures (b.left, b.right, b.parent) == StdSwapped(old(b.left), old(b.right), old(b.parent), a, c, t1, t2, t3)
    ensures Closed(b.left, b.right, b.parent) && old(b.left.Keys) <= b.left.Keys <= old(b.left.Keys) + {t1, t2, t3}
    ensures b.value == old(b.value)
  {
    MoveConstruct(b, t1, a);
    MoveAssign(b, a, c, t2);
    MoveAssign(b, c, t1, t3);
    ClearLeftClosed(b.left, b.right, b.parent, t1);
    b.Reset(t1);
  }

  /** `intrusive_map::swap` of the maps with sentinels `f` and `g`, as
      written. */
  method SwapMaps(b: Bases, f: int, g: int, t1: int, t2: int, t3: int)
    requires Closed(b.left, b.right, b.parent) && f in b.left && g in b.left
    requires FreshTemps(b.left, t1, t2, t3)
    modifies b
    ensures (b.left, b.right, b.parent) == MapsSwapped(old(b.left), old(b.right), old(b.parent), f, g, t1, t2, t3)
    ensures Closed(b.left, b.right, b.parent) && old(b.left.Keys) <= b.left.Keys <= old(b.left.Keys) + {t1, t2, t3}
    ensures b.value == old(b.value)
  {
    StdSwap(b, f, g, t1, t2, t3);
    if b.left[f] != Null {
      ReparentClosed(b.left, b.right, b.parent, b.left[f], f);
      b.parent := b.parent[b.left[f] := f];
    }
    if b.left[g] != Null {
      ReparentClosed(b.left, b.right, b.parent, b.left[g], g);
      b.parent := b.parent[b.left[g] := g];
    }
  }

  /** The move constructor of a bimap, as written: `fake` of each map is
      move constructed from the other bimap's. */
  method MoveBimapAsWritten(b: Bases, l1: int, r1: int, l2: int, r2: int)
    requires Closed(b.left, b.right, b.parent) && l1 in b.left && r1 in b.left
    requires l2 !in b.left && r2 !in b.left && l2 != Null && r2 != Null && l2 != r2
    modifies b
    ensures (b.left, b.right, b.parent) == BimapMovedAsWritten(old(b.left), old(b.right), old(b.parent), l1, r1, l2, r2)
    ensures Closed(b.left, b.right, b.parent) && b.left.Keys == old(b.left.Keys) + {l2, r2}
  {
    MoveConstruct(b, l2, l1);
    MoveConstruct(b, r2, r1);
  }

  /** `bimap::swap`, as written: the left maps are swapped, then the right
      maps, each with its own temporaries. */
  method SwapBimapsAsWritten(b: Bases, l1: int, r1: int, l2: int, r2: int, t1: int, t2: int, t3: int, t4: int, t5: int, t6: int)
    requires Closed(b.left, b.right, b.parent) && l1 in b.left && r1 in b.left && l2 in b.left && r2 in b.left
    requires FreshTemps(b.left, t1, t2, t3) && FreshTemps(b.left, t4, t5, t6) && {t1, t2, t3} !! {t4, t5, t6}
    modifies b
    ensures (b.left, b.right, b.parent) == BimapsSwappedAsWritten(old(b.left), old(b.right), old(b.parent), l1, r1, l2, r2, t1, t2, t3, t4, t5, t6)
    ensures Closed(b.left, b.right, b.parent)
  {
    SwapMaps(b, l1, l2, t1, t2, t3);
    SwapMaps(b, r1, r2, t4, t5, t6);
  }

  /** The intended move constructor of a bimap: the new sentinels take the
      trees over, and each bimap's sentinels are connected. */
  method MoveBimap(b: Bases, l1: int, r1: int, l2: int, r2: int)
    requires Closed(b.left, b.right, b.parent) && l1 in b.left && r1 in b.left
    requires l2 !in b.left && r2 !in b.left && l2 != Null && r2 != Null && l2 != r2
    modifies b
    ensures (b.left, b.right, b.parent) == BimapMoved(old(b.left), old(b.right), old(b.parent), l1, r1, l2, r2)
  {
    var rootL, rootR := b.left[l1], b.left[r1];
    b.left, b.right, b.parent := b.left[l2 := rootL][r2 := rootR], b.right[l2 := r2][r2 := l2], b.parent[l2 := Null][r2 := Null];
    b.left := b.left[l1 := Null][r1 := Null];
    b.right := b.right[l1 := r1][r1 := l1];
    if rootL != Null {
      b.parent := b.parent[rootL := l2];
    }
    if rootR != Null {
      b.parent := b.parent[rootR := r2];
    }
  }

  /** The intended `bimap::swap`: the trees of the left maps are exchanged,
      then those of the right maps. */
  method SwapBimaps(b: Bases, l1: int, r1: int, l2: int, r2: int)
    requires l1 in b.left && r1 in b.left && l2 in b.left && r2 in b.left
    modifies b
    ensures (b.left, b.right, b.parent) == BimapsSwapped(old(b.left), old(b.right), old(b.parent), l1, r1, l2, r2)
  {
    ExchangeTrees(b, l1, l2);
    ExchangeTrees(b, r1, r2);
  }

  /** The intended `intrusive_map::swap`. */
  method ExchangeTrees(b: Bases, f: int, g: int)
    requires f in b.left && g in b.left
    modifies b
    ensures (b.left, b.parent) == TreesExchanged(old(b.left), old(b.parent), f, g)
    ensures b.right == old(b.right) && b.value == old(b.value)
  {
    var a, c := b.left[f], b.left[g];
    b.left := b.left[f := c][g := a];
    if c != Null {
      b.parent := b.parent[c := f];
    }
    if a != Null {
      b.parent := b.parent[a := g];
    }
  }
}

=== FILE: optional.dfy ===
/** A model of `optional<T>`: storage that is either engaged (holds a value)
    or empty, the assignment and swap case analyses that keep the engagement
    flag and the storage in step, and the comparison operators, under which an
    empty optional sorts below every engaged one. */
module Optionals {

  /** What an optional shows to its users: nothing, or one value. */
  datatype View<T> = Empty | Engaged(value: T)

  /** The three-way comparison result (`std::strong_ordering`). */
  datatype Ordering = Less | Equivalent | Greater

  /** `optional_storage_base` together with the `optional` that wraps it.
      `storage` plays the role of the union member `value_`; it means
      something only while `hasValue` is set. */
  class Optional<T(0)> {
    var hasValue: bool
    var storage: T

    /** The value the optional presents: `Engaged(*o)` when `has_value()`. */
    function View(): View<T>
      reads this
    {
      if hasValue then Engaged(storage) else Empty
    }

    /** `optional()` and `optional(nullopt)`: both start disengaged. */
    constructor ()
      ensures View() == Empty
    {
      hasValue := false;
    }

    /** `optional(U&& value)` and `optional(in_place, args...)`. */
    constructor Of(v: T)
      ensures View() == Engaged(v)
    {
      hasValue := true;
      storage := v;
    }

    /** `construct(args...)`: builds the value in the storage and raises the
        flag. Every caller runs it on empty storage. */
    method Construct(v: T)
      requires !hasValue
      modifies this
      ensures View() == Engaged(v)
    {
      storage := v;
      hasValue := true;
    }

    /** `destroy()`: ends the value's lifetime if there is one; on empty
        storage it does nothing at all. */
    method Destroy()
      modifies this
      ensures View() == Empty
      ensures old(!hasValue) ==> storage == old(storage)
    {
      if hasValue {
        hasValue := false;
      }
    }

    /** `reset()` is `destroy()`. */
    method Reset()
      modifies this
      ensures View() == Empty
      ensures old(!hasValue) ==> storage == old(storage)
    {
      Destroy();
    }

    /** `copy_assign(other)`: assign into a live value, construct into empty
        storage, or destroy; in every branch the target ends up showing what
        the source shows, and the source is left as it was. */
    method CopyAssign(other: Optional<T>)
      modifies this
      ensures View() == old(other.View())
      ensures other != this ==> other.View() == old(other.View())
    {
      if hasValue && other.hasValue {
        storage := other.storage;
      } else if other.hasValue {
        Construct(other.storage);
      } else {
        Destroy();
      }
    }

    /** `move_assign(other)`: the same three branches as `copy_assign`. The
        moved-from value keeps its engagement (its contents are whatever
        `T`'s move leaves behind, which this model keeps unchanged). */
    method MoveAssign(other: Optional<T>)
      modifies this
      ensures View() == old(other.View())
      ensures other != this ==> other.hasValue == old(other.hasValue)
    {
      if hasValue && other.hasValue {
        storage := other.storage;
      } else if other.hasValue {
        Construct(other.storage);
      } else {
        Destroy();
      }
    }

    /** `operator=(nullopt)`. */
    method AssignNullopt()
      modifies this
      ensures View() == Empty
    {
      Reset();
    }

    /** `operator=(U&& value)`: assigns when engaged, constructs otherwise;
        either way the optional ends engaged with `v`. */
    method AssignValue(v: T)
      modifies this
      ensures View() == Engaged(v)
    {
      if hasValue {
        storage := v;
      } else {
        Construct(v);
      }
    }

    /** `emplace(args...)`: reset, construct, and hand back the new value. */
    method Emplace(v: T) returns (r: T)
      modifies this
      ensures View() == Engaged(v) && r == v
    {
      Reset();
      Construct(v);
      r := storage;
    }
  }

  /** The free `swap(lhs, rhs)`: swaps the values when both are engaged,
      moves the one value across otherwise, and does nothing when both are
      empty. */
  method Swap<T(0)>(lhs: Optional<T>, rhs: Optional<T>)
    modifies lhs, rhs
    ensures lhs.View() == old(rhs.View()) && rhs.View() == old(lhs.View())
  {
    if lhs.hasValue && rhs.hasValue {
      lhs.storage, rhs.storage := rhs.storage, lhs.storage;
    } else if lhs.hasValue {
      var moved := rhs.Emplace(lhs.storage);
      lhs.Reset();
    } else if rhs.hasValue {
      var moved := lhs.Emplace(rhs.storage);
      rhs.Reset();
    }
  }

  // ----------------------------------------------------------------------
  // Comparison operators, over optionals of a totally ordered value type.
  // Each one is the source's own case analysis; the lemmas below say what
  // the cases add up to.

  /** `operator==`: its three cases add up to equality of what the two
      optionals show. */
  function Eq(lhs: View<int>, rhs: View<int>): (r: bool)
    ensures r <==> lhs == rhs
  {
    if lhs.Engaged? != rhs.Engaged? then false
    else if lhs.Empty? then true
    else lhs.value == rhs.value
  }

  /** `operator!=`, written out with its own cases as in the source. */
  function Ne(lhs: View<int>, rhs: View<int>): (r: bool)
    ensures r <==> !Eq(lhs, rhs)
  {
    if lhs.Engaged? != rhs.Engaged? then true
    else if lhs.Empty? then false
    else lhs.value != rhs.value
  }

  /** `operator<`: only an engaged optional has anything below it, and
      below it are the empty optional and the smaller values. */
  function Lt(lhs: View<int>, rhs: View<int>): (r: bool)
    ensures r ==> rhs.Engaged? && lhs != rhs
    ensures rhs.Engaged? ==> (r <==> lhs.Empty? || lhs.value < rhs.value)
  {
    if rhs.Empty? then false
    else if lhs.Empty? then true
    else lhs.value < rhs.value
  }

  /** `operator<=`. */
  function Le(lhs: View<int>, rhs: View<int>): (r: bool)
    ensures r <==> Lt(lhs, rhs) || Eq(lhs, rhs)
  {
    if lhs.Empty? then true
    else if rhs.Empty? then false
    else lhs.value <= rhs.value
  }

  /** `operator>`. */
  function Gt(lhs: View<int>, rhs: View<int>): (r: bool)
    ensures r <==> Lt(rhs, lhs)
  {
    if lhs.Empty? then false
    else if rhs.Empty? then true
    else lhs.value > rhs.value
  }

  /** `operator>=`. */
  function Ge(lhs: View<int>, rhs: View<int>): (r: bool)
    ensures r <==> Le(rhs, lhs)
    ensures r <==> !Lt(lhs, rhs)
  {
    if rhs.Empty? then true
    else if lhs.Empty? then false
    else lhs.value >= rhs.value
  }

  /** The three-way comparison of two values. */
  function CompareValues(a: int, b: int): Ordering {
    if a < b then Less else if a == b then Equivalent else Greater
  }

  /** The three-way comparison of two engagement flags (`false < true`). */
  function CompareFlags(a: bool, b: bool): Ordering {
    if a == b then Equivalent else if b then Less else Greater
  }

  /** `operator<=>`: the values' comparison when both are engaged, the
      flags' comparison otherwise. It agrees with `<` and `==`. */
  function Compare(lhs: View<int>, rhs: View<int>): (r: Ordering)
    ensures r == Less <==> Lt(lhs, rhs)
    ensures r == Equivalent <==> Eq(lhs, rhs)
    ensures r == Greater <==> Lt(rhs, lhs)
  {
    if lhs.Engaged? && rhs.Engaged? then CompareValues(lhs.value, rhs.value)
    else CompareFlags(lhs.Engaged?, rhs.Engaged?)
  }

  /** An empty optional is below every engaged one, and nothing is below an
      empty one. */
  lemma EmptyIsLeast(v: int)
    ensures Lt(Empty, Engaged(v)) && !Lt(Engaged(v), Empty)
    ensures forall o: View<int> :: !Lt(o, Empty)
    ensures Eq(Empty, Empty) && !Eq(Empty, Engaged(v))
  {
  }

  /** `<` is a strict total order on optionals: irreflexive, transitive, and
      any two distinct optionals are ordered one way or the other. */
  lemma LtIsStrictTotalOrder(a: View<int>, b: View<int>, c: View<int>)
    ensures !Lt(a, a)
    ensures Lt(a, b) && Lt(b, c) ==> Lt(a, c)
    ensures Lt(a, b) || Eq(a, b) || Lt(b, a)
    ensures !(Lt(a, b) && Lt(b, a))
  {
  }
}

=== FILE: rotations.dfy ===
/** The rotations of bimap/src/intrusive_map.h (`zig`, `zig_zig` and
    `zig_zag`) as changes of the pointer maps, and what they do to the tree
    the maps lay out: every rotation keeps the in-order sequence and lifts
    the rotated node. A splay step that rotates twice writes the same maps
    as two single rotations `RotUp`. */
module Rotations {
  import opened ElementBase

  ghost predicate Linked(L: map<int, int>, R: map<int, int>, P: map<int, int>, x: int) {
    x in L && x in R && x in P
  }

  /** The slot of `g` that holds `was` (the right one if it does, the left
      one otherwise) now holds `c`; nothing happens when `g` is null. */
  ghost function SlotTo(L: map<int, int>, R: map<int, int>, g: int, was: int, c: int): (map<int, int>, map<int, int>)
    requires g != Null ==> g in R
  {
    if g == Null then (L, R)
    else if R[g] == was then (L, R[g := c])
    else (L[g := c], R)
  }

  /** `c` has a parent, and its grandparent, if any, is a record. */
  ghost predicate CanRotUp(L: map<int, int>, R: map<int, int>, P: map<int, int>, c: int) {
    Linked(L, R, P, c) && Linked(L, R, P, P[c]) && (P[P[c]] != Null ==> P[P[c]] in R)
  }

  /** One rotation: `c` moves above its parent `p` into `p`'s slot, and the
      child of `c` on `p`'s side becomes `p`'s child. */
  ghost function RotUp(L: map<int, int>, R: map<int, int>, P: map<int, int>, c: int)
    : (map<int, int>, map<int, int>, map<int, int>)
    requires CanRotUp(L, R, P, c)
  {
    var p := P[c];
    var g := P[p];
    var (L1, R1) := SlotTo(L, R, g, p, c);
    var P1 := P[c := g][p := c];
    if L[p] == c then
      var cr := R[c];
      (L1[p := cr], R1[c := p], if cr != Null then P1[cr := p] else P1)
    else
      var cl := L[c];
      (L1[c := p], R1[p := cl], if cl != Null then P1[cl := p] else P1)
  }

  /** The subtree that replaces the parent's subtree when the root of `sub`
      is rotated above the parent at the end of `p`. */
  ghost function Lifted(p: Path, sub: Tree): Tree
    requires !p.Top? && sub.Node?
  {
    match p
    case InLeft(_, x, r) => Node(sub.left, sub.id, Node(sub.right, x, r))
    case InRight(l, x, _) => Node(Node(l, x, sub.left), sub.id, sub.right)
  }

  /** Replacing a subtree by one with the same nodes in the same order,
      already laid out below the same parent, keeps the whole layout. */
  lemma Rewired(L: map<int, int>, R: map<int, int>, P: map<int, int>,
                L2: map<int, int>, R2: map<int, int>, P2: map<int, int>,
                up: Path, o: Tree, n: Tree, top: int)
    requires Rep(L, R, P, Plug(up, o), top) && Proper(Plug(up, o)) && o.Node? && n.Node?
    requires Ids(n) == Ids(o) && InOrder(n) == InOrder(o) && Proper(n)
    requires Rep(L2, R2, P2, n, Above(up, top))
    requires Keep(L, L2, Ids(o) + {Above(up, top)}) && Keep(R, R2, Ids(o) + {Above(up, top)})
    requires Keep(P, P2, Ids(o))
    requires Slot(L, R, P, L2, R2, P2, up, n.id)
    ensures Rep(L2, R2, P2, Plug(up, n), top) && Proper(Plug(up, n))
    ensures InOrder(Plug(up, n)) == InOrder(Plug(up, o)) && Ids(Plug(up, n)) == Ids(Plug(up, o))
  {
    PlugRep(L, R, P, up, o, top);
    PlugProper(up, o);
    PlugProper(up, n);
    PlugIds(up, o);
    PlugIds(up, n);
    PlugInOrder(up, o);
    PlugInOrder(up, n);
    RewiredPath(L, R, P, L2, R2, P2, up, o, n, top);
    PlugRep(L2, R2, P2, up, n, top);
  }

  /** The last node of `up` holds `c` in the slot that held the hole, and
      keeps its other links. */
  ghost predicate Slot(L: map<int, int>, R: map<int, int>, P: map<int, int>,
                       L2: map<int, int>, R2: map<int, int>, P2: map<int, int>, up: Path, c: int)
  {
    !up.Top? ==>
      && Linked(L, R, P, up.id) && Linked(L2, R2, P2, up.id) && P2[up.id] == P[up.id]
      && (up.InLeft? ==> L2[up.id] == c && R2[up.id] == R[up.id])
      && (up.InRight? ==> R2[up.id] == c && L2[up.id] == L[up.id])
  }

  lemma RewiredPath(L: map<int, int>, R: map<int, int>, P: map<int, int>,
                    L2: map<int, int>, R2: map<int, int>, P2: map<int, int>,
                    up: Path, o: Tree, n: Tree, top: int)
    requires o.Node? && n.Node? && PathRep(L, R, P, up, o.id, top) && PathProper(up) && PathIds(up) !! Ids(o)
    requires Keep(L, L2, Ids(o) + {Above(up, top)}) && Keep(R, R2, Ids(o) + {Above(up, top)})
    requires Keep(P, P2, Ids(o))
    requires Slot(L, R, P, L2, R2, P2, up, n.id)
    ensures PathRep(L2, R2, P2, up, n.id, top)
  {
    var g := Above(up, top);
    var s := PathIds(up) - {g};
    AgreeSub(L, L2, Ids(o) + {g}, s);
    AgreeSub(R, R2, Ids(o) + {g}, s);
    AgreeSub(P, P2, Ids(o), s);
    PathRepMove(L, R, P, L2, R2, P2, up, o.id, n.id, top);
  }

  /** The record `y` points to, if any. */
  function Kin(y: int): (r: set<int>)
    ensures y in r <==> y != Null
    ensures |r| <= 1
  {
    if y == Null then {} else {y}
  }

  /** What a rotation of a left child `c` of `x` changes, record by record. */
  lemma RotUpLeftFrame(L: map<int, int>, R: map<int, int>, P: map<int, int>, c: int, x: int, g: int)
    requires Linked(L, R, P, c) && Linked(L, R, P, x) && P[c] == x && P[x] == g && L[x] == c
    requires g != Null ==> Linked(L, R, P, g)
    requires c != x && g != c && g != x
    requires R[c] != c && R[c] != x && (R[c] != g || g == Null) && (R[c] != Null ==> R[c] in P)
    ensures var (L2, R2, P2) := RotUp(L, R, P, c); var cr := R[c];
      && Linked(L2, R2, P2, c) && Linked(L2, R2, P2, x)
      && L2[x] == cr && R2[x] == R[x] && P2[x] == c
      && L2[c] == L[c] && R2[c] == x && P2[c] == g
      && (cr != Null ==> cr in P2 && P2[cr] == x)
      && (g != Null ==>
            Linked(L2, R2, P2, g) && P2[g] == P[g]
            && (R[g] == x ==> R2[g] == c && L2[g] == L[g])
            && (R[g] != x ==> L2[g] == c && R2[g] == R[g]))
      && Keep(L, L2, {x, g}) && Keep(R, R2, {c, g}) && Keep(P, P2, {c, x} + Kin(cr))
  {
  }

  /** What a rotation of a right child `c` of `x` changes, record by record. */
  lemma RotUpRightFrame(L: map<int, int>, R: map<int, int>, P: map<int, int>, c: int, x: int, g: int)
    requires Linked(L, R, P, c) && Linked(L, R, P, x) && P[c] == x && P[x] == g && L[x] != c
    requires g != Null ==> Linked(L, R, P, g)
    requires c != x && g != c && g != x
    requires L[c] != c && L[c] != x && (L[c] != g || g == Null) && (L[c] != Null ==> L[c] in P)
    ensures var (L2, R2, P2) := RotUp(L, R, P, c); var cl := L[c];
      && Linked(L2, R2, P2, c) && Linked(L2, R2, P2, x)
      && R2[x] == cl && L2[x] == L[x] && P2[x] == c
      && R2[c] == R[c] && L2[c] == x && P2[c] == g
      && (cl != Null ==> cl in P2 && P2[cl] == x)
      && (g != Null ==>
            Linked(L2, R2, P2, g) && P2[g] == P[g]
            && (R[g] == x ==> R2[g] == c && L2[g] == L[g])
            && (R[g] != x ==> L2[g] == c && R2[g] == R[g]))
      && Keep(L, L2, {c, g}) && Keep(R, R2, {x, g}) && Keep(P, P2, {c, x} + Kin(cl))
  {
  }

  /** The new maps lay out `n` in place of `o` below the same parent `g`,
      with the same nodes in the same order; only the records of `o` and
      the slot of `g` that held `x` (now `c`) have changed. */
  ghost predicate Lifts(L: map<int, int>, R: map<int, int>, P: map<int, int>,
                        L2: map<int, int>, R2: map<int, int>, P2: map<int, int>,
                        o: Tree, n: Tree, g: int, x: int, c: int)
  {
    && Rep(L2, R2, P2, n, g) && Proper(n) && Ids(n) == Ids(o) && InOrder(n) == InOrder(o)
    && Keep(L, L2, Ids(o) + {g}) && Keep(R, R2, Ids(o) + {g}) && Keep(P, P2, Ids(o))
    && (g != Null ==>
          Linked(L, R, P, g) && Linked(L2, R2, P2, g) && P2[g] == P[g]
          && (R[g] == x ==> R2[g] == c && L2[g] == L[g])
          && (R[g] != x ==> L2[g] == c && R2[g] == R[g]))
  }

  /** A rotation keeps the nodes and their order. */
  lemma RotatedTree(a: Tree, c: int, b: Tree, x: int, r: Tree)
    ensures Ids(Node(Node(a, c, b), x, r)) == Ids(Node(a, c, Node(b, x, r)))
    ensures InOrder(Node(Node(a, c, b), x, r)) == InOrder(Node(a, c, Node(b, x, r)))
  {
    assert InOrder(Node(Node(a, c, b), x, r)) == InOrder(a) + [c] + InOrder(b) + [x] + InOrder(r);
  }

  /** A right rotation keeps the nodes distinct. */
  lemma RotatedRight(a: Tree, c: int, b: Tree, x: int, r: Tree)
    requires Proper(Node(Node(a, c, b), x, r))
    ensures Proper(Node(a, c, Node(b, x, r)))
  {
    RotatedTree(a, c, b, x, r);
  }

  /** A left rotation keeps the nodes distinct. */
  lemma RotatedLeft(a: Tree, c: int, b: Tree, x: int, r: Tree)
    requires Proper(Node(a, c, Node(b, x, r)))
    ensures Proper(Node(Node(a, c, b), x, r))
  {
    RotatedTree(a, c, b, x, r);
  }

  /** Keeping the records outside a small set keeps those outside a larger one. */
  lemma KeepMore(M: map<int, int>, M2: map<int, int>, ex: set<int>, ex2: set<int>)
    requires Keep(M, M2, ex) && ex <= ex2
    ensures Keep(M, M2, ex2)
  {
  }

  /** After rotating the left child `c` of `x`: `x` hangs right of `c`
      and takes `c`'s former right subtree as its left one. */
  lemma RotUpLeftSub(L: map<int, int>, R: map<int, int>, P: map<int, int>,
                     L2: map<int, int>, R2: map<int, int>, P2: map<int, int>,
                     a: Tree, c: int, b: Tree, x: int, r: Tree, g: int)
    requires Rep(L, R, P, Node(Node(a, c, b), x, r), g) && Proper(Node(Node(a, c, b), x, r))
    requires g !in Ids(Node(Node(a, c, b), x, r))
    requires Linked(L2, R2, P2, c) && Linked(L2, R2, P2, x)
    requires L2[x] == Root(b) && R2[x] == Root(r) && P2[x] == c
    requires L2[c] == Root(a) && R2[c] == x && P2[c] == g
    requires b.Node? ==> b.id in P2 && P2[b.id] == x
    requires Keep(L, L2, {x, g}) && Keep(R, R2, {c, g}) && Keep(P, P2, {c, x, Root(b)})
    ensures Rep(L2, R2, P2, Node(a, c, Node(b, x, r)), g)
  {
    ProperNoNull(a);
    ProperNoNull(b);
    ProperNoNull(r);
    AgreeSub(L, L2, {x, g}, Ids(a) + Ids(b) + Ids(r));
    AgreeSub(R, R2, {c, g}, Ids(a) + Ids(b) + Ids(r));
    AgreeSub(P, P2, {c, x, Root(b)}, Ids(a) + (Ids(b) - {Root(b)}) + Ids(r));
    RepMove(L, R, P, L2, R2, P2, a, c, c);
    RepMove(L, R, P, L2, R2, P2, b, c, x);
    RepMove(L, R, P, L2, R2, P2, r, x, x);
  }

  /** After rotating the right child `c` of `x`: `x` hangs left of `c`
      and takes `c`'s former left subtree as its right one. */
  lemma RotUpRightSub(L: map<int, int>, R: map<int, int>, P: map<int, int>,
                      L2: map<int, int>, R2: map<int, int>, P2: map<int, int>,
                      l: Tree, x: int, b: Tree, c: int, d: Tree, g: int)
    requires Rep(L, R, P, Node(l, x, Node(b, c, d)), g) && Proper(Node(l, x, Node(b, c, d)))
    requires g !in Ids(Node(l, x, Node(b, c, d)))
    requires Linked(L2, R2, P2, c) && Linked(L2, R2, P2, x)
    requires R2[x] == Root(b) && L2[x] == Root(l) && P2[x] == c
    requires R2[c] == Root(d) && L2[c] == x && P2[c] == g
    requires b.Node? ==> b.id in P2 && P2[b.id] == x
    requires Keep(L, L2, {c, g}) && Keep(R, R2, {x, g}) && Keep(P, P2, {c, x, Root(b)})
    ensures Rep(L2, R2, P2, Node(Node(l, x, b), c, d), g)
  {
    ProperNoNull(l);
    ProperNoNull(b);
    ProperNoNull(d);
    AgreeSub(L, L2, {c, g}, Ids(l) + Ids(b) + Ids(d));
    AgreeSub(R, R2, {x, g}, Ids(l) + Ids(b) + Ids(d));
    AgreeSub(P, P2, {c, x, Root(b)}, Ids(l) + (Ids(b) - {Root(b)}) + Ids(d));
    RepMove(L, R, P, L2, R2, P2, l, x, x);
    RepMove(L, R, P, L2, R2, P2, b, c, x);
    RepMove(L, R, P, L2, R2, P2, d, c, c);
  }

  /** Rotating the left child `c` of `x` to the right. */
  lemma RotUpLeft(L: map<int, int>, R: map<int, int>, P: map<int, int>,
                  a: Tree, c: int, b: Tree, x: int, r: Tree, g: int)
    requires Rep(L, R, P, Node(Node(a, c, b), x, r), g) && Proper(Node(Node(a, c, b), x, r))
    requires g !in Ids(Node(Node(a, c, b), x, r)) && (g != Null ==> Linked(L, R, P, g))
    ensures Linked(L, R, P, c) && Linked(L, R, P, x) && P[c] == x && P[x] == g && L[x] == c
    ensures Lifts(L, R, P, RotUp(L, R, P, c).0, RotUp(L, R, P, c).1, RotUp(L, R, P, c).2,
                  Node(Node(a, c, b), x, r), Node(a, c, Node(b, x, r)), g, x, c)
  {
    ProperNoNull(Node(Node(a, c, b), x, r));
    assert Rep(L, R, P, Node(a, c, b), x) && Rep(L, R, P, b, c);
    RotUpLeftFrame(L, R, P, c, x, g);
    var (L2, R2, P2) := RotUp(L, R, P, c);
    KeepMore(P, P2, {c, x} + Kin(R[c]), {c, x, R[c]});
    RotUpLeftSub(L, R, P, L2, R2, P2, a, c, b, x, r, g);
    RotatedTree(a, c, b, x, r);
    RotatedRight(a, c, b, x, r);
    KeepMore(L, L2, {x, g}, Ids(Node(Node(a, c, b), x, r)) + {g});
    KeepMore(R, R2, {c, g}, Ids(Node(Node(a, c, b), x, r)) + {g});
    KeepMore(P, P2, {c, x} + Kin(R[c]), Ids(Node(Node(a, c, b), x, r)));
  }

  /** Rotating the right child `c` of `x` to the left. */
  lemma RotUpRight(L: map<int, int>, R: map<int, int>, P: map<int, int>,
                   l: Tree, x: int, b: Tree, c: int, d: Tree, g: int)
    requires Rep(L, R, P, Node(l, x, Node(b, c, d)), g) && Proper(Node(l, x, Node(b, c, d)))
    requires g !in Ids(Node(l, x, Node(b, c, d))) && (g != Null ==> Linked(L, R, P, g))
    ensures Linked(L, R, P, c) && Linked(L, R, P, x) && P[c] == x && P[x] == g && L[x] != c
    ensures Lifts(L, R, P, RotUp(L, R, P, c).0, RotUp(L, R, P, c).1, RotUp(L, R, P, c).2,
                  Node(l, x, Node(b, c, d)), Node(Node(l, x, b), c, d), g, x, c)
  {
    ProperNoNull(Node(l, x, Node(b, c, d)));
    assert Rep(L, R, P, Node(b, c, d), x) && Rep(L, R, P, b, c);
    RotUpRightFrame(L, R, P, c, x, g);
    var (L2, R2, P2) := RotUp(L, R, P, c);
    KeepMore(P, P2, {c, x} + Kin(L[c]), {c, x, L[c]});
    RotUpRightSub(L, R, P, L2, R2, P2, l, x, b, c, d, g);
    RotatedTree(l, x, b, c, d);
    RotatedLeft(l, x, b, c, d);
    KeepMore(L, L2, {c, g}, Ids(Node(l, x, Node(b, c, d))) + {g});
    KeepMore(R, R2, {x, g}, Ids(Node(l, x, Node(b, c, d))) + {g});
    KeepMore(P, P2, {c, x} + Kin(L[c]), Ids(Node(l, x, Node(b, c, d))));
  }

  /** `t2` is laid out by the new maps, with the nodes of `t` in the same
      order, and no record outside `t` has changed. */
  ghost predicate Laid(L: map<int, int>, R: map<int, int>, P: map<int, int>,
                       L2: map<int, int>, R2: map<int, int>, P2: map<int, int>, t: Tree, t2: Tree)
  {
    && Rep(L2, R2, P2, t2, Null) && Proper(t2) && InOrder(t2) == InOrder(t) && Ids(t2) == Ids(t)
    && Keep(L, L2, Ids(t) + {Null}) && Keep(R, R2, Ids(t) + {Null}) && Keep(P, P2, Ids(t) + {Null})
  }

  /** A rotation at the end of `p`, in a tree whose root has no parent,
      lifts the rotated node and keeps the in-order sequence. */
  lemma RotUpAt(L: map<int, int>, R: map<int, int>, P: map<int, int>, p: Path, sub: Tree)
    requires sub.Node? && !p.Top? && Rep(L, R, P, Plug(p, sub), Null) && Proper(Plug(p, sub))
    ensures Linked(L, R, P, sub.id) && P[sub.id] == p.id && Linked(L, R, P, p.id)
    ensures P[p.id] == Above(p.up, Null) && (P[p.id] != Null ==> Linked(L, R, P, P[p.id]))
    ensures L[p.id] == sub.id <==> p.InLeft?
    ensures Laid(L, R, P, RotUp(L, R, P, sub.id).0, RotUp(L, R, P, sub.id).1, RotUp(L, R, P, sub.id).2,
                 Plug(p, sub), Plug(p.up, Lifted(p, sub)))
  {
    var t := Plug(p, sub);
    var c, x, up := sub.id, p.id, p.up;
    var g := Above(up, Null);
    var o := if p.InLeft? then Node(sub, x, p.other) else Node(p.other, x, sub);
    assert Plug(up, o) == t;
    Links(L, R, P, up, o, Null);
    PlugIds(up, o);
    ProperNoNull(t);
    if p.InLeft? {
      RotUpLeft(L, R, P, sub.left, c, sub.right, x, p.other, g);
    } else {
      RotUpRight(L, R, P, p.other, x, sub.left, c, sub.right, g);
    }
    var (L2, R2, P2) := RotUp(L, R, P, c);
    Rewired(L, R, P, L2, R2, P2, up, o, Lifted(p, sub), Null);
  }

  // ---------------------------------------------------------------------
  // The rotations as the source writes them

  /** The maps after `zig(c)`: `c` moves above its parent, and ends with a
      null parent (`zig` is only used below a detached root). */
  ghost function ZigLinks(L: map<int, int>, R: map<int, int>, P: map<int, int>, c: int)
    : (map<int, int>, map<int, int>, map<int, int>)
    requires Linked(L, R, P, c) && Linked(L, R, P, P[c])
  {
    var p := P[c];
    if L[p] == c then
      var cr := R[c];
      var R1 := R[c := p];
      var P1 := P[p := c];
      var L1 := L[p := cr];
      var P2 := if cr != Null then P1[cr := p] else P1;
      (L1, R1, P2[c := Null])
    else
      var cl := L[c];
      var L1 := L[c := p];
      var P1 := P[p := c];
      var R1 := R[p := cl];
      var P2 := if cl != Null then P1[cl := p] else P1;
      (L1, R1, P2[c := Null])
  }

  /** `c` has a parent and a grandparent, and the grandparent's parent, if
      any, is a record. */
  ghost predicate CanRotTwice(L: map<int, int>, R: map<int, int>, P: map<int, int>, c: int) {
    Linked(L, R, P, c) && Linked(L, R, P, P[c]) && CanRotUp(L, R, P, P[c])
  }

  /** The maps after `zig_zig(c)`: the grandparent's branch is taken for
      two left links, the other branch for two right links. */
  ghost function ZigZigLinks(L: map<int, int>, R: map<int, int>, P: map<int, int>, c: int)
    : (map<int, int>, map<int, int>, map<int, int>)
    requires CanRotTwice(L, R, P, c)
  {
    var p := P[c];
    var g := P[p];
    var gg := P[g];
    if L[g] == p && L[p] == c then
      var cr, pc := R[c], R[p];
      var P1 := P[c := gg];
      var (L1, R1) := SlotTo(L, R, gg, g, c);
      var P2 := P1[g := p];
      var R2 := R1[p := g];
      var P3 := P2[p := c];
      var R3 := R2[c := p];
      var L2 := L1[p := cr];
      var L3 := L2[g := pc];
      var P4 := if cr != Null then P3[cr := p] else P3;
      (L3, R3, if pc != Null then P4[pc := g] else P4)
    else
      var cp, cl := L[p], L[c];
      var P1 := P[c := gg];
      var (L1, R1) := SlotTo(L, R, gg, g, c);
      var P2 := P1[g := p];
      var L2 := L1[p := g];
      var P3 := P2[p := c];
      var L3 := L2[c := p];
      var R2 := R1[p := cl];
      var R3 := R2[g := cp];
      var P4 := if cp != Null then P3[cp := g] else P3;
      (L3, R3, if cl != Null then P4[cl := p] else P4)
  }

  /** The maps after `zig_zag(c)`: the first branch for a right child of a
      left child, the other for a left child of a right child. */
  ghost function ZigZagLinks(L: map<int, int>, R: map<int, int>, P: map<int, int>, c: int)
    : (map<int, int>, map<int, int>, map<int, int>)
    requires CanRotTwice(L, R, P, c)
  {
    var p := P[c];
    var g := P[p];
    var gg := P[g];
    var cl, cr := L[c], R[c];
    var P1 := P[c := gg];
    var (L1, R1) := SlotTo(L, R, gg, g, c);
    if L[g] == p && R[p] == c then
      var R2 := R1[c := g];
      var L2 := L1[c := p];
      var P2 := P1[g := c];
      var P3 := P2[p := c];
      var R3 := R2[p := cl];
      var L3 := L2[g := cr];
      var P4 := if cl != Null then P3[cl := p] else P3;
      (L3, R3, if cr != Null then P4[cr := g] else P4)
    else
      var L2 := L1[c := g];
      var R2 := R1[c := p];
      var P2 := P1[g := c];
      var P3 := P2[p := c];
      var R3 := R2[g := cl];
      var L3 := L2[p := cr];
      var P4 := if cl != Null then P3[cl := g] else P3;
      (L3, R3, if cr != Null then P4[cr := p] else P4)
  }

  /** `c`, its parent `p`, grandparent `g` and great-grandparent `gg`
      (possibly null) are distinct records linked upwards. */
  ghost predicate Chain(L: map<int, int>, R: map<int, int>, P: map<int, int>, c: int, p: int, g: int, gg: int) {
    && Linked(L, R, P, c) && Linked(L, R, P, p) && Linked(L, R, P, g)
    && P[c] == p && P[p] == g && P[g] == gg
    && c != p && c != g && p != g && gg != c && gg != p && gg != g && c != Null && p != Null && g != Null
    && (gg != Null ==> Linked(L, R, P, gg) && R[gg] != p && R[gg] != c)
  }

  /** A child pointer `y` that is null or a record apart from the chain. */
  ghost predicate Loose(P: map<int, int>, y: int, c: int, p: int, g: int, gg: int) {
    y != c && y != p && y != g && (y != gg || y == Null) && (y != Null ==> y in P)
  }

  /** `zig` below a parentless parent is one rotation. */
  lemma ZigOnce(L: map<int, int>, R: map<int, int>, P: map<int, int>, c: int)
    requires Linked(L, R, P, c) && Linked(L, R, P, P[c]) && P[P[c]] == Null && c != P[c]
    requires R[c] != c && R[c] != P[c] && (R[c] != Null ==> R[c] in P)
    requires L[c] != c && L[c] != P[c] && (L[c] != Null ==> L[c] in P)
    ensures CanRotUp(L, R, P, c) && ZigLinks(L, R, P, c) == RotUp(L, R, P, c)
  {
    var z := ZigLinks(L, R, P, c);
    var r := RotUp(L, R, P, c);
    assert z.0 == r.0;
    assert z.1 == r.1;
    assert z.2 == r.2;
  }

  /** `zig_zig` on two left links is two rotations: the parent's, then the child's. */
  lemma ZigZigLeftTwice(L: map<int, int>, R: map<int, int>, P: map<int, int>,
                        L1: map<int, int>, R1: map<int, int>, P1: map<int, int>, c: int, p: int, g: int, gg: int)
    requires Chain(L, R, P, c, p, g, gg) && L[g] == p && L[p] == c
    requires Loose(P, R[c], c, p, g, gg) && Loose(P, R[p], c, p, g, gg) && (R[c] != R[p] || R[c] == Null)
    requires CanRotUp(L, R, P, p) && (L1, R1, P1) == RotUp(L, R, P, p) && CanRotUp(L1, R1, P1, c)
    ensures CanRotTwice(L, R, P, c) && ZigZigLinks(L, R, P, c) == RotUp(L1, R1, P1, c)
  {
    ZigZigLeftLefts(L, R, P, L1, R1, P1, c, p, g, gg);
    ZigZigLeftRights(L, R, P, L1, R1, P1, c, p, g, gg);
    ZigZigLeftParents(L, R, P, L1, R1, P1, c, p, g, gg);
  }

  lemma ZigZigLeftLefts(L: map<int, int>, R: map<int, int>, P: map<int, int>,
                        L1: map<int, int>, R1: map<int, int>, P1: map<int, int>, c: int, p: int, g: int, gg: int)
    requires Chain(L, R, P, c, p, g, gg) && L[g] == p && L[p] == c
    requires Loose(P, R[c], c, p, g, gg) && Loose(P, R[p], c, p, g, gg) && (R[c] != R[p] || R[c] == Null)
    requires CanRotUp(L, R, P, p) && (L1, R1, P1) == RotUp(L, R, P, p) && CanRotUp(L1, R1, P1, c)
    ensures CanRotTwice(L, R, P, c) && ZigZigLinks(L, R, P, c).0 == RotUp(L1, R1, P1, c).0
  {
  }

  lemma ZigZigLeftRights(L: map<int, int>, R: map<int, int>, P: map<int, int>,
                         L1: map<int, int>, R1: map<int, int>, P1: map<int, int>, c: int, p: int, g: int, gg: int)
    requires Chain(L, R, P, c, p, g, gg) && L[g] == p && L[p] == c
    requires Loose(P, R[c], c, p, g, gg) && Loose(P, R[p], c, p, g, gg) && (R[c] != R[p] || R[c] == Null)
    requires CanRotUp(L, R, P, p) && (L1, R1, P1) == RotUp(L, R, P, p) && CanRotUp(L1, R1, P1, c)
    ensures CanRotTwice(L, R, P, c) && ZigZigLinks(L, R, P, c).1 == RotUp(L1, R1, P1, c).1
  {
  }

  lemma ZigZigLeftParents(L: map<int, int>, R: map<int, int>, P: map<int, int>,
                           L1: map<int, int>, R1: map<int, int>, P1: map<int, int>, c: int, p: int, g: int, gg: int)
    requires Chain(L, R, P, c, p, g, gg) && L[g] == p && L[p] == c
    requires Loose(P, R[c], c, p, g, gg) && Loose(P, R[p], c, p, g, gg) && (R[c] != R[p] || R[c] == Null)
    requires CanRotUp(L, R, P, p) && (L1, R1, P1) == RotUp(L, R, P, p) && CanRotUp(L1, R1, P1, c)
    ensures CanRotTwice(L, R, P, c) && ZigZigLinks(L, R, P, c).2 == RotUp(L1, R1, P1, c).2
  {
  }

  /** `zig_zig` on two right links is two rotations: the parent's, then the child's. */
  lemma ZigZigRightTwice(L: map<int, int>, R: map<int, int>, P: map<int, int>,
                         L1: map<int, int>, R1: map<int, int>, P1: map<int, int>, c: int, p: int, g: int, gg: int)
    requires Chain(L, R, P, c, p, g, gg) && R[g] == p && R[p] == c && L[g] != p && L[p] != c
    requires Loose(P, L[c], c, p, g, gg) && Loose(P, L[p], c, p, g, gg) && (L[c] != L[p] || L[c] == Null)
    requires CanRotUp(L, R, P, p) && (L1, R1, P1) == RotUp(L, R, P, p) && CanRotUp(L1, R1, P1, c)
    ensures CanRotTwice(L, R, P, c) && ZigZigLinks(L, R, P, c) == RotUp(L1, R1, P1, c)
  {
    ZigZigRightLefts(L, R, P, L1, R1, P1, c, p, g, gg);
    ZigZigRightRights(L, R, P, L1, R1, P1, c, p, g, gg);
    ZigZigRightParents(L, R, P, L1, R1, P1, c, p, g, gg);
  }

  lemma ZigZigRightLefts(L: map<int, int>, R: map<int, int>, P: map<int, int>,
                          L1: map<int, int>, R1: map<int, int>, P1: map<int, int>, c: int, p: int, g: int, gg: int)
    requires Chain(L, R, P, c, p, g, gg) && R[g] == p && R[p] == c && L[g] != p && L[p] != c
    requires Loose(P, L[c], c, p, g, gg) && Loose(P, L[p], c, p, g, gg) && (L[c] != L[p] || L[c] == Null)
    requires CanRotUp(L, R, P, p) && (L1, R1, P1) == RotUp(L, R, P, p) && CanRotUp(L1, R1, P1, c)
    ensures CanRotTwice(L, R, P, c) && ZigZigLinks(L, R, P, c).0 == RotUp(L1, R1, P1, c).0
  {
  }

  lemma ZigZigRightRights(L: map<int, int>, R: map<int, int>, P: map<int, int>,
                            L1: map<int, int>, R1: map<int, int>, P1: map<int, int>, c: int, p: int, g: int, gg: int)
    requires Chain(L, R, P, c, p, g, gg) && R[g] == p && R[p] == c && L[g] != p && L[p] != c
    requires Loose(P, L[c], c, p, g, gg) && Loose(P, L[p], c, p, g, gg) && (L[c] != L[p] || L[c] == Null)
    requires CanRotUp(L, R, P, p) && (L1, R1, P1) == RotUp(L, R, P, p) && CanRotUp(L1, R1, P1, c)
    ensures CanRotTwice(L, R, P, c) && ZigZigLinks(L, R, P, c).1 == RotUp(L1, R1, P1, c).1
  {
  }

  lemma ZigZigRightParents(L: map<int, int>, R: map<int, int>, P: map<int, int>,
                              L1: map<int, int>, R1: map<int, int>, P1: map<int, int>, c: int, p: int, g: int, gg: int)
    requires Chain(L, R, P, c, p, g, gg) && R[g] == p && R[p] == c && L[g] != p && L[p] != c
    requires Loose(P, L[c], c, p, g, gg) && Loose(P, L[p], c, p, g, gg) && (L[c] != L[p] || L[c] == Null)
    requires CanRotUp(L, R, P, p) && (L1, R1, P1) == RotUp(L, R, P, p) && CanRotUp(L1, R1, P1, c)
    ensures CanRotTwice(L, R, P, c) && ZigZigLinks(L, R, P, c).2 == RotUp(L1, R1, P1, c).2
  {
  }

  /** `zig_zag` on a right child of a left child is the child's rotation, twice. */
  lemma ZigZagLeftTwice(L: map<int, int>, R: map<int, int>, P: map<int, int>,
                        L1: map<int, int>, R1: map<int, int>, P1: map<int, int>, c: int, p: int, g: int, gg: int)
    requires Chain(L, R, P, c, p, g, gg) && L[g] == p && R[g] != p && R[p] == c && L[p] != c
    requires Loose(P, L[c], c, p, g, gg) && Loose(P, R[c], c, p, g, gg) && (L[c] != R[c] || L[c] == Null)
    requires CanRotUp(L, R, P, c) && (L1, R1, P1) == RotUp(L, R, P, c) && CanRotUp(L1, R1, P1, c)
    ensures CanRotTwice(L, R, P, c) && ZigZagLinks(L, R, P, c) == RotUp(L1, R1, P1, c)
  {
    ZigZagLeftLefts(L, R, P, L1, R1, P1, c, p, g, gg);
    ZigZagLeftRights(L, R, P, L1, R1, P1, c, p, g, gg);
    ZigZagLeftParents(L, R, P, L1, R1, P1, c, p, g, gg);
  }

  lemma ZigZagLeftLefts(L: map<int, int>, R: map<int, int>, P: map<int, int>,
                        L1: map<int, int>, R1: map<int, int>, P1: map<int, int>, c: int, p: int, g: int, gg: int)
    requires Chain(L, R, P, c, p, g, gg) && L[g] == p && R[g] != p && R[p] == c && L[p] != c
    requires Loose(P, L[c], c, p, g, gg) && Loose(P, R[c], c, p, g, gg) && (L[c] != R[c] || L[c] == Null)
    requires CanRotUp(L, R, P, c) && (L1, R1, P1) == RotUp(L, R, P, c) && CanRotUp(L1, R1, P1, c)
    ensures CanRotTwice(L, R, P, c) && ZigZagLinks(L, R, P, c).0 == RotUp(L1, R1, P1, c).0
  {
  }

  lemma ZigZagLeftRights(L: map<int, int>, R: map<int, int>, P: map<int, int>,
                         L1: map<int, int>, R1: map<int, int>, P1: map<int, int>, c: int, p: int, g: int, gg: int)
    requires Chain(L, R, P, c, p, g, gg) && L[g] == p && R[g] != p && R[p] == c && L[p] != c
    requires Loose(P, L[c], c, p, g, gg) && Loose(P, R[c], c, p, g, gg) && (L[c] != R[c] || L[c] == Null)
    requires CanRotUp(L, R, P, c) && (L1, R1, P1) == RotUp(L, R, P, c) && CanRotUp(L1, R1, P1, c)
    ensures CanRotTwice(L, R, P, c) && ZigZagLinks(L, R, P, c).1 == RotUp(L1, R1, P1, c).1
  {
  }

  lemma ZigZagLeftParents(L: map<int, int>, R: map<int, int>, P: map<int, int>,
                           L1: map<int, int>, R1: map<int, int>, P1: map<int, int>, c: int, p: int, g: int, gg: int)
    requires Chain(L, R, P, c, p, g, gg) && L[g] == p && R[g] != p && R[p] == c && L[p] != c
    requires Loose(P, L[c], c, p, g, gg) && Loose(P, R[c], c, p, g, gg) && (L[c] != R[c] || L[c] == Null)
    requires CanRotUp(L, R, P, c) && (L1, R1, P1) == RotUp(L, R, P, c) && CanRotUp(L1, R1, P1, c)
    ensures CanRotTwice(L, R, P, c) && ZigZagLinks(L, R, P, c).2 == RotUp(L1, R1, P1, c).2
  {
  }

  /** `zig_zag` on a left child of a right child is the child's rotation, twice. */
  lemma ZigZagRightTwice(L: map<int, int>, R: map<int, int>, P: map<int, int>,
                         L1: map<int, int>, R1: map<int, int>, P1: map<int, int>, c: int, p: int, g: int, gg: int)
    requires Chain(L, R, P, c, p, g, gg) && R[g] == p && L[g] != p && L[g] != c && L[p] == c
    requires Loose(P, L[c], c, p, g, gg) && Loose(P, R[c], c, p, g, gg) && (L[c] != R[c] || L[c] == Null)
    requires CanRotUp(L, R, P, c) && (L1, R1, P1) == RotUp(L, R, P, c) && CanRotUp(L1, R1, P1, c)
    ensures CanRotTwice(L, R, P, c) && ZigZagLinks(L, R, P, c) == RotUp(L1, R1, P1, c)
  {
    ZigZagRightLefts(L, R, P, L1, R1, P1, c, p, g, gg);
    ZigZagRightRights(L, R, P, L1, R1, P1, c, p, g, gg);
    ZigZagRightParents(L, R, P, L1, R1, P1, c, p, g, gg);
  }

  lemma ZigZagRightLefts(L: map<int, int>, R: map<int, int>, P: map<int, int>,
                          L1: map<int, int>, R1: map<int, int>, P1: map<int, int>, c: int, p: int, g: int, gg: int)
    requires Chain(L, R, P, c, p, g, gg) && R[g] == p && L[g] != p && L[g] != c && L[p] == c
    requires Loose(P, L[c], c, p, g, gg) && Loose(P, R[c], c, p, g, gg) && (L[c] != R[c] || L[c] == Null)
    requires CanRotUp(L, R, P, c) && (L1, R1, P1) == RotUp(L, R, P, c) && CanRotUp(L1, R1, P1, c)
    ensures CanRotTwice(L, R, P, c) && ZigZagLinks(L, R, P, c).0 == RotUp(L1, R1, P1, c).0
  {
  }

  lemma ZigZagRightRights(L: map<int, int>, R: map<int, int>, P: map<int, int>,
                            L1: map<int, int>, R1: map<int, int>, P1: map<int, int>, c: int, p: int, g: int, gg: int)
    requires Chain(L, R, P, c, p, g, gg) && R[g] == p && L[g] != p && L[g] != c && L[p] == c
    requires Loose(P, L[c], c, p, g, gg) && Loose(P, R[c], c, p, g, gg) && (L[c] != R[c] || L[c] == Null)
    requires CanRotUp(L, R, P, c) && (L1, R1, P1) == RotUp(L, R, P, c) && CanRotUp(L1, R1, P1, c)
    ensures CanRotTwice(L, R, P, c) && ZigZagLinks(L, R, P, c).1 == RotUp(L1, R1, P1, c).1
  {
  }

  lemma ZigZagRightParents(L: map<int, int>, R: map<int, int>, P: map<int, int>,
                              L1: map<int, int>, R1: map<int, int>, P1: map<int, int>, c: int, p: int, g: int, gg: int)
    requires Chain(L, R, P, c, p, g, gg) && R[g] == p && L[g] != p && L[g] != c && L[p] == c
    requires Loose(P, L[c], c, p, g, gg) && Loose(P, R[c], c, p, g, gg) && (L[c] != R[c] || L[c] == Null)
    requires CanRotUp(L, R, P, c) && (L1, R1, P1) == RotUp(L, R, P, c) && CanRotUp(L1, R1, P1, c)
    ensures CanRotTwice(L, R, P, c) && ZigZagLinks(L, R, P, c).2 == RotUp(L1, R1, P1, c).2
  {
  }


  // ---------------------------------------------------------------------
  // The splay steps on the tree

  lemma LaidTrans(L: map<int, int>, R: map<int, int>, P: map<int, int>,
                  L1: map<int, int>, R1: map<int, int>, P1: map<int, int>,
                  L2: map<int, int>, R2: map<int, int>, P2: map<int, int>, t: Tree, t1: Tree, t2: Tree)
    requires Laid(L, R, P, L1, R1, P1, t, t1) && Laid(L1, R1, P1, L2, R2, P2, t1, t2)
    ensures Laid(L, R, P, L2, R2, P2, t, t2)
  {
  }

  /** Around the subtree `G` of a grandparent: its parent `gg` lies outside
      it, and `gg`'s right child is `G`'s root or outside `G`. */
  lemma Grand(L: map<int, int>, R: map<int, int>, P: map<int, int>, up: Path, G: Tree)
    requires G.Node? && Rep(L, R, P, Plug(up, G), Null) && Proper(Plug(up, G))
    ensures Rep(L, R, P, G, Above(up, Null)) && Proper(G) && Above(up, Null) !in Ids(G) && Null !in Ids(G)
    ensures Above(up, Null) != Null ==>
      Linked(L, R, P, Above(up, Null)) && (R[Above(up, Null)] == G.id || R[Above(up, Null)] !in Ids(G))
  {
    Links(L, R, P, up, G, Null);
    PlugIds(up, G);
    ProperNoNull(Plug(up, G));
    if up.InLeft? {
      ProperNoNull(up.other);
    }
  }

  /** `zig` on a child of the root lifts it to the root. */
  lemma ZigStep(L: map<int, int>, R: map<int, int>, P: map<int, int>, p: Path, sub: Tree)
    requires sub.Node? && !p.Top? && p.up.Top? && Rep(L, R, P, Plug(p, sub), Null) && Proper(Plug(p, sub))
    ensures Linked(L, R, P, sub.id) && P[sub.id] == p.id && Linked(L, R, P, p.id) && P[p.id] == Null
    ensures Laid(L, R, P, ZigLinks(L, R, P, sub.id).0, ZigLinks(L, R, P, sub.id).1, ZigLinks(L, R, P, sub.id).2,
                 Plug(p, sub), Lifted(p, sub))
  {
    var o := if p.InLeft? then Node(sub, p.id, p.other) else Node(p.other, p.id, sub);
    assert Plug(Top, o) == Plug(p, sub);
    Grand(L, R, P, Top, o);
    assert Rep(L, R, P, sub, p.id) && Rep(L, R, P, sub.left, sub.id) && Rep(L, R, P, sub.right, sub.id);
    RotUpAt(L, R, P, p, sub);
    ZigOnce(L, R, P, sub.id);
  }

  /** `zig_zig` on a left child of a left child. */
  lemma ZigZigLeftStep(L: map<int, int>, R: map<int, int>, P: map<int, int>,
                       up: Path, a: Tree, c: int, b: Tree, p: int, e: Tree, g: int, d: Tree)
    requires Rep(L, R, P, Plug(up, Node(Node(Node(a, c, b), p, e), g, d)), Null)
    requires Proper(Plug(up, Node(Node(Node(a, c, b), p, e), g, d)))
    ensures CanRotTwice(L, R, P, c) && P[c] == p && P[p] == g && L[g] == p && L[p] == c
    ensures Laid(L, R, P, ZigZigLinks(L, R, P, c).0, ZigZigLinks(L, R, P, c).1, ZigZigLinks(L, R, P, c).2,
                 Plug(up, Node(Node(Node(a, c, b), p, e), g, d)), Plug(up, Node(a, c, Node(b, p, Node(e, g, d)))))
  {
    var G := Node(Node(Node(a, c, b), p, e), g, d);
    var gg := Above(up, Null);
    Grand(L, R, P, up, G);
    ZigZigLeftChain(L, R, P, a, c, b, p, e, g, d, gg);
    assert Plug(InLeft(up, g, d), Node(Node(a, c, b), p, e)) == Plug(up, G);
    RotUpAt(L, R, P, InLeft(up, g, d), Node(Node(a, c, b), p, e));
    var (L1, R1, P1) := RotUp(L, R, P, p);
    var t1 := Plug(up, Node(Node(a, c, b), p, Node(e, g, d)));
    assert Plug(InLeft(up, p, Node(e, g, d)), Node(a, c, b)) == t1;
    RotUpAt(L1, R1, P1, InLeft(up, p, Node(e, g, d)), Node(a, c, b));
    ZigZigLeftTwice(L, R, P, L1, R1, P1, c, p, g, gg);
    var (L2, R2, P2) := RotUp(L1, R1, P1, c);
    LaidTrans(L, R, P, L1, R1, P1, L2, R2, P2, Plug(up, G), t1, Plug(up, Node(a, c, Node(b, p, Node(e, g, d)))));
  }

  /** `zig_zig` on a right child of a right child. */
  lemma ZigZigRightStep(L: map<int, int>, R: map<int, int>, P: map<int, int>,
                        up: Path, a: Tree, g: int, b: Tree, p: int, e: Tree, c: int, d: Tree)
    requires Rep(L, R, P, Plug(up, Node(a, g, Node(b, p, Node(e, c, d)))), Null)
    requires Proper(Plug(up, Node(a, g, Node(b, p, Node(e, c, d)))))
    ensures CanRotTwice(L, R, P, c) && P[c] == p && P[p] == g && R[g] == p && R[p] == c && L[g] != p && L[p] != c
    ensures Laid(L, R, P, ZigZigLinks(L, R, P, c).0, ZigZigLinks(L, R, P, c).1, ZigZigLinks(L, R, P, c).2,
                 Plug(up, Node(a, g, Node(b, p, Node(e, c, d)))), Plug(up, Node(Node(Node(a, g, b), p, e), c, d)))
  {
    var G := Node(a, g, Node(b, p, Node(e, c, d)));
    var gg := Above(up, Null);
    Grand(L, R, P, up, G);
    ZigZigRightChain(L, R, P, a, g, b, p, e, c, d, gg);
    assert Plug(InRight(a, g, up), Node(b, p, Node(e, c, d))) == Plug(up, G);
    RotUpAt(L, R, P, InRight(a, g, up), Node(b, p, Node(e, c, d)));
    var (L1, R1, P1) := RotUp(L, R, P, p);
    var t1 := Plug(up, Node(Node(a, g, b), p, Node(e, c, d)));
    assert Plug(InRight(Node(a, g, b), p, up), Node(e, c, d)) == t1;
    RotUpAt(L1, R1, P1, InRight(Node(a, g, b), p, up), Node(e, c, d));
    ZigZigRightTwice(L, R, P, L1, R1, P1, c, p, g, gg);
    var (L2, R2, P2) := RotUp(L1, R1, P1, c);
    LaidTrans(L, R, P, L1, R1, P1, L2, R2, P2, Plug(up, G), t1, Plug(up, Node(Node(Node(a, g, b), p, e), c, d)));
  }

  /** `zig_zag` on a right child of a left child. */
  lemma ZigZagLeftStep(L: map<int, int>, R: map<int, int>, P: map<int, int>,
                       up: Path, a: Tree, p: int, b: Tree, c: int, e: Tree, g: int, d: Tree)
    requires Rep(L, R, P, Plug(up, Node(Node(a, p, Node(b, c, e)), g, d)), Null)
    requires Proper(Plug(up, Node(Node(a, p, Node(b, c, e)), g, d)))
    ensures CanRotTwice(L, R, P, c) && P[c] == p && P[p] == g && L[g] == p && R[g] != p && R[p] == c && L[p] != c
    ensures Laid(L, R, P, ZigZagLinks(L, R, P, c).0, ZigZagLinks(L, R, P, c).1, ZigZagLinks(L, R, P, c).2,
                 Plug(up, Node(Node(a, p, Node(b, c, e)), g, d)), Plug(up, Node(Node(a, p, b), c, Node(e, g, d))))
  {
    var G := Node(Node(a, p, Node(b, c, e)), g, d);
    var gg := Above(up, Null);
    Grand(L, R, P, up, G);
    ZigZagLeftChain(L, R, P, a, p, b, c, e, g, d, gg);
    assert Plug(InRight(a, p, InLeft(up, g, d)), Node(b, c, e)) == Plug(up, G);
    RotUpAt(L, R, P, InRight(a, p, InLeft(up, g, d)), Node(b, c, e));
    var (L1, R1, P1) := RotUp(L, R, P, c);
    var t1 := Plug(up, Node(Node(Node(a, p, b), c, e), g, d));
    assert Plug(InLeft(up, g, d), Node(Node(a, p, b), c, e)) == t1;
    RotUpAt(L1, R1, P1, InLeft(up, g, d), Node(Node(a, p, b), c, e));
    ZigZagLeftTwice(L, R, P, L1, R1, P1, c, p, g, gg);
    var (L2, R2, P2) := RotUp(L1, R1, P1, c);
    LaidTrans(L, R, P, L1, R1, P1, L2, R2, P2, Plug(up, G), t1, Plug(up, Node(Node(a, p, b), c, Node(e, g, d))));
  }

  /** `zig_zag` on a left child of a right child. */
  lemma ZigZagRightStep(L: map<int, int>, R: map<int, int>, P: map<int, int>,
                        up: Path, a: Tree, g: int, b: Tree, c: int, e: Tree, p: int, d: Tree)
    requires Rep(L, R, P, Plug(up, Node(a, g, Node(Node(b, c, e), p, d))), Null)
    requires Proper(Plug(up, Node(a, g, Node(Node(b, c, e), p, d))))
    ensures CanRotTwice(L, R, P, c) && P[c] == p && P[p] == g && R[g] == p && L[g] != p && L[p] == c && R[p] != c
    ensures Laid(L, R, P, ZigZagLinks(L, R, P, c).0, ZigZagLinks(L, R, P, c).1, ZigZagLinks(L, R, P, c).2,
                 Plug(up, Node(a, g, Node(Node(b, c, e), p, d))), Plug(up, Node(Node(a, g, b), c, Node(e, p, d))))
  {
    var G := Node(a, g, Node(Node(b, c, e), p, d));
    var gg := Above(up, Null);
    Grand(L, R, P, up, G);
    ZigZagRightChain(L, R, P, a, g, b, c, e, p, d, gg);
    assert Plug(InLeft(InRight(a, g, up), p, d), Node(b, c, e)) == Plug(up, G);
    RotUpAt(L, R, P, InLeft(InRight(a, g, up), p, d), Node(b, c, e));
    var (L1, R1, P1) := RotUp(L, R, P, c);
    var t1 := Plug(up, Node(a, g, Node(b, c, Node(e, p, d))));
    assert Plug(InRight(a, g, up), Node(b, c, Node(e, p, d))) == t1;
    RotUpAt(L1, R1, P1, InRight(a, g, up), Node(b, c, Node(e, p, d)));
    ZigZagRightTwice(L, R, P, L1, R1, P1, c, p, g, gg);
    var (L2, R2, P2) := RotUp(L1, R1, P1, c);
    LaidTrans(L, R, P, L1, R1, P1, L2, R2, P2, Plug(up, G), t1, Plug(up, Node(Node(a, g, b), c, Node(e, p, d))));
  }

  /** The root pointer of a laid-out subtree is null or one of its records. */
  lemma RootIn(L: map<int, int>, R: map<int, int>, P: map<int, int>, t: Tree, q: int)
    requires Rep(L, R, P, t, q)
    ensures Root(t) == Null || (Root(t) in Ids(t) && Root(t) in P)
  {
  }

  /** The records a splay step reads, seen from the grandparent's subtree. */
  lemma ZigZigLeftChain(L: map<int, int>, R: map<int, int>, P: map<int, int>, a: Tree, c: int, b: Tree, p: int, e: Tree, g: int, d: Tree, gg: int)
    requires Rep(L, R, P, Node(Node(Node(a, c, b), p, e), g, d), gg) && Proper(Node(Node(Node(a, c, b), p, e), g, d)) && gg !in Ids(Node(Node(Node(a, c, b), p, e), g, d)) && Null !in Ids(Node(Node(Node(a, c, b), p, e), g, d))
    requires gg != Null ==> Linked(L, R, P, gg) && (R[gg] == g || R[gg] !in Ids(Node(Node(Node(a, c, b), p, e), g, d)))
    ensures Chain(L, R, P, c, p, g, gg) && L[g] == p && L[p] == c
    ensures Loose(P, R[c], c, p, g, gg) && Loose(P, R[p], c, p, g, gg) && (R[c] != R[p] || R[c] == Null)
  {
    assert Rep(L, R, P, Node(Node(a, c, b), p, e), g) && Rep(L, R, P, Node(a, c, b), p);
    assert Proper(Node(Node(a, c, b), p, e)) && Proper(Node(a, c, b));
    assert Ids(Node(Node(Node(a, c, b), p, e), g, d)) == Ids(a) + {c} + Ids(b) + {p} + Ids(e) + {g} + Ids(d);
    RootIn(L, R, P, b, c);
    RootIn(L, R, P, e, p);
  }

  /** The records a splay step reads, seen from the grandparent's subtree. */
  lemma ZigZigRightChain(L: map<int, int>, R: map<int, int>, P: map<int, int>, a: Tree, g: int, b: Tree, p: int, e: Tree, c: int, d: Tree, gg: int)
    requires Rep(L, R, P, Node(a, g, Node(b, p, Node(e, c, d))), gg) && Proper(Node(a, g, Node(b, p, Node(e, c, d)))) && gg !in Ids(Node(a, g, Node(b, p, Node(e, c, d)))) && Null !in Ids(Node(a, g, Node(b, p, Node(e, c, d))))
    requires gg != Null ==> Linked(L, R, P, gg) && (R[gg] == g || R[gg] !in Ids(Node(a, g, Node(b, p, Node(e, c, d)))))
    ensures Chain(L, R, P, c, p, g, gg) && R[g] == p && R[p] == c && L[g] != p && L[p] != c
    ensures Loose(P, L[c], c, p, g, gg) && Loose(P, L[p], c, p, g, gg) && (L[c] != L[p] || L[c] == Null)
  {
    assert Rep(L, R, P, Node(b, p, Node(e, c, d)), g) && Rep(L, R, P, Node(e, c, d), p);
    assert Proper(Node(b, p, Node(e, c, d))) && Proper(Node(e, c, d));
    assert Ids(Node(a, g, Node(b, p, Node(e, c, d)))) == Ids(a) + {g} + Ids(b) + {p} + Ids(e) + {c} + Ids(d);
    RootIn(L, R, P, e, c);
    RootIn(L, R, P, b, p);
  }

  /** The records a splay step reads, seen from the grandparent's subtree. */
  lemma ZigZagLeftChain(L: map<int, int>, R: map<int, int>, P: map<int, int>, a: Tree, p: int, b: Tree, c: int, e: Tree, g: int, d: Tree, gg: int)
    requires Rep(L, R, P, Node(Node(a, p, Node(b, c, e)), g, d), gg) && Proper(Node(Node(a, p, Node(b, c, e)), g, d)) && gg !in Ids(Node(Node(a, p, Node(b, c, e)), g, d)) && Null !in Ids(Node(Node(a, p, Node(b, c, e)), g, d))
    requires gg != Null ==> Linked(L, R, P, gg) && (R[gg] == g || R[gg] !in Ids(Node(Node(a, p, Node(b, c, e)), g, d)))
    ensures Chain(L, R, P, c, p, g, gg) && L[g] == p && R[g] != p && R[p] == c && L[p] != c
    ensures Loose(P, L[c], c, p, g, gg) && Loose(P, R[c], c, p, g, gg) && (L[c] != R[c] || L[c] == Null)
  {
    assert Rep(L, R, P, Node(a, p, Node(b, c, e)), g) && Rep(L, R, P, Node(b, c, e), p);
    assert Proper(Node(a, p, Node(b, c, e))) && Proper(Node(b, c, e));
    assert Ids(Node(Node(a, p, Node(b, c, e)), g, d)) == Ids(a) + {p} + Ids(b) + {c} + Ids(e) + {g} + Ids(d);
    RootIn(L, R, P, b, c);
    RootIn(L, R, P, e, c);
  }

  /** The records a splay step reads, seen from the grandparent's subtree. */
  lemma ZigZagRightChain(L: map<int, int>, R: map<int, int>, P: map<int, int>, a: Tree, g: int, b: Tree, c: int, e: Tree, p: int, d: Tree, gg: int)
    requires Rep(L, R, P, Node(a, g, Node(Node(b, c, e), p, d)), gg) && Proper(Node(a, g, Node(Node(b, c, e), p, d))) && gg !in Ids(Node(a, g, Node(Node(b, c, e), p, d))) && Null !in Ids(Node(a, g, Node(Node(b, c, e), p, d)))
    requires gg != Null ==> Linked(L, R, P, gg) && (R[gg] == g || R[gg] !in Ids(Node(a, g, Node(Node(b, c, e), p, d))))
    ensures Chain(L, R, P, c, p, g, gg) && R[g] == p && L[g] != p && L[g] != c && L[p] == c && R[p] != c
    ensures Loose(P, L[c], c, p, g, gg) && Loose(P, R[c], c, p, g, gg) && (L[c] != R[c] || L[c] == Null)
  {
    assert Rep(L, R, P, Node(Node(b, c, e), p, d), g) && Rep(L, R, P, Node(b, c, e), p);
    assert Proper(Node(Node(b, c, e), p, d)) && Proper(Node(b, c, e));
    assert Ids(Node(a, g, Node(Node(b, c, e), p, d))) == Ids(a) + {g} + Ids(b) + {c} + Ids(e) + {p} + Ids(d);
    RootIn(L, R, P, b, c);
    RootIn(L, R, P, e, c);
  }

  // ---------------------------------------------------------------------
  // One step of `splay_`

  /** The test `splay_` makes to choose `zig_zig` over `zig_zag`: `c`, its
      parent and its grandparent go the same way. */
  ghost predicate Straight(L: map<int, int>, R: map<int, int>, P: map<int, int>, c: int)
    requires Linked(L, R, P, c) && Linked(L, R, P, P[c]) && Linked(L, R, P, P[P[c]])
  {
    var p := P[c];
    var g := P[p];
    (L[g] == p && L[p] == c) || (R[g] == p && R[p] == c)
  }

  /** The tree and the node `sub.id` after one step of `splay_`: a `zig`
      when the parent is the root, a `zig_zig` or a `zig_zag` otherwise. */
  ghost function Splayed(p: Path, sub: Tree): (r: (Path, Tree))
    requires sub.Node?
    ensures r.1.Node? && r.1.id == sub.id
    ensures !p.Top? ==> Depth(r.0) < Depth(p)
  {
    match p
    case Top => (Top, sub)
    case InLeft(Top, _, _) => (Top, Lifted(p, sub))
    case InRight(_, _, Top) => (Top, Lifted(p, sub))
    case InLeft(InLeft(up, g, d), x, e) =>
      (up, Node(sub.left, sub.id, Node(sub.right, x, Node(e, g, d))))
    case InRight(b, x, InRight(a, g, up)) =>
      (up, Node(Node(Node(a, g, b), x, sub.left), sub.id, sub.right))
    case InRight(a, x, InLeft(up, g, d)) =>
      (up, Node(Node(a, x, sub.left), sub.id, Node(sub.right, g, d)))
    case InLeft(InRight(a, g, up), x, d) =>
      (up, Node(Node(a, g, sub.left), sub.id, Node(sub.right, x, d)))
  }

  /** One step of `splay_` on a node that has a parent: which rotation the
      source picks, and that it lays out the next tree of `Splayed`. */
  lemma SplayStep(L: map<int, int>, R: map<int, int>, P: map<int, int>, p: Path, sub: Tree)
    requires sub.Node? && !p.Top? && Rep(L, R, P, Plug(p, sub), Null) && Proper(Plug(p, sub))
    ensures Linked(L, R, P, sub.id) && Linked(L, R, P, P[sub.id]) && P[sub.id] != Null
    ensures P[P[sub.id]] == Null ==>
      Laid(L, R, P, ZigLinks(L, R, P, sub.id).0, ZigLinks(L, R, P, sub.id).1, ZigLinks(L, R, P, sub.id).2,
           Plug(p, sub), Plug(Splayed(p, sub).0, Splayed(p, sub).1))
    ensures P[P[sub.id]] != Null ==> CanRotTwice(L, R, P, sub.id)
    ensures P[P[sub.id]] != Null && Straight(L, R, P, sub.id) ==>
      Laid(L, R, P, ZigZigLinks(L, R, P, sub.id).0, ZigZigLinks(L, R, P, sub.id).1, ZigZigLinks(L, R, P, sub.id).2,
           Plug(p, sub), Plug(Splayed(p, sub).0, Splayed(p, sub).1))
    ensures P[P[sub.id]] != Null && !Straight(L, R, P, sub.id) ==>
      Laid(L, R, P, ZigZagLinks(L, R, P, sub.id).0, ZigZagLinks(L, R, P, sub.id).1, ZigZagLinks(L, R, P, sub.id).2,
           Plug(p, sub), Plug(Splayed(p, sub).0, Splayed(p, sub).1))
  {
    Links(L, R, P, p, sub, Null);
    if p.up.Top? {
      ZigStep(L, R, P, p, sub);
      return;
    }
    var o := if p.InLeft? then Node(sub, p.id, p.other) else Node(p.other, p.id, sub);
    assert Plug(p.up, o) == Plug(p, sub);
    Links(L, R, P, p.up, o, Null);
    var a, c, b := sub.left, sub.id, sub.right;
    match p {
      case InLeft(InLeft(up, g, d), x, e) =>
        ZigZigLeftStep(L, R, P, up, a, c, b, x, e, g, d);
      case InRight(l, x, InRight(k, g, up)) =>
        ZigZigRightStep(L, R, P, up, k, g, l, x, a, c, b);
      case InRight(k, x, InLeft(up, g, d)) =>
        ZigZagLeftStep(L, R, P, up, k, x, a, c, b, g, d);
      case InLeft(InRight(k, g, up), x, d) =>
        ZigZagRightStep(L, R, P, up, k, g, a, c, b, x, d);
    }
  }
}

=== FILE: shared_ptr.dfy ===
/** A model of the owning/observing pointer pair of shared_ptr/src/shared-ptr.h.

    A control block carries `shared_count` and `weak_count`, both starting at
    1: while any owner is alive, the owners together hold one implicit weak
    reference, so the block outlives the managed value and is released when
    the last owner or observer lets go. Block kinds (separately allocated
    value with a deleter, or value stored inside the block) are a datatype
    instead of virtual dispatch. Every handle operation keeps the ledger
    `Ledger`: the counters are what the live handles on the block dictate. */
module SharedPtrs {

  /** An object reached through a raw pointer; its deleter (or in-place
      destructor) ends its life. */
  class Obj {
    var alive: bool

    constructor ()
      ensures alive
    {
      alive := true;
    }
  }

  /** `control_block_regular` (value allocated by the caller, destroyed by the
      deleter) or `control_block_make_shared` (value stored in the block). */
  datatype BlockKind = Regular | Inline

  /** The state of a control block: its two counters, whether the managed
      value has not yet been destroyed, and whether the block's storage has
      not yet been released. */
  datatype Counters = Counters(shared: nat, weak: nat, dataAlive: bool, blockAlive: bool)

  /** `base_control_block` as constructed: both counters start at 1. */
  const Fresh: Counters := Counters(1, 1, true, true)

  /** `incr_shared()`. */
  function AfterIncrShared(c: Counters): Counters {
    c.(shared := c.shared + 1)
  }

  /** `incr_weak()`. */
  function AfterIncrWeak(c: Counters): Counters {
    c.(weak := c.weak + 1)
  }

  /** `decr_weak()`: the block is released when the count reaches zero. */
  function AfterDecrWeak(c: Counters): Counters
    requires c.weak > 0
  {
    if c.weak - 1 == 0 then c.(weak := 0, blockAlive := false)
    else c.(weak := c.weak - 1)
  }

  /** `decr_shared()`: at zero the value is destroyed and the owners'
      implicit weak reference is dropped. */
  function AfterDecrShared(c: Counters): Counters
    requires c.shared > 0
    requires c.shared == 1 ==> c.weak > 0
  {
    if c.shared - 1 == 0 then AfterDecrWeak(c.(shared := 0, dataAlive := false))
    else c.(shared := c.shared - 1)
  }

  /** The ownership ledger of one block, given how many owning handles
      (`owners`) and observing handles (`observers`) refer to it: the value
      lives exactly while there is an owner, `weak_count` counts the
      observers plus one while there is an owner, and the block lives while
      anyone refers to it. */
  ghost predicate Ledger(c: Counters, owners: nat, observers: nat) {
    && c.shared == owners
    && c.weak == observers + (if owners > 0 then 1 else 0)
    && c.dataAlive == (owners > 0)
    && c.blockAlive == (owners > 0 || observers > 0)
  }

  /** A block just built for its first owner is in the ledger with one
      owner: 1/1 is one owner plus the owners' implicit weak hold. */
  lemma FreshBlockHasOneOwner()
    ensures Ledger(Fresh, 1, 0)
    ensures forall o: nat, w: nat :: Ledger(Fresh, o, w) ==> o == 1 && w == 0
  {
  }

  /** A new owner on a block that has one (copy, converting copy, aliasing
      copy, `lock`) raises `shared_count` by one and keeps the ledger. */
  lemma OwnerJoins(c: Counters, owners: nat, observers: nat)
    requires Ledger(c, owners, observers) && owners > 0
    ensures Ledger(AfterIncrShared(c), owners + 1, observers)
  {
  }

  /** An owner leaving (destructor, `reset`, the temporary of an assignment)
      keeps the ledger. The value is destroyed exactly when the last owner
      leaves, and the block is released too when no observer is left. */
  lemma OwnerLeaves(c: Counters, owners: nat, observers: nat)
    requires Ledger(c, owners, observers) && owners > 0
    ensures c.shared > 0 && (c.shared == 1 ==> c.weak > 0)
    ensures Ledger(AfterDecrShared(c), owners - 1, observers)
    ensures AfterDecrShared(c).dataAlive <==> owners > 1
    ensures AfterDecrShared(c).blockAlive <==> owners > 1 || observers > 0
  {
  }

  /** A new observer on a live block keeps the ledger. */
  lemma ObserverJoins(c: Counters, owners: nat, observers: nat)
    requires Ledger(c, owners, observers) && c.blockAlive
    ensures Ledger(AfterIncrWeak(c), owners, observers + 1)
  {
  }

  /** An observer leaving keeps the ledger; the block goes with the last
      reference of either kind. */
  lemma ObserverLeaves(c: Counters, owners: nat, observers: nat)
    requires Ledger(c, owners, observers) && observers > 0
    ensures c.weak > 0
    ensures Ledger(AfterDecrWeak(c), owners, observers - 1)
  {
  }

  /** `make_shared`: the block is built at 1/1, its shared count is set to 0
      and the owning constructor raises it again, so the result has
      `use_count() == 1` and the implicit weak hold. */
  lemma MakeSharedStartsAtOne()
    ensures AfterIncrShared(Fresh.(shared := 0)) == Fresh
    ensures Ledger(AfterIncrShared(Fresh.(shared := 0)), 1, 0)
  {
  }

  /** `expired()` as a function of the counters alone: under the ledger it
      holds exactly when no owner is left. */
  predicate CountersExpired(c: Counters) {
    c.shared == 0
  }

  lemma ExpiredIffNoOwner(c: Counters, owners: nat, observers: nat)
    requires Ledger(c, owners, observers)
    ensures CountersExpired(c) <==> owners == 0
    ensures CountersExpired(c) <==> !c.dataAlive
  {
  }

  /** The explicit `shared_ptr(const weak_ptr&)` constructor as written:
      it raises `shared_count` without looking at it. */
  function AdoptAsWritten(c: Counters): Counters {
    AfterIncrShared(c)
  }

  /** On an expired block (value destroyed, one observer left) the
      constructor as written produces a block whose counters no set of
      handles can explain: an owner with a dead value. Dropping that owner
      would run the value's destructor a second time and release the block
      under the remaining observer. */
  lemma AdoptExpiredBreaksLedger()
    ensures Ledger(Counters(0, 1, false, true), 0, 1)
    ensures forall o: nat, w: nat :: !Ledger(AdoptAsWritten(Counters(0, 1, false, true)), o, w)
  {
  }

  /** Adoption from an observer as the pointer's own `lock()` does it:
      refuse an expired block, raise the count of a live one. */
  function Adopt(c: Counters): (r: Option<Counters>)
    ensures r.None? <==> CountersExpired(c)
  {
    if CountersExpired(c) then None else Some(AfterIncrShared(c))
  }

  /** Adoption keeps the ledger whether or not it succeeds. */
  lemma AdoptKeepsLedger(c: Counters, owners: nat, observers: nat)
    requires Ledger(c, owners, observers) && observers > 0
    ensures Adopt(c).None? ==> owners == 0
    ensures Adopt(c).Some? ==> Ledger(Adopt(c).value, owners + 1, observers)
  {
  }

  datatype Option<T> = None | Some(value: T)

  /** What a handle can do to a block it refers to: copy an owner, drop an
      owner, copy an observer (from an owner or an observer), drop an
      observer, or `lock()` an observer. */
  datatype Event = CopyOwner | DropOwner | CopyObserver | DropObserver | LockObserver

  /** A block with its handle counts. */
  datatype Tally = Tally(c: Counters, owners: nat, observers: nat)

  /** One event on a block, through the counter steps the handles run.
      `None` when no handle exists that could perform it. */
  function Step(t: Tally, e: Event): (r: Option<Tally>)
    requires Ledger(t.c, t.owners, t.observers)
    ensures r.Some? ==> Ledger(r.value.c, r.value.owners, r.value.observers)
  {
    match e
    case CopyOwner =>
      if t.owners == 0 then None
      else
        OwnerJoins(t.c, t.owners, t.observers);
        Some(Tally(AfterIncrShared(t.c), t.owners + 1, t.observers))
    case DropOwner =>
      if t.owners == 0 then None
      else
        OwnerLeaves(t.c, t.owners, t.observers);
        Some(Tally(AfterDecrShared(t.c), t.owners - 1, t.observers))
    case CopyObserver =>
      if t.owners == 0 && t.observers == 0 then None
      else
        ObserverJoins(t.c, t.owners, t.observers);
        Some(Tally(AfterIncrWeak(t.c), t.owners, t.observers + 1))
    case DropObserver =>
      if t.observers == 0 then None
      else
        ObserverLeaves(t.c, t.owners, t.observers);
        Some(Tally(AfterDecrWeak(t.c), t.owners, t.observers - 1))
    case LockObserver =>
      if t.observers == 0 then None
      else
        AdoptKeepsLedger(t.c, t.owners, t.observers);
        match Adopt(t.c)
        case None => Some(t)
        case Some(c') => Some(Tally(c', t.owners + 1, t.observers))
  }

  /** A sequence of events; it stops at the first event no handle could
      perform. */
  function Run(t: Tally, es: seq<Event>): (r: Tally)
    requires Ledger(t.c, t.owners, t.observers)
    decreases |es|
  {
    if es == [] then t
    else match Step(t, es[0])
      case None => t
      case Some(t') => Run(t', es[1..])
  }

  /** Whatever the handles do, the counters stay what the handles dictate. */
  lemma {:induction false} RunKeepsLedger(t: Tally, es: seq<Event>)
    requires Ledger(t.c, t.owners, t.observers)
    ensures Ledger(Run(t, es).c, Run(t, es).owners, Run(t, es).observers)
    decreases |es|
  {
    if es != [] {
      match Step(t, es[0])
      case None =>
      case Some(t') => RunKeepsLedger(t', es[1..]);
    }
  }

  /** Once the value has been destroyed it stays destroyed: no sequence of
      handle operations brings back an owner, so `destroy_data` runs at most
      once per block. */
  lemma {:induction false} DestroyedStaysDestroyed(t: Tally, es: seq<Event>)
    requires Ledger(t.c, t.owners, t.observers) && !t.c.dataAlive
    ensures Run(t, es).owners == 0 && !Run(t, es).c.dataAlive
    decreases |es|
  {
    if es != [] {
      match Step(t, es[0])
      case None =>
      case Some(t') => DestroyedStaysDestroyed(t', es[1..]);
    }
  }

  /** Likewise a released block is never referred to again. */
  lemma {:induction false} ReleasedStaysReleased(t: Tally, es: seq<Event>)
    requires Ledger(t.c, t.owners, t.observers) && !t.c.blockAlive
    ensures Run(t, es) == t
    decreases |es|
  {
    if es != [] {
      match Step(t, es[0])
      case None =>
      case Some(t') =>
        assert false;
    }
  }

  /** A control block. `owners` and `observers` are ghost bookkeeping: every
      handle constructor adds one and every handle destructor removes one. */
  class ControlBlock {
    var sharedCount: nat
    var weakCount: nat
    var dataAlive: bool
    var blockAlive: bool
    const kind: BlockKind
    /** The managed value: `ptr_` of a regular block (possibly null), the
        in-place storage of an inline block. */
    const data: Obj?

    ghost var owners: nat
    ghost var observers: nat

    /** The block and the managed value, as one footprint. */
    function Objs(): set<object> {
      {this} + (if data == null then {} else {data})
    }

    function Counts(): Counters
      reads this
    {
      Counters(sharedCount, weakCount, dataAlive, blockAlive)
    }

    /** The block is as its handles say, and a non-null managed value is
        alive exactly until `destroy_data` has run. */
    ghost predicate Valid()
      reads this, data
    {
      && Ledger(Counts(), owners, observers)
      && (data != null ==> data.alive == dataAlive)
      && (kind == Inline ==> data != null)
    }

    /** The state `make_shared` leaves a new block in before handing it to
        its first owner: the shared count cleared, the weak count still 1. */
    ghost predicate Pending()
      reads this, data
    {
      && Counts() == Fresh.(shared := 0)
      && owners == 0 && observers == 0
      && kind == Inline && data != null && data.alive
    }

    /** The block constructors: counters at 1/1, no handle yet. */
    constructor (kind: BlockKind, data: Obj?)
      requires kind == Inline ==> data != null
      ensures this.kind == kind && this.data == data
      ensures Counts() == Fresh && owners == 0 && observers == 0
    {
      this.kind := kind;
      this.data := data;
      sharedCount, weakCount := 1, 1;
      dataAlive, blockAlive := true, true;
      owners, observers := 0, 0;
    }

    method IncrShared()
      modifies this
      ensures Counts() == AfterIncrShared(old(Counts()))
      ensures owners == old(owners) && observers == old(observers)
    {
      sharedCount := sharedCount + 1;
    }

    method IncrWeak()
      modifies this
      ensures Counts() == AfterIncrWeak(old(Counts()))
      ensures owners == old(owners) && observers == old(observers)
    {
      weakCount := weakCount + 1;
    }

    /** `destroy_data()`: the deleter on `ptr_`, or the in-place destructor;
        never run twice. */
    method DestroyData()
      requires dataAlive && (data != null ==> data.alive)
      requires kind == Inline ==> data != null
      modifies this, data
      ensures Counts() == old(Counts()).(dataAlive := false)
      ensures data != null ==> !data.alive
      ensures owners == old(owners) && observers == old(observers)
    {
      match kind {
        case Regular =>
          if data != null {
            data.alive := false;
          }
        case Inline =>
          data.alive := false;
      }
      dataAlive := false;
    }

    /** `destroy_block()`: releases the block's storage; never run twice. */
    method DestroyBlock()
      requires blockAlive
      modifies this
      ensures Counts() == old(Counts()).(blockAlive := false)
      ensures owners == old(owners) && observers == old(observers)
    {
      blockAlive := false;
    }

    method DecrWeak()
      requires weakCount > 0 && blockAlive
      modifies this
      ensures Counts() == AfterDecrWeak(old(Counts()))
      ensures owners == old(owners) && observers == old(observers)
    {
      weakCount := weakCount - 1;
      if weakCount == 0 {
        DestroyBlock();
      }
    }

    method DecrShared()
      requires sharedCount > 0 && (sharedCount == 1 ==> weakCount > 0)
      requires blockAlive && dataAlive && (data != null ==> data.alive)
      requires kind == Inline ==> data != null
      modifies this, data
      ensures Counts() == AfterDecrShared(old(Counts()))
      ensures data != null ==> data.alive == (sharedCount > 0)
      ensures owners == old(owners) && observers == old(observers)
    {
      sharedCount := sharedCount - 1;
      if sharedCount == 0 {
        DestroyData();
        DecrWeak();
      }
    }
  }

  /** `create_regular_block(ptr, del)` over `allocate_block`. The allocator's
      outcome is the parameter `allocFails`: on failure the block storage is
      given back and the deleter is applied to `ptr` before the exception
      leaves (modelled as a null result). */
  method CreateRegularBlock(ptr: Obj?, allocFails: bool) returns (cb: ControlBlock?)
    modifies ptr
    ensures cb == null <==> allocFails
    ensures allocFails && ptr != null ==> !ptr.alive
    ensures !allocFails && ptr != null ==> ptr.alive == old(ptr.alive)
    ensures cb != null ==> fresh(cb) && cb.kind == Regular && cb.data == ptr
    ensures cb != null ==> cb.Counts() == Fresh && cb.owners == 0 && cb.observers == 0
  {
    if allocFails {
      if ptr != null {
        ptr.alive := false;
      }
      cb := null;
    } else {
      cb := new ControlBlock(Regular, ptr);
    }
  }

  /** `shared_ptr<T>`: the stored pointer and the control block. `live` is
      ghost: it is false once the destructor has run. */
  class SharedPtr {
    var ptr: Obj?
    var cb: ControlBlock?
    ghost var live: bool

    /** A live handle on a block counts as one of its owners. */
    ghost predicate Valid()
      reads this, if cb == null then {} else cb.Objs()
    {
      live && (cb != null ==> cb.Valid() && cb.owners > 0)
    }

    /** `use_count()`: 0 without a block, otherwise the block's shared
        count (`UseCountIsOwners` says what that counts). */
    function UseCount(): (n: nat)
      reads this, cb
      ensures cb == null ==> n == 0
    {
      if cb == null then 0 else cb.sharedCount
    }

    /** `operator bool`. */
    predicate NonNull()
      reads this
    {
      ptr != null
    }

    /** `use_count()` is the number of owning handles on the block. */
    lemma UseCountIsOwners()
      requires Valid()
      ensures cb == null ==> UseCount() == 0
      ensures cb != null ==> UseCount() == cb.owners && UseCount() > 0
    {
    }

    /** `shared_ptr()` and `shared_ptr(nullptr)`. */
    constructor Empty()
      ensures Valid() && ptr == null && cb == null
    {
      ptr, cb := null, null;
      live := true;
    }

    /** `shared_ptr(Y* ptr)` and `shared_ptr(Y* ptr, Deleter)`: a fresh
        regular block whose initial count of 1 is this handle. */
    constructor FromRaw(p: Obj?)
      requires p != null ==> p.alive
      modifies p
      ensures Valid() && ptr == p && fresh(cb)
      ensures cb.kind == Regular && cb.data == p
      ensures UseCount() == 1 && cb.owners == 1 && cb.observers == 0
    {
      ptr := p;
      live := true;
      new;
      var block := CreateRegularBlock(p, false);
      cb := block;
      cb.owners := 1;
    }

    /** The private `shared_ptr(cb, ptr)`: shares `block` and raises its
        count. Every caller passes a block that already has an owner, or the
        block `make_shared` has just built. */
    constructor Share(block: ControlBlock?, p: Obj?)
      requires block != null ==> (block.Valid() && block.owners > 0) || block.Pending()
      modifies block
      ensures Valid() && ptr == p && cb == block
      ensures block != null ==> block.Counts() == AfterIncrShared(old(block.Counts()))
      ensures block != null ==> block.owners == old(block.owners) + 1
      ensures block != null ==> block.observers == old(block.observers)
    {
      ptr, cb := p, block;
      live := true;
      new;
      if cb != null {
        if cb.owners > 0 {
          OwnerJoins(cb.Counts(), cb.owners, cb.observers);
        }
        cb.IncrShared();
        cb.owners := cb.owners + 1;
      }
    }

    /** The copy and converting-copy constructors. */
    constructor Copy(other: SharedPtr)
      requires other.Valid()
      modifies other.cb
      ensures Valid() && ptr == other.ptr && cb == other.cb
      ensures cb != null ==> cb.Counts() == AfterIncrShared(old(other.cb.Counts()))
      ensures cb != null ==> cb.owners == old(other.cb.owners) + 1
      ensures cb != null ==> cb.observers == old(other.cb.observers)
    {
      ptr, cb := other.ptr, other.cb;
      live := true;
      new;
      if cb != null {
        OwnerJoins(cb.Counts(), cb.owners, cb.observers);
        cb.IncrShared();
        cb.owners := cb.owners + 1;
      }
    }

    /** The aliasing constructor `shared_ptr(const shared_ptr<Y>&, T*)`:
        shares the block but stores another pointer. */
    constructor Alias(other: SharedPtr, p: Obj?)
      requires other.Valid()
      modifies other.cb
      ensures Valid() && ptr == p && cb == other.cb
      ensures cb != null ==> cb.Counts() == AfterIncrShared(old(other.cb.Counts()))
      ensures cb != null ==> cb.owners == old(other.cb.owners) + 1
    {
      ptr, cb := p, other.cb;
      live := true;
      new;
      if cb != null {
        OwnerJoins(cb.Counts(), cb.owners, cb.observers);
        cb.IncrShared();
        cb.owners := cb.owners + 1;
      }
    }

    /** The explicit `shared_ptr(const weak_ptr<Y>&)`, on an empty observer
        or on one whose block still has an owner: no block gives an empty
        owner and touches no count, a block gains one owner. (On an expired
        observer with a block the constructor as written revives a destroyed
        value; see `AdoptAsWritten`.) */
    constructor FromWeak(w: WeakPtr)
      requires w.Valid() && (w.cb != null ==> w.cb.sharedCount > 0)
      modifies w.cb
      ensures Valid() && ptr == w.ptr && cb == w.cb
      ensures cb == null ==> UseCount() == 0
      ensures cb != null ==> cb.Counts() == AfterIncrShared(old(w.cb.Counts()))
      ensures cb != null ==> cb.owners == old(w.cb.owners) + 1 && cb.observers == old(w.cb.observers)
    {
      ptr, cb := w.ptr, w.cb;
      live := true;
      new;
      if cb != null {
        ExpiredIffNoOwner(cb.Counts(), cb.owners, cb.observers);
        OwnerJoins(cb.Counts(), cb.owners, cb.observers);
        cb.IncrShared();
        cb.owners := cb.owners + 1;
      }
    }

    /** The move constructors: the fields are exchanged for null, so the
        source is left empty and no count changes. */
    constructor Move(other: SharedPtr)
      requires other.Valid()
      modifies other
      ensures Valid() && other.Valid()
      ensures ptr == old(other.ptr) && cb == old(other.cb)
      ensures other.ptr == null && other.cb == null
    {
      ptr, cb := other.ptr, other.cb;
      live := true;
      new;
      other.ptr, other.cb := null, null;
    }

    /** The aliasing move constructor `shared_ptr(shared_ptr<Y>&&, T*)`. */
    constructor MoveAlias(other: SharedPtr, p: Obj?)
      requires other.Valid()
      modifies other
      ensures Valid() && other.Valid()
      ensures ptr == p && cb == old(other.cb)
      ensures other.ptr == null && other.cb == null
    {
      ptr, cb := p, other.cb;
      live := true;
      new;
      other.ptr, other.cb := null, null;
    }

    /** The destructor: one owner less on the block, if there is one. */
    method Destroy()
      requires Valid()
      modifies this, if cb == null then {} else cb.Objs()
      ensures !live && cb == old(cb) && ptr == old(ptr)
      ensures cb != null ==> cb.Counts() == AfterDecrShared(old(cb.Counts()))
      ensures cb != null ==> cb.owners == old(cb.owners) - 1 && cb.observers == old(cb.observers)
      ensures cb != null ==> cb.Valid()
    {
      if cb != null {
        OwnerLeaves(cb.Counts(), cb.owners, cb.observers);
        cb.DecrShared();
        cb.owners := cb.owners - 1;
      }
      live := false;
    }

    /** `swap(rhs)`: exchanges both fields. */
    method Swap(rhs: SharedPtr)
      modifies this, rhs
      ensures ptr == old(rhs.ptr) && cb == old(rhs.cb)
      ensures rhs.ptr == old(ptr) && rhs.cb == old(cb)
      ensures live == old(live) && rhs.live == old(rhs.live)
    {
      ptr, rhs.ptr := rhs.ptr, ptr;
      cb, rhs.cb := rhs.cb, cb;
    }

    /** Copy assignment: copy `other` into a temporary, swap, destroy the
        temporary. The new block gains an owner and the old one loses one;
        when both are the same block (self-assignment included) nothing
        changes. */
    method Assign(other: SharedPtr)
      requires Valid() && other.Valid() && Apart(cb, other.cb)
      modifies this, if cb == null then {} else cb.Objs(), other.cb
      ensures Valid() && ptr == old(other.ptr) && cb == old(other.cb)
      ensures cb != null && cb != old(cb) ==>
        cb.Counts() == AfterIncrShared(old(other.cb.Counts())) && cb.owners == old(other.cb.owners) + 1
      ensures old(cb) != null && cb != old(cb) ==>
        old(cb).Counts() == AfterDecrShared(old(cb.Counts())) && old(cb).owners == old(cb.owners) - 1
      ensures old(cb) != null && cb == old(cb) ==>
        cb.Counts() == old(cb.Counts()) && cb.owners == old(cb.owners)
    {
      var tmp := new SharedPtr.Copy(other);
      tmp.Swap(this);
      tmp.Destroy();
    }

    /** Move assignment: move `other` into a temporary, swap, destroy the
        temporary; `other` is left empty and the old block loses an owner.
        Two distinct live handles on one block are two of its owners. A
        self-move takes the fields into the temporary and swaps them back,
        so it changes nothing. */
    method MoveAssign(other: SharedPtr)
      requires Valid() && other.Valid() && Apart(cb, other.cb)
      requires other != this && cb != null && cb == other.cb ==> cb.owners >= 2
      modifies this, other, if cb == null then {} else cb.Objs()
      ensures Valid() && other.Valid()
      ensures ptr == old(other.ptr) && cb == old(other.cb)
      ensures other != this ==> other.ptr == null && other.cb == null
      ensures other != this && old(cb) != null ==>
        old(cb).Counts() == AfterDecrShared(old(cb.Counts())) && old(cb).owners == old(cb.owners) - 1
      ensures other == this && cb != null ==>
        cb.Counts() == old(cb.Counts()) && cb.owners == old(cb.owners) && cb.observers == old(cb.observers)
    {
      var tmp := new SharedPtr.Move(other);
      tmp.Swap(this);
      tmp.Destroy();
    }

    /** `reset()`: `*this = shared_ptr()`; the pointer ends up empty and the
        old block loses an owner. */
    method Reset()
      requires Valid()
      modifies this, if cb == null then {} else cb.Objs()
      ensures Valid() && ptr == null && cb == null && UseCount() == 0
      ensures old(cb) != null ==>
        old(cb).Counts() == AfterDecrShared(old(cb.Counts())) && old(cb).owners == old(cb.owners) - 1
    {
      var empty := new SharedPtr.Empty();
      var tmp := new SharedPtr.Move(empty);
      tmp.Swap(this);
      tmp.Destroy();
    }

    /** `reset(Y* new_ptr)`: `shared_ptr(new_ptr).swap(*this)`; the pointer
        owns `p` through a new block and the old block loses an owner. */
    method ResetTo(p: Obj?)
      requires Valid() && (p != null ==> p.alive)
      requires cb != null && p != null ==> cb.data != p
      modifies this, p, if cb == null then {} else cb.Objs()
      ensures Valid() && ptr == p && fresh(cb) && UseCount() == 1
      ensures cb.kind == Regular && cb.data == p
      ensures old(cb) != null ==>
        old(cb).Counts() == AfterDecrShared(old(cb.Counts())) && old(cb).owners == old(cb.owners) - 1
    {
      var tmp := new SharedPtr.FromRaw(p);
      tmp.Swap(this);
      tmp.Destroy();
    }
  }

  /** Two blocks do not manage the same value: a raw pointer is handed to
      one owning block only (giving it to two is undefined behaviour). */
  ghost predicate Apart(a: ControlBlock?, b: ControlBlock?) {
    a != null && b != null && a != b && a.data != null ==> a.data != b.data
  }

  /** `operator==` between two owning pointers compares the stored
      pointers; against `nullptr` it is the negation of `operator bool`. */
  predicate SamePointer(a: SharedPtr, b: SharedPtr): (r: bool)
    reads a, b
    ensures a == b ==> r
  {
    a.ptr == b.ptr
  }

  /** `weak_ptr<T>`. */
  class WeakPtr {
    var ptr: Obj?
    var cb: ControlBlock?
    ghost var live: bool

    /** A live observer on a block counts as one of its observers. */
    ghost predicate Valid()
      reads this, if cb == null then {} else cb.Objs()
    {
      live && (cb != null ==> cb.Valid() && cb.observers > 0)
    }

    /** `expired()`: no block, or no owner left. */
    predicate Expired(): (e: bool)
      reads this, cb
      ensures cb == null ==> e
    {
      cb == null || cb.sharedCount == 0
    }

    /** An observer keeps the block alive, so reading its count is safe; the
        observed value is alive exactly when the pointer is not expired. */
    lemma ObserverKeepsBlock()
      requires Valid() && cb != null
      ensures cb.blockAlive
      ensures Expired() <==> !cb.dataAlive
    {
    }

    constructor Empty()
      ensures Valid() && ptr == null && cb == null
    {
      ptr, cb := null, null;
      live := true;
    }

    /** `weak_ptr(const shared_ptr<Y>&)`: one observer more. */
    constructor FromShared(s: SharedPtr)
      requires s.Valid()
      modifies s.cb
      ensures Valid() && ptr == s.ptr && cb == s.cb
      ensures cb != null ==> cb.Counts() == AfterIncrWeak(old(s.cb.Counts()))
      ensures cb != null ==> cb.observers == old(s.cb.observers) + 1 && cb.owners == old(s.cb.owners)
    {
      ptr, cb := s.ptr, s.cb;
      live := true;
      new;
      if cb != null {
        ObserverJoins(cb.Counts(), cb.owners, cb.observers);
        cb.IncrWeak();
        cb.observers := cb.observers + 1;
      }
    }

    /** The copy and converting-copy constructors. */
    constructor Copy(other: WeakPtr)
      requires other.Valid()
      modifies other.cb
      ensures Valid() && ptr == other.ptr && cb == other.cb
      ensures cb != null ==> cb.Counts() == AfterIncrWeak(old(other.cb.Counts()))
      ensures cb != null ==> cb.observers == old(other.cb.observers) + 1 && cb.owners == old(other.cb.owners)
    {
      ptr, cb := other.ptr, other.cb;
      live := true;
      new;
      if cb != null {
        ObserverJoins(cb.Counts(), cb.owners, cb.observers);
        cb.IncrWeak();
        cb.observers := cb.observers + 1;
      }
    }

    /** The move constructors: the source is left null/null. */
    constructor Move(other: WeakPtr)
      requires other.Valid()
      modifies other
      ensures Valid() && other.Valid()
      ensures ptr == old(other.ptr) && cb == old(other.cb)
      ensures other.ptr == null && other.cb == null
    {
      ptr, cb := other.ptr, other.cb;
      live := true;
      new;
      other.ptr, other.cb := null, null;
    }

    /** `reset()`: drops this observer and forgets the block. */
    method Reset()
      requires Valid()
      modifies this, cb
      ensures Valid() && cb == null && ptr == old(ptr)
      ensures old(cb) != null ==> old(cb).Counts() == AfterDecrWeak(old(cb.Counts()))
      ensures old(cb) != null ==> old(cb).observers == old(cb.observers) - 1 && old(cb).Valid()
    {
      if cb != null {
        ObserverLeaves(cb.Counts(), cb.owners, cb.observers);
        cb.DecrWeak();
        cb.observers := cb.observers - 1;
        cb := null;
      }
    }

    /** The destructor runs `reset()`. */
    method Destroy()
      requires Valid()
      modifies this, cb
      ensures !live && cb == null
      ensures old(cb) != null ==> old(cb).Counts() == AfterDecrWeak(old(cb.Counts()))
      ensures old(cb) != null ==> old(cb).observers == old(cb.observers) - 1 && old(cb).Valid()
    {
      Reset();
      live := false;
    }

    /** `swap(rhs)`. */
    method Swap(rhs: WeakPtr)
      modifies this, rhs
      ensures ptr == old(rhs.ptr) && cb == old(rhs.cb)
      ensures rhs.ptr == old(ptr) && rhs.cb == old(cb)
      ensures live == old(live) && rhs.live == old(rhs.live)
    {
      ptr, rhs.ptr := rhs.ptr, ptr;
      cb, rhs.cb := rhs.cb, cb;
    }

    /** `operator=(const shared_ptr<Y>&)`: `weak_ptr(other).swap(*this)`.
        The new block gains an observer and the old one loses one; on the
        same block nothing changes. */
    method AssignShared(s: SharedPtr)
      requires Valid() && s.Valid()
      modifies this, cb, s.cb
      ensures Valid() && ptr == old(s.ptr) && cb == old(s.cb)
      ensures cb != null && cb != old(cb) ==>
        cb.Counts() == AfterIncrWeak(old(s.cb.Counts())) && cb.observers == old(s.cb.observers) + 1
      ensures old(cb) != null && cb != old(cb) ==>
        old(cb).Counts() == AfterDecrWeak(old(cb.Counts())) && old(cb).observers == old(cb.observers) - 1
      ensures old(cb) != null && cb == old(cb) ==>
        cb.Counts() == old(cb.Counts()) && cb.observers == old(cb.observers)
    {
      var tmp := new WeakPtr.FromShared(s);
      tmp.Swap(this);
      tmp.Destroy();
    }

    /** `operator=(const weak_ptr<Y>&)`: `weak_ptr(other).swap(*this)`. */
    method Assign(other: WeakPtr)
      requires Valid() && other.Valid()
      modifies this, cb, other.cb
      ensures Valid() && ptr == old(other.ptr) && cb == old(other.cb)
      ensures cb != null && cb != old(cb) ==>
        cb.Counts() == AfterIncrWeak(old(other.cb.Counts())) && cb.observers == old(other.cb.observers) + 1
      ensures old(cb) != null && cb != old(cb) ==>
        old(cb).Counts() == AfterDecrWeak(old(cb.Counts())) && old(cb).observers == old(cb.observers) - 1
      ensures old(cb) != null && cb == old(cb) ==>
        cb.Counts() == old(cb.Counts()) && cb.observers == old(cb.observers)
    {
      var tmp := new WeakPtr.Copy(other);
      tmp.Swap(this);
      tmp.Destroy();
    }

    /** `operator=(weak_ptr<Y>&&)`: `weak_ptr(std::move(other)).swap(*this)`;
        `other` is left empty and the old block loses an observer. Two
        distinct live observers on one block are two of its observers. A
        self-move swaps the fields back and changes nothing. */
    method MoveAssign(other: WeakPtr)
      requires Valid() && other.Valid()
      requires other != this && cb != null && cb == other.cb ==> cb.observers >= 2
      modifies this, other, cb
      ensures Valid() && other.Valid()
      ensures ptr == old(other.ptr) && cb == old(other.cb)
      ensures other != this ==> other.ptr == null && other.cb == null
      ensures other != this && old(cb) != null ==>
        old(cb).Counts() == AfterDecrWeak(old(cb.Counts())) && old(cb).observers == old(cb.observers) - 1
      ensures other == this && cb != null ==>
        cb.Counts() == old(cb.Counts()) && cb.owners == old(cb.owners) && cb.observers == old(cb.observers)
    {
      var tmp := new WeakPtr.Move(other);
      tmp.Swap(this);
      tmp.Destroy();
    }

    /** `lock()`: an empty owner when expired, otherwise a new owner on the
        same block with the count raised by one. */
    method Lock() returns (s: SharedPtr)
      requires Valid()
      modifies cb
      ensures fresh(s) && s.Valid() && Valid()
      ensures old(Expired()) ==> s.cb == null && s.ptr == null
      ensures !old(Expired()) ==> s.cb == cb && s.ptr == ptr
      ensures !old(Expired()) ==>
        cb.Counts() == AfterIncrShared(old(cb.Counts())) && cb.owners == old(cb.owners) + 1
      ensures cb != null ==> cb.observers == old(cb.observers)
    {
      if Expired() {
        s := new SharedPtr.Empty();
      } else {
        s := new SharedPtr.FromWeak(this);
      }
    }
  }

  /** `make_shared<T>(args...)`: one inline block holding the value; its
      count is cleared and then raised by the owning constructor. */
  method MakeShared() returns (s: SharedPtr)
    ensures fresh(s) && s.Valid() && s.cb != null && fresh(s.cb)
    ensures s.cb.kind == Inline && s.ptr == s.cb.data
    ensures s.UseCount() == 1 && s.cb.owners == 1 && s.cb.observers == 0
    ensures s.cb.Counts() == Fresh
  {
    var value := new Obj();
    var block := new ControlBlock(Inline, value);
    block.sharedCount := 0;
    MakeSharedStartsAtOne();
    s := new SharedPtr.Share(block, value);
  }
}

=== FILE: shared_ptr_draft.dfy ===
/** A model of the earlier owning/observing pointer pair of
    shared_ptr/shared_ptr.hpp. Here a block starts at 0/0, `weak_count`
    counts only the observers, and the handles themselves decide when to
    destroy the value and the block. */
module SharedPtrDraft {
  import opened SharedPtrs

  /** The block's counters after one owner lets go: the value is destroyed
      when the owner was the last, and the block too when no observer is
      left. */
  function AfterRelease(c: Counters): Counters
    requires c.shared > 0
  {
    var c1 := c.(shared := c.shared - 1);
    if c1.shared != 0 then c1
    else if c1.weak == 0 then c1.(dataAlive := false, blockAlive := false)
    else c1.(dataAlive := false)
  }

  /** The counters after one observer lets go: the block is freed when
      both counts are zero. */
  function AfterForget(c: Counters): Counters
    requires c.weak > 0
  {
    var c1 := c.(weak := c.weak - 1);
    if c1.shared == 0 && c1.weak == 0 then c1.(blockAlive := false) else c1
  }

  /** The ledger of this draft: `weak_count` is exactly the number of
      observers. */
  ghost predicate DraftLedger(c: Counters, owners: nat, observers: nat) {
    && c.shared == owners
    && c.weak == observers
    && c.dataAlive == (owners > 0)
    && c.blockAlive == (owners > 0 || observers > 0)
  }

  /** A block is allocated at 0/0; the constructor that receives it raises
      the shared count to 1 and so becomes its one owner. */
  lemma FirstOwner()
    ensures DraftLedger(AfterIncrShared(Counters(0, 0, true, true)), 1, 0)
  {
  }

  lemma DraftOwnerJoins(c: Counters, owners: nat, observers: nat)
    requires DraftLedger(c, owners, observers) && owners > 0
    ensures DraftLedger(AfterIncrShared(c), owners + 1, observers)
  {
  }

  /** The destructor and `reset()` keep the ledger; the value goes with the
      last owner and the block with the last reference. */
  lemma DraftOwnerLeaves(c: Counters, owners: nat, observers: nat)
    requires DraftLedger(c, owners, observers) && owners > 0
    ensures DraftLedger(AfterRelease(c), owners - 1, observers)
    ensures AfterRelease(c).dataAlive <==> owners > 1
    ensures AfterRelease(c).blockAlive <==> owners > 1 || observers > 0
  {
  }

  lemma DraftObserverJoins(c: Counters, owners: nat, observers: nat)
    requires DraftLedger(c, owners, observers) && c.blockAlive
    ensures DraftLedger(AfterIncrWeak(c), owners, observers + 1)
  {
  }

  lemma DraftObserverLeaves(c: Counters, owners: nat, observers: nat)
    requires DraftLedger(c, owners, observers) && observers > 0
    ensures DraftLedger(AfterForget(c), owners, observers - 1)
  {
  }

  /** The two drafts' counting rules describe the same lifetimes: for the
      same handles the shared counts are equal, the value and the block live
      equally long, and the earlier draft's weak count is the later one's
      less the owners' implicit hold. */
  lemma CountingRulesAgree(c1: Counters, c2: Counters, owners: nat, observers: nat)
    requires Ledger(c1, owners, observers) && DraftLedger(c2, owners, observers)
    ensures c1.shared == c2.shared
    ensures c1.dataAlive == c2.dataAlive && c1.blockAlive == c2.blockAlive
    ensures c1.weak == c2.weak + (if owners > 0 then 1 else 0)
  {
  }

  /** One handle event under this draft's rules. As in the later draft,
      an event no handle could perform gives `None`; `lock()` on an expired
      block gives an empty owner and changes nothing. */
  function DraftStep(t: Tally, e: Event): (r: Option<Tally>)
    requires DraftLedger(t.c, t.owners, t.observers)
    ensures r.Some? ==> DraftLedger(r.value.c, r.value.owners, r.value.observers)
    ensures r.None? <==> NoActor(t, e)
  {
    match e
    case CopyOwner =>
      if t.owners == 0 then None
      else
        DraftOwnerJoins(t.c, t.owners, t.observers);
        Some(Tally(AfterIncrShared(t.c), t.owners + 1, t.observers))
    case DropOwner =>
      if t.owners == 0 then None
      else
        DraftOwnerLeaves(t.c, t.owners, t.observers);
        Some(Tally(AfterRelease(t.c), t.owners - 1, t.observers))
    case CopyObserver =>
      if t.owners == 0 && t.observers == 0 then None
      else
        DraftObserverJoins(t.c, t.owners, t.observers);
        Some(Tally(AfterIncrWeak(t.c), t.owners, t.observers + 1))
    case DropObserver =>
      if t.observers == 0 then None
      else
        DraftObserverLeaves(t.c, t.owners, t.observers);
        Some(Tally(AfterForget(t.c), t.owners, t.observers - 1))
    case LockObserver =>
      if t.observers == 0 then None
      else if t.c.shared == 0 then Some(t)
      else
        DraftOwnerJoins(t.c, t.owners, t.observers);
        Some(Tally(AfterIncrShared(t.c), t.owners + 1, t.observers))
  }

  /** No handle exists that could perform `e`. */
  predicate NoActor(t: Tally, e: Event) {
    match e
    case CopyOwner => t.owners == 0
    case DropOwner => t.owners == 0
    case CopyObserver => t.owners == 0 && t.observers == 0
    case DropObserver => t.observers == 0
    case LockObserver => t.observers == 0
  }

  function DraftRun(t: Tally, es: seq<Event>): (r: Tally)
    requires DraftLedger(t.c, t.owners, t.observers)
    decreases |es|
  {
    if es == [] then t
    else match DraftStep(t, es[0])
      case None => t
      case Some(t') => DraftRun(t', es[1..])
  }

  /** Started from the same handles, the two drafts go through any sequence
      of handle operations in lockstep: the same owners and observers at
      every point, and lifetimes that agree. */
  lemma {:induction false} DraftsRunInLockstep(t1: Tally, t2: Tally, es: seq<Event>)
    requires Ledger(t1.c, t1.owners, t1.observers) && DraftLedger(t2.c, t2.owners, t2.observers)
    requires t1.owners == t2.owners && t1.observers == t2.observers
    ensures Run(t1, es).owners == DraftRun(t2, es).owners
    ensures Run(t1, es).observers == DraftRun(t2, es).observers
    ensures Run(t1, es).c.dataAlive == DraftRun(t2, es).c.dataAlive
    ensures Run(t1, es).c.blockAlive == DraftRun(t2, es).c.blockAlive
    decreases |es|
  {
    if es != [] {
      match Step(t1, es[0])
      case None =>
      case Some(u1) =>
        match DraftStep(t2, es[0])
        case None =>
        case Some(u2) =>
          DraftsRunInLockstep(u1, u2, es[1..]);
    }
  }

  /** A control block of this draft. */
  class Block {
    var sharedCount: nat
    var weakCount: nat
    var dataAlive: bool
    var blockAlive: bool
    const kind: BlockKind
    /** What `get()` returns: the held pointer or the in-place storage. */
    const data: Obj?

    ghost var owners: nat
    ghost var observers: nat

    function Objs(): set<object> {
      {this} + (if data == null then {} else {data})
    }

    function Counts(): Counters
      reads this
    {
      Counters(sharedCount, weakCount, dataAlive, blockAlive)
    }

    ghost predicate Valid()
      reads this, data
    {
      && DraftLedger(Counts(), owners, observers)
      && (data != null ==> data.alive == dataAlive)
      && (kind == Inline ==> data != null)
    }

    /** `ControlBlockPointer` and `MakeSharedControlBlock` construction:
        both counters at 0. */
    constructor (kind: BlockKind, data: Obj?)
      requires kind == Inline ==> data != null
      ensures this.kind == kind && this.data == data
      ensures Counts() == Counters(0, 0, true, true) && owners == 0 && observers == 0
    {
      this.kind := kind;
      this.data := data;
      sharedCount, weakCount := 0, 0;
      dataAlive, blockAlive := true, true;
      owners, observers := 0, 0;
    }

    /** `destroy_obj()`. */
    method DestroyObj()
      requires dataAlive && (data != null ==> data.alive)
      modifies this, data
      ensures Counts() == old(Counts()).(dataAlive := false)
      ensures data != null ==> !data.alive
      ensures owners == old(owners) && observers == old(observers)
    {
      if data != null {
        data.alive := false;
      }
      dataAlive := false;
    }

    /** `destruct_block()`. */
    method DestructBlock()
      requires blockAlive
      modifies this
      ensures Counts() == old(Counts()).(blockAlive := false)
      ensures owners == old(owners) && observers == old(observers)
    {
      blockAlive := false;
    }

    /** The body shared by the owner's destructor and `reset()`: one owner
        less, the value destroyed at zero, and the block too when no
        observer is left. */
    method Release()
      requires Valid() && owners > 0
      modifies this, data
      ensures Valid() && Counts() == AfterRelease(old(Counts()))
      ensures owners == old(owners) - 1 && observers == old(observers)
    {
      DraftOwnerLeaves(Counts(), owners, observers);
      sharedCount := sharedCount - 1;
      if sharedCount == 0 {
        DestroyObj();
        if weakCount == 0 {
          DestructBlock();
        }
      }
      owners := owners - 1;
    }
  }

  /** `SharedPtr<T>`. */
  class SharedPtr {
    var cb: Block?
    var ptr: Obj?
    ghost var live: bool

    ghost predicate Valid()
      reads this, if cb == null then {} else cb.Objs()
    {
      live && (cb != null ==> cb.Valid() && cb.owners > 0)
    }

    /** `use_count()`: reads the block's shared count, so it needs one. */
    function UseCount(): nat
      requires cb != null
      reads this, cb
    {
      cb.sharedCount
    }

    constructor Empty()
      ensures Valid() && cb == null && ptr == null
    {
      cb, ptr := null, null;
      live := true;
    }

    /** `SharedPtr(Y* ptr, deleter, alloc)`: a new block at 0/0 raised to
        one owner. */
    constructor FromRaw(p: Obj?)
      requires p != null ==> p.alive
      ensures Valid() && ptr == p && fresh(cb)
      ensures cb.kind == Regular && cb.data == p
      ensures UseCount() == 1 && cb.owners == 1 && cb.observers == 0
    {
      ptr := p;
      live := true;
      new;
      cb := new Block(Regular, p);
      FirstOwner();
      cb.sharedCount := cb.sharedCount + 1;
      cb.owners := 1;
    }

    /** The private `SharedPtr(BaseControlBlock*)`: a null block gives a
        null handle whose pointer is left unset; otherwise the pointer is
        the block's `get()` and the shared count rises. Every caller passes
        a block with an owner, or the fresh block of `allocateShared`. */
    constructor FromBlock(block: Block?)
      requires block != null ==> (block.Valid() && block.owners > 0) || New(block)
      modifies block
      ensures Valid() && cb == block
      ensures block != null ==> ptr == block.data
      ensures block != null ==> block.Counts() == AfterIncrShared(old(block.Counts()))
      ensures block != null ==> block.owners == old(block.owners) + 1
      ensures block != null ==> block.observers == old(block.observers)
    {
      cb := block;
      live := true;
      new;
      if cb != null {
        ptr := cb.data;
        if cb.owners > 0 {
          DraftOwnerJoins(cb.Counts(), cb.owners, cb.observers);
        } else {
          FirstOwner();
        }
        cb.sharedCount := cb.sharedCount + 1;
        cb.owners := cb.owners + 1;
      }
    }

    /** `SharedPtr(const SharedPtr&)`: delegates to the block constructor,
        so the copy's pointer is the block's `get()`. */
    constructor Copy(other: SharedPtr)
      requires other.Valid()
      modifies other.cb
      ensures Valid() && cb == other.cb
      ensures cb != null ==> ptr == cb.data
      ensures cb != null ==> cb.Counts() == AfterIncrShared(old(other.cb.Counts()))
      ensures cb != null ==> cb.owners == old(other.cb.owners) + 1
    {
      cb := other.cb;
      live := true;
      new;
      if cb != null {
        ptr := cb.data;
        DraftOwnerJoins(cb.Counts(), cb.owners, cb.observers);
        cb.sharedCount := cb.sharedCount + 1;
        cb.owners := cb.owners + 1;
      }
    }

    /** The converting copy `SharedPtr(const SharedPtr<Y>&)`: copies both
        fields and raises the count without checking for a block. */
    constructor Convert(other: SharedPtr)
      requires other.Valid() && other.cb != null
      modifies other.cb
      ensures Valid() && cb == other.cb && ptr == other.ptr
      ensures cb.Counts() == AfterIncrShared(old(other.cb.Counts()))
      ensures cb.owners == old(other.cb.owners) + 1
    {
      cb, ptr := other.cb, other.ptr;
      live := true;
      new;
      DraftOwnerJoins(cb.Counts(), cb.owners, cb.observers);
      cb.sharedCount := cb.sharedCount + 1;
      cb.owners := cb.owners + 1;
    }

    /** The move constructors: take both fields, null the source's block
        (its pointer field is left as it was). */
    constructor Move(other: SharedPtr)
      requires other.Valid()
      modifies other
      ensures Valid() && other.Valid()
      ensures cb == old(other.cb) && ptr == old(other.ptr)
      ensures other.cb == null && other.ptr == old(other.ptr)
    {
      cb, ptr := other.cb, other.ptr;
      live := true;
      new;
      other.cb := null;
    }

    /** The destructor. */
    method Destroy()
      requires Valid()
      modifies this, if cb == null then {} else cb.Objs()
      ensures !live && cb == old(cb)
      ensures cb != null ==> cb.Valid() && cb.Counts() == AfterRelease(old(cb.Counts()))
      ensures cb != null ==> cb.owners == old(cb.owners) - 1 && cb.observers == old(cb.observers)
    {
      if cb != null {
        cb.Release();
      }
      live := false;
    }

    /** `reset()`: the destructor's work, then both fields nulled. */
    method Reset()
      requires Valid()
      modifies this, if cb == null then {} else cb.Objs()
      ensures Valid() && cb == null
      ensures old(cb) != null ==> ptr == null
      ensures old(cb) == null ==> ptr == old(ptr)
      ensures old(cb) != null ==> old(cb).Valid() && old(cb).Counts() == AfterRelease(old(cb.Counts()))
      ensures old(cb) != null ==> old(cb).owners == old(cb.owners) - 1
    {
      if cb != null {
        cb.Release();
        cb := null;
        ptr := null;
      }
    }

    /** `swap(other)`. */
    method Swap(other: SharedPtr)
      modifies this, other
      ensures cb == old(other.cb) && ptr == old(other.ptr)
      ensures other.cb == old(cb) && other.ptr == old(ptr)
      ensures live == old(live) && other.live == old(other.live)
    {
      cb, other.cb := other.cb, cb;
      ptr, other.ptr := other.ptr, ptr;
    }

    /** `operator=(const SharedPtr&)`: copy into a local, swap, and let the
        local's destructor release the old block. */
    method Assign(other: SharedPtr)
      requires Valid() && other.Valid() && BlocksApart(cb, other.cb)
      modifies this, if cb == null then {} else cb.Objs(), other.cb
      ensures Valid() && cb == old(other.cb)
      ensures cb != null && cb != old(cb) ==>
        cb.Counts() == AfterIncrShared(old(other.cb.Counts())) && cb.owners == old(other.cb.owners) + 1
      ensures old(cb) != null && cb != old(cb) ==>
        old(cb).Counts() == AfterRelease(old(cb.Counts())) && old(cb).owners == old(cb.owners) - 1
      ensures old(cb) != null && cb == old(cb) ==>
        cb.Counts() == old(cb.Counts()) && cb.owners == old(cb.owners)
    {
      var local := new SharedPtr.Copy(other);
      Swap(local);
      local.Destroy();
    }

    /** `operator=(SharedPtr&&)`: move into a local, swap, release the old
        block. Two distinct live handles on one block are two owners. A
        self-move swaps the fields back into place and changes nothing. */
    method MoveAssign(other: SharedPtr)
      requires Valid() && other.Valid() && BlocksApart(cb, other.cb)
      requires other != this && cb != null && cb == other.cb ==> cb.owners >= 2
      modifies this, other, if cb == null then {} else cb.Objs()
      ensures Valid() && other.Valid()
      ensures cb == old(other.cb) && ptr == old(other.ptr)
      ensures other != this ==> other.cb == null && other.ptr == old(other.ptr)
      ensures other != this && old(cb) != null ==>
        old(cb).Counts() == AfterRelease(old(cb.Counts())) && old(cb).owners == old(cb.owners) - 1
      ensures other == this && cb != null ==>
        cb.Counts() == old(cb.Counts()) && cb.owners == old(cb.owners) && cb.observers == old(cb.observers)
    {
      var local := new SharedPtr.Move(other);
      Swap(local);
      local.Destroy();
    }

    /** `reset(Y* ptr)`: `reset()`, then move-assign a new owner of `p`. */
    method ResetTo(p: Obj?)
      requires Valid() && (p != null ==> p.alive)
      requires cb != null && p != null ==> cb.data != p
      modifies this, if cb == null then {} else cb.Objs()
      ensures Valid() && ptr == p && fresh(cb)
      ensures cb.kind == Regular && cb.data == p && UseCount() == 1
      ensures old(cb) != null ==>
        old(cb).Counts() == AfterRelease(old(cb.Counts())) && old(cb).owners == old(cb.owners) - 1
    {
      Reset();
      var owner := new SharedPtr.FromRaw(p);
      MoveAssign(owner);
    }
  }

  /** A block as the allocation functions leave it before handing it over. */
  ghost predicate New(b: Block)
    reads b, b.data
  {
    b.Counts() == Counters(0, 0, true, true) && b.owners == 0 && b.observers == 0
    && b.kind == Inline && b.data != null && b.data.alive
  }

  /** Two blocks do not hold the same value. */
  ghost predicate BlocksApart(a: Block?, b: Block?) {
    a != null && b != null && a != b && a.data != null ==> a.data != b.data
  }

  /** `WeakPtr<T>`: only a block pointer. */
  class WeakPtr {
    var cb: Block?
    ghost var live: bool

    ghost predicate Valid()
      reads this, if cb == null then {} else cb.Objs()
    {
      live && (cb != null ==> cb.Valid() && cb.observers > 0)
    }

    /** `use_count()`: dereferences the block. */
    function UseCount(): nat
      requires cb != null
      reads this, cb
    {
      cb.sharedCount
    }

    /** `expired()` is `use_count() == 0`; under the ledger it holds exactly
        when the value has been destroyed. */
    predicate Expired()
      requires cb != null
      reads this, cb
    {
      UseCount() == 0
    }

    lemma ExpiredIffDestroyed()
      requires Valid() && cb != null
      ensures Expired() <==> !cb.dataAlive
      ensures cb.blockAlive
    {
    }

    constructor Empty()
      ensures Valid() && cb == null
    {
      cb := null;
      live := true;
    }

    /** `WeakPtr(const SharedPtr<Y>&)`: raises `weak_count` of the owner's
        block, which it dereferences unchecked. */
    constructor FromShared(s: SharedPtr)
      requires s.Valid() && s.cb != null
      modifies s.cb
      ensures Valid() && cb == s.cb
      ensures cb.Counts() == AfterIncrWeak(old(s.cb.Counts()))
      ensures cb.observers == old(s.cb.observers) + 1 && cb.owners == old(s.cb.owners)
    {
      cb := s.cb;
      live := true;
      new;
      DraftObserverJoins(cb.Counts(), cb.owners, cb.observers);
      cb.weakCount := cb.weakCount + 1;
      cb.observers := cb.observers + 1;
    }

    /** The copy constructors, with the same unchecked dereference. */
    constructor Copy(other: WeakPtr)
      requires other.Valid() && other.cb != null
      modifies other.cb
      ensures Valid() && cb == other.cb
      ensures cb.Counts() == AfterIncrWeak(old(other.cb.Counts()))
      ensures cb.observers == old(other.cb.observers) + 1 && cb.owners == old(other.cb.owners)
    {
      cb := other.cb;
      live := true;
      new;
      DraftObserverJoins(cb.Counts(), cb.owners, cb.observers);
      cb.weakCount := cb.weakCount + 1;
      cb.observers := cb.observers + 1;
    }

    /** The destructor: one observer less; the block is freed when both
        counts are zero. */
    method Destroy()
      requires Valid()
      modifies this, cb
      ensures !live && cb == old(cb)
      ensures cb != null ==> cb.Valid() && cb.Counts() == AfterForget(old(cb.Counts()))
      ensures cb != null ==> cb.observers == old(cb.observers) - 1 && cb.owners == old(cb.owners)
    {
      if cb != null {
        DraftObserverLeaves(cb.Counts(), cb.owners, cb.observers);
        cb.weakCount := cb.weakCount - 1;
        if cb.sharedCount == 0 && cb.weakCount == 0 {
          cb.DestructBlock();
        }
        cb.observers := cb.observers - 1;
      }
      live := false;
    }

    /** `swap(other)`. */
    method Swap(other: WeakPtr)
      modifies this, other
      ensures cb == old(other.cb) && other.cb == old(cb)
      ensures live == old(live) && other.live == old(other.live)
    {
      cb, other.cb := other.cb, cb;
    }

    /** `lock()`: an empty owner when expired, otherwise a new owner through
        the block constructor. */
    method Lock() returns (s: SharedPtr)
      requires Valid() && cb != null
      modifies cb
      ensures fresh(s) && s.Valid() && Valid()
      ensures old(UseCount()) == 0 ==> s.cb == null && s.ptr == null
      ensures old(UseCount()) > 0 ==> s.cb == cb && s.ptr == cb.data
      ensures old(UseCount()) > 0 ==>
        cb.Counts() == AfterIncrShared(old(cb.Counts())) && cb.owners == old(cb.owners) + 1
      ensures cb.observers == old(cb.observers)
    {
      if Expired() {
        s := new SharedPtr.Empty();
      } else {
        s := new SharedPtr.FromBlock(cb);
      }
    }
  }

  /** `allocateShared` / `makeShared`: an inline block at 0/0 handed to the
      block constructor, so the result has `use_count() == 1`. */
  method MakeShared() returns (s: SharedPtr)
    ensures fresh(s) && s.Valid() && s.cb != null && fresh(s.cb)
    ensures s.cb.kind == Inline && s.ptr == s.cb.data
    ensures s.UseCount() == 1 && s.cb.owners == 1 && s.cb.observers == 0
  {
    var value := new Obj();
    var block := new Block(Inline, value);
    s := new SharedPtr.FromBlock(block);
  }
}

=== FILE: string.dfy ===
/** A model of `my::String` (string/string.cpp with the declarations and the
    inline `operator==` of include/string.hpp): a heap buffer of `capacity`
    characters holding `size` characters followed by a NUL terminator. The
    buffer doubles when an append fills it and halves when a removal leaves
    it a quarter full. Equality and search work on the NUL-terminated text,
    as `strcmp` and `strstr` do. */
module Strings {

  datatype Option<T> = None | Some(value: T)

  /** `size_t` wraps modulo 2^64. */
  const SizeModulus: int := 0x1_0000_0000_0000_0000

  // ----------------------------------------------------------------------
  // C-string reading

  /** The text a C function sees in a buffer: everything before the first
      NUL (the whole sequence when there is none). */
  function CStr(s: seq<char>): (r: seq<char>)
    ensures r <= s
    ensures '\0' !in r
    ensures |r| < |s| ==> s[|r|] == '\0'
  {
    if s == [] || s[0] == '\0' then [] else [s[0]] + CStr(s[1..])
  }

  /** Text that is followed by a terminator reads as itself up to its own
      first NUL, whatever lies after the terminator. */
  lemma {:induction false} CStrStopsAtTerminator(s: seq<char>, t: seq<char>)
    ensures CStr(s + ['\0'] + t) == CStr(s)
    decreases |s|
  {
    if s != [] && s[0] != '\0' {
      assert (s + ['\0'] + t)[1..] == s[1..] + ['\0'] + t;
      CStrStopsAtTerminator(s[1..], t);
    }
  }

  /** Text without a NUL reads as itself. */
  lemma {:induction false} CStrOfNulFree(s: seq<char>)
    requires '\0' !in s
    ensures CStr(s) == s
    decreases |s|
  {
    if s != [] {
      CStrOfNulFree(s[1..]);
    }
  }

  /** `strlen`. */
  function StrLen(s: seq<char>): (n: nat)
    ensures n <= |s| && '\0' !in s[..n]
    ensures n < |s| ==> s[n] == '\0'
  {
    |CStr(s)|
  }

  /** `n` occurs in `h` at position `i`. */
  predicate MatchAt(h: seq<char>, n: seq<char>, i: nat) {
    i + |n| <= |h| && h[i..i + |n|] == n
  }

  /** The position of the first occurrence of `n` in `h`, as `strstr`
      finds it. */
  function IndexOf(h: seq<char>, n: seq<char>): (r: Option<nat>)
    ensures r.Some? ==> MatchAt(h, n, r.value)
    ensures r.Some? ==> forall j: nat :: j < r.value ==> !MatchAt(h, n, j)
    ensures r.None? ==> forall j: nat :: !MatchAt(h, n, j)
    decreases |h|
  {
    if |n| <= |h| && h[..|n|] == n then Some(0)
    else if h == [] then None
    else
      assert !MatchAt(h, n, 0);
      ShiftMatch(h, n);
      match IndexOf(h[1..], n)
      case None => None
      case Some(i) => Some(i + 1)
  }

  /** Dropping the first character shifts every later occurrence down by
      one. */
  lemma ShiftMatch(h: seq<char>, n: seq<char>)
    requires h != []
    ensures forall j: nat :: 0 < j ==> (MatchAt(h, n, j) <==> MatchAt(h[1..], n, j - 1))
  {
    forall j: nat | 0 < j
      ensures MatchAt(h, n, j) <==> MatchAt(h[1..], n, j - 1)
    {
      if j + |n| <= |h| {
        assert h[1..][j - 1..j - 1 + |n|] == h[j..j + |n|];
      }
    }
  }

  // ----------------------------------------------------------------------
  // The string

  class String {
    var capacity: nat
    var size: nat
    var buffer: array<char>

    /** The buffer is `capacity` long, the text fits strictly inside it, and
        a terminator follows the text. */
    ghost predicate Valid()
      reads this, buffer
    {
      buffer.Length == capacity && size < capacity && buffer[size] == '\0'
    }

    /** The characters of the string. */
    function Contents(): seq<char>
      requires Valid()
      reads this, buffer
    {
      buffer[..size]
    }

    /** What a C function reading the buffer sees is the text up to its
        first NUL. */
    lemma BufferReadsAsContents()
      requires Valid()
      ensures CStr(buffer[..]) == CStr(Contents())
    {
      assert buffer[..] == Contents() + ['\0'] + buffer[size + 1..];
      CStrStopsAtTerminator(Contents(), buffer[size + 1..]);
    }

    /** `String()`: empty, capacity 1, just the terminator. */
    constructor ()
      ensures Valid() && Contents() == [] && capacity == 1 && fresh(buffer)
    {
      capacity := 1;
      size := 0;
      new;
      buffer := new char[1];
      buffer[0] := '\0';
    }

    /** `String(size, chr)`: `size` copies of `chr`, capacity `size + 1`. */
    constructor Fill(n: nat, c: char)
      ensures Valid() && capacity == n + 1 && fresh(buffer)
      ensures |Contents()| == n && forall i :: 0 <= i < n ==> Contents()[i] == c
    {
      capacity := n + 1;
      size := n;
      new;
      buffer := new char[n + 1](i => if i < n then c else '\0');
    }

    /** `String(const char str[])`: the C string `str` (read up to its first
        NUL), copied with its terminator; capacity `strlen(str) + 1`. */
    constructor FromCStr(str: seq<char>)
      requires '\0' in str
      ensures Valid() && Contents() == CStr(str) && capacity == StrLen(str) + 1 && fresh(buffer)
    {
      var n := StrLen(str);
      capacity := n + 1;
      size := n;
      new;
      buffer := new char[n + 1];
      forall i | 0 <= i < n + 1 {
        buffer[i] := str[i];
      }
      assert buffer[..n] == CStr(str);
    }

    /** The copy constructor: `String(other.size_, '\0')`, then the text is
        copied over. */
    constructor Copy(other: String)
      requires other.Valid()
      ensures Valid() && Contents() == other.Contents() && capacity == other.size + 1 && fresh(buffer)
    {
      capacity := other.size + 1;
      size := other.size;
      new;
      buffer := new char[other.size + 1](i => '\0');
      forall i | 0 <= i < other.size {
        buffer[i] := other.buffer[i];
      }
      assert buffer[..size] == other.Contents();
    }

    /** `length()`. */
    function Length(): (n: nat)
      requires Valid()
      reads this, buffer
      ensures n == |Contents()|
    {
      size
    }

    /** `empty()`. */
    predicate Empty()
      requires Valid()
      reads this, buffer
      ensures Empty() <==> Contents() == []
    {
      size == 0
    }

    /** Const `operator[]`: fails (a bare `throw;`) past the end. */
    function At(index: nat): (r: Option<char>)
      requires Valid()
      reads this, buffer
      ensures r.Some? <==> index < |Contents()|
      ensures r.Some? ==> r.value == Contents()[index]
    {
      if index >= size then None else Some(buffer[index])
    }

    /** `front()`: fails on an empty string. */
    function Front(): (r: Option<char>)
      requires Valid()
      reads this, buffer
      ensures r.None? <==> Contents() == []
      ensures r.Some? ==> r.value == Contents()[0]
    {
      if size == 0 then None else Some(buffer[0])
    }

    /** `back()`: fails on an empty string. */
    function Back(): (r: Option<char>)
      requires Valid()
      reads this, buffer
      ensures r.None? <==> Contents() == []
      ensures r.Some? ==> r.value == Contents()[|Contents()| - 1]
    {
      if size == 0 then None else Some(buffer[size - 1])
    }

    /** `find(substr)`: `strstr` on the two terminated buffers; `length()`
        when there is no occurrence. */
    function Find(sub: String): (r: nat)
      requires Valid() && sub.Valid()
      reads this, buffer, sub, sub.buffer
      ensures r <= |Contents()|
      ensures r < |Contents()| ==> MatchAt(CStr(Contents()), CStr(sub.Contents()), r)
      ensures forall j: nat :: j < r ==> !MatchAt(CStr(Contents()), CStr(sub.Contents()), j)
    {
      BufferReadsAsContents();
      sub.BufferReadsAsContents();
      match IndexOf(CStr(buffer[..]), CStr(sub.buffer[..]))
      case None => size
      case Some(i) => i
    }

    /** `rfind(substr)`: `find`, then (on a hit) the index of the hit's last
        character, `find + substr.length() - 1` computed in `size_t`. */
    function RFind(sub: String): (r: nat)
      requires Valid() && sub.Valid()
      reads this, buffer, sub, sub.buffer
      ensures Find(sub) == |Contents()| ==> r == |Contents()|
      ensures Find(sub) < |Contents()| && 0 < sub.size && Find(sub) + sub.size <= SizeModulus ==>
        r == Find(sub) + sub.size - 1
      ensures Find(sub) == 0 < |Contents()| && sub.size == 0 ==> r == SizeModulus - 1
    {
      var it := Find(sub);
      if it == size then it
      else (it + sub.size - 1) % SizeModulus
    }

    /** `increase_buff()`: run when the text fills the buffer; doubles the
        capacity, copies the text and terminates it. */
    method IncreaseBuff()
      requires buffer.Length == capacity == size > 0
      modifies this
      ensures Valid() && fresh(buffer) && capacity == 2 * old(capacity)
      ensures Contents() == old(buffer[..size])
    {
      capacity := capacity * 2;
      var tmp := new char[capacity];
      forall i | 0 <= i < size {
        tmp[i] := buffer[i];
      }
      buffer := tmp;
      buffer[size] := '\0';
    }

    /** `decrease_buff()`: halves the capacity, copies the text and
        terminates it. Run when `size * 4 == capacity`, which leaves room. */
    method DecreaseBuff()
      requires size <= buffer.Length == capacity && size * 4 == capacity && size > 0
      modifies this
      ensures Valid() && fresh(buffer) && capacity == old(capacity) / 2
      ensures Contents() == old(buffer[..size])
    {
      capacity := capacity / 2;
      var tmp := new char[capacity];
      forall i | 0 <= i < size {
        tmp[i] := buffer[i];
      }
      buffer := tmp;
      buffer[size] := '\0';
    }

    /** `push_back(chr)`, with the terminator written after the new
        character also when no reallocation happens (see `PushBackAsWritten`
        for the version that omits it). The capacity doubles exactly when the
        text would otherwise fill the buffer. */
    method PushBack(c: char)
      requires Valid()
      modifies this, buffer
      ensures Valid() && Contents() == old(Contents()) + [c]
      ensures buffer == old(buffer) || fresh(buffer)
      ensures capacity == if old(size) + 1 == old(capacity) then 2 * old(capacity) else old(capacity)
    {
      buffer[size] := c;
      size := size + 1;
      if capacity == size {
        IncreaseBuff();
      } else {
        buffer[size] := '\0';
      }
    }

    /** `pop_back()`: fails on an empty string; otherwise drops the last
        character, halving the capacity when the string is down to a
        quarter of it. */
    method PopBack() returns (ok: bool)
      requires Valid()
      modifies this, buffer
      ensures Valid()
      ensures buffer == old(buffer) || fresh(buffer)
      ensures ok <==> old(size) > 0
      ensures !ok ==> Contents() == old(Contents()) && capacity == old(capacity)
      ensures ok ==> Contents() == old(Contents())[..old(size) - 1]
      ensures ok ==> capacity == if (old(size) - 1) * 4 == old(capacity) then old(capacity) / 2 else old(capacity)
    {
      if size == 0 {
        return false;
      }
      size := size - 1;
      if size * 4 == capacity {
        DecreaseBuff();
      }
      buffer[size] := '\0';
      return true;
    }

    /** `clear()`: a new one-character buffer holding the terminator. */
    method Clear()
      modifies this
      ensures Valid() && Contents() == [] && capacity == 1 && fresh(buffer)
    {
      buffer := new char[1];
      buffer[0] := '\0';
      size := 0;
      capacity := 1;
    }
  }

  /** `operator==`: equal lengths, and `strcmp` of the terminated buffers
      finds no difference. */
  function Equal(l: String, r: String): (b: bool)
    requires l.Valid() && r.Valid()
    reads l, l.buffer, r, r.buffer
    ensures b <==> |l.Contents()| == |r.Contents()| && CStr(l.Contents()) == CStr(r.Contents())
  {
    l.BufferReadsAsContents();
    r.BufferReadsAsContents();
    l.size == r.size && CStr(l.buffer[..]) == CStr(r.buffer[..])
  }

  /** Equality is an equivalence. */
  lemma EqualIsEquivalence(a: String, b: String, c: String)
    requires a.Valid() && b.Valid() && c.Valid()
    ensures Equal(a, a)
    ensures Equal(a, b) <==> Equal(b, a)
    ensures Equal(a, b) && Equal(b, c) ==> Equal(a, c)
  {
  }

  /** On text without NUL characters, equality is equality of the texts;
      with an embedded NUL, `strcmp` stops there. */
  lemma EqualOnNulFreeText(a: String, b: String)
    requires a.Valid() && b.Valid()
    requires '\0' !in a.Contents() && '\0' !in b.Contents()
    ensures Equal(a, b) <==> a.Contents() == b.Contents()
  {
    CStrOfNulFree(a.Contents());
    CStrOfNulFree(b.Contents());
  }

  /** Strings with the same text are equal; in particular a copy equals
      its source. */
  lemma SameTextIsEqual(a: String, b: String)
    requires a.Valid() && b.Valid() && a.Contents() == b.Contents()
    ensures Equal(a, b)
  {
  }

  /** `push_back(c)` followed by `pop_back()` gives back the text: the
      pop finds a character to remove, and it is the one just appended. */
  method PushThenPop(s: String, c: char) returns (ok: bool)
    requires s.Valid()
    modifies s, s.buffer
    ensures ok && s.Valid() && s.Contents() == old(s.Contents())
  {
    s.PushBack(c);
    ok := s.PopBack();
  }

  /** `find` on text without NUL characters returns the first occurrence,
      and `length()` exactly when there is none. */
  lemma FindOnNulFreeText(s: String, sub: String)
    requires s.Valid() && sub.Valid()
    requires '\0' !in s.Contents() && '\0' !in sub.Contents()
    ensures s.Find(sub) < |s.Contents()| ==> MatchAt(s.Contents(), sub.Contents(), s.Find(sub))
    ensures s.Find(sub) == |s.Contents()| ==>
      (forall j: nat :: j < |s.Contents()| ==> !MatchAt(s.Contents(), sub.Contents(), j))
  {
    CStrOfNulFree(s.Contents());
    CStrOfNulFree(sub.Contents());
  }

  /** The text of a C string literal is the literal. */
  lemma LiteralText(t: seq<char>)
    requires '\0' !in t
    ensures CStr(t + ['\0']) == t
  {
    CStrStopsAtTerminator(t, []);
    CStrOfNulFree(t);
  }

  /** The start of the second case of test/test_case001.cpp: `"hello"`
      popped five times is empty. */
  method PoppedHello() returns (str: String)
    ensures fresh(str) && str.Valid() && str.Contents() == []
  {
    LiteralText("hello");
    str := new String.FromCStr("hello\0");
    assert str.size == 5;
    var ok := str.PopBack();
    assert str.size == 4;
    ok := str.PopBack();
    assert str.size == 3;
    ok := str.PopBack();
    assert str.size == 2;
    ok := str.PopBack();
    assert str.size == 1;
    ok := str.PopBack();
  }

  /** The second case of test/test_case001.cpp: `"hello"` popped down to
      nothing equals a copy of itself taken before `clear()`. */
  method PopAllThenClear() returns (same: bool)
    ensures same
  {
    var str := PoppedHello();
    var copy := new String.Copy(str);
    str.Clear();
    same := Equal(str, copy);
  }

  /** From the first case of test/test_case001.cpp: `"123"` with its last
      character popped equals `"12"`. */
  method PopOneOfThree() returns (same: bool)
    ensures same
  {
    LiteralText("123");
    LiteralText("12");
    var cum := new String.FromCStr("123\0");
    var ok := cum.PopBack();
    var lit := new String.FromCStr("12\0");
    assert cum.Contents() == lit.Contents();
    same := Equal(cum, lit);
  }

  // ----------------------------------------------------------------------
  // `push_back` as written

  /** A string's memory as plain values: the buffer's cells and the size. */
  datatype Memory = Memory(cells: seq<char>, size: nat)

  /** `push_back(chr)` exactly as written: the character overwrites the
      terminator, and a terminator is written only by `increase_buff`.
      `alloc` is the content of the buffer `increase_buff` allocates (its
      cells past the copied text are whatever the allocator left). */
  function PushBackAsWritten(m: Memory, c: char, alloc: seq<char>): (r: Memory)
    requires m.size < |m.cells| && |alloc| == 2 * |m.cells|
    ensures r.size == m.size + 1 <= |r.cells|
    ensures r.cells[..r.size] == m.cells[..m.size] + [c]
  {
    var cells := m.cells[m.size := c];
    var size := m.size + 1;
    if size == |cells| then
      Memory(cells[..size] + ['\0'] + alloc[size + 1..], size)
    else
      Memory(cells, size)
  }

  /** From `String()`, appending `a`, `b`, `c` as written leaves the fourth
      cell as the allocator left it; when that cell is not NUL, the buffer
      no longer reads as `"abc"`, so `==` against `String("abc")` fails
      although the texts agree. */
  lemma PushBackAsWrittenLosesTerminator()
    ensures var m := PushBackAsWritten(PushBackAsWritten(PushBackAsWritten(
        Memory("\0", 0), 'a', "xx"), 'b', "xxxx"), 'c', "xxxxxxxx");
      && m.cells[..m.size] == "abc"
      && m.cells == "abcx"
      && CStr(m.cells) != CStr("abc\0")
  {
    ThreeAppendsAsWritten();
    CStrOfNulFree("abcx");
    assert |CStr("abc\0")| < 4 by {
      assert "abc\0"[3] == '\0';
    }
  }

  /** The memory after the three appends, step by step. */
  lemma ThreeAppendsAsWritten()
    ensures PushBackAsWritten(PushBackAsWritten(PushBackAsWritten(
        Memory("\0", 0), 'a', "xx"), 'b', "xxxx"), 'c', "xxxxxxxx") == Memory("abcx", 3)
  {
    var m1 := PushBackAsWritten(Memory("\0", 0), 'a', "xx");
    assert "a\0"[..1] + ['\0'] + "xx"[2..] == "a\0";
    assert m1 == Memory("a\0", 1);
    var m2 := PushBackAsWritten(m1, 'b', "xxxx");
    assert "ab"[..2] + ['\0'] + "xxxx"[3..] == "ab\0x";
    assert m2 == Memory("ab\0x", 2);
    assert "ab\0x"[2 := 'c'] == "abcx";
  }
}

=== FILE: string_draft.dfy ===
/** A model of the earlier `my::String` of src/string.cpp: no terminator,
    capacity equal to the length, and a byte-by-byte equality loop. Its
    default constructor sets length 1 and no buffer at all. */
module DraftStrings {
  import Strings

  /** The outcome of reading one character. */
  datatype Read = Char(c: char) | OutOfRange | NullRead

  class String {
    var capacity: nat
    var size: nat
    var buffer: array?<char>

    /** Either the default state (length and capacity 1, no buffer) or a
        buffer that holds exactly the text. */
    ghost predicate Valid()
      reads this
    {
      || (buffer == null && size == 1 && capacity == 1)
      || (buffer != null && buffer.Length == capacity == size)
    }

    /** The text, when there is a buffer to hold it. */
    function Contents(): seq<char>
      requires Valid() && buffer != null
      reads this, buffer
    {
      buffer[..]
    }

    /** `String()`: capacity 1, length 1, null buffer. */
    constructor ()
      ensures Valid() && buffer == null && size == 1 && capacity == 1
    {
      capacity, size := 1, 1;
      buffer := null;
    }

    /** The default constructor as evidently intended (string/string.cpp
        gives it a buffer): no characters, and a buffer, so that copying
        and comparing never read through a null pointer. */
    constructor Empty()
      ensures Valid() && buffer != null && fresh(buffer)
      ensures size == capacity == 0 && Contents() == []
    {
      capacity, size := 0, 0;
      new;
      buffer := new char[0];
    }

    /** `String(size, chr)`: `size` bytes of `chr`; capacity equals length. */
    constructor Fill(n: nat, c: char)
      ensures Valid() && buffer != null && fresh(buffer) && capacity == n
      ensures Contents() == seq(n, _ => c)
    {
      capacity, size := n, n;
      new;
      buffer := new char[n](_ => c);
    }

    /** `String(const char str[])`: the bytes before the first NUL, without
        a terminator. */
    constructor FromCStr(str: seq<char>)
      requires '\0' in str
      ensures Valid() && buffer != null && fresh(buffer)
      ensures Contents() == Strings.CStr(str) && capacity == size == Strings.StrLen(str)
    {
      var n := Strings.StrLen(str);
      capacity, size := n, n;
      new;
      buffer := new char[n];
      forall i | 0 <= i < n {
        buffer[i] := str[i];
      }
    }

    /** The copy constructor: `String(str.size_, '\0')` and a copy of the
        bytes. The source must hold a buffer (copying the default string
        would read through a null pointer). */
    constructor Copy(other: String)
      requires other.Valid() && other.buffer != null
      ensures Valid() && buffer != null && fresh(buffer)
      ensures Contents() == other.Contents() && capacity == size == other.size
    {
      capacity, size := other.size, other.size;
      new;
      buffer := new char[other.size](_ => '\0');
      forall i | 0 <= i < other.size {
        buffer[i] := other.buffer[i];
      }
    }

    /** Const `operator[]` (the non-const one delegates to it): fails past
        the end; on the default string index 0 passes the check and reads
        through the null buffer. */
    function At(index: nat): (r: Read)
      requires Valid()
      reads this, buffer
      ensures r.OutOfRange? <==> index >= size
      ensures r.NullRead? <==> index < size && buffer == null
      ensures r.Char? ==> buffer != null && r.c == Contents()[index]
    {
      if index >= size then OutOfRange
      else if buffer == null then NullRead
      else Char(buffer[index])
    }
  }

  /** `operator==`: different lengths are unequal; otherwise the loop
      compares byte by byte up to the length. Both strings must hold
      buffers when their common length is not zero. */
  method Equal(l: String, r: String) returns (b: bool)
    requires l.Valid() && r.Valid()
    requires l.size == r.size && l.size > 0 ==> l.buffer != null && r.buffer != null
    ensures l.buffer != null && r.buffer != null ==> (b <==> l.Contents() == r.Contents())
    ensures l.size != r.size ==> !b
    ensures l.size == r.size == 0 ==> b
  {
    if l.size != r.size {
      return false;
    }
    var i := 0;
    while i < l.size
      invariant 0 <= i <= l.size
      invariant l.size > 0 ==> l.buffer[..i] == r.buffer[..i]
    {
      if l.buffer[i] != r.buffer[i] {
        return false;
      }
      i := i + 1;
    }
    if l.size > 0 {
      assert l.buffer[..] == l.buffer[..i];
      assert r.buffer[..] == r.buffer[..i];
    }
    return true;
  }

  /** The default string claims one character and has none to show. */
  lemma DefaultReadsNull(s: String)
    requires s.Valid() && s.buffer == null
    ensures s.size == 1 && s.At(0) == NullRead
  {
  }
}
